=== FILE: README.md ===
# consolet drawing engine in Dafny

consolet is a terminal pixel-art editor. This project models its core in
Dafny and proves properties of that model. The core is the engine behind the
`App` editor state:

- a stack of layers, each a `height`×`width` grid of pixels (an RGB triple and an alpha in [0, 1]);
- a display canvas that is always the source-over composite of the visible layers;
- brush and eraser strokes with square or round pens, four symmetry mirrors and per-stroke protection;
- the per-pixel effects Paint, Lighter, Darker and Blur;
- a breadth-first 4-connected flood fill;
- bounded undo and redo stacks of whole-grid snapshots;
- the layer operations;
- palette snapping, colour translation and hex parsing.

Around that core the project also models:

- the colour primitives `to_rgb` and `blend_colors`;
- the built-in palette generators;
- the `COMMANDS` table with its setters and `merge_down`;
- the settings panel's clamped edits;
- the default and overlaid key bindings;
- the drawing-script interpreter;
- the file browser's history, listing, selection, focus and naming.

Layer order follows the code. `sync_canvas_from_layers` composites the stack
from the last index to the first, so layer 0 ends up on top of the display
and a layer appended by `add_new_layer` lands at the bottom. `merge_down`
composites the active layer onto the layer at index − 1, which is the layer
just above it on screen (main.rs:719-750).

The editor is a class, `Editor.App`, whose fields the methods update in
place. Its invariant `Valid()` holds the following:

- the stack is non-empty and every layer has the canvas size, valid alphas and an opacity in [0, 1];
- the active index lies in the stack;
- the display canvas equals `Pixels.Composite(layers)`;
- the two history stacks hold at most 100 snapshots together.

Brush, eraser, fill and script runs are computed on values (a `Stroke`
holds the active grid and the set of cells drawn in the stroke), and the
result is written back to the editor in one step. Pure logic is written as
datatypes, functions and lemmas. The loops of the source are methods with
loop invariants, each proved against a specification function.

Outside inputs are parameters:

- the file system seen by the browser is a map from directories to their children;
- the timestamp of a proposed file name is a string;
- the parsed script file and the parsed key-binding file are decoded values;
- the square-root colour distances and `rgb_to_hue` are functions supplied with the editor state.

## Model

| member | source | states |
|---|---|---|
| `Colors.BlendColors` | src/utils.rs:29-36 | The result is always an `Rgb` colour, each channel the rounded interpolation of the two inputs' channels |
| `Colors.BlendEndpoints` | src/utils.rs:29-36 | Factor 0 gives the first colour's triple and factor 1 the second's |
| `Colors.BlendBetween` | src/utils.rs:32-34 | For a factor in [0,1] every output channel lies between the two input channels |
| `Colors.BlendChannelBetween` | src/utils.rs:32-34 | One rounded, saturated channel of a blend lies between its two input channels |
| `Colors.BlendSelf` | src/utils.rs:29-36 | Blending a colour with itself gives its own triple whatever the factor |
| `Colors.RoundBetween` | src/utils.rs:32-34 | Rounding half away from zero keeps a value that lies between two bytes between them |
| `Colors.InterpolationBetween` | src/utils.rs:32-34 | `a·(1−f) + b·f` lies between `a` and `b` for f in [0,1] |
| `Colors.ToRgbCases` | src/utils.rs:38-49 | An `Rgb` colour yields its stored triple; `Reset` and `Indexed` yield black |
| `ColorFormats.TranslateColor` | src/main.rs:361-384 | True-colour mode keeps the colour; ANSI-256 mode always gives an index in 16..255: a grey goes to 16, 231 or the ramp from 232, and any other colour to the cube, below 232 |
| `ColorFormats.TranslateCubeDecodes` | src/main.rs:376-383 | A non-grey colour's index, less 16, spells the three 6-level channel coordinates in base 6 |
| `ColorFormats.Base6Digits` | src/main.rs:376-383 | Three base-6 digits are recovered from the number they form |
| `ColorFormats.TranslateGreyMonotone` | src/main.rs:366-375 | Along the grey ramp a lighter grey never gets a smaller index |
| `ColorFormats.HexValue` | src/main.rs:415-417 | A digit string has a value exactly when every character is a hex digit, and the value lies in [0, 16^length) |
| `ColorFormats.ParseU8Hex` | src/main.rs:415-417 | A channel field is accepted exactly when, after at most one leading `+`, it is non-empty, all hex digits, and worth less than 256; the result is that value |
| `ColorFormats.ParseHexColor` | src/main.rs:412-419 | After one `#` is stripped, the text must be six ASCII bytes; the result is the `Rgb` colour of the three two-digit fields |
| `ColorFormats.FormatHex` | src/main.rs:412-419 | Writes a triple as `#rrggbb` in seven characters |
| `ColorFormats.ParseFormatRoundTrip` | src/main.rs:412-419 | Parsing the `#rrggbb` spelling of a triple, with or without the `#`, gives back that colour |
| `ColorFormats.ParseHexRejectsLength` | src/main.rs:414-415 | Text whose length after stripping `#` is not six is rejected |
| `ColorFormats.HueDistance` | src/main.rs:803-806 | The distance between hues in [0,360) lies in [0,180] |
| `ColorFormats.HueDistanceSymmetric` | src/main.rs:803-806 | The distance is symmetric, and a hue is at distance 0 from itself |
| `Palette.Entries` | src/palette.rs:55-167 | One colour entry per listed colour, in order |
| `Palette.DefaultToolPalette` | src/palette.rs:16-22 | Exactly Lighter, Darker, Blur, all tool entries, in that order |
| `Palette.DefaultColorPalette` | src/palette.rs:55-167 | The literal starting palette has 107 entries |
| `Palette.AnsiPalette` | src/palette.rs:169-188 | Sixteen entries, all named terminal colours |
| `Palette.AtariPalette` | src/palette.rs:245-383 | The literal Atari list has 120 entries |
| `Palette.Cube` | src/palette.rs:193-213 | A cube over n levels has n³ entries |
| `Palette.PushCube` | src/palette.rs:199-207 | The red/green/blue loop appends exactly the r-major cube to what was there |
| `Palette.PushPlane` | src/palette.rs:200-206 | The green loop appends exactly the plane of one red level |
| `Palette.PushRow` | src/palette.rs:201-205 | The blue loop appends exactly the row of one red and green level |
| `Palette.CubeAt` | src/palette.rs:199-207 | Entry r·n² + g·n + b of the cube is the colour (levels[r], levels[g], levels[b]) |
| `Palette.PlaneEntry` | src/palette.rs:199-207 | Entry k of a red plane sits at r·n² + k of the cube |
| `Palette.PlanesChannels` | src/palette.rs:199-207 | Every entry of the cube's planes is an `Rgb` colour whose channels are all levels |
| `Palette.CubeChannels` | src/palette.rs:386-398 | Every entry of a cube is an `Rgb` colour with each channel one of the levels |
| `Palette.GreyRamp` | src/palette.rs:208-212 | The xterm grey ramp has 24 entries |
| `Palette.Xterm256Palette` | src/palette.rs:193-214 | The generator produces exactly the ANSI colours, the 6-level cube and the grey ramp |
| `Palette.Xterm256Layout` | src/palette.rs:193-213 | The xterm palette has 256 entries: the 16 ANSI colours first, then entry 16 + 36r + 6g + b is the cube colour over {0,95,135,175,215,255} |
| `Palette.Xterm256Greys` | src/palette.rs:208-212 | The last 24 entries are the greys 8 + 10·i |
| `Palette.CubeBetween` | src/palette.rs:193-213 | In a prefix + cube + suffix layout the prefix, each cube colour and each suffix entry sit at their computed positions |
| `Palette.WebsafePalette` | src/palette.rs:386-398 | 216 entries: the cube over {0,51,102,153,204,255} |
| `Palette.WebsafeExtendedPalette` | src/palette.rs:401-415 | 1331 entries: the cube over its 11 levels |
| `Palette.HsvToRgb` | src/palette.rs:27-51 | In each 60° sector one named channel is the value `v` and another the floor `v·(1−s)` (red and green below 0° and from 300°); with zero saturation all three channels are the same grey |
| `Palette.HsvShares` | src/palette.rs:28-44 | Before the cast, in each sector one named intensity is `v` and another `v·(1−s)`; with zero saturation all three are `v` |
| `Palette.SectorBetween` | src/palette.rs:32-44 | Every sector component lies in [0, c] when the middle share does |
| `Palette.TruncRemRange` | src/palette.rs:29 | The float `%` of a non-negative dividend by a positive modulus lies in [0, modulus) |
| `Palette.HueFoldUnit` | src/palette.rs:29 | From 0° on, the middle channel's fraction of the chroma lies in [0,1] |
| `Palette.ScaledBetween` | src/palette.rs:46-50 | The saturating `as u8` cast of scaled intensities keeps their order |
| `Palette.SharesBetween` | src/palette.rs:28-44 | From 0° on with saturation in [0,1], every pre-cast intensity lies in [v·(1−s), v] |
| `Palette.HsvChannelsBetween` | src/palette.rs:27-51 | From 0° on with saturation in [0,1], every output channel lies between the floor's byte and the value's byte |
| `Palette.SpectrumPalette` | src/palette.rs:216-243 | The generator produces exactly the greys followed by 32 hues × 4 saturations × 4 values |
| `Palette.SpectrumGreyLoop` | src/palette.rs:219-222 | The grey loop produces the 32 greys i·8 |
| `Palette.SpectrumHueLoop` | src/palette.rs:223-241 | The hue loop appends 32 hue blocks |
| `Palette.PushHueBlock` | src/palette.rs:225-240 | The saturation loop appends the four saturation runs of one hue |
| `Palette.PushValueRun` | src/palette.rs:227-239 | The value loop appends the four value steps of one hue and saturation |
| `Palette.SpectrumLayout` | src/palette.rs:216-243 | The spectrum has 544 entries and its first 32 are the greys i·8 |
| `Palette.TonedPalette` | src/palette.rs:420-455 | 112 entries: eight values for each of the 14 hue/saturation pairs |
| `Palette.PushValueRamp` | src/palette.rs:443-452 | The inner loop appends the eight values of one pair |
| `Palette.TonesSpec` | src/palette.rs:457-516 | Each tone ramp has 50 entries |
| `Palette.TonesPalette` | src/palette.rs:457-516 | The loop shared by the six `*_tones` generators produces exactly the 50-step ramp |
| `Palette.BuiltInPalettes` | src/palette.rs:521-541 | The table binds "default" to the default palette |
| `Palette.BuiltInPalettesCount` | src/palette.rs:521-541 | The table maps exactly 14 distinct names |
| `Pixels.Transparent` | src/main.rs:78-85 | The default pixel is black and fully transparent |
| `Pixels.BlankGrid` | src/main.rs:720 | A blank grid has the requested shape and holds the default pixel everywhere |
| `Pixels.OverAlphaOf` | src/main.rs:738 | The composited alpha `s + d·(1−s)` stays in [0,1] and is at least both the source and the destination alpha |
| `Pixels.OverAlpha` | src/main.rs:738 | Source-over of two unit alphas is a unit alpha that dominates both |
| `Pixels.UnitProduct` | src/main.rs:731 | Alpha times opacity stays in [0,1] and is at most each factor |
| `Pixels.SourceOver` | src/main.rs:728-747 | Compositing a colour at alpha `s` over a pixel keeps the alpha in [0,1] |
| `Pixels.SourceOverAlpha` | src/main.rs:728-747 | Source-over never lowers alpha, and over a transparent pixel it writes the source colour and alpha outright, with no blend |
| `Pixels.OpaqueSourceReplaces` | src/main.rs:728-747 | A fully opaque source replaces the destination whatever it was |
| `Pixels.ZeroSourceKeeps` | src/main.rs:728-747 | A zero source alpha over a non-transparent pixel leaves it unchanged |
| `Pixels.LayerOver` | src/main.rs:722-748 | A hidden layer, or an alpha-0 layer pixel, leaves the cell unchanged; otherwise the alpha grows and stays in [0,1] |
| `Pixels.StackFrom` | src/main.rs:719-750 | Compositing the layers from index k downwards keeps the alpha in [0,1] |
| `Pixels.StackAlphaGrows` | src/main.rs:719-750 | Each further layer composited on top never lowers a cell's alpha |
| `Pixels.Composite` | src/main.rs:719-750 | The display has the canvas shape and valid alphas, and each cell is the stack's composite at that cell |
| `Pixels.Without` | src/main.rs:685-696 | Removing layer i keeps the layers before it and shifts the later ones down by one |
| `Pixels.WithoutOk` | src/main.rs:685-696 | Removing a layer keeps the stack well formed |
| `Pixels.WithoutAbove` | src/main.rs:719-750 | Above the removed layer, the two stacks composite the same once they agree just past it |
| `Pixels.WithoutBelow` | src/main.rs:719-750 | Below the removed layer, the shortened stack composites as the original shifted by one |
| `Pixels.SilentLayerIgnored` | src/main.rs:722-730 | A hidden layer, or one transparent at a cell, can be dropped without changing the composite there |
| `Pixels.NothingVisibleIsTransparent` | src/main.rs:720-730 | With every layer hidden or transparent at a cell, the composite there is the default pixel |
| `Pixels.TopOpaqueWins` | src/main.rs:721 | An opaque visible pixel of layer 0 at opacity 1 is what the display shows: layer 0 is on top |
| `Pixels.SameCells` | src/main.rs:719-750 | Two canvas-shaped grids with the same cells are equal |
| `Pixels.ScaledUnit` | src/main.rs:731 | An alpha scaled by an opacity stays in [0,1] |
| `Brush.MirrorCell` | src/main.rs:1324-1359 | The mirror of a cell is returned only when it lies on the canvas |
| `Brush.MirrorInvolution` | src/main.rs:1324-1359 | Every symmetry map is its own inverse: mirroring a mirror gives back the cell |
| `Brush.RoundPenThreeIsPlus` | src/main.rs:1303-1323 | A size-3 round pen draws exactly the centre and its four orthogonal neighbours |
| `Brush.PenOfOne` | src/main.rs:1303-1323 | A size-1 pen of either shape draws exactly the cell under the cursor |
| `Brush.Apply` | src/main.rs:1239-1293 | An on-canvas application changes only cell (x, y) of the grid and keeps its shape and valid alphas |
| `Brush.Track` | src/main.rs:1003-1015 | Keeps the stroke canvas-sized with valid alphas; what one tracked application changes is stated by `Brush.TrackKeeps` |
| `Brush.TrackStep` | src/main.rs:1003-1015 | The stroke-tracking step computes exactly `Track` |
| `Brush.TrackKeeps` | src/main.rs:1003-1015 | One tracked application changes at most its own cell, never a protected one, and forgets no drawn key |
| `Brush.ApplyOn` | src/main.rs:1239-1293 | The per-pixel step computes exactly `Apply` on an on-canvas cell |
| `Brush.BrushCell` | src/main.rs:1324-1359 | Keeps the stroke canvas-sized with valid alphas; what it changes is stated by `Brush.BrushCellKeeps` |
| `Brush.BrushCellSteps` | src/main.rs:1324-1359 | An on-canvas brush cell is one tracked application followed by one at its mirror, when there is one |
| `Brush.BrushCellStep` | src/main.rs:1316-1359 | The per-offset step computes exactly `BrushCell` |
| `Brush.BrushRow` | src/main.rs:1310-1361 | The stroke after a prefix of a pen row stays canvas-sized with valid alphas |
| `Brush.BrushRowNext` | src/main.rs:1310-1361 | One more column draws its offset exactly when the pen shape covers it |
| `Brush.BrushRows` | src/main.rs:1303-1363 | The stroke after a prefix of the pen rows stays canvas-sized with valid alphas |
| `Brush.ShouldDraw` | src/main.rs:1310-1315 | A square pen draws every offset of its box; a round one only offsets within the radius |
| `Brush.MirrorAt` | src/main.rs:1324-1359 | The mirror is computed per symmetry with the source's on-canvas test and always lands on the canvas |
| `Brush.BrushRowLoop` | src/main.rs:1310-1361 | The column loop computes exactly `BrushRow` |
| `Brush.BrushLoop` | src/main.rs:1295-1363 | The row loop over the pen's box computes exactly the brush stroke |
| `Brush.BrushCellKeeps` | src/main.rs:1316-1359 | One brush cell changes at most the cell and its on-canvas mirror, and no protected cell |
| `Brush.BrushRowKeeps` | src/main.rs:1310-1361 | A row of the brush changes only cells its drawn offsets or their mirrors reach |
| `Brush.BrushRowsKeeps` | src/main.rs:1303-1363 | The brush rows change only cells of the footprint or its mirrors |
| `Brush.BrushStrokeKeeps` | src/main.rs:1295-1363 | A brush stroke changes no cell outside the pen footprint and its mirrors, never a cell already drawn under protection, and forgets no drawn key |
| `Brush.Erase` | src/main.rs:1393-1399 | The erased cell becomes transparent, no other cell changes, and its key is recorded exactly when stroke protection is on |
| `Brush.EraseCell` | src/main.rs:1401-1441 | Keeps the stroke canvas-sized with valid alphas; what one cell erases is stated by `Brush.EraseCellErases` |
| `Brush.EraseRow` | src/main.rs:1371-1443 | The stroke after a prefix of an eraser row stays canvas-sized with valid alphas |
| `Brush.EraseRows` | src/main.rs:1370-1444 | The stroke after a prefix of the eraser rows stays canvas-sized with valid alphas |
| `Brush.EraseCellStep` | src/main.rs:1385-1442 | The per-offset eraser step computes exactly `EraseCell` |
| `Brush.EraseRowLoop` | src/main.rs:1371-1443 | The eraser's column loop computes exactly `EraseRow` |
| `Brush.EraseLoop` | src/main.rs:1365-1446 | The eraser's row loop computes exactly the erase stroke |
| `Brush.OnlyClearedTransitive` | src/main.rs:1365-1449 | "Left as it was or made transparent" composes across steps |
| `Brush.EraseCellClears` | src/main.rs:1385-1442 | One eraser cell only makes pixels transparent |
| `Brush.EraseCellErases` | src/main.rs:1401-1441 | An off-canvas or protected cell changes nothing; any other cell and its on-canvas mirror become transparent (the mirror even when it was protected), and the cell's key is recorded under protection |
| `Brush.EraseRowClears` | src/main.rs:1371-1443 | An eraser row only makes pixels transparent |
| `Brush.EraseRowsClears` | src/main.rs:1370-1444 | The eraser rows only make pixels transparent |
| `Brush.EraseRowFromPrefix` | src/main.rs:1371-1443 | The rest of an eraser row after any prefix of its offsets only makes pixels transparent |
| `Brush.EraseRowsFromPrefix` | src/main.rs:1370-1444 | The eraser rows after any prefix of rows only make pixels transparent |
| `Brush.EraseAfterCleared` | src/main.rs:1370-1444 | Once the eraser has visited an offset, the rest of the stroke only makes pixels transparent |
| `Brush.EraseStrokeClears` | src/main.rs:1365-1446 | The eraser only ever makes pixels transparent, and never forgets a drawn key |
| `Brush.EraseStrokeErases` | src/main.rs:1365-1446 | Every on-canvas footprint cell that the earlier steps of the stroke left unprotected ends the stroke transparent, and so does its on-canvas mirror |
| `Brush.UnprotectedEraseClears` | src/main.rs:1365-1446 | Without stroke protection every on-canvas footprint cell ends the stroke transparent |
| `Brush.EraseCellKeeps` | src/main.rs:1385-1442 | One eraser cell changes at most the cell and its mirror, and no cell protected before it |
| `Brush.EraseRowKeeps` | src/main.rs:1371-1443 | An eraser row changes only cells its offsets or their mirrors reach |
| `Brush.EraseRowsKeeps` | src/main.rs:1370-1444 | The eraser rows change only cells of the footprint or its mirrors |
| `Brush.EraseStrokeKeeps` | src/main.rs:1365-1446 | The eraser changes no cell outside the pen footprint and its mirrors |
| `Snap.FindColor` | src/main.rs:809-1001 | The scan loop shared by the five palette searches returns exactly the colour the search function `Snap.Find` defines |
| `Snap.ScanOutcome` | src/main.rs:809-1001 | A scan ends on its starting choice or on an admitted palette colour whose own score is below the starting score |
| `Snap.ScanMinimal` | src/main.rs:809-1001 | The final score is at most the start and at most the score of every admitted entry |
| `Snap.ScanFirst` | src/main.rs:809-1001 | A scan that moves off its start ends on an admitted entry before which every admitted entry scores strictly worse, so ties keep the earliest |
| `Snap.FirstBestShift` | src/main.rs:809-1001 | The earliest best entry of the rest of the palette stays the earliest best when the entry in front scores worse |
| `Snap.FindSound` | src/main.rs:809-1001 | A search returns the input or an admitted palette colour; that colour scores no worse than any admitted palette colour, and it is the first admitted entry with that score |
| `Snap.FindFallsBack` | src/main.rs:809-1001 | When no palette colour is admitted with a score below `f32::MAX`, the input comes back unchanged |
| `Snap.ShadeDirection` | src/main.rs:836-1001 | Lighter returns the input or a colour with strictly larger r+g+b, Darker the input or one strictly smaller; the protected RGB searches also keep within 45° of hue |
| `Snap.FindWithoutColors` | src/main.rs:809-1001 | A palette with no colour entries returns the input |
| `Effects.SetPixel` | src/main.rs:1239-1293 | Replacing one pixel changes that cell and no other |
| `Effects.SetPixelOk` | src/main.rs:1239-1293 | Replacing one pixel keeps the grid's shape, and keeps alphas valid when the new alpha is |
| `Effects.SumNeighbours` | src/main.rs:1186-1219 | The two neighbour loops compute the nine-cell sums that `Effects.BlurPixel` averages |
| `Effects.CalculateBlurAt` | src/main.rs:1181-1237 | The blur method computes exactly the blurred pixel the function `Effects.BlurPixel` defines |
| `Effects.RowSumsBounds` | src/main.rs:1190-1217 | Along a row the count, channel sums and alpha sum stay within their per-cell bounds |
| `Effects.GridSumsBounds` | src/main.rs:1186-1219 | The scan counts at most 9 cells, at most 255 per counted cell in each channel, and an alpha sum between 0 and the count |
| `Effects.BlurCountsCentre` | src/main.rs:1186-1219 | An on-canvas pixel counts itself, so the count is at least one |
| `Effects.RowCountGrows` | src/main.rs:1190-1217 | The count never decreases along a row |
| `Effects.RowColoredExactly` | src/main.rs:1190-1217 | Along a row the coloured flag is set exactly when it was set before or a visited column is a coloured neighbour |
| `Effects.BlurColoredExactly` | src/main.rs:1186-1219 | The coloured flag is set exactly when one of the eight surrounding in-bounds cells has a positive alpha |
| `Effects.AverageFits` | src/main.rs:1221-1227 | No channel average exceeds 255, so the `as u8` cast never truncates |
| `Effects.QuotientFits` | src/main.rs:1221-1227 | A sum of at most 255 per counted cell, divided by the count, is below 256 |
| `Effects.BlurSumsOk` | src/main.rs:1186-1227 | On a valid grid an on-canvas scan counts between one and nine cells and each channel average fits a byte |
| `Effects.BlurPixelOk` | src/main.rs:1181-1237 | The blurred pixel's alpha stays in [0,1] for valid alphas and an opacity in [0,1] |
| `Effects.MixedAlphaUnit` | src/main.rs:1229-1235 | Mixing a unit alpha with a mean of unit alphas stays in [0,1] |
| `Effects.BlurPixelAlpha` | src/main.rs:1220-1236 | The blurred alpha is the original one or its mix with the neighbours' mean |
| `Effects.MeanUnit` | src/main.rs:1229-1235 | The mean of `count` unit alphas lies in [0,1] |
| `Effects.MixUnit` | src/main.rs:1229-1235 | `o·(1−f) + a·f` lies in [0,1] when all three do |
| `Effects.BlurKeepsIsolated` | src/main.rs:1220-1236 | A transparent pixel with no coloured in-bounds neighbour is left as it is |
| `Effects.ShadeOf` | src/main.rs:1245-1270 | Computes exactly the Lighter or Darker colour: a palette search when snapping, a blend towards white or black otherwise |
| `Effects.EffectOf` | src/main.rs:1239-1293 | A tool other than Blur returns early on a transparent pixel; otherwise it writes the effect's pixel |
| `Effects.EffectPixelOk` | src/main.rs:1239-1293 | An effect keeps alphas in [0,1]; Lighter and Darker never touch a transparent pixel and never change an alpha; painting never lowers one |
| `Effects.ShadeWithoutSnap` | src/main.rs:1245-1270 | Without snapping, Lighter moves every channel towards 255 and Darker towards 0 |
| `Effects.ShadeWithSnap` | src/main.rs:1245-1270 | With snapping, Lighter gives the original or a palette colour of strictly larger r+g+b, and Darker one strictly smaller |
| `Fill.ReachSeed` | src/main.rs:1495-1523 | The seed's region contains the seed |
| `Fill.ReachStep` | src/main.rs:1495-1523 | The region is closed under orthogonal steps onto cells holding the seed's pixel |
| `Fill.ReachOnTarget` | src/main.rs:1495-1523 | Every cell of the region holds the seed's original pixel |
| `Fill.PathRewritten` | src/main.rs:1505-1522 | Once the queue is empty, a path of target cells from a rewritten seed is rewritten all along |
| `Fill.Neighbours` | src/main.rs:1512-1520 | A cell is pushed exactly when it is on the canvas and orthogonally adjacent to the rewritten cell |
| `Fill.QueueSoundPop` | src/main.rs:1505-1522 | Popping the queue keeps every queued cell justified by its parent |
| `Fill.Repeat` | src/main.rs:1512-1520 | n copies of a value, one parent per pushed neighbour |
| `Fill.QueueSoundPush` | src/main.rs:1505-1522 | Pushing a rewritten cell's neighbours keeps every queued cell next to the region |
| `Fill.FrontierSkip` | src/main.rs:1507-1510 | Dropping a head that needs no visit keeps the frontier covered |
| `Fill.CoveredAfterWrite` | src/main.rs:1505-1522 | Rewriting a cell keeps every other covered cell covered once its neighbours are queued |
| `Fill.FrontierWrite` | src/main.rs:1505-1522 | Rewriting the head and queueing its neighbours keeps the frontier covered |
| `Fill.FrontierWriteAt` | src/main.rs:1505-1522 | The frontier condition for one rewritten cell after rewriting the head |
| `Fill.RewrittenWrite` | src/main.rs:1505-1522 | Rewriting a target cell next to the region keeps every rewrite inside the region |
| `Fill.FilledGrid` | src/main.rs:1495-1523 | The filled grid has the canvas shape; the seed's region holds the fill pixel and every other cell keeps its pixel |
| `Fill.FloodFill` | src/main.rs:1505-1522 | The queue loop rewrites exactly the seed's 4-connected region of equal pixels and nothing else |
| `Fill.DrainQueue` | src/main.rs:1505-1522 | When the queue runs dry, every rewritten cell holds the fill pixel and lies in the seed's region, the seed is rewritten, and no neighbour of a rewritten cell still holds the target pixel |
| `History.Save` | src/main.rs:1536-1542 | The grid is pushed, the oldest snapshot is dropped past 100 and redo is cleared |
| `History.Undo` | src/main.rs:1544-1553 | The current grid goes onto redo and the newest undo snapshot comes back |
| `History.Redo` | src/main.rs:1555-1564 | The current grid goes onto undo and the newest redo snapshot comes back |
| `History.StepsBounded` | src/main.rs:1536-1564 | Save, undo and redo keep the total number of snapshots at most 100 |
| `History.RedoAfterUndo` | src/main.rs:1544-1564 | Redo right after undo restores the grid and both stacks exactly |
| `History.UndoAfterRedo` | src/main.rs:1544-1564 | Undo right after redo restores the grid and both stacks exactly |
| `History.UndoAfterSave` | src/main.rs:1536-1553 | Undo right after a save brings back the saved grid, with only the edited grid on redo |
| `History.AllFitPush` | src/main.rs:1536-1542 | Pushing a canvas-sized grid keeps every snapshot canvas-sized |
| `History.AllFitSlice` | src/main.rs:1536-1564 | Any slice of canvas-sized snapshots is canvas-sized |
| `History.StepsFit` | src/main.rs:1536-1564 | Save, undo and redo move only canvas-sized grids when started from them |
| `Editor.SetCanvas` | src/main.rs:1239-1293 | Replacing layer i's grid changes that grid only |
| `Editor.SetCanvasSame` | src/main.rs:1239-1293 | Putting back the grid a layer already has changes nothing |
| `Editor.SetCanvasOk` | src/main.rs:1239-1293 | A canvas-sized grid with valid alphas keeps the stack well formed |
| `Editor.Clamp` | src/main.rs:756-765 | An integer clamp lands in [lo, hi] and is the identity inside it |
| `Editor.ClampReal` | src/main.rs:1097-1102 | A real clamp lands in [lo, hi] and is the identity inside it |
| `Editor.I16` | src/main.rs:1064-1066 | `as i16` keeps the value modulo 65536 within [-32768, 32767], and leaves a value already there unchanged |
| `Editor.SaturatingPred` | src/main.rs:1064-1065 | `saturating_sub(1)` is one less than a positive size and 0 for 0 |
| `Editor.CursorStep` | src/main.rs:1064-1067 | On a canvas side of at most 32768 the coordinate stays on the canvas, moves by exactly d when that lands on the canvas, and stops at 0 or at the last index otherwise |
| `Editor.WideCanvasCursorJumps` | src/main.rs:1064-1067 | On a canvas 40000 wide, a step right from column 0 and a step left from column 5 both land on column 39999 |
| `Editor.PenSizeStep` | src/main.rs:1090-1092 | The new size is in [1, 32767]; without `i16` overflow it is the old size plus sensitivity × delta, floored at 1 |
| `Editor.PenSizeWraps` | src/main.rs:1090-1092 | Growing a size of 32767 by 1 wraps and is floored to 1 |
| `Editor.LayerStep` | src/main.rs:756-758 | The `i16` index step is always below the stack length, is non-negative exactly when the length cast to `i16` minus one is, and on at most 32768 layers is the move clamped into the stack |
| `Editor.ManyLayersSelectNegative` | src/main.rs:756-758 | With 40000 layers, stepping up from 35000 gives −25537, so no valid index results |
| `Editor.ZoomStep` | src/main.rs:1111-1113 | The `i16` zoom step always lies in [2,16], and below 32768 is the move clamped into [2,16] |
| `Editor.FittedZoomWraps` | src/main.rs:1033-1045 | A one-pixel canvas on a 40000×20000 area fits at zoom 40000, and zooming in from there wraps down to 2 |
| `Editor.Position` | src/main.rs:468-492 | The first index holding x, when x occurs |
| `Editor.AddUniquelyProps` | src/main.rs:1882-1905 | The old palette is kept as a prefix; each added entry is a new colour of the input, none added twice; every input colour ends up in the palette |
| `Editor.Swap` | src/main.rs:703-717 | Swapping two layers exchanges them and keeps every other layer |
| `Editor.SwapOk` | src/main.rs:703-717 | Swapping keeps the stack well formed |
| `Editor.SwapBack` | src/main.rs:703-717 | Moving a layer up and then down, or the reverse, restores the stack |
| `Editor.Toggled` | src/main.rs:698-701 | Only layer i's visibility flips |
| `Editor.ToggledProps` | src/main.rs:698-701 | Toggling keeps the stack well formed and toggling twice restores it |
| `Editor.AppendBlank` | src/main.rs:672-683 | A blank layer appended at the end lies at the bottom and leaves the composite unchanged |
| `Editor.Blanked` | src/main.rs:1017-1051 | Every layer gets a blank grid of the new size and keeps its other fields |
| `Editor.BlankAll` | src/main.rs:1020-1024 | The layer loop of a resize computes exactly the blanked stack |
| `Editor.BlankedOk` | src/main.rs:1017-1051 | A blanked stack with unit opacities is well formed and composites to a blank canvas |
| `Editor.EmptyStackIsBlank` | src/main.rs:719-750 | A stack of blank layers composites to the blank canvas |
| `Editor.FitZoom` | src/main.rs:1030-1045 | The fitted zoom is even and at least 2 |
| `Editor.FillOn` | src/main.rs:1495-1523 | Returns whether the fill starts; if it does, the grid is the filled grid, otherwise it is unchanged |
| `Editor.GridMove` | src/main.rs:1133-1162 | The 2-D move gives an index inside the palette |
| `Editor.MoveInGrid` | src/main.rs:1133-1162 | The index moves as `GridMove` says, and the scroll changes only when the new row is hidden, scrolling just enough to show it |
| `Editor.RowStart` | src/main.rs:1153-1160 | Scrolling to the first entry of a row puts exactly that row at the top of the palette view |
| `Editor.NextSymmetry` | src/main.rs:1071-1087 | Off → Vertical through the middle column → DiagonalForward → Horizontal through the middle row → DiagonalBackward → Off |
| `Editor.CycleReturns` | src/main.rs:1071-1087 | Five steps of the cycle return to the starting mode |
| `Editor.CycledLinesFlipCanvas` | src/main.rs:1071-1087 | The chosen vertical and horizontal lines mirror column x to w−1−x and row y to h−1−y, whatever the parity |
| `Editor.App.constructor` | src/main.rs:539-662 | A 30×30 canvas with one blank, visible, opaque layer, empty history, default settings; the invariant holds |
| `Editor.App.BlendLayer` | src/main.rs:722-748 | One layer pass composites that layer onto every display cell, and skips a hidden layer |
| `Editor.App.BlendRow` | src/main.rs:725-747 | One row of a layer pass composites that layer onto each cell of the row |
| `Editor.App.SyncCanvasFromLayers` | src/main.rs:719-750 | The display is rebuilt from default pixels by compositing from the last layer to the first, and becomes the composite of the stack |
| `Editor.App.SaveStateForUndo` | src/main.rs:1536-1542 | The history becomes `History.Save` of the active grid; nothing else changes |
| `Editor.App.Undo` | src/main.rs:1544-1553 | With a snapshot, the active grid and history follow `History.Undo` and the display is re-synced; otherwise only the status changes |
| `Editor.App.Redo` | src/main.rs:1555-1564 | The mirror image of `Undo` |
| `Editor.App.ApplyEffectAtPixel` | src/main.rs:1239-1293 | An off-canvas cell is ignored; otherwise only that cell of the active layer changes, to the effect's pixel, and the display is re-synced |
| `Editor.App.ReplaceActive` | src/main.rs:719-750 | The active grid becomes the given one and the display is re-synced |
| `Editor.App.Commit` | src/main.rs:719-750 | The active grid and drawn set become the stroke's, and the display is re-synced |
| `Editor.App.CommitWithHistory` | src/script_handler.rs:108-138 | Writes back a stroke and history computed on copies, with a status message |
| `Editor.App.ApplyEffectWithStrokeTracking` | src/main.rs:1003-1015 | The active grid and drawn set become `Track` of the old ones; no other layer changes |
| `Editor.App.ApplyBrush` | src/main.rs:1295-1363 | The active stroke becomes the brush stroke at the centre; no other layer changes |
| `Editor.App.EraseBrush` | src/main.rs:1365-1446 | The active stroke becomes the erase stroke at the centre; no other layer changes |
| `Editor.App.EndStroke` | src/controller.rs:194-197 | With protection on, the drawn set is forgotten; otherwise it is kept |
| `Editor.App.MouseDown` | src/controller.rs:183-203 | The cursor moves to the cell, a new stroke starts, the grid is saved for undo and the brush or eraser is applied there |
| `Editor.App.UseCurrentTool` | src/main.rs:1483-1487 | The grid is saved for undo, then the brush stroke at the cursor is applied |
| `Editor.App.EraseAtCursor` | src/main.rs:1489-1493 | The grid is saved for undo, then the erase stroke at the cursor is applied |
| `Editor.App.PressDraw` | src/controller.rs:351-359 | A new stroke starts and the current tool is used once |
| `Editor.App.HeldDrawRepeat` | src/main.rs:2044-2048 | The tool is used with protection off, and protection is restored afterwards |
| `Editor.App.FillFromPoint` | src/main.rs:1495-1523 | An off-canvas seed, or one already holding the fill pixel, changes nothing and saves nothing; otherwise the grid is saved and the seed's region filled |
| `Editor.App.SaveAndReplace` | src/main.rs:1505-1507 | The history becomes the save of the old active grid, the active layer gets the new grid and no other layer changes, and the editor stays valid |
| `Editor.App.FillArea` | src/main.rs:1525-1534 | A colour selection fills at the cursor with the current opacity; a tool selection is refused with a message |
| `Editor.App.AddNewLayer` | src/main.rs:672-683 | A blank, visible, opaque layer is appended and made active; the display does not change |
| `Editor.App.DeleteActiveLayer` | src/main.rs:685-696 | The only layer cannot be deleted; otherwise the active layer is removed and the index stays, or moves to the new last layer |
| `Editor.App.ToggleLayerVisibility` | src/main.rs:698-701 | Only the active layer's visibility flips |
| `Editor.App.MoveLayerUp` | src/main.rs:703-709 | The active layer swaps with its neighbour and stays active; at the end nothing changes |
| `Editor.App.MoveLayerDown` | src/main.rs:711-717 | The active layer swaps with its neighbour and stays active; at the end nothing changes |
| `Editor.App.ChangeLayerSelection` | src/main.rs:755-761 | The index becomes `LayerStep` of the old one when that is not negative; on a stack of at most 32768 layers that is the index moved by delta and clamped into the stack; the display and everything else stay |
| `Editor.App.ResizeCanvas` | src/main.rs:1017-1051 | The size becomes the request (at least 1), every layer and the display become blank, the cursor is pulled inside, the view refits and the history is kept |
| `Editor.App.ResizeLayers` | src/main.rs:1017-1028 | The size changes and every layer and the display become blank grids of that size |
| `Editor.App.ClearCanvas` | src/main.rs:1053-1058 | The active grid is saved for undo and becomes blank |
| `Editor.App.MoveCursor` | src/main.rs:1062-1069 | In drawing mode each coordinate takes one `CursorStep`, so on a canvas at most 32768 wide and high the cursor stays on the canvas and moves exactly by (dx, dy) when that lands on it; otherwise nothing happens |
| `Editor.App.CycleSymmetry` | src/main.rs:1071-1087 | One step of the five-mode symmetry cycle |
| `Editor.App.ChangePenSize` | src/main.rs:1089-1095 | The size becomes `PenSizeStep` of the old size, always in [1, 32767], and the new size is reported |
| `Editor.App.ChangeOpacity` | src/main.rs:1097-1102 | The opacity moves by sensitivity × direction, clamped into [0,1] |
| `Editor.App.PanView` | src/main.rs:1104-1108 | The offsets move by (dx, dy) |
| `Editor.App.Zoom` | src/main.rs:1110-1114 | The zoom becomes `ZoomStep` of the old one, always in [2,16]; below 32768 it moves by delta and is clamped into [2,16] |
| `Editor.App.ClampViewOffsets` | src/main.rs:1116-1131 | Each offset is pulled into [0, size − visible pixels] |
| `Editor.App.ChangePaletteSelection2d` | src/main.rs:1133-1162 | The index stays in the palette and the scroll moves only as far as needed to show the selected row |
| `Editor.App.ChangeToolSelection` | src/main.rs:1164-1167 | The tool index moves by delta, clamped into the tool palette |
| `Editor.App.SelectColorEntry` | src/main.rs:1169-1173 | The highlighted colour becomes the selection and drawing resumes |
| `Editor.App.SelectToolEntry` | src/main.rs:1175-1179 | The highlighted tool becomes the selection and drawing resumes |
| `Editor.App.PickColorAtCursor` | src/main.rs:468-492 | The displayed colour under the cursor is selected, and the index points at its first occurrence (appended if missing); a transparent cell is refused |
| `Editor.App.AddPaletteEntriesUniquely` | src/main.rs:1882-1905 | The palette becomes the old one plus each new colour entry, in order, and the count is reported |
| `Commands.Commands` | src/commands.rs:25-200 | The table lists 44 commands |
| `Commands.Names` | src/commands.rs:25-200 | One name per command, in table order |
| `Commands.CommandNamesDistinct` | src/commands.rs:25-200 | No two commands share a name |
| `Commands.Lookup` | src/main.rs:2850-2852 | The found command carries the name looked up, and nothing is found only when no command has it |
| `Commands.LookupFinds` | src/main.rs:2850-2852 | With distinct names, looking up an entry's name finds that entry |
| `Commands.NamedEntry` | src/main.rs:2850-2852 | With distinct names, an entry is the one at any index that carries its name |
| `Commands.TableLookup` | src/main.rs:2850-2852 | Looking up the name of table entry i finds entry i |
| `Commands.U16Ranges` | src/commands.rs:47-50 | Every `u16` setter of the table is one of the four, with its documented range |
| `Commands.U16Value` | src/main.rs:2856 | A value is accepted only when it parses as `u16` and lies in the range |
| `Commands.F32Value` | src/main.rs:2857 | An `f32` value is accepted only inside the range |
| `Commands.BoolValue` | src/main.rs:2855 | Exactly "true" and "false" are accepted |
| `Commands.SetU16` | src/main.rs:2856 | The named field is set only to an accepted value; the status reports the value, the range or the usage |
| `Commands.U16SettersInRange` | src/main.rs:2849-2861 | A `u16` setter found by name accepts only values inside its documented range |
| `Commands.SetBool` | src/main.rs:2855 | The named flag is set on "true" or "false"; otherwise only the usage is reported |
| `Commands.WithOpacity` | src/commands.rs:94-98 | Only layer i's opacity changes |
| `Commands.WithOpacityOk` | src/commands.rs:94-98 | A unit opacity keeps the stack well formed |
| `Commands.LayerOpacity` | src/commands.rs:88-103 | Only the active layer's opacity changes, and the display is re-synced |
| `Commands.SetF32` | src/main.rs:2857 | The named field is set only to a value inside the command's range, so a layer opacity written is in [0,1]; the status reports the value, the range or the usage |
| `Commands.StoreF32` | src/commands.rs:55-59 | An accepted value lands in exactly the field its setter names (the interval in whole milliseconds, a layer opacity through the active layer), and the editor stays valid |
| `Commands.LayerOpacityRange` | src/commands.rs:88-103 | The `layer_opacity` entry accepts exactly [0,1] |
| `Commands.MergePixel` | src/commands.rs:171-190 | The merged pixel follows the display's compositing rule with the active layer treated as visible |
| `Commands.MergePixelCases` | src/commands.rs:171-190 | A transparent source keeps the lower pixel; over a transparent lower pixel the result is the source colour at alpha × opacity; visibility plays no part |
| `Commands.MergedGrid` | src/commands.rs:169-193 | The lower grid after the merge has the canvas shape, with every cell merged |
| `Commands.MergeRow` | src/commands.rs:170-192 | The column loop merges one row |
| `Commands.MergeRows` | src/commands.rs:169-193 | The row loop computes exactly the merged grid |
| `Commands.MergeDown` | src/commands.rs:161-199 | At index 0 only a message is set; otherwise layer index−1 becomes the merge, the active layer is removed, the index drops by one, the display is re-synced and no snapshot is taken |
| `Config.CycleValue` | src/config.rs:70-91 | Only the toggle fields change, as `Cycled` says |
| `Config.IncrementValue` | src/config.rs:98-119 | A numeric setting steps up and is clamped; any other setting cycles |
| `Config.DecrementValue` | src/config.rs:121-146 | A numeric setting steps down; any other setting cycles |
| `Config.StoreNumbers` | src/config.rs:98-146 | Writes the numeric fields and changes nothing else |
| `Config.OnlyTheSetting` | src/config.rs:70-146 | Each operation changes at most the field of its own setting |
| `Config.CycleInvolution` | src/config.rs:70-91 | Cycling a two-valued setting twice gives back the original values |
| `Config.MinimapCycle` | src/config.rs:70-91 | The minimap mode steps Auto → On → Off → Auto, so three cycles restore it |
| `Config.IncrementInRange` | src/config.rs:100-105 | After an increment pen size sensitivity is in [1,20], spray size in [1,50] and spray speed in [1,100] |
| `Config.DecrementFloor` | src/config.rs:123-128 | A decrement never goes below 1 and lowers a value above 1 by exactly one |
| `Config.DecrementUndoesIncrement` | src/config.rs:98-146 | Inside the range, a decrement undoes an increment |
| `Config.IntervalInRange` | src/config.rs:112-116 | The hold-to-apply interval stays in [50, 2000] ms after either step |
| `Config.RealsInRange` | src/config.rs:101-140 | Opacity sensitivity stays in [0.01,0.5], highlighter value and spray intensity in [0,1], shade factor in [0.01,1] |
| `Config.TogglesCycle` | src/config.rs:107-141 | A numeric step leaves toggles alone; on a toggle, increment and decrement both just cycle |
| `Keybindings.UnboundByDefault` | src/keybindings.rs:10-55 | Exactly `Quit` and `Spray` have no default binding |
| `Keybindings.DefaultLeadsBack` | src/keybindings.rs:108-149 | Every default binding leads back to its action |
| `Keybindings.DefaultActionBound` | src/keybindings.rs:108-149 | A key that triggers an action by default is that action's default binding |
| `Keybindings.DefaultRoundTrip` | src/keybindings.rs:108-149 | A key is bound to an action by default exactly when it is that action's default binding |
| `Keybindings.DefaultsDistinct` | src/keybindings.rs:108-149 | No two actions share a default key and modifier pair |
| `Keybindings.Position` | src/keybindings.rs:108-149 | Each action's position in the insertion order is below 44 |
| `Keybindings.AtPositionInverse` | src/keybindings.rs:108-149 | The action at an action's position is that action |
| `Keybindings.PositionInverse` | src/keybindings.rs:108-149 | The position of the action at n is n |
| `Keybindings.PositionInjective` | src/keybindings.rs:108-149 | No two actions share a place in the insertion order |
| `Keybindings.BoundIffEarly` | src/keybindings.rs:108-149 | Exactly the actions before position 42 have a default binding |
| `Keybindings.Inserted` | src/keybindings.rs:108-149 | Each insert adds a new key: the next action in order with its default binding |
| `Keybindings.InsertedKey` | src/keybindings.rs:108-149 | An action is in the table after insert i exactly when it was before or is the action inserted there |
| `Keybindings.DefaultsBelowSize` | src/keybindings.rs:108-149 | After i inserts the table holds i bindings |
| `Keybindings.AllInserted` | src/keybindings.rs:107-150 | The table starts empty and after all 42 inserts is exactly the default table |
| `Keybindings.Insert` | src/keybindings.rs:108-149 | One insert extends the table by the next action in order |
| `Keybindings.InsertCursorAndView` | src/keybindings.rs:108-117 | Inserts 0 to 9 extend the table to the first ten defaults |
| `Keybindings.InsertPromptsAndPens` | src/keybindings.rs:118-124 | Inserts 10 to 16 extend it to the first seventeen |
| `Keybindings.InsertToolKeys` | src/keybindings.rs:125-131 | Inserts 17 to 23 extend it to the first twenty-four |
| `Keybindings.InsertQuickSelect` | src/keybindings.rs:132-139 | Inserts 24 to 31 extend it to the first thirty-two |
| `Keybindings.InsertLayerKeys` | src/keybindings.rs:140-146 | Inserts 32 to 38 extend it to the first thirty-nine |
| `Keybindings.InsertOnionKeys` | src/keybindings.rs:147-149 | Inserts 39 to 41 complete it |
| `Keybindings.Default` | src/keybindings.rs:106-150 | The result is exactly the default table: 42 bindings |
| `Keybindings.Load` | src/keybindings.rs:84-101 | No parsed file gives exactly the defaults; otherwise every saved action takes its saved binding, every other default action keeps its default, and no other action is bound |
| `Text.NatToString` | src/script_handler.rs:138 | The decimal form of a number is a non-empty string of digits |
| `Text.NatToStringRoundTrip` | src/script_handler.rs:138 | Reading back the decimal form gives the number |
| `Text.NatToStringInjective` | src/script_handler.rs:138 | Different counts give different texts |
| `Text.ParseBelow` | src/script_handler.rs:196-197 | An unsigned parse succeeds exactly when, after at most one leading `+`, the text is non-empty, all decimal digits, and worth less than the limit; the result is that decimal value |
| `Text.ParseU16` | src/script_handler.rs:196-197 | A parsed `u16` is below 65536 |
| `Text.ParseU32` | src/file_browser.rs:289 | A parsed `u32` is below 2³² |
| `Text.ParseU16Format` | src/script_handler.rs:196-197 | Every 16-bit number parses back from its decimal form |
| `Text.SplitWhitespace` | src/script_handler.rs:201 | The parts are non-empty and contain no Unicode White_Space character (`char::is_whitespace`) |
| `Text.BlankHasNoParts` | src/script_handler.rs:201-202 | Text made only of Unicode White_Space characters has no parts |
| `Text.SingleWord` | src/script_handler.rs:201 | A non-empty word with no Unicode White_Space character splits into exactly itself |
| `Text.SplitOnce` | src/script_handler.rs:194 | None exactly when the separator is absent; otherwise the text is the part before, the separator and the rest, and the part before holds no separator |
| `Text.StripPrefix` | src/main.rs:2811 | The prefix is removed exactly when the text starts with it |
| `Script.SplitOnceAt` | src/script_handler.rs:194 | Text without the separator followed by it and more text splits back into those pieces |
| `Script.TwoWords` | src/script_handler.rs:201 | Two non-empty words with no Unicode White_Space character, separated by one space, split into exactly those two |
| `Script.ParseU16TooWide` | src/script_handler.rs:196-197 | A number past 65535 written in decimal does not parse as `u16` |
| `Script.ParseCoord` | src/script_handler.rs:193-199 | A coordinate reads only from text holding a comma; `Script.CoordRoundTrip` and `Script.CoordRejects` state which texts read |
| `Script.CoordRoundTrip` | src/script_handler.rs:193-199 | The decimal "X,Y" of a cell parses back to the cell |
| `Script.CoordRejects` | src/script_handler.rs:193-199 | A half past 65535, or a token without a comma, is rejected |
| `Script.ParseTarget` | src/script_handler.rs:219-231 | A token read as a range holds `-`, and one read as a single coordinate does not |
| `Script.TargetRoundTrip` | src/script_handler.rs:219-231 | Written-out cells and ranges read back as themselves |
| `Script.RowCells` | src/script_handler.rs:222-225 | A row from lo to hi has hi − lo + 1 cells, left to right |
| `Script.RowsFromCells` | src/script_handler.rs:221-226 | n rows of a band hold exactly the cells of that band, (hi − lo + 1)·n of them |
| `Script.RectCellsCover` | src/script_handler.rs:219-227 | A range visits every cell of its inclusive rectangle and nothing else, whatever the corner order, (\|x2−x1\|+1)·(\|y2−y1\|+1) cells |
| `Script.Touch` | src/script_handler.rs:223 | One brush or eraser application keeps the stroke well formed |
| `Script.TouchAll` | src/script_handler.rs:218-232 | Applying the tool at a list of cells keeps the stroke well formed |
| `Script.TouchAllAppend` | src/script_handler.rs:218-232 | Drawing two lists one after the other is drawing their concatenation |
| `Script.TouchAt` | src/script_handler.rs:223 | The per-cell step computes exactly `Touch` |
| `Script.TouchRow` | src/script_handler.rs:222-225 | The inner loop draws the row's cells and counts one operation per cell |
| `Script.TouchRect` | src/script_handler.rs:219-227 | A range draws the cells of its rectangle row by row, whatever the corner order, and counts them |
| `Script.TouchBand` | src/script_handler.rs:221-226 | The row loop draws the rows from top to bottom, each from its low column to its high one, counting one operation per cell |
| `Script.TouchToken` | src/script_handler.rs:219-231 | One token draws and counts the cells it names; an unreadable token does nothing |
| `Script.TouchTokens` | src/script_handler.rs:218-232 | The coordinate loop draws the cells of all tokens in order and counts them |
| `Script.HexColor` | src/script_handler.rs:212 | A script colour that reads is an `Rgb` colour |
| `Script.FilledOk` | src/main.rs:1495-1523 | A fill with a unit alpha keeps the grid well formed |
| `Script.Apply` | src/script_handler.rs:209-261 | One command keeps the run well formed, keeps its symmetry and never lowers its count |
| `Script.PaintSettings` | src/script_handler.rs:213-216 | `apply_color` draws with the chosen colour as the selection at opacity 1.0 |
| `Script.DrawTokens` | src/script_handler.rs:218-232 | The painting and erasing arms compute exactly the command's effect |
| `Script.FillCommand` | src/script_handler.rs:236-243 | The fill arm computes exactly a fill at the first coordinate with alpha 1.0, counting one operation |
| `Script.ExecLine` | src/script_handler.rs:192-262 | A line keeps the run well formed and its symmetry, and never lowers the count |
| `Script.ExecuteLine` | src/script_handler.rs:192-262 | The line interpreter computes exactly the effect the function `Script.ExecLine` gives the line |
| `Script.BlockSymmetry` | src/script_handler.rs:121-127 | Vertical and horizontal take the coordinate as a wrapped `u16`, the diagonals keep it, anything else is Off |
| `Script.RunStepsAppend` | src/script_handler.rs:112-134 | Running two pieces in turn is running them joined |
| `Script.RunScript` | src/script_handler.rs:110-137 | Running a script keeps the run well formed, ends on the symmetry it started with and never lowers the count |
| `Script.RunBlock` | src/script_handler.rs:130-132 | A block's lines run in order under its symmetry |
| `Script.RunSetSymmetry` | src/script_handler.rs:116-128 | Setting the symmetry changes only the run's symmetry |
| `Script.RunOneLine` | src/script_handler.rs:117 | A plain line runs as one line step |
| `Script.RunCommand` | src/script_handler.rs:113-134 | One command sets its symmetry and runs its lines |
| `Script.RunCommands` | src/script_handler.rs:110-137 | The command loop computes exactly the run `Script.RunSteps` defines, the user's symmetry back at the end |
| `Script.ReadFailure` | src/script_handler.rs:95-106 | Bad JSON reports "Invalid JSON in script: " followed by the decoder's error |
| `Script.ScriptResult` | src/script_handler.rs:108-137 | The result of a script run is a well formed stroke and history, with the user's symmetry kept |
| `Script.ParseAndExecuteScript` | src/script_handler.rs:94-138 | A file that cannot be read or decoded only sets its message; a decoded one saves, runs every command on the active layer, keeps the symmetry and reports the count |
| `Script.ExecuteScript` | src/script_handler.rs:108-138 | The active layer, history and status become the script result; no other layer changes and the symmetry is kept |
| `Script.NoSpaceJoin` | src/script_handler.rs:209 | Joining text without whitespace gives text without whitespace |
| `Script.KeyedLine` | src/script_handler.rs:201-209 | A `key:value token` line splits at the space and then at the `:` |
| `Script.ApplyColorLine` | src/script_handler.rs:211-235 | `apply_color:HEX` paints the token's cells at full opacity, and does nothing when HEX is not a colour |
| `Script.FillLine` | src/script_handler.rs:236-243 | `fill:HEX X,Y` fills from that cell when both read, and does nothing otherwise |
| `Script.EraseLine` | src/script_handler.rs:244-261 | `erase` erases the token's cells |
| `Script.UnknownKeyIgnored` | src/script_handler.rs:209-243 | A `key:value` word with any other key does nothing |
| `Script.BareWordIgnored` | src/script_handler.rs:201-202 | A line of fewer than two parts draws and counts nothing |
| `Script.BlockAxisWraps` | src/script_handler.rs:122-123 | A negative vertical or horizontal coordinate wraps to coordinate + 65536; one in range is kept |
| `Script.ScriptStepsStart` | src/script_handler.rs:112-128 | Every command begins by setting the symmetry |
| `Script.StepsForgetSymmetry` | src/script_handler.rs:112-128 | Steps that start by setting the symmetry do not depend on the symmetry before them |
| `Script.ScriptIgnoresUserSymmetry` | src/script_handler.rs:110-137 | The user's symmetry has no effect on what a script draws or counts, and it is back at the end |
| `Script.OpsCounted` | src/script_handler.rs:224-258 | The count grows by exactly what the lines name, whatever the grid holds |
| `Script.ScriptReportsOps` | src/script_handler.rs:138 | The reported count is the number of operations the script's lines name, read from their text alone |
| `Script.StepsKeepHistory` | src/script_handler.rs:108-137 | Without fills, the steps leave the undo stacks alone |
| `Script.OneSnapshotWithoutFills` | src/script_handler.rs:108 | A script without fills adds exactly one snapshot, the grid before it ran |
| `Paths.Parent` | src/file_browser.rs:51-55 | Every path but the root has a parent: the path less its last component, different from it |
| `Paths.PathTotal` | src/file_browser.rs:69-70 | Any two paths are ordered one way or the other |
| `Paths.PathAntisymmetric` | src/file_browser.rs:69-70 | Only equal paths are ordered both ways |
| `Paths.PathTransitive` | src/file_browser.rs:69-70 | The path order is transitive |
| `Paths.Insert` | src/file_browser.rs:69-70 | Inserting into a sorted list gives a sorted list with one more copy of the path |
| `Paths.Sort` | src/file_browser.rs:69-70 | The result is sorted and a permutation of the input |
| `Paths.Split` | src/file_browser.rs:61-67 | A path is kept exactly when it is in the input and `is_dir()` holds for it (directories) or fails (files), as asked; an unreadable directory counts as a directory |
| `Paths.SubDirs` | src/file_browser.rs:61-71 | Exactly the children `is_dir()` holds for, readable or not, sorted |
| `Paths.Files` | src/file_browser.rs:61-71 | Exactly the children `is_dir()` fails for, sorted |
| `Paths.Listing` | src/file_browser.rs:44-78 | ".." below the root, then the sorted directories, then the sorted files |
| `Paths.ListingChildren` | src/file_browser.rs:58-73 | After the ".." item every item is a child of the directory |
| `Paths.ListingDirsFirst` | src/file_browser.rs:69-73 | Every directory comes before every file |
| `Paths.ListingGroupsSorted` | src/file_browser.rs:69-73 | Within the directories, and within the files, the listing is ascending |
| `Paths.SortedPairs` | src/file_browser.rs:69-70 | In a sorted list every earlier path is at most every later one |
| `Browser.BackThenForward` | src/file_browser.rs:253-268 | Back then forward returns to the start with both stacks as they were |
| `Browser.ForwardThenBack` | src/file_browser.rs:253-268 | Forward then back returns to the start with both stacks as they were |
| `Browser.MovesKeepTrail` | src/file_browser.rs:253-268 | Back and forward only move along the trail of reachable directories, never changing it |
| `Browser.EnterThenBack` | src/file_browser.rs:226-240 | Entering ends the trail at the new directory; going back returns with it as the only way forward |
| `Browser.SplitChildren` | src/file_browser.rs:61-67 | The loop splits the children into those `is_dir()` holds for and the rest, each in system order |
| `Browser.ListDirectory` | src/file_browser.rs:47-77 | The list is ".." below the root, then the sorted directories and files of a readable directory; an unreadable one gives only ".." and the "Cannot read directory" error |
| `Browser.ReadableListing` | src/file_browser.rs:50-72 | A readable directory's list is exactly its listing: "..", the sorted sub-directories, the sorted files |
| `Browser.ReadDirectory` | src/file_browser.rs:44-78 | The directory becomes current with item 0 selected, and the list is its listing; an unreadable one keeps only ".." and sets the error |
| `Browser.OpenBrowser` | src/file_browser.rs:21-42 | Opens in browser mode with the list focused, no error, empty history, a timestamped name for save and export, and the start directory read |
| `Browser.GoBack` | src/file_browser.rs:253-259 | With history, the place becomes `Back` of the old one and is read; otherwise nothing changes |
| `Browser.GoForward` | src/file_browser.rs:262-268 | With forward history, the place becomes `Forward` of the old one and is read; otherwise nothing changes |
| `Browser.FileActionFor` | src/file_browser.rs:242-248 | A file yields an action on that file exactly in load, palette import and palette generation |
| `Browser.Destination` | src/file_browser.rs:226-239 | ".." leads to the parent; a path entry leads somewhere exactly when `is_dir()` holds for it, whether or not it can be read |
| `Browser.UnreadableSubDirEntered` | src/file_browser.rs:61-77 | A sub-directory that cannot be read is listed among the directories, is entered on selection, and then shows only ".." and the error |
| `Browser.OnSelect` | src/file_browser.rs:220-251 | ".." and directories are entered through the history; a file triggers the mode's action and closes the browser, except in save and export |
| `Browser.NavigateList` | src/file_browser.rs:212-218 | The selection moves as `Navigate` says; `Browser.NavigateStaysOnList` and `Browser.DownThenUp` state that it stays on the list and moves by delta |
| `Browser.NavigateStaysOnList` | src/file_browser.rs:212-218 | A selection on the list stays on it and moves by at most delta |
| `Browser.DownThenUp` | src/file_browser.rs:212-218 | Down then up returns to the same item, and up from the first item stays there |
| `Browser.CycleFocus` | src/file_browser.rs:167-182 | Tab sets the focus to the next one for the mode |
| `Browser.FocusCycles` | src/file_browser.rs:167-182 | In export Tab visits all three places with period three; in save it alternates list and name; otherwise the focus stays |
| `Browser.SuffixOnce` | src/file_browser.rs:280-288 | Suffixing ends the name with the suffix, never doubles it, and is idempotent |
| `Browser.ExportScale` | src/file_browser.rs:289 | The scale is the box's `u32` value, or 1 when it does not read |
| `Browser.ConfirmRequest` | src/file_browser.rs:270-295 | Save and export produce a request and other modes none; the requested file lies directly in the current directory |
| `Browser.OnConfirmDirectory` | src/file_browser.rs:270-297 | Returns the confirmation request and closes the browser exactly when there is one |

## Left out

- Floating point: alpha, opacity and blend factors are exact reals in [0,1]. `f32` rounding is not modelled. `round` is half away from zero, followed by a saturating cast to a byte.
- `rgb_to_hue`, `hsv_to_rgb` precision and the square-root colour distances are not computed. The distances and `rgb_to_hue` are functions given with the editor state; `hsv_to_rgb` is written over reals.
- Editor.App.Undo: requires that every snapshot has the canvas size (`HistoryFits`). `resize_canvas` keeps the history, so in the source an undo after a resize can install a grid of the old size; the model does not cover that case.
- Editor.App.Redo: requires `HistoryFits` for the same reason as `Editor.App.Undo`.
- Editor.App.ResizeCanvas: keeps the undo and redo stacks as the source does, and does not promise `HistoryFits` afterwards.
- The per-cell re-composite inside strokes: brush and fill work on a copy of the active grid, and the display is re-synced once at the end. The final state is the same; the intermediate displays are not modelled.
- `apply_spray` and `generate_palette_from_image` use random numbers or k-means over an image and are not part of this model.
- Project, palette and image I/O are not part of this model: `save_project`, `load_project`, `export_to_png`, `load_and_store_palette`, the palette save functions and `save_current_config`. The browser returns these as a `FileAction` or a `Request`.
- Script file reading and JSON decoding, and the script editor (load, save, clear, draw), are not part of this model. `Script.ParseAndExecuteScript` takes the decoded file or the read failure as a value.
- The file system: it is a set of the paths `is_dir()` holds for, plus a map from each readable directory to its children in `read_dir` order. A directory in the set but not in the map exists but cannot be read. `canonicalize` is the identity. Joining a name that holds `/` or is absolute is not modelled. The unreadable-directory message is fixed to the "No such file or directory" text.
- The timestamp of a proposed file name is a parameter.
- `Keybindings::save`, the key-binding file path and JSON decoding are not part of this model. `Keybindings.Load` takes the decoded map or `None`. `HashMap` iteration order is not modelled, since the inserted keys are distinct.
- Terminal UI: drawing, the mouse hit test, event dispatch, the name and scale text boxes and grapheme editing are not part of this model. Only the stroke start and end points of the event handler are modelled (`Editor.App.MouseDown`, `Editor.App.EndStroke`, `Editor.App.PressDraw`, `Editor.App.HeldDrawRepeat`).
- Timing: the hold-to-apply interval test, autosave and status expiry. `Editor.App.HeldDrawRepeat` is one repeat.
- `execute_command` dispatch beyond the table lookup and the setters is not modelled: the complex commands, string setters and `parse::<f32>`. `Commands.SetF32` takes the parsed value.
- The script's operation counter is an `i32` in the source. The model counts with an unbounded natural, so overflow past 2³¹ − 1 operations is not modelled.
- The script's transient writes of the editor's symmetry are not modelled; the run carries its own symmetry, and the editor's is unchanged at the end, as in the source.
- `navigate_list` casts the selection to `i32`; selections past 2³¹ are not modelled.
- Script.HexColor: a non-ASCII value that is six bytes long after the `#`, and whose two-byte slices cut a character, panics in the source. The model returns None, which is what the source returns for every other non-ASCII value: either its byte length is not 6, or a two-byte field holds a non-ASCII byte and is not hex.
- Browser.OnSelect: selecting with an index past the list (the empty listing of an unreadable root) panics in the source; the model changes nothing.
- Palette.DefaultColorPalette: only the length of the literal lists is stated, not each of their colours.
- Palette.AtariPalette: only the length of the literal list is stated, not each of its colours.
- Palette.TonesSpec: the six `*_tones` generators share one loop and are stated by length; the individual hues and spans are not compared entry by entry.
- Editor.App.MoveCursor: `i16` overflow follows a release build, which wraps; a debug build panics instead.
- Editor.App.ChangePenSize: `i16` overflow follows a release build, which wraps; a debug build panics instead.
- Editor.App.ChangeLayerSelection: `i16` overflow follows a release build, which wraps. When the step is negative, which takes more than 32768 layers, the source stores a wrapped `usize` index that the next layer access panics on; the model keeps the old index.
- Editor.App.Zoom: `i16` overflow follows a release build, which wraps; a debug build panics instead.
- Editor.App.ChangeOpacity: the status message with the rounded percentage is not modelled.
- Editor.App.ChangePaletteSelection2d: requires a non-empty palette, and a palette area at least one row high when one is known, where the source would panic on `clamp(0, len - 1)` or underflow on `top + visible_rows - 1`; the `i16` wrap of the move is not modelled.
- Editor.App.ResizeCanvas: requires, when a pixel area is known, that neither new size is a multiple of 65536, where the source's `as u16` cast would make the zoom fit divide by zero.
- Keybindings.Default: the 42 inserts are grouped into six runs; the resulting table is the same.
- A script run pushes one undo snapshot before its commands (script_handler.rs:108), plus one for every fill that starts, because `fill_from_point` saves its own state (main.rs:1505). `Script.OneSnapshotWithoutFills` proves the single snapshot for scripts without fills.

=== FILE: brush.dfy ===
// The brush and the eraser: the pen footprint, the four symmetry mirrors, and
// the stroke-protected application of an effect or an erasure to each cell
// the pen covers, in the order the nested offset loops visit them.

module Brush {
  import opened Colors
  import opened Pixels
  import opened Effects

  /** A Rust `u16`. */
  type U16 = x: int | 0 <= x < 0x1_0000

  datatype PenShape = Circular | Square

  /** The mirror in use: a vertical or horizontal line, or a diagonal `y = x + c` / `y = −x + c`. */
  datatype Symmetry =
    | Off
    | Vertical(lineX: U16)
    | DiagonalForward(c: int)
    | Horizontal(lineY: U16)
    | DiagonalBackward(c: int)

  /** The pen state a stroke reads. */
  datatype BrushSettings = BrushSettings(
    pen: nat, shape: PenShape, symmetry: Symmetry, protect: bool, width: nat, height: nat)

  /** `pen_size / 2`. */
  function Radius(pen: nat): nat
  {
    pen / 2
  }

  /** Whether the offset (xo, yo) of the pen's bounding box is drawn. */
  predicate InPen(pen: nat, shape: PenShape, xo: int, yo: int)
  {
    match shape
    case Square => true
    case Circular =>
      var r := Radius(pen);
      (xo - r) * (xo - r) + (yo - r) * (yo - r) <= r * r
  }

  /** The mirror image of (x, y); `Off` has none. */
  function MirrorOf(sym: Symmetry, w: nat, h: nat, x: int, y: int): Option<(int, int)>
  {
    match sym
    case Off => None
    case Vertical(a) => Some((if w % 2 == 0 then 2 * a - x - 1 else 2 * a - x, y))
    case Horizontal(a) => Some((x, if h % 2 == 0 then 2 * a - y - 1 else 2 * a - y))
    case DiagonalForward(c) => Some((y - c, x + c))
    case DiagonalBackward(c) => Some((c - y, c - x))
  }

  /** The mirror image of (x, y) when it lies on the canvas. */
  function MirrorCell(b: BrushSettings, x: int, y: int): (r: Option<(int, int)>)
    ensures r.Some? ==> InCanvas(b.width, b.height, r.value.0, r.value.1)
  {
    match MirrorOf(b.symmetry, b.width, b.height, x, y)
    case None => None
    case Some(m) => if InCanvas(b.width, b.height, m.0, m.1) then Some(m) else None
  }

  /** Every mirror is its own inverse. */
  lemma MirrorInvolution(sym: Symmetry, w: nat, h: nat, x: int, y: int)
    requires sym != Off
    ensures var m := MirrorOf(sym, w, h, x, y).value;
      MirrorOf(sym, w, h, m.0, m.1) == Some((x, y))
  {
  }

  /** The canvas cell the offset (xo, yo) of a pen centred at (cx, cy) lands on. */
  function PenCell(pen: nat, cx: int, cy: int, xo: int, yo: int): (int, int)
  {
    (cx - Radius(pen) + xo, cy - Radius(pen) + yo)
  }

  /**
   * The cells a stroke of the pen at (cx, cy) may touch: on-canvas cells of
   * the pen's box that the shape draws, and the on-canvas mirrors of those.
   */
  predicate Touched(b: BrushSettings, cx: int, cy: int, x: int, y: int)
  {
    exists xo, yo :: 0 <= xo < b.pen && 0 <= yo < b.pen && InPen(b.pen, b.shape, xo, yo) &&
      var p := PenCell(b.pen, cx, cy, xo, yo);
      InCanvas(b.width, b.height, p.0, p.1) && (p == (x, y) || MirrorCell(b, p.0, p.1) == Some((x, y)))
  }

  /** A size-3 round pen draws exactly the centre and its four orthogonal neighbours. */
  lemma RoundPenThreeIsPlus(xo: int, yo: int)
    requires 0 <= xo < 3 && 0 <= yo < 3
    ensures InPen(3, Circular, xo, yo) <==> xo == 1 || yo == 1
  {
  }

  /** A size-1 pen of either shape draws exactly the cell under the cursor. */
  lemma PenOfOne(shape: PenShape, cx: int, cy: int)
    ensures InPen(1, shape, 0, 0) && PenCell(1, cx, cy, 0, 0) == (cx, cy)
  {
  }

  // ---------------------------------------------------------------------------
  // Strokes

  /** The active grid during a stroke, and the coordinates already drawn in it. */
  datatype Stroke = Stroke(grid: Grid, drawn: set<(int, int)>)

  /** `(x as u16, y as u16)`: the key a cell is recorded under. */
  function Key(x: int, y: int): (int, int)
  {
    (x % 0x1_0000, y % 0x1_0000)
  }

  predicate StrokeOk(s: Stroke, w: nat, h: nat)
  {
    Shaped(s.grid, w, h) && GridOk(s.grid)
  }

  /** The grid after `apply_effect_at_pixel` at an on-canvas cell. */
  function Apply(e: EffectSettings, w: nat, h: nat, g: Grid, x: nat, y: nat): (r: Grid)
    requires Shaped(g, w, h) && GridOk(g) && x < w && y < h && Unit(e.opacity)
    ensures Shaped(r, w, h) && GridOk(r)
    ensures forall yy, xx :: 0 <= yy < h && 0 <= xx < w && (yy, xx) != (y, x) ==> r[yy][xx] == g[yy][xx]
  {
    EffectPixelOk(e, g, w, h, x, y);
    SetPixelOk(g, w, h, x, y, EffectPixel(e, g, w, h, x, y));
    SetPixel(g, x, y, EffectPixel(e, g, w, h, x, y))
  }

  /**
   * `apply_effect_with_stroke_tracking`: off-canvas cells are ignored; with
   * protection on, a cell whose key is already drawn is skipped, and an
   * applied cell's key is recorded.
   */
  function Track(e: EffectSettings, b: BrushSettings, s: Stroke, x: int, y: int): (r: Stroke)
    requires StrokeOk(s, b.width, b.height) && Unit(e.opacity)
    ensures StrokeOk(r, b.width, b.height)
  {
    if !InCanvas(b.width, b.height, x, y) then s
    else if b.protect then
      if Key(x, y) in s.drawn then s
      else Stroke(Apply(e, b.width, b.height, s.grid, x, y), s.drawn + {Key(x, y)})
    else Stroke(Apply(e, b.width, b.height, s.grid, x, y), s.drawn)
  }

  /** One cell of `apply_brush`: the cell itself, then its mirror when on the canvas. */
  function BrushCell(e: EffectSettings, b: BrushSettings, s: Stroke, x: int, y: int): (r: Stroke)
    requires StrokeOk(s, b.width, b.height) && Unit(e.opacity)
    ensures StrokeOk(r, b.width, b.height)
  {
    if !InCanvas(b.width, b.height, x, y) then s
    else
      var s1 := Track(e, b, s, x, y);
      match MirrorCell(b, x, y)
      case None => s1
      case Some(m) => Track(e, b, s1, m.0, m.1)
  }

  /** A brush cell on the canvas is one tracked application, then one more at its mirror when there is one. */
  lemma BrushCellSteps(e: EffectSettings, b: BrushSettings, s: Stroke, x: int, y: int)
    requires StrokeOk(s, b.width, b.height) && Unit(e.opacity) && InCanvas(b.width, b.height, x, y)
    ensures MirrorCell(b, x, y).None? ==> BrushCell(e, b, s, x, y) == Track(e, b, s, x, y)
    ensures MirrorCell(b, x, y).Some? ==>
      BrushCell(e, b, s, x, y) == Track(e, b, Track(e, b, s, x, y), MirrorCell(b, x, y).value.0, MirrorCell(b, x, y).value.1)
  {
  }

  /** The stroke after the first `n` columns of pen row `yo`. */
  function BrushRow(e: EffectSettings, b: BrushSettings, s: Stroke, cx: int, cy: int, yo: nat, n: nat): (r: Stroke)
    requires StrokeOk(s, b.width, b.height) && Unit(e.opacity)
    ensures StrokeOk(r, b.width, b.height)
  {
    if n == 0 then s
    else
      var s0 := BrushRow(e, b, s, cx, cy, yo, n - 1);
      if InPen(b.pen, b.shape, n - 1, yo) then
        var p := PenCell(b.pen, cx, cy, n - 1, yo);
        BrushCell(e, b, s0, p.0, p.1)
      else s0
  }

  /** One more column of a pen row: the offset is drawn when the shape covers it. */
  lemma BrushRowNext(e: EffectSettings, b: BrushSettings, s: Stroke, cx: int, cy: int, yo: nat, n: nat)
    requires StrokeOk(s, b.width, b.height) && Unit(e.opacity)
    ensures var p := PenCell(b.pen, cx, cy, n, yo);
      BrushRow(e, b, s, cx, cy, yo, n + 1) ==
        if InPen(b.pen, b.shape, n, yo) then BrushCell(e, b, BrushRow(e, b, s, cx, cy, yo, n), p.0, p.1)
        else BrushRow(e, b, s, cx, cy, yo, n)
  {
  }

  /** The stroke after the first `m` pen rows. */
  function BrushRows(e: EffectSettings, b: BrushSettings, s: Stroke, cx: int, cy: int, m: nat): (r: Stroke)
    requires StrokeOk(s, b.width, b.height) && Unit(e.opacity)
    ensures StrokeOk(r, b.width, b.height)
  {
    if m == 0 then s
    else BrushRow(e, b, BrushRows(e, b, s, cx, cy, m - 1), cx, cy, m - 1, b.pen)
  }

  /** `apply_brush` at (cx, cy) on the active grid. */
  function BrushStroke(e: EffectSettings, b: BrushSettings, s: Stroke, cx: int, cy: int): Stroke
    requires StrokeOk(s, b.width, b.height) && Unit(e.opacity)
  {
    BrushRows(e, b, s, cx, cy, b.pen)
  }

  // ---------------------------------------------------------------------------
  // The brush loops, on the active grid and the drawn set of a stroke

  /** `apply_effect_at_pixel` on an on-canvas cell of a stroke's grid. */
  method ApplyOn(e: EffectSettings, w: nat, h: nat, g: Grid, x: nat, y: nat) returns (r: Grid)
    requires Shaped(g, w, h) && GridOk(g) && x < w && y < h && Unit(e.opacity)
    ensures r == Apply(e, w, h, g, x, y)
  {
    var skip, p := EffectOf(e, g, w, h, x, y);
    if skip {
      EffectPixelOk(e, g, w, h, x, y);
      assert g[y][x := p] == g[y];
      return g;
    }
    r := SetPixel(g, x, y, p);
  }

  /** `apply_effect_with_stroke_tracking`. */
  method TrackStep(e: EffectSettings, b: BrushSettings, s: Stroke, x: int, y: int) returns (r: Stroke)
    requires StrokeOk(s, b.width, b.height) && Unit(e.opacity)
    ensures r == Track(e, b, s, x, y)
  {
    if !(0 <= x < b.width && 0 <= y < b.height) {
      return s;
    }
    if b.protect {
      var key := (x % 0x1_0000, y % 0x1_0000);
      if key !in s.drawn {
        var g := ApplyOn(e, b.width, b.height, s.grid, x, y);
        return Stroke(g, s.drawn + {key});
      }
      return s;
    }
    var g := ApplyOn(e, b.width, b.height, s.grid, x, y);
    r := Stroke(g, s.drawn);
  }

  /** Whether `apply_brush` and `erase_brush` draw offset (xo, yo) of the pen's box. */
  method ShouldDraw(pen: nat, shape: PenShape, xo: int, yo: int) returns (draw: bool)
    ensures draw == InPen(pen, shape, xo, yo)
  {
    var radius := pen / 2;
    draw := false;
    match shape {
      case Square => draw := true;
      case Circular =>
        var dx, dy := xo - radius, yo - radius;
        if dx * dx + dy * dy <= radius * radius {
          draw := true;
        }
    }
  }

  /**
   * The mirror `apply_brush` and `erase_brush` work out for an on-canvas
   * cell, with the on-canvas test the source applies to each symmetry.
   */
  method MirrorAt(b: BrushSettings, px: int, py: int) returns (mirrored: bool, mx: int, my: int)
    requires 0 <= px < b.width && 0 <= py < b.height
    ensures mirrored <==> MirrorCell(b, px, py).Some?
    ensures mirrored ==> MirrorCell(b, px, py) == Some((mx, my))
  {
    mirrored, mx, my := false, 0, 0;
    match b.symmetry {
      case Vertical(lineX) =>
        mx, my := if b.width % 2 == 0 then 2 * lineX - px - 1 else 2 * lineX - px, py;
        mirrored := 0 <= mx < b.width;
      case Horizontal(lineY) =>
        mx, my := px, if b.height % 2 == 0 then 2 * lineY - py - 1 else 2 * lineY - py;
        mirrored := 0 <= my < b.height;
      case DiagonalForward(c) =>
        mx, my := py - c, px + c;
        mirrored := 0 <= mx < b.width && 0 <= my < b.height;
      case DiagonalBackward(c) =>
        mx, my := c - py, c - px;
        mirrored := 0 <= mx < b.width && 0 <= my < b.height;
      case Off() =>
    }
  }

  /** One offset of `apply_brush`: the cell when on the canvas, then its on-canvas mirror. */
  method BrushCellStep(e: EffectSettings, b: BrushSettings, s: Stroke, px: int, py: int) returns (r: Stroke)
    requires StrokeOk(s, b.width, b.height) && Unit(e.opacity)
    ensures r == BrushCell(e, b, s, px, py)
  {
    if !(0 <= px < b.width && 0 <= py < b.height) {
      return s;
    }
    BrushCellSteps(e, b, s, px, py);
    r := TrackStep(e, b, s, px, py);
    var mirrored, mx, my := MirrorAt(b, px, py);
    if mirrored {
      r := TrackStep(e, b, r, mx, my);
    }
  }

  /** The column loop of `apply_brush` for pen row `yo`. */
  method BrushRowLoop(e: EffectSettings, b: BrushSettings, s: Stroke, cx: int, cy: int, yo: nat) returns (r: Stroke)
    requires StrokeOk(s, b.width, b.height) && Unit(e.opacity)
    ensures r == BrushRow(e, b, s, cx, cy, yo, b.pen)
  {
    var radius := b.pen / 2;
    r := s;
    var xo := 0;
    while xo < b.pen
      invariant 0 <= xo <= b.pen
      invariant r == BrushRow(e, b, s, cx, cy, yo, xo)
    {
      var shouldDraw := ShouldDraw(b.pen, b.shape, xo, yo);
      BrushRowNext(e, b, s, cx, cy, yo, xo);
      if shouldDraw {
        r := BrushCellStep(e, b, r, cx - radius + xo, cy - radius + yo);
      }
      xo := xo + 1;
    }
  }

  /** `apply_brush` at (cx, cy): the row loop over the pen's box. */
  method BrushLoop(e: EffectSettings, b: BrushSettings, s: Stroke, cx: int, cy: int) returns (r: Stroke)
    requires StrokeOk(s, b.width, b.height) && Unit(e.opacity)
    ensures r == BrushStroke(e, b, s, cx, cy)
  {
    r := s;
    var yo := 0;
    while yo < b.pen
      invariant 0 <= yo <= b.pen
      invariant r == BrushRows(e, b, s, cx, cy, yo)
    {
      r := BrushRowLoop(e, b, r, cx, cy, yo);
      yo := yo + 1;
    }
  }

  /** Whether a stroke step left cell (x, y) and every protected cell as they were, and kept every drawn key. */
  predicate Keeps(s: Stroke, r: Stroke, b: BrushSettings, x: int, y: int)
    requires StrokeOk(s, b.width, b.height) && StrokeOk(r, b.width, b.height)
  {
    s.drawn <= r.drawn &&
    (InCanvas(b.width, b.height, x, y) ==> r.grid[y][x] == s.grid[y][x])
  }

  /** One tracked application changes at most its own cell, and never a cell whose key was drawn under protection. */
  lemma TrackKeeps(e: EffectSettings, b: BrushSettings, s: Stroke, px: int, py: int, x: int, y: int)
    requires StrokeOk(s, b.width, b.height) && Unit(e.opacity)
    requires (px, py) != (x, y) || (b.protect && Key(x, y) in s.drawn)
    ensures Keeps(s, Track(e, b, s, px, py), b, x, y)
  {
  }

  /** One brush cell changes at most the cell and its on-canvas mirror, and no protected cell. */
  lemma BrushCellKeeps(e: EffectSettings, b: BrushSettings, s: Stroke, px: int, py: int, x: int, y: int)
    requires StrokeOk(s, b.width, b.height) && Unit(e.opacity)
    requires ((px, py) != (x, y) && MirrorCell(b, px, py) != Some((x, y))) || !InCanvas(b.width, b.height, px, py) ||
             (b.protect && Key(x, y) in s.drawn)
    ensures Keeps(s, BrushCell(e, b, s, px, py), b, x, y)
  {
    if InCanvas(b.width, b.height, px, py) {
      var s1 := Track(e, b, s, px, py);
      TrackKeeps(e, b, s, px, py, x, y);
      match MirrorCell(b, px, py)
      case None =>
      case Some(m) => TrackKeeps(e, b, s1, m.0, m.1, x, y);
    }
  }

  /** The cell (x, y) is not touched by any drawn offset among the first `n` columns of row `yo`. */
  predicate RowMisses(b: BrushSettings, cx: int, cy: int, yo: nat, n: nat, x: int, y: int)
  {
    forall xo :: 0 <= xo < n && InPen(b.pen, b.shape, xo, yo) ==>
      var p := PenCell(b.pen, cx, cy, xo, yo);
      !InCanvas(b.width, b.height, p.0, p.1) || (p != (x, y) && MirrorCell(b, p.0, p.1) != Some((x, y)))
  }

  lemma {:induction false} BrushRowKeeps(e: EffectSettings, b: BrushSettings, s: Stroke, cx: int, cy: int, yo: nat, n: nat, x: int, y: int)
    requires StrokeOk(s, b.width, b.height) && Unit(e.opacity)
    requires RowMisses(b, cx, cy, yo, n, x, y) || (b.protect && Key(x, y) in s.drawn)
    ensures Keeps(s, BrushRow(e, b, s, cx, cy, yo, n), b, x, y)
  {
    if n > 0 {
      var s0 := BrushRow(e, b, s, cx, cy, yo, n - 1);
      assert RowMisses(b, cx, cy, yo, n - 1, x, y) || (b.protect && Key(x, y) in s.drawn);
      BrushRowKeeps(e, b, s, cx, cy, yo, n - 1, x, y);
      if InPen(b.pen, b.shape, n - 1, yo) {
        var p := PenCell(b.pen, cx, cy, n - 1, yo);
        BrushCellKeeps(e, b, s0, p.0, p.1, x, y);
      }
    }
  }

  lemma {:induction false} BrushRowsKeeps(e: EffectSettings, b: BrushSettings, s: Stroke, cx: int, cy: int, m: nat, x: int, y: int)
    requires StrokeOk(s, b.width, b.height) && Unit(e.opacity) && m <= b.pen
    requires !Touched(b, cx, cy, x, y) || (b.protect && Key(x, y) in s.drawn)
    ensures Keeps(s, BrushRows(e, b, s, cx, cy, m), b, x, y)
  {
    if m > 0 {
      var s0 := BrushRows(e, b, s, cx, cy, m - 1);
      BrushRowsKeeps(e, b, s, cx, cy, m - 1, x, y);
      assert RowMisses(b, cx, cy, m - 1, b.pen, x, y) || (b.protect && Key(x, y) in s0.drawn);
      BrushRowKeeps(e, b, s0, cx, cy, m - 1, b.pen, x, y);
    }
  }

  /**
   * A brush stroke changes no cell outside the pen's footprint and its
   * mirrors, and, with protection on, no cell whose key was already drawn in
   * this stroke; it never forgets a drawn key.
   */
  lemma BrushStrokeKeeps(e: EffectSettings, b: BrushSettings, s: Stroke, cx: int, cy: int, x: int, y: int)
    requires StrokeOk(s, b.width, b.height) && Unit(e.opacity)
    requires !Touched(b, cx, cy, x, y) || (b.protect && Key(x, y) in s.drawn)
    ensures Keeps(s, BrushStroke(e, b, s, cx, cy), b, x, y)
  {
    BrushRowsKeeps(e, b, s, cx, cy, b.pen, x, y);
  }

  // ---------------------------------------------------------------------------
  // Eraser

  /** Erasing an on-canvas cell: it becomes `Pixel::default()`, and its key is recorded under protection. */
  function Erase(b: BrushSettings, s: Stroke, x: nat, y: nat): (r: Stroke)
    requires StrokeOk(s, b.width, b.height) && x < b.width && y < b.height
    ensures StrokeOk(r, b.width, b.height)
    ensures r.grid[y][x] == Transparent()
    ensures forall yy, xx :: 0 <= yy < b.height && 0 <= xx < b.width && (yy, xx) != (y, x) ==> r.grid[yy][xx] == s.grid[yy][xx]
    ensures r.drawn == if b.protect then s.drawn + {Key(x, y)} else s.drawn
  {
    SetPixelOk(s.grid, b.width, b.height, x, y, Transparent());
    Stroke(SetPixel(s.grid, x, y, Transparent()), if b.protect then s.drawn + {Key(x, y)} else s.drawn)
  }

  /**
   * One cell of `erase_brush`: protection is checked for the cell itself
   * only; when it is erased, its on-canvas mirror is erased unconditionally.
   */
  function EraseCell(b: BrushSettings, s: Stroke, x: int, y: int): (r: Stroke)
    requires StrokeOk(s, b.width, b.height)
    ensures StrokeOk(r, b.width, b.height)
  {
    if !InCanvas(b.width, b.height, x, y) then s
    else if b.protect && Key(x, y) in s.drawn then s
    else
      var s1 := Erase(b, s, x, y);
      match MirrorCell(b, x, y)
      case None => s1
      case Some(m) => Erase(b, s1, m.0, m.1)
  }

  function EraseRow(b: BrushSettings, s: Stroke, cx: int, cy: int, yo: nat, n: nat): (r: Stroke)
    requires StrokeOk(s, b.width, b.height)
    ensures StrokeOk(r, b.width, b.height)
  {
    if n == 0 then s
    else
      var s0 := EraseRow(b, s, cx, cy, yo, n - 1);
      if InPen(b.pen, b.shape, n - 1, yo) then
        var p := PenCell(b.pen, cx, cy, n - 1, yo);
        EraseCell(b, s0, p.0, p.1)
      else s0
  }

  function EraseRows(b: BrushSettings, s: Stroke, cx: int, cy: int, m: nat): (r: Stroke)
    requires StrokeOk(s, b.width, b.height)
    ensures StrokeOk(r, b.width, b.height)
  {
    if m == 0 then s
    else EraseRow(b, EraseRows(b, s, cx, cy, m - 1), cx, cy, m - 1, b.pen)
  }

  /** `erase_brush` at (cx, cy) on the active grid, before the final re-composite. */
  function EraseStroke(b: BrushSettings, s: Stroke, cx: int, cy: int): Stroke
    requires StrokeOk(s, b.width, b.height)
  {
    EraseRows(b, s, cx, cy, b.pen)
  }

  /** Every cell is left as it was or made transparent. */
  predicate OnlyCleared(s: Stroke, r: Stroke, w: nat, h: nat)
    requires StrokeOk(s, w, h) && StrokeOk(r, w, h)
  {
    s.drawn <= r.drawn &&
    forall yy, xx :: 0 <= yy < h && 0 <= xx < w ==> r.grid[yy][xx] == s.grid[yy][xx] || r.grid[yy][xx] == Transparent()
  }

  lemma OnlyClearedTransitive(s: Stroke, t: Stroke, r: Stroke, w: nat, h: nat)
    requires StrokeOk(s, w, h) && StrokeOk(t, w, h) && StrokeOk(r, w, h)
    requires OnlyCleared(s, t, w, h) && OnlyCleared(t, r, w, h)
    ensures OnlyCleared(s, r, w, h)
  {
  }

  lemma EraseCellClears(b: BrushSettings, s: Stroke, x: int, y: int)
    requires StrokeOk(s, b.width, b.height)
    ensures OnlyCleared(s, EraseCell(b, s, x, y), b.width, b.height)
  {
    if InCanvas(b.width, b.height, x, y) && !(b.protect && Key(x, y) in s.drawn) {
      var s1 := Erase(b, s, x, y);
      match MirrorCell(b, x, y)
      case None =>
      case Some(m) =>
        OnlyClearedTransitive(s, s1, Erase(b, s1, m.0, m.1), b.width, b.height);
    }
  }

  /**
   * An eraser cell off the canvas, or protected under stroke protection,
   * changes nothing; any other cell and its on-canvas mirror become
   * transparent, and the cell's key is recorded under protection.
   */
  lemma EraseCellErases(b: BrushSettings, s: Stroke, x: int, y: int)
    requires StrokeOk(s, b.width, b.height)
    ensures !InCanvas(b.width, b.height, x, y) || (b.protect && Key(x, y) in s.drawn) ==> EraseCell(b, s, x, y) == s
    ensures InCanvas(b.width, b.height, x, y) && !(b.protect && Key(x, y) in s.drawn) ==>
      var r := EraseCell(b, s, x, y);
      r.grid[y][x] == Transparent() &&
      (b.protect ==> Key(x, y) in r.drawn) &&
      (MirrorCell(b, x, y).Some? ==> r.grid[MirrorCell(b, x, y).value.1][MirrorCell(b, x, y).value.0] == Transparent())
  {
    if InCanvas(b.width, b.height, x, y) && !(b.protect && Key(x, y) in s.drawn) {
      var s1 := Erase(b, s, x, y);
      match MirrorCell(b, x, y)
      case None =>
      case Some(m) =>
        var r := Erase(b, s1, m.0, m.1);
        if (m.1, m.0) != (y, x) {
          assert r.grid[y][x] == s1.grid[y][x];
        }
    }
  }

  /** Whatever the rest of an eraser row does after its first `k` offsets only makes pixels transparent. */
  lemma {:induction false} EraseRowFromPrefix(b: BrushSettings, s: Stroke, cx: int, cy: int, yo: nat, k: nat, n: nat)
    requires StrokeOk(s, b.width, b.height) && k <= n
    ensures OnlyCleared(EraseRow(b, s, cx, cy, yo, k), EraseRow(b, s, cx, cy, yo, n), b.width, b.height)
  {
    if n > k {
      var s0 := EraseRow(b, s, cx, cy, yo, n - 1);
      EraseRowFromPrefix(b, s, cx, cy, yo, k, n - 1);
      if InPen(b.pen, b.shape, n - 1, yo) {
        var p := PenCell(b.pen, cx, cy, n - 1, yo);
        EraseCellClears(b, s0, p.0, p.1);
        OnlyClearedTransitive(EraseRow(b, s, cx, cy, yo, k), s0, EraseCell(b, s0, p.0, p.1), b.width, b.height);
      }
    }
  }

  /** Whatever the eraser rows after the first `k` do only makes pixels transparent. */
  lemma {:induction false} EraseRowsFromPrefix(b: BrushSettings, s: Stroke, cx: int, cy: int, k: nat, m: nat)
    requires StrokeOk(s, b.width, b.height) && k <= m
    ensures OnlyCleared(EraseRows(b, s, cx, cy, k), EraseRows(b, s, cx, cy, m), b.width, b.height)
  {
    if m > k {
      var s0 := EraseRows(b, s, cx, cy, m - 1);
      EraseRowsFromPrefix(b, s, cx, cy, k, m - 1);
      EraseRowClears(b, s0, cx, cy, m - 1, b.pen);
      OnlyClearedTransitive(EraseRows(b, s, cx, cy, k), s0, EraseRow(b, s0, cx, cy, m - 1, b.pen), b.width, b.height);
    }
  }

  /** The stroke state just before the eraser visits offset (xo, yo). */
  function EraseBefore(b: BrushSettings, s: Stroke, cx: int, cy: int, xo: nat, yo: nat): (r: Stroke)
    requires StrokeOk(s, b.width, b.height)
    ensures StrokeOk(r, b.width, b.height)
  {
    EraseRow(b, EraseRows(b, s, cx, cy, yo), cx, cy, yo, xo)
  }

  /**
   * Every on-canvas cell of the eraser's footprint that the earlier steps of
   * the stroke left unprotected ends the stroke transparent, and so does its
   * on-canvas mirror.
   */
  lemma EraseStrokeErases(b: BrushSettings, s: Stroke, cx: int, cy: int, xo: nat, yo: nat)
    requires StrokeOk(s, b.width, b.height) && xo < b.pen && yo < b.pen && InPen(b.pen, b.shape, xo, yo)
    requires InCanvas(b.width, b.height, PenCell(b.pen, cx, cy, xo, yo).0, PenCell(b.pen, cx, cy, xo, yo).1)
    requires !(b.protect && Key(PenCell(b.pen, cx, cy, xo, yo).0, PenCell(b.pen, cx, cy, xo, yo).1) in EraseBefore(b, s, cx, cy, xo, yo).drawn)
    ensures var p, r := PenCell(b.pen, cx, cy, xo, yo), EraseStroke(b, s, cx, cy);
      r.grid[p.1][p.0] == Transparent() &&
      (MirrorCell(b, p.0, p.1).Some? ==> r.grid[MirrorCell(b, p.0, p.1).value.1][MirrorCell(b, p.0, p.1).value.0] == Transparent())
  {
    var p := PenCell(b.pen, cx, cy, xo, yo);
    var after := EraseAfter(b, s, cx, cy, xo, yo);
    EraseCellErases(b, EraseBefore(b, s, cx, cy, xo, yo), p.0, p.1);
    EraseAfterCleared(b, s, cx, cy, xo, yo);
    StaysCleared(after, EraseStroke(b, s, cx, cy), b.width, b.height, p.0, p.1);
    match MirrorCell(b, p.0, p.1)
    case None =>
    case Some(m) => StaysCleared(after, EraseStroke(b, s, cx, cy), b.width, b.height, m.0, m.1);
  }

  /** The stroke state just after the eraser visits offset (xo, yo). */
  function EraseAfter(b: BrushSettings, s: Stroke, cx: int, cy: int, xo: nat, yo: nat): (r: Stroke)
    requires StrokeOk(s, b.width, b.height) && InPen(b.pen, b.shape, xo, yo)
    ensures StrokeOk(r, b.width, b.height)
    ensures var p := PenCell(b.pen, cx, cy, xo, yo); r == EraseCell(b, EraseBefore(b, s, cx, cy, xo, yo), p.0, p.1)
  {
    EraseRow(b, EraseRows(b, s, cx, cy, yo), cx, cy, yo, xo + 1)
  }

  /** After visiting offset (xo, yo), the rest of the stroke only makes pixels transparent. */
  lemma EraseAfterCleared(b: BrushSettings, s: Stroke, cx: int, cy: int, xo: nat, yo: nat)
    requires StrokeOk(s, b.width, b.height) && xo < b.pen && yo < b.pen && InPen(b.pen, b.shape, xo, yo)
    ensures OnlyCleared(EraseAfter(b, s, cx, cy, xo, yo), EraseStroke(b, s, cx, cy), b.width, b.height)
  {
    var s1 := EraseRows(b, s, cx, cy, yo);
    EraseRowFromPrefix(b, s1, cx, cy, yo, xo + 1, b.pen);
    assert EraseRows(b, s, cx, cy, yo + 1) == EraseRow(b, s1, cx, cy, yo, b.pen);
    EraseRowsFromPrefix(b, s, cx, cy, yo + 1, b.pen);
    OnlyClearedTransitive(EraseAfter(b, s, cx, cy, xo, yo), EraseRows(b, s, cx, cy, yo + 1), EraseStroke(b, s, cx, cy), b.width, b.height);
  }

  /** A transparent cell stays transparent through steps that only make pixels transparent. */
  lemma StaysCleared(t: Stroke, r: Stroke, w: nat, h: nat, x: int, y: int)
    requires StrokeOk(t, w, h) && StrokeOk(r, w, h) && OnlyCleared(t, r, w, h)
    requires InCanvas(w, h, x, y) && t.grid[y][x] == Transparent()
    ensures r.grid[y][x] == Transparent()
  {
  }

  /** Without stroke protection every on-canvas footprint cell and its on-canvas mirror end transparent. */
  lemma UnprotectedEraseClears(b: BrushSettings, s: Stroke, cx: int, cy: int, xo: nat, yo: nat)
    requires StrokeOk(s, b.width, b.height) && !b.protect && xo < b.pen && yo < b.pen && InPen(b.pen, b.shape, xo, yo)
    requires InCanvas(b.width, b.height, PenCell(b.pen, cx, cy, xo, yo).0, PenCell(b.pen, cx, cy, xo, yo).1)
    ensures EraseStroke(b, s, cx, cy).grid[PenCell(b.pen, cx, cy, xo, yo).1][PenCell(b.pen, cx, cy, xo, yo).0] == Transparent()
  {
    EraseStrokeErases(b, s, cx, cy, xo, yo);
  }

  lemma {:induction false} EraseRowClears(b: BrushSettings, s: Stroke, cx: int, cy: int, yo: nat, n: nat)
    requires StrokeOk(s, b.width, b.height)
    ensures OnlyCleared(s, EraseRow(b, s, cx, cy, yo, n), b.width, b.height)
  {
    if n > 0 {
      var s0 := EraseRow(b, s, cx, cy, yo, n - 1);
      EraseRowClears(b, s, cx, cy, yo, n - 1);
      if InPen(b.pen, b.shape, n - 1, yo) {
        var p := PenCell(b.pen, cx, cy, n - 1, yo);
        EraseCellClears(b, s0, p.0, p.1);
        OnlyClearedTransitive(s, s0, EraseCell(b, s0, p.0, p.1), b.width, b.height);
      }
    }
  }

  lemma {:induction false} EraseRowsClears(b: BrushSettings, s: Stroke, cx: int, cy: int, m: nat)
    requires StrokeOk(s, b.width, b.height)
    ensures OnlyCleared(s, EraseRows(b, s, cx, cy, m), b.width, b.height)
  {
    if m > 0 {
      var s0 := EraseRows(b, s, cx, cy, m - 1);
      EraseRowsClears(b, s, cx, cy, m - 1);
      EraseRowClears(b, s0, cx, cy, m - 1, b.pen);
      OnlyClearedTransitive(s, s0, EraseRow(b, s0, cx, cy, m - 1, b.pen), b.width, b.height);
    }
  }

  /** The eraser only ever makes pixels transparent, and never forgets a drawn key. */
  lemma EraseStrokeClears(b: BrushSettings, s: Stroke, cx: int, cy: int)
    requires StrokeOk(s, b.width, b.height)
    ensures OnlyCleared(s, EraseStroke(b, s, cx, cy), b.width, b.height)
  {
    EraseRowsClears(b, s, cx, cy, b.pen);
  }

  /** One eraser cell changes at most the cell and its on-canvas mirror, and no cell whose key is protected. */
  lemma EraseCellKeeps(b: BrushSettings, s: Stroke, px: int, py: int, x: int, y: int)
    requires StrokeOk(s, b.width, b.height)
    requires ((px, py) != (x, y) && MirrorCell(b, px, py) != Some((x, y))) || !InCanvas(b.width, b.height, px, py) ||
             (b.protect && Key(x, y) in s.drawn && (px, py) == (x, y))
    ensures Keeps(s, EraseCell(b, s, px, py), b, x, y)
  {
  }

  lemma {:induction false} EraseRowKeeps(b: BrushSettings, s: Stroke, cx: int, cy: int, yo: nat, n: nat, x: int, y: int)
    requires StrokeOk(s, b.width, b.height)
    requires RowMisses(b, cx, cy, yo, n, x, y)
    ensures Keeps(s, EraseRow(b, s, cx, cy, yo, n), b, x, y)
  {
    if n > 0 {
      var s0 := EraseRow(b, s, cx, cy, yo, n - 1);
      EraseRowKeeps(b, s, cx, cy, yo, n - 1, x, y);
      if InPen(b.pen, b.shape, n - 1, yo) {
        var p := PenCell(b.pen, cx, cy, n - 1, yo);
        EraseCellKeeps(b, s0, p.0, p.1, x, y);
      }
    }
  }

  lemma {:induction false} EraseRowsKeeps(b: BrushSettings, s: Stroke, cx: int, cy: int, m: nat, x: int, y: int)
    requires StrokeOk(s, b.width, b.height) && m <= b.pen
    requires !Touched(b, cx, cy, x, y)
    ensures Keeps(s, EraseRows(b, s, cx, cy, m), b, x, y)
  {
    if m > 0 {
      var s0 := EraseRows(b, s, cx, cy, m - 1);
      EraseRowsKeeps(b, s, cx, cy, m - 1, x, y);
      assert RowMisses(b, cx, cy, m - 1, b.pen, x, y);
      EraseRowKeeps(b, s0, cx, cy, m - 1, b.pen, x, y);
    }
  }

  /** The eraser changes no cell outside the pen's footprint and its mirrors. */
  lemma EraseStrokeKeeps(b: BrushSettings, s: Stroke, cx: int, cy: int, x: int, y: int)
    requires StrokeOk(s, b.width, b.height)
    requires !Touched(b, cx, cy, x, y)
    ensures Keeps(s, EraseStroke(b, s, cx, cy), b, x, y)
  {
    EraseRowsKeeps(b, s, cx, cy, b.pen, x, y);
  }

  // ---------------------------------------------------------------------------
  // The eraser loops

  /** One offset of `erase_brush`: unless protected, the cell, then its on-canvas mirror, become transparent. */
  method EraseCellStep(b: BrushSettings, s: Stroke, px: int, py: int) returns (r: Stroke)
    requires StrokeOk(s, b.width, b.height)
    ensures r == EraseCell(b, s, px, py)
  {
    if !(0 <= px < b.width && 0 <= py < b.height) {
      return s;
    }
    var key := (px % 0x1_0000, py % 0x1_0000);
    if b.protect && key in s.drawn {
      return s;
    }
    r := Erase(b, s, px, py);
    var mirrored, mx, my := MirrorAt(b, px, py);
    if mirrored {
      r := Erase(b, r, mx, my);
    }
  }

  /** The column loop of `erase_brush` for pen row `yo`. */
  method EraseRowLoop(b: BrushSettings, s: Stroke, cx: int, cy: int, yo: nat) returns (r: Stroke)
    requires StrokeOk(s, b.width, b.height)
    ensures r == EraseRow(b, s, cx, cy, yo, b.pen)
  {
    var radius := b.pen / 2;
    r := s;
    var xo := 0;
    while xo < b.pen
      invariant 0 <= xo <= b.pen
      invariant r == EraseRow(b, s, cx, cy, yo, xo)
    {
      var shouldErase := ShouldDraw(b.pen, b.shape, xo, yo);
      if shouldErase {
        r := EraseCellStep(b, r, cx - radius + xo, cy - radius + yo);
      }
      xo := xo + 1;
    }
  }

  /** `erase_brush` at (cx, cy), before the final re-composite: the row loop over the pen's box. */
  method EraseLoop(b: BrushSettings, s: Stroke, cx: int, cy: int) returns (r: Stroke)
    requires StrokeOk(s, b.width, b.height)
    ensures r == EraseStroke(b, s, cx, cy)
  {
    r := s;
    var yo := 0;
    while yo < b.pen
      invariant 0 <= yo <= b.pen
      invariant r == EraseRows(b, s, cx, cy, yo)
    {
      r := EraseRowLoop(b, r, cx, cy, yo);
      yo := yo + 1;
    }
  }
}

=== FILE: colorfmt.dfy ===
// Pure colour helpers of the editor: the 256-colour fallback used when the
// terminal lacks true colour, `#RRGGBB` parsing, and the circular hue distance.

module ColorFormats {
  import opened Colors

  /** How colours reach the terminal. */
  datatype ColorMode = TrueColor | Ansi256

  /** The 6-level cube coordinate of one channel: `c·6/256`. */
  function CubeLevel(c: Byte): (l: nat)
    ensures l < 6
  {
    c * 6 / 256
  }

  /** The step of the 24-grey ramp a grey of level `v` (8..248) falls on: `(v − 8)·24/247`. */
  function GreyStep(v: Byte): (k: nat)
    requires 8 <= v <= 248
    ensures k < 24
  {
    (v - 8) * 24 / 247
  }

  /**
   * `translate_color`: in true-colour mode the colour is kept; otherwise greys
   * map to 16 (near black), 231 (near white) or the grey ramp 232..255, and
   * every other colour to the 6×6×6 cube 16..231.
   */
  function TranslateColor(mode: ColorMode, c: Color): (r: Color)
    ensures mode == TrueColor ==> r == c
    ensures mode == Ansi256 ==> r.Indexed? && 16 <= r.index <= 255
    ensures mode == Ansi256 && ToRgb(c).r == ToRgb(c).g == ToRgb(c).b ==>
      r.index == 16 || r.index == 231 || 232 <= r.index
    ensures mode == Ansi256 && !(ToRgb(c).r == ToRgb(c).g == ToRgb(c).b) ==> r.index <= 231
  {
    if mode == TrueColor then c
    else
      var t := ToRgb(c);
      if t.r == t.g && t.g == t.b then
        if t.r < 8 then Indexed(16)
        else if t.r > 248 then Indexed(231)
        else Indexed(232 + GreyStep(t.r))
      else
        Indexed(16 + CubeLevel(t.r) * 36 + CubeLevel(t.g) * 6 + CubeLevel(t.b))
  }

  /** A non-grey colour's cube index decodes back into its three channel levels. */
  lemma TranslateCubeDecodes(c: Color)
    requires ToRgb(c).r != ToRgb(c).g || ToRgb(c).g != ToRgb(c).b
    ensures var k := TranslateColor(Ansi256, c).index - 16;
      k / 36 == CubeLevel(ToRgb(c).r) && (k / 6) % 6 == CubeLevel(ToRgb(c).g) && k % 6 == CubeLevel(ToRgb(c).b)
  {
    var t := ToRgb(c);
    Base6Digits(CubeLevel(t.r), CubeLevel(t.g), CubeLevel(t.b));
  }

  /** Three base-6 digits read back from the number they spell. */
  lemma Base6Digits(a: nat, b: nat, d: nat)
    requires a < 6 && b < 6 && d < 6
    ensures var k := a * 36 + b * 6 + d;
      k / 36 == a && (k / 6) % 6 == b && k % 6 == d
  {
    var k := a * 36 + b * 6 + d;
    assert k == (a * 6 + b) * 6 + d;
    assert k / 6 == a * 6 + b;
    assert k == a * 36 + (b * 6 + d) && b * 6 + d < 36;
  }

  /** Along the grey ramp (8..248) the index never decreases as the grey gets lighter. */
  lemma TranslateGreyMonotone(v: Byte, w: Byte)
    requires 8 <= v <= w <= 248
    ensures 232 <= TranslateColor(Ansi256, Rgb(v, v, v)).index <= TranslateColor(Ansi256, Rgb(w, w, w)).index
  {
    var a, b := (v - 8) * 24, (w - 8) * 24;
    assert a <= b;
    var q := b / 247;
    assert b < 247 * (q + 1);
    assert a / 247 <= q;
    assert GreyStep(v) <= GreyStep(w);
  }

  /** The value of a hexadecimal digit, either case. */
  function HexDigit(ch: char): Option<int>
  {
    if '0' <= ch <= '9' then Some(ch as int - '0' as int)
    else if 'a' <= ch <= 'f' then Some(ch as int - 'a' as int + 10)
    else if 'A' <= ch <= 'F' then Some(ch as int - 'A' as int + 10)
    else None
  }

  /** 16 to the power `n`. */
  function Pow16(n: nat): (r: int)
    ensures r >= 1
  {
    if n == 0 then 1 else 16 * Pow16(n - 1)
  }

  /** The digits of a hexadecimal literal, most significant first. */
  function HexValue(s: string): (r: Option<int>)
    ensures r.Some? <==> forall i :: 0 <= i < |s| ==> HexDigit(s[i]).Some?
    ensures r.Some? ==> 0 <= r.value < Pow16(|s|)
  {
    if s == [] then Some(0)
    else match (HexValue(s[..|s| - 1]), HexDigit(s[|s| - 1]))
      case (Some(hi), Some(lo)) => Some(hi * 16 + lo)
      case _ => None
  }

  /**
   * `u8::from_str_radix(s, 16)`: an optional leading `+` followed by at least
   * one hex digit, with a value below 256.
   */
  function ParseU8Hex(s: string): (r: Option<Byte>)
    ensures var d := if |s| > 0 && s[0] == '+' then s[1..] else s;
      r.Some? <==> d != [] && (forall i :: 0 <= i < |d| ==> HexDigit(d[i]).Some?) && HexValue(d).value < 256
    ensures var d := if |s| > 0 && s[0] == '+' then s[1..] else s;
      r.Some? ==> r.value == HexValue(d).value
  {
    var digits := if |s| > 0 && s[0] == '+' then s[1..] else s;
    if digits == [] then None
    else match HexValue(digits)
      case Some(v) => if v < 256 then var b: Byte := v; Some(b) else None
      case None => None
  }

  /** The text is plain ASCII, so its byte length is its character count. */
  predicate IsAscii(s: string)
  {
    forall i :: 0 <= i < |s| ==> s[i] as int < 128
  }

  /**
   * `parse_hex_color`: strips one leading `#`, demands exactly six bytes and
   * parses three two-character channel fields.
   */
  function ParseHexColor(s: string): (r: Option<Color>)
    requires IsAscii(s)
    ensures r.Some? ==> r.value.Rgb?
    ensures r.Some? ==> |s| == 6 || (|s| == 7 && s[0] == '#')
  {
    var h := if |s| > 0 && s[0] == '#' then s[1..] else s;
    if |h| != 6 then None
    else match (ParseU8Hex(h[0..2]), ParseU8Hex(h[2..4]), ParseU8Hex(h[4..6]))
      case (Some(r), Some(g), Some(b)) => Some(Rgb(r, g, b))
      case _ => None
  }

  /** The lower-case hexadecimal digit for a value below 16. */
  function HexChar(d: int): char
    requires 0 <= d < 16
  {
    if d < 10 then ('0' as int + d) as char else ('a' as int + d - 10) as char
  }

  /** The `#rrggbb` spelling of a triple. */
  function FormatHex(t: Triple): (s: string)
    ensures |s| == 7 && s[0] == '#' && IsAscii(s)
  {
    ['#', HexChar(t.r / 16), HexChar(t.r % 16), HexChar(t.g / 16), HexChar(t.g % 16), HexChar(t.b / 16), HexChar(t.b % 16)]
  }

  lemma HexCharDigit(d: int)
    requires 0 <= d < 16
    ensures HexDigit(HexChar(d)) == Some(d)
  {
  }

  lemma ParseTwoDigits(c: Byte)
    ensures ParseU8Hex([HexChar(c / 16), HexChar(c % 16)]) == Some(c)
  {
    var s := [HexChar(c / 16), HexChar(c % 16)];
    HexCharDigit(c / 16);
    HexCharDigit(c % 16);
    assert s[..1][..0] == [];
    assert s[..1] == [HexChar(c / 16)];
    assert HexValue(s[..1]) == Some(c / 16);
    assert HexValue(s) == Some(c / 16 * 16 + c % 16);
  }

  /** Formatting a triple and parsing it back gives the same colour, with or without the `#`. */
  lemma ParseFormatRoundTrip(t: Triple)
    ensures ParseHexColor(FormatHex(t)) == Some(FromTriple(t))
    ensures ParseHexColor(FormatHex(t)[1..]) == Some(FromTriple(t))
  {
    var s := FormatHex(t);
    var h := s[1..];
    ParseTwoDigits(t.r);
    ParseTwoDigits(t.g);
    ParseTwoDigits(t.b);
    assert h[0..2] == [HexChar(t.r / 16), HexChar(t.r % 16)];
    assert h[2..4] == [HexChar(t.g / 16), HexChar(t.g % 16)];
    assert h[4..6] == [HexChar(t.b / 16), HexChar(t.b % 16)];
    assert h[0] != '#';
  }

  /** Input that is not 6 characters after removing one `#` is refused. */
  lemma ParseHexRejectsLength(s: string)
    requires IsAscii(s)
    requires |s| != 6 && |s| != 7
    ensures ParseHexColor(s) == None
  {
  }

  /** `hue_distance`: the shorter way round the colour wheel. */
  function HueDistance(h1: real, h2: real): (d: real)
    ensures 0.0 <= h1 < 360.0 && 0.0 <= h2 < 360.0 ==> 0.0 <= d <= 180.0
  {
    var diff := if h1 - h2 >= 0.0 then h1 - h2 else h2 - h1;
    if diff > 180.0 then 360.0 - diff else diff
  }

  /** The distance does not depend on the order of its arguments, and a hue is at distance 0 from itself. */
  lemma HueDistanceSymmetric(h1: real, h2: real)
    ensures HueDistance(h1, h2) == HueDistance(h2, h1)
    ensures HueDistance(h1, h1) == 0.0
  {
  }
}

=== FILE: colors.dfy ===
// Colour primitives shared by every drawing operation: the terminal colour
// type, its conversion to an RGB triple, and linear blending of two colours.

module Colors {

  datatype Option<T> = None | Some(value: T)

  /** An 8-bit channel value (Rust `u8`). */
  type Byte = x: int | 0 <= x < 256

  /** An (r, g, b) triple, the result of `to_rgb` and the colour stored in a pixel. */
  datatype Triple = Triple(r: Byte, g: Byte, b: Byte)

  /** The terminal colour type: sixteen named colours, `Reset`, 24-bit `Rgb` and 256-colour `Indexed`. */
  datatype Color =
    | Reset
    | Black | Red | Green | Yellow | Blue | Magenta | Cyan | Gray
    | DarkGray | LightRed | LightGreen | LightYellow | LightBlue | LightMagenta | LightCyan | White
    | Rgb(r: Byte, g: Byte, b: Byte)
    | Indexed(index: Byte)

  /** The colour a stored triple converts back into. */
  function FromTriple(t: Triple): Color
  {
    Rgb(t.r, t.g, t.b)
  }

  /** The RGB triple of a colour; variants without a fixed triple read as black. */
  function ToRgb(c: Color): Triple
  {
    match c
    case Rgb(r, g, b) => Triple(r, g, b)
    case Black => Triple(0, 0, 0)
    case Red => Triple(255, 0, 0)
    case Green => Triple(0, 255, 0)
    case Yellow => Triple(255, 255, 0)
    case Blue => Triple(0, 0, 255)
    case Magenta => Triple(255, 0, 255)
    case Cyan => Triple(0, 255, 255)
    case Gray => Triple(128, 128, 128)
    case DarkGray => Triple(64, 64, 64)
    case LightRed => Triple(255, 128, 128)
    case LightGreen => Triple(128, 255, 128)
    case LightYellow => Triple(255, 255, 128)
    case LightBlue => Triple(128, 128, 255)
    case LightMagenta => Triple(255, 128, 255)
    case LightCyan => Triple(128, 255, 255)
    case White => Triple(255, 255, 255)
    case _ => Triple(0, 0, 0)
  }

  /** Sum of the three channels, the brightness used by the Lighter/Darker searches. */
  function Brightness(t: Triple): int
  {
    t.r + t.g + t.b
  }

  /** `f32::round`: halves are rounded away from zero. */
  function Round(x: real): int
  {
    if x >= 0.0 then (x + 0.5).Floor else -((-x + 0.5).Floor)
  }

  /** The saturating `as u8` cast of a rounded value. */
  function SaturateU8(i: int): Byte
  {
    if i < 0 then 0 else if i > 255 then 255 else i
  }

  /** One channel of a blend: `round(a·(1−f) + b·f) as u8`. */
  function BlendChannel(a: Byte, b: Byte, factor: real): Byte
  {
    SaturateU8(Round(a as real * (1.0 - factor) + b as real * factor))
  }

  /** Linear interpolation from `c1` (factor 0) to `c2` (factor 1), always as an `Rgb` colour. */
  function BlendColors(c1: Color, c2: Color, factor: real): (r: Color)
    ensures r.Rgb?
  {
    var t1 := ToRgb(c1);
    var t2 := ToRgb(c2);
    Rgb(BlendChannel(t1.r, t2.r, factor), BlendChannel(t1.g, t2.g, factor), BlendChannel(t1.b, t2.b, factor))
  }

  /** Rounding an integer-valued real gives that integer back. */
  lemma RoundOfInteger(n: int)
    ensures Round(n as real) == n
  {
    if n >= 0 {
      assert (n as real + 0.5).Floor == n;
    } else {
      assert (-(n as real) + 0.5).Floor == -n;
    }
  }

  /** A real lying between two bytes rounds to a value between them. */
  lemma RoundBetween(v: real, lo: int, hi: int)
    requires 0 <= lo <= hi <= 255
    requires lo as real <= v <= hi as real
    ensures lo <= Round(v) <= hi
    ensures SaturateU8(Round(v)) == Round(v)
  {
    assert v >= 0.0;
    var f := (v + 0.5).Floor;
    assert f as real <= v + 0.5 < f as real + 1.0;
  }

  /** `a·(1−f) + b·f` lies between `a` and `b` for a factor in [0,1]. */
  lemma InterpolationBetween(a: int, b: int, factor: real)
    requires 0.0 <= factor <= 1.0
    ensures var v := a as real * (1.0 - factor) + b as real * factor;
      (if a <= b then a else b) as real <= v <= (if a <= b then b else a) as real
  {
    var v := a as real * (1.0 - factor) + b as real * factor;
    assert v == a as real + (b - a) as real * factor;
    if a <= b {
      assert 0.0 <= (b - a) as real * factor <= (b - a) as real;
    } else {
      assert (b - a) as real <= (b - a) as real * factor <= 0.0;
    }
  }

  /** A blended channel lies between the two input channels. */
  lemma BlendChannelBetween(a: Byte, b: Byte, factor: real)
    requires 0.0 <= factor <= 1.0
    ensures (if a <= b then a else b) <= BlendChannel(a, b, factor) <= (if a <= b then b else a)
  {
    InterpolationBetween(a, b, factor);
    var v := a as real * (1.0 - factor) + b as real * factor;
    RoundBetween(v, if a <= b then a else b, if a <= b then b else a);
  }

  /** Factor 0 yields `c1`'s triple and factor 1 yields `c2`'s. */
  lemma BlendEndpoints(c1: Color, c2: Color)
    ensures BlendColors(c1, c2, 0.0) == FromTriple(ToRgb(c1))
    ensures BlendColors(c1, c2, 1.0) == FromTriple(ToRgb(c2))
  {
    var t1, t2 := ToRgb(c1), ToRgb(c2);
    RoundOfInteger(t1.r); RoundOfInteger(t1.g); RoundOfInteger(t1.b);
    RoundOfInteger(t2.r); RoundOfInteger(t2.g); RoundOfInteger(t2.b);
    assert t1.r as real * (1.0 - 0.0) + t2.r as real * 0.0 == t1.r as real;
    assert t1.g as real * (1.0 - 0.0) + t2.g as real * 0.0 == t1.g as real;
    assert t1.b as real * (1.0 - 0.0) + t2.b as real * 0.0 == t1.b as real;
    assert t1.r as real * (1.0 - 1.0) + t2.r as real * 1.0 == t2.r as real;
    assert t1.g as real * (1.0 - 1.0) + t2.g as real * 1.0 == t2.g as real;
    assert t1.b as real * (1.0 - 1.0) + t2.b as real * 1.0 == t2.b as real;
  }

  /** For a factor in [0,1], every output channel lies between the inputs' channels. */
  lemma BlendBetween(c1: Color, c2: Color, factor: real)
    requires 0.0 <= factor <= 1.0
    ensures var t1, t2, t := ToRgb(c1), ToRgb(c2), ToRgb(BlendColors(c1, c2, factor));
      (if t1.r <= t2.r then t1.r else t2.r) <= t.r <= (if t1.r <= t2.r then t2.r else t1.r) &&
      (if t1.g <= t2.g then t1.g else t2.g) <= t.g <= (if t1.g <= t2.g then t2.g else t1.g) &&
      (if t1.b <= t2.b then t1.b else t2.b) <= t.b <= (if t1.b <= t2.b then t2.b else t1.b)
  {
    var t1, t2 := ToRgb(c1), ToRgb(c2);
    BlendChannelBetween(t1.r, t2.r, factor);
    BlendChannelBetween(t1.g, t2.g, factor);
    BlendChannelBetween(t1.b, t2.b, factor);
  }

  /** Blending a colour with itself gives its own triple, whatever the factor. */
  lemma BlendSelf(c: Color, factor: real)
    ensures BlendColors(c, c, factor) == FromTriple(ToRgb(c))
  {
    var t := ToRgb(c);
    assert t.r as real * (1.0 - factor) + t.r as real * factor == t.r as real;
    assert t.g as real * (1.0 - factor) + t.g as real * factor == t.g as real;
    assert t.b as real * (1.0 - factor) + t.b as real * factor == t.b as real;
    RoundOfInteger(t.r); RoundOfInteger(t.g); RoundOfInteger(t.b);
  }

  /** `to_rgb` returns the stored triple of an `Rgb` colour and black for `Reset` and `Indexed`. */
  lemma ToRgbCases(t: Triple, i: Byte)
    ensures ToRgb(FromTriple(t)) == t
    ensures ToRgb(Reset) == Triple(0, 0, 0) && ToRgb(Indexed(i)) == Triple(0, 0, 0)
    ensures ToRgb(White) == Triple(255, 255, 255) && ToRgb(Black) == Triple(0, 0, 0)
  {
  }
}

=== FILE: commands.dfy ===
// The command table of the `:` command line and the actions modelled from
// it: `merge_down`, the `layer_opacity` setter, and the range-checked `u16`,
// `f32` and boolean setters as `execute_command` dispatches them.

module Commands {
  import opened Colors
  import opened Pixels
  import opened Brush
  import opened Text
  import opened Editor

  /** How a command is executed, with the accepted range of a numeric setter. */
  datatype Kind =
    | Action
    | SetterBool
    | SetterU16(min: nat, max: nat)
    | SetterF32(low: real, high: real)
    | SetterString
    | Complex

  /** An entry of `COMMANDS`: its name, its usage line and how it runs. */
  datatype Command = Entry(name: string, usage: string, kind: Kind)

  function PartOne(): (r: seq<Command>)
    ensures |r| == 11
  {
    [ Entry("help", "help", Action),
      Entry("quit", "quit", Action),
      Entry("q", "q", Action),
      Entry("undo", "undo", Action),
      Entry("redo", "redo", Action),
      Entry("clear", "clear", Action),
      Entry("resize", "resize", Action),
      Entry("keybindings:reset", "keybindings:reset", Action),
      Entry("edit_script", "edit_script", Action),
      Entry("draw_script", "draw_script", Action),
      Entry("minimap", "minimap={true|false}", SetterBool) ]
  }

  function PartTwo(): (r: seq<Command>)
    ensures |r| == 11
  {
    [ Entry("highlighter", "highlighter={true|false}", SetterBool),
      Entry("protectStroke", "protectStroke={true|false}", SetterBool),
      Entry("mouseEvents", "mouseEvents={true|false}", SetterBool),
      Entry("penSizeSensitivity", "penSizeSensitivity={1-20}", SetterU16(1, 20)),
      Entry("highlighterMode", "highlighterMode={0|1}", SetterU16(0, 1)),
      Entry("spraySize", "spraySize={1-50}", SetterU16(1, 50)),
      Entry("spraySpeed", "spraySpeed={1-100}", SetterU16(1, 100)),
      Entry("opacitySensitivity", "opacitySensitivity={0.01-0.5}", SetterF32(0.01, 0.5)),
      Entry("highlighterValue", "highlighterValue={0.0-1.0}", SetterF32(0.0, 1.0)),
      Entry("pencilDensity", "pencilDensity={0.01-1.0}", SetterF32(0.01, 1.0)),
      Entry("applyColorSec", "applyColorSec={0.05-2.0}", SetterF32(0.05, 2.0)) ]
  }

  function PartThree(): (r: seq<Command>)
    ensures |r| == 11
  {
    [ Entry("sprayIntensity", "sprayIntensity={0.01-1.0}", SetterF32(0.01, 1.0)),
      Entry("penShape", "penShape={circular|square}", SetterString),
      Entry("canvasScrollAction", "canvasScrollAction={ChangePenSize|ChangeOpacity}", SetterString),
      Entry("save", "save <name.consolet> [-a mins] [-p path] [-f]", Complex),
      Entry("load", "load <name.consolet>", Complex),
      Entry("export", "export [-o path] [-u scale] [-bg]", Complex),
      Entry("import", "import palette <path>", Complex),
      Entry("colorpalette", "colorpalette:<name>", Complex),
      Entry("colorpalette:", "colorpalette:<name>", Complex),
      Entry("savepalette:", "savepalette:<name>", Complex),
      Entry("colorpalette_image", "colorpalette_image [--add]", Complex) ]
  }

  function PartFour(): (r: seq<Command>)
    ensures |r| == 11
  {
    [ Entry("keybindings", "keybindings", Action),
      Entry("config", "config", Action),
      Entry("colorMode", "colorMode={TrueColor|Ansi256}", SetterString),
      Entry("layer_opacity", "layer_opacity=<value>", SetterF32(0.0, 1.0)),
      Entry("rename_layer", "rename_layer=<name>", SetterString),
      Entry("export_mode", "export_mode=<mode>", SetterString),
      Entry("onion_opacity", "onion_opacity=<value>", SetterF32(0.0, 1.0)),
      Entry("onion_skin", "onion_skin=<true|false>", SetterBool),
      Entry("add_layer", "add_layer", Action),
      Entry("delete_layer", "delete_layer", Action),
      Entry("merge_down", "merge_down", Action) ]
  }

  /** `COMMANDS`, in table order. */
  function Commands(): (r: seq<Command>)
    ensures |r| == 44
  {
    PartOne() + PartTwo() + PartThree() + PartFour()
  }

  /** The command names, in table order. */
  function Names(cs: seq<Command>): (r: seq<string>)
    ensures |r| == |cs| && forall i :: 0 <= i < |cs| ==> r[i] == cs[i].name
  {
    seq(|cs|, i requires 0 <= i < |cs| => cs[i].name)
  }

  /** No name occurs twice. */
  predicate Distinct(names: seq<string>)
  {
    forall i, j :: 0 <= i < j < |names| ==> names[i] != names[j]
  }

  /** No name of `a` occurs in `b`. */
  predicate Apart(a: seq<string>, b: seq<string>)
  {
    forall i, j :: 0 <= i < |a| && 0 <= j < |b| ==> a[i] != b[j]
  }

  lemma DistinctJoin(a: seq<string>, b: seq<string>)
    requires Distinct(a) && Distinct(b) && Apart(a, b)
    ensures Distinct(a + b)
  {
    forall i, j | 0 <= i < j < |a + b| ensures (a + b)[i] != (a + b)[j] {
      if j < |a| {
        assert (a + b)[i] == a[i] && (a + b)[j] == a[j];
      } else if i < |a| {
        assert (a + b)[i] == a[i] && (a + b)[j] == b[j - |a|];
      } else {
        assert (a + b)[i] == b[i - |a|] && (a + b)[j] == b[j - |a|];
      }
    }
  }

  lemma ApartJoin(a: seq<string>, b: seq<string>, c: seq<string>)
    requires Apart(a, c) && Apart(b, c)
    ensures Apart(a + b, c)
  {
    forall i, j | 0 <= i < |a + b| && 0 <= j < |c| ensures (a + b)[i] != c[j] {
      if i < |a| { assert (a + b)[i] == a[i]; } else { assert (a + b)[i] == b[i - |a|]; }
    }
  }

  lemma {:induction false} NamesAppend(xs: seq<Command>, ys: seq<Command>)
    ensures Names(xs + ys) == Names(xs) + Names(ys)
  {
    var r := Names(xs + ys);
    assert forall i :: 0 <= i < |xs| ==> r[i] == (xs + ys)[i].name == xs[i].name;
    assert forall i :: |xs| <= i < |r| ==> r[i] == (xs + ys)[i].name == ys[i - |xs|].name;
  }

  /** The names of the `k`-th eleven entries of `COMMANDS`, written out. */
  function PartNames(k: nat): (r: seq<string>)
    requires k < 4
    ensures |r| == 11
  {
    match k
    case 0 => ["help", "quit", "q", "undo", "redo", "clear", "resize", "keybindings:reset", "edit_script", "draw_script", "minimap"]
    case 1 => ["highlighter", "protectStroke", "mouseEvents", "penSizeSensitivity", "highlighterMode", "spraySize", "spraySpeed", "opacitySensitivity", "highlighterValue", "pencilDensity", "applyColorSec"]
    case 2 => ["sprayIntensity", "penShape", "canvasScrollAction", "save", "load", "export", "import", "colorpalette", "colorpalette:", "savepalette:", "colorpalette_image"]
    case 3 => ["keybindings", "config", "colorMode", "layer_opacity", "rename_layer", "export_mode", "onion_opacity", "onion_skin", "add_layer", "delete_layer", "merge_down"]
  }

  lemma NamesOne()
    ensures Names(PartOne()) == PartNames(0)
  {
  }

  lemma NamesTwo()
    ensures Names(PartTwo()) == PartNames(1)
  {
  }

  lemma NamesThree()
    ensures Names(PartThree()) == PartNames(2)
  {
  }

  lemma NamesFour()
    ensures Names(PartFour()) == PartNames(3)
  {
  }

  lemma FirstNamesDistinct()
    ensures Distinct(PartNames(0))
  {
  }

  lemma SecondNamesDistinct()
    ensures Distinct(PartNames(1))
  {
  }

  lemma ThirdNamesDistinct()
    ensures Distinct(PartNames(2))
  {
  }

  lemma FourthNamesDistinct()
    ensures Distinct(PartNames(3))
  {
  }

  lemma ListsApartFromOne()
    ensures Apart(PartNames(0), PartNames(1))
    ensures Apart(PartNames(0), PartNames(2))
    ensures Apart(PartNames(0), PartNames(3))
  {
  }

  lemma ListsApartFromTwo()
    ensures Apart(PartNames(1), PartNames(2))
    ensures Apart(PartNames(1), PartNames(3))
  {
  }

  lemma ListsApartFromThree()
    ensures Apart(PartNames(2), PartNames(3))
  {
  }

  /** No two entries of `COMMANDS` share a name, so the lookup by name is unambiguous. */
  lemma CommandNamesDistinct()
    ensures Distinct(Names(Commands()))
  {
    var a, b, c, d := Names(PartOne()), Names(PartTwo()), Names(PartThree()), Names(PartFour());
    NamesOne(); NamesTwo(); NamesThree(); NamesFour();
    FirstNamesDistinct();
    SecondNamesDistinct();
    ThirdNamesDistinct();
    FourthNamesDistinct();
    ListsApartFromOne();
    ListsApartFromTwo();
    ListsApartFromThree();
    DistinctJoin(a, b);
    ApartJoin(a, b, c);
    DistinctJoin(a + b, c);
    ApartJoin(a, b, d);
    ApartJoin(a + b, c, d);
    DistinctJoin(a + b + c, d);
    NamesAppend(PartOne(), PartTwo());
    NamesAppend(PartOne() + PartTwo(), PartThree());
    NamesAppend(PartOne() + PartTwo() + PartThree(), PartFour());
  }

  /** The lookup `execute_command` performs: the first entry named `name`. */
  function Lookup(cs: seq<Command>, name: string): (r: Option<Command>)
    ensures r.None? <==> forall i :: 0 <= i < |cs| ==> cs[i].name != name
    ensures r.Some? ==> r.value in cs && r.value.name == name
  {
    if cs == [] then None
    else if cs[0].name == name then Some(cs[0])
    else Lookup(cs[1..], name)
  }

  /** With distinct names, looking up an entry's name finds that entry. */
  lemma {:induction false} LookupFinds(cs: seq<Command>, i: nat)
    requires Distinct(Names(cs)) && i < |cs|
    ensures Lookup(cs, cs[i].name) == Some(cs[i])
  {
    if i > 0 {
      assert Names(cs)[0] != Names(cs)[i];
      var rest := cs[1..];
      assert Names(rest) == Names(cs)[1..];
      assert rest[i - 1] == cs[i];
      LookupFinds(rest, i - 1);
    }
  }

  /** Looking up the name of the table's entry `i` finds that entry. */
  lemma TableLookup(i: nat)
    requires i < |Commands()|
    ensures Lookup(Commands(), Commands()[i].name) == Some(Commands()[i])
  {
    CommandNamesDistinct();
    LookupFinds(Commands(), i);
  }

  /** The four `u16` setters of the table, with the ranges they accept. */
  predicate IsU16Setter(c: Command)
  {
    c == Entry("penSizeSensitivity", "penSizeSensitivity={1-20}", SetterU16(1, 20)) ||
    c == Entry("highlighterMode", "highlighterMode={0|1}", SetterU16(0, 1)) ||
    c == Entry("spraySize", "spraySize={1-50}", SetterU16(1, 50)) ||
    c == Entry("spraySpeed", "spraySpeed={1-100}", SetterU16(1, 100))
  }

  lemma U16InParts()
    ensures forall k :: 0 <= k < 11 ==> !PartOne()[k].kind.SetterU16?
    ensures forall k :: 0 <= k < 11 && PartTwo()[k].kind.SetterU16? ==> IsU16Setter(PartTwo()[k])
    ensures forall k :: 0 <= k < 11 ==> !PartThree()[k].kind.SetterU16?
    ensures forall k :: 0 <= k < 11 ==> !PartFour()[k].kind.SetterU16?
  {
  }

  /**
   * Every entry of `COMMANDS` of the `u16` setter kind is one of the four
   * setters, with its documented range.
   */
  lemma U16Ranges(c: Command)
    requires c in Commands() && c.kind.SetterU16?
    ensures IsU16Setter(c)
  {
    U16InParts();
    var i :| 0 <= i < |Commands()| && Commands()[i] == c;
    var a, b, d, e := PartOne(), PartTwo(), PartThree(), PartFour();
    assert Commands() == a + b + d + e;
    if 11 <= i < 22 {
      assert c == b[i - 11];
    }
  }

  // ---------------------------------------------------------------------------
  // Setter values

  /** What `execute_command` makes of a setter's value: rejected, out of range, or accepted. */
  datatype Outcome<T> = Invalid | OutOfRange | Accept(value: T)

  /** A `u16` setter's value: it must parse as `u16` and lie in the command's range. */
  function U16Value(kind: Kind, value: string): (r: Outcome<nat>)
    requires kind.SetterU16?
    ensures r.Accept? <==> ParseU16(value).Some? && kind.min <= ParseU16(value).value <= kind.max
    ensures r.Accept? ==> r.value == ParseU16(value).value && kind.min <= r.value <= kind.max
    ensures r.Invalid? <==> ParseU16(value).None?
  {
    match ParseU16(value)
    case None => Invalid
    case Some(v) => if kind.min <= v <= kind.max then Accept(v) else OutOfRange
  }

  /** An `f32` setter's value, given the result of `parse::<f32>` (float parsing is not modelled). */
  function F32Value(kind: Kind, parsed: Option<real>): (r: Outcome<real>)
    requires kind.SetterF32?
    ensures r.Accept? <==> parsed.Some? && kind.low <= parsed.value <= kind.high
    ensures r.Accept? ==> r.value == parsed.value && kind.low <= r.value <= kind.high
    ensures r.Invalid? <==> parsed.None?
  {
    match parsed
    case None => Invalid
    case Some(v) => if kind.low <= v <= kind.high then Accept(v) else OutOfRange
  }

  /** `parse::<bool>`: exactly "true" or "false". */
  function BoolValue(value: string): (r: Outcome<bool>)
    ensures r.Accept? <==> value == "true" || value == "false"
    ensures r.Accept? ==> (r.value <==> value == "true")
    ensures !r.OutOfRange?
  {
    if value == "true" then Accept(true) else if value == "false" then Accept(false) else Invalid
  }

  /** The status message of a `u16` setter. */
  function U16Message(c: Command, o: Outcome<nat>): string
    requires c.kind.SetterU16?
  {
    match o
    case Invalid => "Invalid value. Usage: " + c.usage
    case OutOfRange => "Value out of range (" + NatToString(c.kind.min) + "-" + NatToString(c.kind.max) + ")."
    case Accept(v) => "Set " + c.name + " to " + NatToString(v)
  }

  /**
   * A `u16` setter command `c` with value text `value`: the field the command
   * names is set only when the value parses and lies in the command's range;
   * the status reports the value, the range, or the usage.
   */
  method SetU16(app: App, c: Command, value: string)
    requires c.kind.SetterU16?
    modifies app`penSizeSensitivity, app`highlighterMode, app`spraySize, app`spraySpeed, app`status
    ensures var o := U16Value(c.kind, value);
      app.penSizeSensitivity == (if c.name == "penSizeSensitivity" && o.Accept? then o.value % 0x1_0000 else old(app.penSizeSensitivity)) &&
      app.highlighterMode == (if c.name == "highlighterMode" && o.Accept? then (if o.value == 0 then Underscore else Blend) else old(app.highlighterMode)) &&
      app.spraySize == (if c.name == "spraySize" && o.Accept? then o.value % 0x1_0000 else old(app.spraySize)) &&
      app.spraySpeed == (if c.name == "spraySpeed" && o.Accept? then o.value % 0x1_0000 else old(app.spraySpeed)) &&
      app.status == Some(U16Message(c, o))
  {
    var o := U16Value(c.kind, value);
    if o.Accept? {
      var v := o.value % 0x1_0000;
      if c.name == "penSizeSensitivity" {
        app.penSizeSensitivity := v;
      } else if c.name == "highlighterMode" {
        app.highlighterMode := if v == 0 then Underscore else Blend;
      } else if c.name == "spraySize" {
        app.spraySize := v;
      } else if c.name == "spraySpeed" {
        app.spraySpeed := v;
      }
    }
    app.status := Some(U16Message(c, o));
  }

  /**
   * Through the table, a `u16` setter found by name accepts a value only
   * inside that setter's documented range.
   */
  lemma U16SettersInRange(name: string, value: string)
    requires Lookup(Commands(), name).Some? && Lookup(Commands(), name).value.kind.SetterU16?
    ensures var c := Lookup(Commands(), name).value;
      var o := U16Value(c.kind, value);
      o.Accept? ==>
        (name == "penSizeSensitivity" && 1 <= o.value <= 20) ||
        (name == "highlighterMode" && 0 <= o.value <= 1) ||
        (name == "spraySize" && 1 <= o.value <= 50) ||
        (name == "spraySpeed" && 1 <= o.value <= 100)
  {
    U16Ranges(Lookup(Commands(), name).value);
  }

  /**
   * A boolean setter command `c` with value text `value`: the flag it names
   * is set when the value is "true" or "false"; otherwise only the usage is
   * reported.
   */
  method SetBool(app: App, c: Command, value: string)
    requires c.kind.SetterBool?
    modifies app`minimapMode, app`highlighterEnabled, app`protectStroke, app`mouseEvents, app`onionSkinEnabled, app`status
    ensures var o := BoolValue(value);
      app.minimapMode == (if c.name == "minimap" && o.Accept? then (if o.value then MinimapMode.On else MinimapMode.Off) else old(app.minimapMode)) &&
      app.highlighterEnabled == (if c.name == "highlighter" && o.Accept? then o.value else old(app.highlighterEnabled)) &&
      app.protectStroke == (if c.name == "protectStroke" && o.Accept? then o.value else old(app.protectStroke)) &&
      app.mouseEvents == (if c.name == "mouseEvents" && o.Accept? then o.value else old(app.mouseEvents)) &&
      app.onionSkinEnabled == (if c.name == "onion_skin" && o.Accept? then o.value else old(app.onionSkinEnabled)) &&
      app.status == Some(if o.Accept? then "Set " + c.name + " to " + value else "Invalid value. Usage: " + c.usage)
  {
    var o := BoolValue(value);
    if o.Accept? {
      var v := o.value;
      if c.name == "minimap" {
        app.minimapMode := if v then MinimapMode.On else MinimapMode.Off;
      } else if c.name == "highlighter" {
        app.highlighterEnabled := v;
      } else if c.name == "protectStroke" {
        app.protectStroke := v;
      } else if c.name == "mouseEvents" {
        app.mouseEvents := v;
      } else if c.name == "onion_skin" {
        app.onionSkinEnabled := v;
      }
      app.status := Some("Set " + c.name + " to " + value);
    } else {
      app.status := Some("Invalid value. Usage: " + c.usage);
    }
  }

  // ---------------------------------------------------------------------------
  // Layer opacity

  /** The stack with layer `i`'s opacity replaced by `o`. */
  function WithOpacity(layers: seq<Layer>, i: nat, o: real): (r: seq<Layer>)
    requires i < |layers|
    ensures |r| == |layers| && r[i] == layers[i].(opacity := o)
    ensures forall j :: 0 <= j < |layers| && j != i ==> r[j] == layers[j]
  {
    layers[i := layers[i].(opacity := o)]
  }

  lemma WithOpacityOk(layers: seq<Layer>, w: nat, h: nat, i: nat, o: real)
    requires LayersOk(layers, w, h) && i < |layers| && Unit(o)
    ensures LayersOk(WithOpacity(layers, i, o), w, h)
  {
    var r := WithOpacity(layers, i, o);
    forall j | 0 <= j < |r| ensures LayerOk(r[j], w, h) {
      if j != i { assert r[j] == layers[j]; } else { assert LayerOk(layers[i], w, h); }
    }
  }

  /**
   * The `layer_opacity` setter with an accepted value: when the active index
   * is in range (always, for a well-formed editor), only the active layer's
   * opacity changes, and the display is re-composited.
   */
  method LayerOpacity(app: App, val: real)
    requires app.Valid() && Unit(val)
    modifies app`layers, app`canvas
    ensures app.Valid()
    ensures app.layers == WithOpacity(old(app.layers), app.active, val)
  {
    if app.active < |app.layers| {
      WithOpacityOk(app.layers, app.width, app.height, app.active, val);
      app.layers := WithOpacity(app.layers, app.active, val);
      app.SyncCanvasFromLayers();
    }
  }

  /** The status message of an `f32` setter; `show` is the `Display` text of an `f32`. */
  function F32Message(c: Command, o: Outcome<real>, show: real -> string): string
    requires c.kind.SetterF32?
  {
    match o
    case Invalid => "Invalid value. Usage: " + c.usage
    case OutOfRange => "Value out of range (" + show(c.kind.low) + "-" + show(c.kind.high) + ")."
    case Accept(v) => "Set " + c.name + " to " + show(v)
  }

  /**
   * An `f32` setter command `c` given the parse of its value text: the field
   * it names is set only to a value inside the command's range, so the
   * layer opacity written is always in [0, 1].
   */
  method SetF32(app: App, c: Command, parsed: Option<real>, show: real -> string)
    requires app.Valid() && c in Commands() && c.kind.SetterF32?
    modifies app`opacitySensitivity, app`highlighterValue, app`shadeFactor, app`applyColorInterval,
      app`sprayIntensity, app`onionSkinOpacity, app`layers, app`canvas, app`status
    ensures app.Valid()
    ensures var o := F32Value(c.kind, parsed);
      app.opacitySensitivity == (if c.name == "opacitySensitivity" && o.Accept? then o.value else old(app.opacitySensitivity)) &&
      app.highlighterValue == (if c.name == "highlighterValue" && o.Accept? then o.value else old(app.highlighterValue)) &&
      app.shadeFactor == (if c.name == "pencilDensity" && o.Accept? then o.value else old(app.shadeFactor)) &&
      app.applyColorInterval == (if c.name == "applyColorSec" && o.Accept? then (o.value * 1000.0).Floor else old(app.applyColorInterval)) &&
      app.sprayIntensity == (if c.name == "sprayIntensity" && o.Accept? then o.value else old(app.sprayIntensity)) &&
      app.onionSkinOpacity == (if c.name == "onion_opacity" && o.Accept? then o.value else old(app.onionSkinOpacity)) &&
      app.layers == (if c.name == "layer_opacity" && o.Accept? then WithOpacity(old(app.layers), app.active, o.value) else old(app.layers)) &&
      app.status == Some(F32Message(c, o, show))
  {
    var o := F32Value(c.kind, parsed);
    app.status := Some(F32Message(c, o, show));
    if o.Accept? {
      if c.name == "layer_opacity" {
        LayerOpacityRange(c);
      }
      StoreF32(app, c.name, o.value);
    }
  }

  /** Stores an accepted `f32` value into the field the setter `name` names. */
  method StoreF32(app: App, name: string, v: real)
    requires app.Valid() && (name == "layer_opacity" ==> Unit(v))
    modifies app`opacitySensitivity, app`highlighterValue, app`shadeFactor, app`applyColorInterval,
      app`sprayIntensity, app`onionSkinOpacity, app`layers, app`canvas
    ensures app.Valid()
    ensures app.opacitySensitivity == (if name == "opacitySensitivity" then v else old(app.opacitySensitivity))
    ensures app.highlighterValue == (if name == "highlighterValue" then v else old(app.highlighterValue))
    ensures app.shadeFactor == (if name == "pencilDensity" then v else old(app.shadeFactor))
    ensures app.applyColorInterval == (if name == "applyColorSec" then (v * 1000.0).Floor else old(app.applyColorInterval))
    ensures app.sprayIntensity == (if name == "sprayIntensity" then v else old(app.sprayIntensity))
    ensures app.onionSkinOpacity == (if name == "onion_opacity" then v else old(app.onionSkinOpacity))
    ensures app.layers == (if name == "layer_opacity" then WithOpacity(old(app.layers), app.active, v) else old(app.layers))
  {
    if name == "opacitySensitivity" {
      app.opacitySensitivity := v;
    } else if name == "highlighterValue" {
      app.highlighterValue := v;
    } else if name == "pencilDensity" {
      app.shadeFactor := v;
    } else if name == "applyColorSec" {
      app.applyColorInterval := (v * 1000.0).Floor;
    } else if name == "sprayIntensity" {
      app.sprayIntensity := v;
    } else if name == "onion_opacity" {
      app.onionSkinOpacity := v;
    } else if name == "layer_opacity" {
      LayerOpacity(app, v);
    }
  }

  /** The table entry named `layer_opacity` accepts exactly [0, 1]. */
  lemma LayerOpacityRange(c: Command)
    requires c in Commands() && c.name == "layer_opacity"
    ensures c.kind == SetterF32(0.0, 1.0)
  {
    CommandNamesDistinct();
    assert Commands()[36] == PartFour()[3];
    NamedEntry(Commands(), c, 36);
  }

  /** With distinct names, an entry is the one at any index carrying its name. */
  lemma NamedEntry(cs: seq<Command>, c: Command, k: nat)
    requires Distinct(Names(cs)) && c in cs && k < |cs| && cs[k].name == c.name
    ensures c == cs[k]
  {
    var i :| 0 <= i < |cs| && cs[i] == c;
    assert Names(cs)[i] == Names(cs)[k];
  }

  // ---------------------------------------------------------------------------
  // merge_down

  /**
   * The pixel `merge_down` writes into the lower layer at (x, y): the compositing
   * rule of the display applied to the active layer as if it were visible.
   */
  function MergePixel(dest: Pixel, top: Layer, y: nat, x: nat): (p: Pixel)
    requires Unit(dest.alpha) && Unit(top.opacity)
    requires y < |top.canvas| && x < |top.canvas[y]| && Unit(top.canvas[y][x].alpha)
    ensures Unit(p.alpha)
  {
    LayerOver(dest, top.(visible := true), y, x)
  }

  /**
   * A transparent source pixel leaves the lower pixel as it is; over a
   * transparent lower pixel the result is the source colour at the source
   * alpha times the active layer's opacity; visibility plays no part.
   */
  lemma MergePixelCases(dest: Pixel, top: Layer, y: nat, x: nat)
    requires Unit(dest.alpha) && Unit(top.opacity)
    requires y < |top.canvas| && x < |top.canvas[y]| && Unit(top.canvas[y][x].alpha)
    ensures top.canvas[y][x].alpha == 0.0 ==> MergePixel(dest, top, y, x) == dest
    ensures top.canvas[y][x].alpha != 0.0 && dest.alpha == 0.0 ==>
      MergePixel(dest, top, y, x) == Pixel(top.canvas[y][x].color, top.canvas[y][x].alpha * top.opacity)
    ensures MergePixel(dest, top, y, x) == MergePixel(dest, top.(visible := !top.visible), y, x)
  {
    var lp := top.canvas[y][x];
    if lp.alpha != 0.0 {
      ScaledUnit(lp.alpha, top.opacity);
      SourceOverAlpha(dest, lp.color, lp.alpha * top.opacity);
    }
  }

  /** The lower grid after `merge_down`: every cell merged with the active layer's cell. */
  function MergedGrid(top: Layer, below: Grid, w: nat, h: nat): (r: Grid)
    requires LayerOk(top, w, h) && Shaped(below, w, h) && GridOk(below)
    ensures Shaped(r, w, h) && GridOk(r)
    ensures forall y, x :: 0 <= y < h && 0 <= x < w ==> r[y][x] == MergePixel(below[y][x], top, y, x)
  {
    seq(h, y requires 0 <= y < h => seq(w, x requires 0 <= x < w => MergePixel(below[y][x], top, y, x)))
  }

  /** The column loop of `merge_down` for row `y`. */
  method MergeRow(top: Layer, below: Grid, w: nat, h: nat, y: nat) returns (r: Grid)
    requires LayerOk(top, w, h) && Shaped(below, w, h) && GridOk(below) && y < h
    ensures Shaped(r, w, h) && GridOk(r)
    ensures forall x :: 0 <= x < w ==> r[y][x] == MergePixel(below[y][x], top, y, x)
    ensures forall yy :: 0 <= yy < h && yy != y ==> r[yy] == below[yy]
  {
    r := below;
    var x := 0;
    while x < w
      invariant 0 <= x <= w
      invariant Shaped(r, w, h) && GridOk(r)
      invariant forall xx :: 0 <= xx < x ==> r[y][xx] == MergePixel(below[y][xx], top, y, xx)
      invariant forall xx :: x <= xx < w ==> r[y][xx] == below[y][xx]
      invariant forall yy :: 0 <= yy < h && yy != y ==> r[yy] == below[yy]
    {
      MergePixelCases(r[y][x], top, y, x);
      if top.canvas[y][x].alpha != 0.0 {
        var p := MergePixel(r[y][x], top, y, x);
        r := r[y := r[y][x := p]];
      }
      x := x + 1;
    }
  }

  /** The row loop of `merge_down`: the lower grid becomes `MergedGrid`. */
  method MergeRows(top: Layer, below: Grid, w: nat, h: nat) returns (r: Grid)
    requires LayerOk(top, w, h) && Shaped(below, w, h) && GridOk(below)
    ensures r == MergedGrid(top, below, w, h)
  {
    r := below;
    var y := 0;
    while y < h
      invariant 0 <= y <= h
      invariant Shaped(r, w, h) && GridOk(r)
      invariant forall yy, xx :: 0 <= yy < y && 0 <= xx < w ==> r[yy][xx] == MergePixel(below[yy][xx], top, yy, xx)
      invariant forall yy :: y <= yy < h ==> r[yy] == below[yy]
    {
      r := MergeRow(top, r, w, h, y);
      y := y + 1;
    }
    SameCells(r, MergedGrid(top, below, w, h), w, h);
  }

  /**
   * `merge_down`: with the layer at index 0 active it only reports that it
   * cannot merge; otherwise the active layer is composited onto the layer at
   * index − 1, the active layer is removed and the index moves to the merged
   * layer. No undo snapshot is taken and no other layer changes.
   */
  method MergeDown(app: App)
    requires app.Valid()
    modifies app`layers, app`active, app`canvas, app`status
    ensures app.Valid()
    ensures old(app.active) == 0 ==>
      app.layers == old(app.layers) && app.active == 0 && app.canvas == old(app.canvas) &&
      app.status == Some("Cannot merge bottom layer.")
    ensures old(app.active) > 0 ==>
      var i := old(app.active);
      app.active == i - 1 && |app.layers| == |old(app.layers)| - 1 &&
      app.layers == Without(SetCanvas(old(app.layers), i - 1,
        MergedGrid(old(app.layers)[i], old(app.layers)[i - 1].canvas, app.width, app.height)), i) &&
      app.status == Some("Layer merged down.")
  {
    if app.active == 0 {
      app.status := Some("Cannot merge bottom layer.");
      return;
    }
    var i := app.active;
    var top := app.layers[i];
    var below := app.layers[i - 1];
    assert LayerOk(top, app.width, app.height) && LayerOk(below, app.width, app.height);
    var merged := MergeRows(top, below.canvas, app.width, app.height);
    SetCanvasOk(app.layers, app.width, app.height, i - 1, merged);
    var stack := SetCanvas(app.layers, i - 1, merged);
    WithoutOk(stack, app.width, app.height, i);
    app.layers := Without(stack, i);
    app.active := i - 1;
    app.SyncCanvasFromLayers();
    app.status := Some("Layer merged down.");
  }
}

=== FILE: config.dfy ===
// The configuration panel: each setting is incremented, decremented or cycled
// in place on the editor, numeric settings clamped to their ranges and
// two-valued settings flipped.

module Config {
  import opened Brush
  import opened Effects
  import opened ColorFormats
  import opened Editor

  /** The rows of the configuration panel, in display order. */
  datatype Setting =
    | PenSizeSensitivity
    | OpacitySensitivity
    | PenShapeSetting
    | Highlighter
    | HighlighterValue
    | HighlighterModeSetting
    | ShadeFactor
    | ProtectStroke
    | ApplyColorInterval
    | MinimapModeSetting
    | MouseEvents
    | ColorModeSetting
    | CanvasScrollActionSetting
    | SpraySize
    | SpraySpeed
    | SprayIntensity
    | SnapToPalette
    | SnapToPaletteMode
    | ProtectColorTransitions
    | PaletteMenuPositionSetting

  /** The numeric fields the panel edits. */
  datatype Numbers = Numbers(
    penSizeSensitivity: U16,
    opacitySensitivity: real,
    highlighterValue: real,
    shadeFactor: real,
    applyColorInterval: int,
    spraySize: U16,
    spraySpeed: U16,
    sprayIntensity: real)

  /** The two- and three-valued fields the panel edits. */
  datatype Toggles = Toggles(
    penShape: PenShape,
    highlighterEnabled: bool,
    highlighterMode: HighlighterMode,
    protectStroke: bool,
    minimapMode: MinimapMode,
    mouseEvents: bool,
    colorMode: ColorMode,
    canvasScrollAction: CanvasScrollAction,
    snap: bool,
    snapMode: SnapMode,
    protectTransitions: bool,
    paletteMenuPosition: PaletteMenuPosition)

  /** Every editor field the panel edits. */
  datatype Values = Values(numbers: Numbers, toggles: Toggles)

  function NumbersOf(app: App): Numbers
    reads app`penSizeSensitivity, app`opacitySensitivity, app`highlighterValue, app`shadeFactor,
      app`applyColorInterval, app`spraySize, app`spraySpeed, app`sprayIntensity
  {
    Numbers(app.penSizeSensitivity, app.opacitySensitivity, app.highlighterValue, app.shadeFactor,
      app.applyColorInterval, app.spraySize, app.spraySpeed, app.sprayIntensity)
  }

  function TogglesOf(app: App): Toggles
    reads app`penShape, app`highlighterEnabled, app`highlighterMode, app`protectStroke,
      app`minimapMode, app`mouseEvents, app`colorMode, app`canvasScrollAction, app`snap,
      app`snapMode, app`protectTransitions, app`paletteMenuPosition
  {
    Toggles(app.penShape, app.highlighterEnabled, app.highlighterMode, app.protectStroke,
      app.minimapMode, app.mouseEvents, app.colorMode, app.canvasScrollAction, app.snap,
      app.snapMode, app.protectTransitions, app.paletteMenuPosition)
  }

  /** The panel's fields of `app`. */
  function ValuesOf(app: App): Values
    reads app
  {
    Values(NumbersOf(app), TogglesOf(app))
  }

  /** The settings that have no numeric value: arrows flip or cycle them. */
  predicate IsToggle(s: Setting)
  {
    s in {PenShapeSetting, Highlighter, HighlighterModeSetting, ProtectStroke, MinimapModeSetting,
      MouseEvents, ColorModeSetting, CanvasScrollActionSetting, SnapToPalette, SnapToPaletteMode,
      ProtectColorTransitions, PaletteMenuPositionSetting}
  }

  /** `u16::saturating_add(1)`. */
  function SaturatingInc(v: U16): U16
  {
    if v == 0xFFFF then v else v + 1
  }

  /** `u16::saturating_sub(1)`. */
  function SaturatingDec(v: U16): U16
  {
    if v == 0 then 0 else v - 1
  }

  /** The toggle fields after `cycle_value`: two-valued settings flip, the minimap mode steps Auto, On, Off. */
  function Flipped(t: Toggles, s: Setting): (r: Toggles)
  {
    match s
    case PenShapeSetting => t.(penShape := if t.penShape == Circular then Square else Circular)
    case Highlighter => t.(highlighterEnabled := !t.highlighterEnabled)
    case HighlighterModeSetting => t.(highlighterMode := if t.highlighterMode == Blend then Underscore else Blend)
    case ProtectStroke => t.(protectStroke := !t.protectStroke)
    case MinimapModeSetting =>
      t.(minimapMode := match t.minimapMode
        case Auto => MinimapMode.On
        case On => MinimapMode.Off
        case Off => MinimapMode.Auto)
    case MouseEvents => t.(mouseEvents := !t.mouseEvents)
    case ColorModeSetting => t.(colorMode := if t.colorMode == TrueColor then Ansi256 else TrueColor)
    case CanvasScrollActionSetting =>
      t.(canvasScrollAction := if t.canvasScrollAction == ChangePenSize then ChangeOpacity else ChangePenSize)
    case SnapToPalette => t.(snap := !t.snap)
    case SnapToPaletteMode => t.(snapMode := if t.snapMode == ClosestRgb then ClosestHue else ClosestRgb)
    case ProtectColorTransitions => t.(protectTransitions := !t.protectTransitions)
    case PaletteMenuPositionSetting => t.(paletteMenuPosition := if t.paletteMenuPosition == Left then Right else Left)
    case _ => t
  }

  /** `cycle_value`: only the toggle fields change; numeric settings stay. */
  function Cycled(v: Values, s: Setting): (r: Values)
  {
    v.(toggles := Flipped(v.toggles, s))
  }

  /** `increment_value`: numeric settings step up and are clamped; every other setting cycles. */
  function Incremented(v: Values, s: Setting): (r: Values)
  {
    match s
    case PenSizeSensitivity => v.(numbers := v.numbers.(penSizeSensitivity := Clamp(SaturatingInc(v.numbers.penSizeSensitivity), 1, 20)))
    case OpacitySensitivity => v.(numbers := v.numbers.(opacitySensitivity := ClampReal(v.numbers.opacitySensitivity + 0.01, 0.01, 0.5)))
    case HighlighterValue => v.(numbers := v.numbers.(highlighterValue := ClampReal(v.numbers.highlighterValue + 0.05, 0.0, 1.0)))
    case ShadeFactor => v.(numbers := v.numbers.(shadeFactor := ClampReal(v.numbers.shadeFactor + 0.005, 0.01, 1.0)))
    case SpraySize => v.(numbers := v.numbers.(spraySize := Clamp(SaturatingInc(v.numbers.spraySize), 1, 50)))
    case SpraySpeed => v.(numbers := v.numbers.(spraySpeed := Clamp(SaturatingInc(v.numbers.spraySpeed), 1, 100)))
    case SprayIntensity => v.(numbers := v.numbers.(sprayIntensity := ClampReal(v.numbers.sprayIntensity + 0.05, 0.0, 1.0)))
    case ApplyColorInterval => v.(numbers := v.numbers.(applyColorInterval := Clamp(v.numbers.applyColorInterval + 10, 50, 2000)))
    case _ => Cycled(v, s)
  }

  /** `decrement_value`: numeric settings step down (u16 ones floored at 1, not clamped above); every other setting cycles. */
  function Decremented(v: Values, s: Setting): (r: Values)
  {
    match s
    case PenSizeSensitivity => v.(numbers := v.numbers.(penSizeSensitivity := Max(SaturatingDec(v.numbers.penSizeSensitivity), 1)))
    case OpacitySensitivity => v.(numbers := v.numbers.(opacitySensitivity := ClampReal(v.numbers.opacitySensitivity - 0.01, 0.01, 0.5)))
    case HighlighterValue => v.(numbers := v.numbers.(highlighterValue := ClampReal(v.numbers.highlighterValue - 0.05, 0.0, 1.0)))
    case ShadeFactor => v.(numbers := v.numbers.(shadeFactor := ClampReal(v.numbers.shadeFactor - 0.005, 0.01, 1.0)))
    case SpraySize => v.(numbers := v.numbers.(spraySize := Max(SaturatingDec(v.numbers.spraySize), 1)))
    case SpraySpeed => v.(numbers := v.numbers.(spraySpeed := Max(SaturatingDec(v.numbers.spraySpeed), 1)))
    case SprayIntensity => v.(numbers := v.numbers.(sprayIntensity := ClampReal(v.numbers.sprayIntensity - 0.05, 0.0, 1.0)))
    case ApplyColorInterval => v.(numbers := v.numbers.(applyColorInterval := Clamp(v.numbers.applyColorInterval - 10, 50, 2000)))
    case _ => Cycled(v, s)
  }

  /** Only the field of setting `s` may differ between `v` and `r`. */
  predicate OnlyChanges(v: Values, r: Values, s: Setting)
  {
    (s != PenSizeSensitivity ==> r.numbers.penSizeSensitivity == v.numbers.penSizeSensitivity) &&
    (s != OpacitySensitivity ==> r.numbers.opacitySensitivity == v.numbers.opacitySensitivity) &&
    (s != PenShapeSetting ==> r.toggles.penShape == v.toggles.penShape) &&
    (s != Highlighter ==> r.toggles.highlighterEnabled == v.toggles.highlighterEnabled) &&
    (s != HighlighterValue ==> r.numbers.highlighterValue == v.numbers.highlighterValue) &&
    (s != HighlighterModeSetting ==> r.toggles.highlighterMode == v.toggles.highlighterMode) &&
    (s != ShadeFactor ==> r.numbers.shadeFactor == v.numbers.shadeFactor) &&
    (s != ProtectStroke ==> r.toggles.protectStroke == v.toggles.protectStroke) &&
    (s != ApplyColorInterval ==> r.numbers.applyColorInterval == v.numbers.applyColorInterval) &&
    (s != MinimapModeSetting ==> r.toggles.minimapMode == v.toggles.minimapMode) &&
    (s != MouseEvents ==> r.toggles.mouseEvents == v.toggles.mouseEvents) &&
    (s != ColorModeSetting ==> r.toggles.colorMode == v.toggles.colorMode) &&
    (s != CanvasScrollActionSetting ==> r.toggles.canvasScrollAction == v.toggles.canvasScrollAction) &&
    (s != SpraySize ==> r.numbers.spraySize == v.numbers.spraySize) &&
    (s != SpraySpeed ==> r.numbers.spraySpeed == v.numbers.spraySpeed) &&
    (s != SprayIntensity ==> r.numbers.sprayIntensity == v.numbers.sprayIntensity) &&
    (s != SnapToPalette ==> r.toggles.snap == v.toggles.snap) &&
    (s != SnapToPaletteMode ==> r.toggles.snapMode == v.toggles.snapMode) &&
    (s != ProtectColorTransitions ==> r.toggles.protectTransitions == v.toggles.protectTransitions) &&
    (s != PaletteMenuPositionSetting ==> r.toggles.paletteMenuPosition == v.toggles.paletteMenuPosition)
  }

  /** Each of the three operations changes at most the field of the setting it is applied to. */
  lemma OnlyTheSetting(v: Values, s: Setting)
    ensures OnlyChanges(v, Cycled(v, s), s)
    ensures OnlyChanges(v, Incremented(v, s), s)
    ensures OnlyChanges(v, Decremented(v, s), s)
  {
  }

  /** Cycling any setting other than the minimap mode twice gives back the original values. */
  lemma CycleInvolution(v: Values, s: Setting)
    requires s != MinimapModeSetting
    ensures Cycled(Cycled(v, s), s) == v
  {
    match s
    case PenShapeSetting => assert v.toggles.penShape == Circular || v.toggles.penShape == Square;
    case HighlighterModeSetting => assert v.toggles.highlighterMode == Blend || v.toggles.highlighterMode == Underscore;
    case ColorModeSetting => assert v.toggles.colorMode == TrueColor || v.toggles.colorMode == Ansi256;
    case CanvasScrollActionSetting => assert v.toggles.canvasScrollAction == ChangePenSize || v.toggles.canvasScrollAction == ChangeOpacity;
    case SnapToPaletteMode => assert v.toggles.snapMode == ClosestRgb || v.toggles.snapMode == ClosestHue;
    case PaletteMenuPositionSetting => assert v.toggles.paletteMenuPosition == Left || v.toggles.paletteMenuPosition == Right;
    case _ =>
  }

  /** The minimap mode steps Auto to On to Off to Auto, so three cycles give back the original values. */
  lemma MinimapCycle(v: Values)
    ensures v.toggles.minimapMode == Auto ==> Cycled(v, MinimapModeSetting).toggles.minimapMode == MinimapMode.On
    ensures v.toggles.minimapMode == MinimapMode.On ==> Cycled(v, MinimapModeSetting).toggles.minimapMode == MinimapMode.Off
    ensures v.toggles.minimapMode == MinimapMode.Off ==> Cycled(v, MinimapModeSetting).toggles.minimapMode == Auto
    ensures Cycled(Cycled(Cycled(v, MinimapModeSetting), MinimapModeSetting), MinimapModeSetting) == v
  {
  }

  /** After an increment the `u16` settings lie in their ranges, whatever they held before. */
  lemma IncrementInRange(v: Values)
    ensures 1 <= Incremented(v, PenSizeSensitivity).numbers.penSizeSensitivity <= 20
    ensures 1 <= Incremented(v, SpraySize).numbers.spraySize <= 50
    ensures 1 <= Incremented(v, SpraySpeed).numbers.spraySpeed <= 100
    ensures v.numbers.penSizeSensitivity < 20 ==> Incremented(v, PenSizeSensitivity).numbers.penSizeSensitivity == Editor.Max(v.numbers.penSizeSensitivity + 1, 1)
    ensures v.numbers.spraySize < 50 ==> Incremented(v, SpraySize).numbers.spraySize == Editor.Max(v.numbers.spraySize + 1, 1)
    ensures v.numbers.spraySpeed < 100 ==> Incremented(v, SpraySpeed).numbers.spraySpeed == Editor.Max(v.numbers.spraySpeed + 1, 1)
  {
  }

  /** A decrement never takes a `u16` setting below 1, lowers a value above 1 by one, and never raises it past 1. */
  lemma DecrementFloor(v: Values)
    ensures Decremented(v, PenSizeSensitivity).numbers.penSizeSensitivity >= 1
    ensures Decremented(v, SpraySize).numbers.spraySize >= 1
    ensures Decremented(v, SpraySpeed).numbers.spraySpeed >= 1
    ensures v.numbers.penSizeSensitivity > 1 ==> Decremented(v, PenSizeSensitivity).numbers.penSizeSensitivity == v.numbers.penSizeSensitivity - 1
    ensures v.numbers.spraySize > 1 ==> Decremented(v, SpraySize).numbers.spraySize == v.numbers.spraySize - 1
    ensures v.numbers.spraySpeed > 1 ==> Decremented(v, SpraySpeed).numbers.spraySpeed == v.numbers.spraySpeed - 1
    ensures v.numbers.spraySpeed <= 1 ==> Decremented(v, SpraySpeed).numbers.spraySpeed == 1
  {
  }

  /** Inside the range, a decrement undoes an increment. */
  lemma DecrementUndoesIncrement(v: Values)
    ensures 1 <= v.numbers.penSizeSensitivity < 20 ==> Decremented(Incremented(v, PenSizeSensitivity), PenSizeSensitivity) == v
    ensures 1 <= v.numbers.spraySize < 50 ==> Decremented(Incremented(v, SpraySize), SpraySize) == v
    ensures 1 <= v.numbers.spraySpeed < 100 ==> Decremented(Incremented(v, SpraySpeed), SpraySpeed) == v
    ensures 50 <= v.numbers.applyColorInterval < 2000 - 10 ==> Decremented(Incremented(v, ApplyColorInterval), ApplyColorInterval) == v
  {
  }

  /** The hold-to-apply interval stays in [50, 2000] ms after either step. */
  lemma IntervalInRange(v: Values)
    ensures 50 <= Incremented(v, ApplyColorInterval).numbers.applyColorInterval <= 2000
    ensures 50 <= Decremented(v, ApplyColorInterval).numbers.applyColorInterval <= 2000
  {
  }

  /** The real-valued settings stay in their ranges after either step. */
  lemma RealsInRange(v: Values)
    ensures var i := Incremented(v, OpacitySensitivity); var d := Decremented(v, OpacitySensitivity);
      0.01 <= i.numbers.opacitySensitivity <= 0.5 && 0.01 <= d.numbers.opacitySensitivity <= 0.5
    ensures var i := Incremented(v, HighlighterValue); var d := Decremented(v, HighlighterValue);
      0.0 <= i.numbers.highlighterValue <= 1.0 && 0.0 <= d.numbers.highlighterValue <= 1.0
    ensures var i := Incremented(v, SprayIntensity); var d := Decremented(v, SprayIntensity);
      0.0 <= i.numbers.sprayIntensity <= 1.0 && 0.0 <= d.numbers.sprayIntensity <= 1.0
    ensures var i := Incremented(v, ShadeFactor); var d := Decremented(v, ShadeFactor);
      0.01 <= i.numbers.shadeFactor <= 1.0 && 0.01 <= d.numbers.shadeFactor <= 1.0
  {
  }

  // ---------------------------------------------------------------------------
  // The in-place operations on the editor

  /** `cycle_value` on the editor. */
  method CycleValue(app: App, s: Setting)
    modifies app`penShape, app`highlighterEnabled, app`highlighterMode, app`protectStroke,
      app`minimapMode, app`mouseEvents, app`colorMode, app`canvasScrollAction, app`snap,
      app`snapMode, app`protectTransitions, app`paletteMenuPosition
    ensures TogglesOf(app) == Flipped(old(TogglesOf(app)), s)
  {
    var t := Flipped(TogglesOf(app), s);
    app.penShape, app.highlighterEnabled, app.highlighterMode, app.protectStroke := t.penShape, t.highlighterEnabled, t.highlighterMode, t.protectStroke;
    app.minimapMode, app.mouseEvents, app.colorMode, app.canvasScrollAction := t.minimapMode, t.mouseEvents, t.colorMode, t.canvasScrollAction;
    app.snap, app.snapMode, app.protectTransitions, app.paletteMenuPosition := t.snap, t.snapMode, t.protectTransitions, t.paletteMenuPosition;
  }

  /** Writes the numeric fields `n` into the editor. */
  method StoreNumbers(app: App, n: Numbers)
    modifies app`penSizeSensitivity, app`opacitySensitivity, app`highlighterValue, app`shadeFactor,
      app`applyColorInterval, app`spraySize, app`spraySpeed, app`sprayIntensity
    ensures NumbersOf(app) == n
  {
    app.penSizeSensitivity, app.opacitySensitivity, app.highlighterValue, app.shadeFactor := n.penSizeSensitivity, n.opacitySensitivity, n.highlighterValue, n.shadeFactor;
    app.applyColorInterval, app.spraySize, app.spraySpeed, app.sprayIntensity := n.applyColorInterval, n.spraySize, n.spraySpeed, n.sprayIntensity;
  }

  /**
   * A numeric setting's step leaves the toggles alone; on a two-valued or
   * cycled setting, increment and decrement both just cycle.
   */
  lemma TogglesCycle(v: Values, s: Setting)
    ensures !IsToggle(s) ==> Incremented(v, s).toggles == v.toggles && Decremented(v, s).toggles == v.toggles
    ensures IsToggle(s) ==> Incremented(v, s) == Cycled(v, s) && Decremented(v, s) == Cycled(v, s)
  {
  }

  /** `increment_value` on the editor: the numeric setting steps up, any other setting cycles. */
  method IncrementValue(app: App, s: Setting)
    modifies app`penSizeSensitivity, app`opacitySensitivity, app`penShape, app`highlighterEnabled,
      app`highlighterValue, app`highlighterMode, app`shadeFactor, app`protectStroke,
      app`applyColorInterval, app`minimapMode, app`mouseEvents, app`colorMode,
      app`canvasScrollAction, app`spraySize, app`spraySpeed, app`sprayIntensity, app`snap,
      app`snapMode, app`protectTransitions, app`paletteMenuPosition
    ensures ValuesOf(app) == Incremented(old(ValuesOf(app)), s)
  {
    TogglesCycle(ValuesOf(app), s);
    if IsToggle(s) {
      CycleValue(app, s);
    } else {
      StoreNumbers(app, Incremented(ValuesOf(app), s).numbers);
    }
  }

  /** `decrement_value` on the editor: the numeric setting steps down, any other setting cycles. */
  method DecrementValue(app: App, s: Setting)
    modifies app`penSizeSensitivity, app`opacitySensitivity, app`penShape, app`highlighterEnabled,
      app`highlighterValue, app`highlighterMode, app`shadeFactor, app`protectStroke,
      app`applyColorInterval, app`minimapMode, app`mouseEvents, app`colorMode,
      app`canvasScrollAction, app`spraySize, app`spraySpeed, app`sprayIntensity, app`snap,
      app`snapMode, app`protectTransitions, app`paletteMenuPosition
    ensures ValuesOf(app) == Decremented(old(ValuesOf(app)), s)
  {
    TogglesCycle(ValuesOf(app), s);
    if IsToggle(s) {
      CycleValue(app, s);
    } else {
      StoreNumbers(app, Decremented(ValuesOf(app), s).numbers);
    }
  }
}

=== FILE: editor.dfy ===
// The editor state `App` and its drawing engine: the layer stack and the
// composited display canvas, the brush, eraser and fill, the undo and redo
// stacks, the layer operations, and the clamped view, pen and palette state.

module Editor {
  import opened Colors
  import opened Palette
  import opened Pixels
  import opened Snap
  import opened Effects
  import opened Brush
  import Fill
  import History
  import opened ColorFormats
  import opened Text
  import Paths

  /** `PIXEL_WIDTH`: terminal columns per canvas pixel at zoom 1. */
  const PixelWidth: nat := 2

  /** `DEFAULT_SHADE_FACTOR`. */
  const DefaultShadeFactor: real := 0.03

  datatype AppMode =
    | Drawing | ColorPicker | ToolPicker | ResizingWidth | ResizingHeight | Command | HelpScreen
    | ConfirmOverwrite | Keybindings | ConfirmKeybindingSave | ConfigEditor | ConfirmConfigSave
    | ScriptEditor | ConfirmScriptSave | FileBrowser

  datatype HighlighterMode = Underscore | Blend

  datatype MinimapMode = Auto | On | Off

  datatype CanvasScrollAction = ChangePenSize | ChangeOpacity

  datatype PaletteMenuPosition = Left | Right

  datatype ExportLayerMode = United | Separate

  /** What the file browser was opened for. */
  datatype BrowserMode = Load | Save | ImportPalette | Export | GeneratePaletteFromImage(add: bool)

  datatype BrowserFocus = List | NameInput | ScaleInput

  /** A screen rectangle in terminal cells (`ratatui::layout::Rect`). */
  datatype Rect = Rect(x: U16, y: U16, width: U16, height: U16)

  // ---------------------------------------------------------------------------
  // Helpers on the layer stack

  /** The stack with layer `i`'s grid replaced by `g`, everything else kept. */
  function SetCanvas(layers: seq<Layer>, i: nat, g: Grid): (r: seq<Layer>)
    requires i < |layers|
    ensures |r| == |layers| && r[i].canvas == g
    ensures r[i].name == layers[i].name && r[i].visible == layers[i].visible && r[i].opacity == layers[i].opacity
    ensures forall j :: 0 <= j < |layers| && j != i ==> r[j] == layers[j]
  {
    layers[i := layers[i].(canvas := g)]
  }

  /** Putting back the grid a layer already has changes nothing. */
  lemma SetCanvasSame(layers: seq<Layer>, i: nat)
    requires i < |layers|
    ensures SetCanvas(layers, i, layers[i].canvas) == layers
  {
  }

  /** A grid of the canvas size with valid alphas keeps the stack well formed. */
  lemma SetCanvasOk(layers: seq<Layer>, w: nat, h: nat, i: nat, g: Grid)
    requires LayersOk(layers, w, h) && i < |layers| && Shaped(g, w, h) && GridOk(g)
    ensures LayersOk(SetCanvas(layers, i, g), w, h)
  {
    var r := SetCanvas(layers, i, g);
    forall j | 0 <= j < |r| ensures LayerOk(r[j], w, h) {
      if j != i { assert r[j] == layers[j]; }
    }
  }

  /** `x.clamp(lo, hi)` on integers (`lo <= hi`, or Rust panics). */
  function Clamp(x: int, lo: int, hi: int): (r: int)
    requires lo <= hi
    ensures lo <= r <= hi
    ensures lo <= x <= hi ==> r == x
    ensures x < lo ==> r == lo
    ensures x > hi ==> r == hi
  {
    if x < lo then lo else if x > hi then hi else x
  }

  /** `clamp` on reals. */
  function ClampReal(x: real, lo: real, hi: real): (r: real)
    requires lo <= hi
    ensures lo <= r <= hi
    ensures lo <= x <= hi ==> r == x
  {
    if x < lo then lo else if x > hi then hi else x
  }

  /**
   * `as i16`: the value in [-32768, 32767] with the same low 16 bits. `i16`
   * arithmetic that overflows wraps the same way in a release build.
   */
  function I16(v: int): (r: int)
    ensures -0x8000 <= r < 0x8000
    ensures (v - r) % 0x1_0000 == 0
    ensures -0x8000 <= v < 0x8000 ==> r == v
  {
    (v + 0x8000) % 0x1_0000 - 0x8000
  }

  /** `saturating_sub(1)` on a `usize`. */
  function SaturatingPred(n: nat): (r: nat)
    ensures n > 0 ==> r + 1 == n
    ensures n == 0 ==> r == 0
  {
    if n == 0 then 0 else n - 1
  }

  /**
   * One coordinate of `move_cursor`: the position moved by `d` in `i16`, raised
   * to 0, lowered to the last index cast to `i16`, and cast back to `u16`.
   */
  function CursorStep(p: U16, d: int, size: nat): (r: U16)
    requires -0x8000 <= d < 0x8000
    ensures 0 < size <= 0x8000 ==> r < size
    ensures 0 < size <= 0x8000 && p < 0x8000 && 0 <= p + d < size ==> r == p + d
    ensures 0 < size <= 0x8000 && p < 0x8000 && p + d < 0 ==> r == 0
    ensures 0 < size <= 0x8000 && p < 0x8000 && size <= p + d < 0x8000 ==> r == size - 1
  {
    Min(Max(I16(I16(p) + d), 0), I16(SaturatingPred(size))) % 0x1_0000
  }

  /** On a canvas wider than 32768 the last column casts to a negative `i16`, so any move lands on it. */
  lemma WideCanvasCursorJumps()
    ensures CursorStep(0, 1, 40000) == 39999
    ensures CursorStep(5, -1, 40000) == 39999
  {
  }

  /**
   * `change_pen_size`'s new size: the size and `sensitivity * delta` added in
   * `i16`, then raised to 1.
   */
  function PenSizeStep(pen: nat, sensitivity: U16, delta: int): (r: nat)
    requires -0x8000 <= delta < 0x8000
    ensures 1 <= r < 0x8000
    ensures pen < 0x8000 && sensitivity < 0x8000 && -0x8000 <= sensitivity * delta < 0x8000 ==>
      (1 <= pen + sensitivity * delta < 0x8000 ==> r == pen + sensitivity * delta) &&
      (-0x8000 <= pen + sensitivity * delta < 1 ==> r == 1)
  {
    Max(I16(I16(pen) + I16(I16(sensitivity) * delta)), 1)
  }

  /** Growing the largest `i16` size wraps to a negative sum, which the floor turns into 1. */
  lemma PenSizeWraps()
    ensures PenSizeStep(0x7FFF, 1, 1) == 1
  {
  }

  /**
   * `change_layer_selection`'s new index before its `as usize` cast: the index
   * moved by `d` in `i16`, raised to 0 and lowered to the stack length cast to
   * `i16` minus one. It is a valid index exactly when the lowered bound is not
   * negative; a negative value casts to a huge `usize`.
   */
  function LayerStep(active: nat, d: int, len: nat): (r: int)
    requires -0x8000 <= d < 0x8000 && len >= 1
    ensures r < len
    ensures r >= 0 <==> I16(I16(len) - 1) >= 0
    ensures len <= 0x8000 ==> r >= 0
    ensures len <= 0x8000 && active < len && -0x8000 <= active + d < 0x8000 ==> r == Clamp(active + d, 0, len - 1)
  {
    Min(Max(I16(I16(active) + d), 0), I16(I16(len) - 1))
  }

  /** With 40000 layers the bound casts to a negative `i16`, so the index wraps below zero. */
  lemma ManyLayersSelectNegative()
    ensures LayerStep(35000, 1, 40000) == -25537
    ensures LayerStep(0, 1, 40000) < 0
  {
  }

  /** `zoom`'s new level: the level moved by `d` in `i16`, then clamped into [2, 16]. */
  function ZoomStep(z: U16, d: int): (r: U16)
    requires -0x8000 <= d < 0x8000
    ensures 2 <= r <= 16
    ensures z < 0x8000 && -0x8000 <= z + d < 0x8000 ==> r == Clamp(z + d, 2, 16)
  {
    Clamp(I16(I16(z) + d), 2, 16)
  }

  /**
   * A fitted zoom above 32767 (a one-pixel canvas on a 40000×20000-cell
   * area) casts to a negative `i16`, so zooming in drops it to the minimum.
   */
  lemma FittedZoomWraps()
    ensures FitZoom(Rect(0, 0, 40000, 20000), 1, 1) == 40000
    ensures ZoomStep(40000, 2) == 2
  {
  }

  /** `iter().position(|e| e == x)`: the first index holding `x`. */
  function Position<T(==)>(s: seq<T>, x: T): (r: Option<nat>)
    ensures r.None? <==> x !in s
    ensures r.Some? ==> r.value < |s| && s[r.value] == x && x !in s[..r.value]
  {
    if s == [] then None
    else if s[0] == x then Some(0)
    else match Position(s[1..], x)
      case None => None
      case Some(i) =>
        assert s[1..][..i] == s[1..i + 1];
        Some(i + 1)
  }

  /**
   * The colour palette after `add_palette_entries_uniquely(entries)`: each
   * colour entry, in order, is appended unless the palette already holds it;
   * tool entries are ignored.
   */
  function AddUniquely(palette: seq<PaletteEntry>, entries: seq<PaletteEntry>): seq<PaletteEntry>
  {
    if entries == [] then palette
    else
      var before := AddUniquely(palette, entries[..|entries| - 1]);
      var e := entries[|entries| - 1];
      if e.ColorEntry? && e !in before then before + [e] else before
  }

  /**
   * What `AddUniquely` promises: the old palette is kept as a prefix; every
   * added entry is a colour from `entries` that was not in the old palette,
   * and no colour is added twice; every colour of `entries` ends up in the
   * palette.
   */
  lemma {:induction false} AddUniquelyProps(palette: seq<PaletteEntry>, entries: seq<PaletteEntry>)
    ensures var r := AddUniquely(palette, entries);
      |palette| <= |r| && r[..|palette|] == palette
    ensures var r := AddUniquely(palette, entries);
      forall i :: |palette| <= i < |r| ==> r[i].ColorEntry? && r[i] in entries && r[i] !in palette
    ensures var r := AddUniquely(palette, entries);
      forall i, j :: |palette| <= i < j < |r| ==> r[i] != r[j]
    ensures var r := AddUniquely(palette, entries);
      forall e :: e in entries && e.ColorEntry? ==> e in r
  {
    if entries != [] {
      var prefix := entries[..|entries| - 1];
      AddUniquelyProps(palette, prefix);
      var before := AddUniquely(palette, prefix);
      var e := entries[|entries| - 1];
      assert entries == prefix + [e];
      if e.ColorEntry? && e !in before {
        var r := before + [e];
        assert r[..|palette|] == before[..|palette|];
        forall i | |palette| <= i < |r| ensures r[i].ColorEntry? && r[i] in entries && r[i] !in palette {
          if i < |before| { assert r[i] == before[i] && before[i] in prefix; } else {
            assert e !in before[..|palette|];
          }
        }
        forall i, j | |palette| <= i < j < |r| ensures r[i] != r[j] {
          if j == |before| { assert r[i] == before[i]; }
        }
      } else {
        forall i | |palette| <= i < |before| ensures before[i] in entries {
          assert before[i] in prefix;
        }
      }
    }
  }

  /** `layers.swap(i, j)`. */
  function Swap(layers: seq<Layer>, i: nat, j: nat): (r: seq<Layer>)
    requires i < |layers| && j < |layers|
    ensures |r| == |layers| && r[i] == layers[j] && r[j] == layers[i]
    ensures forall k :: 0 <= k < |layers| && k != i && k != j ==> r[k] == layers[k]
  {
    layers[i := layers[j]][j := layers[i]]
  }

  /** Swapping two layers keeps the stack well formed. */
  lemma SwapOk(layers: seq<Layer>, w: nat, h: nat, i: nat, j: nat)
    requires LayersOk(layers, w, h) && i < |layers| && j < |layers|
    ensures LayersOk(Swap(layers, i, j), w, h)
  {
    var r := Swap(layers, i, j);
    forall k | 0 <= k < |r| ensures LayerOk(r[k], w, h) {
      if k != i && k != j { assert r[k] == layers[k]; }
    }
  }

  /** Moving a layer up and then back down (or the reverse) restores the stack. */
  lemma SwapBack(layers: seq<Layer>, i: nat, j: nat)
    requires i < |layers| && j < |layers|
    ensures Swap(Swap(layers, i, j), j, i) == layers
  {
    var r := Swap(Swap(layers, i, j), j, i);
    forall k | 0 <= k < |layers| ensures r[k] == layers[k] {
      if k != i && k != j { assert Swap(layers, i, j)[k] == layers[k]; }
    }
  }

  /** The stack with layer `i`'s visibility flipped. */
  function Toggled(layers: seq<Layer>, i: nat): (r: seq<Layer>)
    requires i < |layers|
    ensures |r| == |layers| && r[i].visible == !layers[i].visible
    ensures r[i] == layers[i].(visible := r[i].visible)
    ensures forall j :: 0 <= j < |layers| && j != i ==> r[j] == layers[j]
  {
    layers[i := layers[i].(visible := !layers[i].visible)]
  }

  /** Flipping visibility keeps the stack well formed, and flipping twice restores it. */
  lemma ToggledProps(layers: seq<Layer>, w: nat, h: nat, i: nat)
    requires LayersOk(layers, w, h) && i < |layers|
    ensures LayersOk(Toggled(layers, i), w, h)
    ensures Toggled(Toggled(layers, i), i) == layers
  {
    var r := Toggled(layers, i);
    forall k | 0 <= k < |r| ensures LayerOk(r[k], w, h) {
      if k != i { assert r[k] == layers[k]; }
    }
  }

  /**
   * A blank layer appended at the end of the stack lies at the bottom of the
   * composite and contributes nothing: the display stays the same.
   */
  lemma AppendBlank(layers: seq<Layer>, w: nat, h: nat, layer: Layer)
    requires LayersOk(layers, w, h) && layer.canvas == BlankGrid(w, h) && Unit(layer.opacity)
    ensures LayersOk(layers + [layer], w, h)
    ensures Composite(layers + [layer], w, h) == Composite(layers, w, h)
  {
    var more := layers + [layer];
    forall i | 0 <= i < |more| ensures LayerOk(more[i], w, h) {
      if i < |layers| { assert more[i] == layers[i]; }
    }
    assert Without(more, |layers|) == layers;
    forall y, x | 0 <= y < h && 0 <= x < w ensures Stack(more, w, h, y, x) == Stack(layers, w, h, y, x) {
      SilentLayerIgnored(more, w, h, |layers|, y, x);
    }
    SameCells(Composite(more, w, h), Composite(layers, w, h), w, h);
  }

  /** Every layer of the stack with its grid replaced by a blank `w`×`h` grid. */
  function Blanked(layers: seq<Layer>, w: nat, h: nat): (r: seq<Layer>)
    ensures |r| == |layers|
    ensures forall i :: 0 <= i < |layers| ==> r[i] == layers[i].(canvas := BlankGrid(w, h))
  {
    seq(|layers|, i requires 0 <= i < |layers| => layers[i].(canvas := BlankGrid(w, h)))
  }

  /** The layer loop of `resize_canvas`: each layer gets a blank grid of the new size. */
  method BlankAll(layers: seq<Layer>, w: nat, h: nat) returns (r: seq<Layer>)
    ensures r == Blanked(layers, w, h)
  {
    r := layers;
    var i := 0;
    while i < |r|
      invariant 0 <= i <= |r| == |layers|
      invariant forall k :: 0 <= k < i ==> r[k] == layers[k].(canvas := BlankGrid(w, h))
      invariant forall k :: i <= k < |r| ==> r[k] == layers[k]
    {
      r := r[i := r[i].(canvas := BlankGrid(w, h))];
      i := i + 1;
    }
  }

  /** A stack of blank layers with unit opacities is well formed and composites to a blank canvas. */
  lemma BlankedOk(layers: seq<Layer>, w0: nat, h0: nat, w: nat, h: nat)
    requires LayersOk(layers, w0, h0)
    ensures LayersOk(Blanked(layers, w, h), w, h)
    ensures Composite(Blanked(layers, w, h), w, h) == BlankGrid(w, h)
  {
    var r := Blanked(layers, w, h);
    forall i | 0 <= i < |r| ensures LayerOk(r[i], w, h) {
      assert LayerOk(layers[i], w0, h0);
    }
    EmptyStackIsBlank(r, w, h);
  }

  /**
   * The zoom `resize_canvas` picks to fit a `w`×`h` canvas into `area`: the
   * largest level both dimensions allow (the canvas sizes cast to `u16`, the
   * doubled height wrapping in `u16`), at least 2 and rounded down to even.
   */
  function FitZoom(area: Rect, w: nat, h: nat): (z: U16)
    requires w % 0x1_0000 != 0 && h % 0x1_0000 != 0
    ensures z >= 2 && z % 2 == 0
    ensures var most := Min(area.width / (w % 0x1_0000), ((area.height * PixelWidth) % 0x1_0000) / (h % 0x1_0000));
      most >= 2 ==> z <= most && most < z + 2
  {
    var most := Min(area.width / (w % 0x1_0000), ((area.height * PixelWidth) % 0x1_0000) / (h % 0x1_0000));
    (Max(most, 2) / 2) * 2
  }

  function Min(a: int, b: int): int
  {
    if a <= b then a else b
  }

  function Max(a: int, b: int): int
  {
    if a >= b then a else b
  }

  /** How many canvas pixels a span of `span` terminal cells shows at `cell` cells per pixel, rounding up in `u16`. */
  function VisibleCount(span: U16, cell: nat): nat
    requires cell >= 1
  {
    ((span + cell - 1) % 0x1_0000) / cell
  }

  /** The fill starts: the seed is on the canvas and does not already hold the fill pixel. */
  predicate FillStarts(g: Grid, w: nat, h: nat, sx: nat, sy: nat, fill: Pixel)
    requires Shaped(g, w, h)
  {
    sx < w && sy < h && g[sy][sx] != fill
  }

  /** The checks and the queue loop of `fill_from_point` on the active grid `g`. */
  method FillOn(g: Grid, w: nat, h: nat, sx: nat, sy: nat, fill: Pixel) returns (started: bool, r: Grid)
    requires Shaped(g, w, h) && GridOk(g) && Unit(fill.alpha)
    ensures started == FillStarts(g, w, h, sx, sy, fill)
    ensures started ==> Shaped(r, w, h) && GridOk(r) && r == Fill.FilledGrid(g, w, h, (sx, sy), fill)
  {
    if sx >= w || sy >= h {
      return false, [];
    }
    if g[sy][sx] == fill {
      return false, [];
    }
    started := true;
    r := Fill.FloodFill(g, w, h, sx, sy, fill);
  }

  /**
   * The palette index after a 2-D move on a grid of `columns` columns: the
   * column moves by `dx` within its row, the row by `dy`, and the resulting
   * index is clamped into a palette of `len` entries.
   */
  function GridMove(index: nat, columns: nat, dx: int, dy: int, len: nat): (r: nat)
    requires columns >= 1 && len >= 1
    ensures r < len
  {
    var col := Clamp(index % columns + dx, 0, columns - 1);
    Clamp((index / columns + dy) * columns + col, 0, len - 1)
  }

  /** The palette row of entry `index` is among the `rows` rows shown from scroll position `scroll`. */
  predicate Shown(scroll: nat, index: nat, columns: nat, rows: nat)
    requires columns >= 1
  {
    RowOf(scroll, columns) <= RowOf(index, columns) < RowOf(scroll, columns) + rows
  }

  /** The palette row of entry `index` on a grid of `columns` columns. */
  function RowOf(index: nat, columns: nat): nat
    requires columns >= 1
  {
    index / columns
  }

  lemma MulAtLeast(d: int, c: int)
    requires d >= 1 && c >= 1
    ensures d * c >= c
  {
  }

  /** `k · c / c == k`. */
  lemma MulDiv(k: nat, c: nat)
    requires c >= 1
    ensures (k * c) / c == k
  {
    var q := (k * c) / c;
    var m := (k * c) % c;
    assert (k - q) * c == m;
    if k - q >= 1 {
      MulAtLeast(k - q, c);
      assert false;
    } else if q - k >= 1 {
      MulAtLeast(q - k, c);
      assert false;
    }
  }

  /**
   * The index and scroll arithmetic of `change_palette_selection_2d`: the
   * index moves as `GridMove` says, and the scroll position changes only when
   * the new index's row is not shown, scrolling up to that row or down until
   * it is the last one shown.
   */
  method MoveInGrid(index: nat, scroll: nat, columns: nat, rows: nat, dx: int, dy: int, len: nat)
    returns (newIndex: nat, newScroll: nat)
    requires columns >= 1 && rows >= 1 && len >= 1
    ensures newIndex == GridMove(index, columns, dx, dy, len)
    ensures Shown(newScroll, newIndex, columns, rows)
    ensures Shown(scroll, newIndex, columns, rows) ==> newScroll == scroll
  {
    var col := Clamp(index % columns + dx, 0, columns - 1);
    var row := index / columns + dy;
    newIndex := Clamp(row * columns + col, 0, len - 1);
    var top := RowOf(scroll, columns);
    var bottom := top + rows - 1;
    var itemRow := RowOf(newIndex, columns);
    newScroll := scroll;
    if itemRow < top {
      newScroll := RowStart(itemRow, columns);
    } else if itemRow > bottom {
      newScroll := RowStart(itemRow - rows + 1, columns);
    }
  }

  /** The palette index that starts grid row `row`: scrolling there puts that row at the top. */
  function RowStart(row: nat, columns: nat): (s: nat)
    requires columns >= 1
    ensures RowOf(s, columns) == row && s % columns == 0
  {
    MulDiv(row, columns);
    row * columns
  }

  /** The status message after picking a colour with triple `t`. */
  function PickedMessage(t: Triple): string
  {
    "Color picked: (" + NatToString(t.r) + ", " + NatToString(t.g) + ", " + NatToString(t.b) + ")"
  }

  // ---------------------------------------------------------------------------
  // The cycle of symmetry modes

  /**
   * `cycle_symmetry_mode`: Off → Vertical through the middle column →
   * DiagonalForward through the centre → Horizontal through the middle row →
   * DiagonalBackward through the centre → Off.
   */
  function NextSymmetry(sym: Symmetry, w: nat, h: nat): (r: Symmetry)
    ensures sym.Off? ==> r.Vertical?
    ensures sym.Vertical? ==> r.DiagonalForward?
    ensures sym.DiagonalForward? ==> r.Horizontal?
    ensures sym.Horizontal? ==> r.DiagonalBackward?
    ensures sym.DiagonalBackward? ==> r.Off?
  {
    match sym
    case Off() => Vertical((w % 0x1_0000) / 2)
    case Vertical(_) => DiagonalForward(h / 2 - w / 2)
    case DiagonalForward(_) => Horizontal((h % 0x1_0000) / 2)
    case Horizontal(_) => DiagonalBackward(h / 2 + w / 2)
    case DiagonalBackward(_) => Symmetry.Off
  }

  /** Five steps of the cycle come back to the starting mode. */
  lemma CycleReturns(sym: Symmetry, w: nat, h: nat)
    requires sym.Off?
    ensures NextSymmetry(NextSymmetry(NextSymmetry(NextSymmetry(NextSymmetry(sym, w, h), w, h), w, h), w, h), w, h) == sym
  {
  }

  /**
   * The vertical and horizontal lines the cycle picks mirror the canvas onto
   * itself (for canvases narrower than 65536): the mirror of column x is
   * w − 1 − x and that of row y is h − 1 − y, whatever the parity.
   */
  lemma CycledLinesFlipCanvas(w: nat, h: nat, x: int, y: int)
    requires w < 0x1_0000 && h < 0x1_0000
    ensures MirrorOf(NextSymmetry(Symmetry.Off, w, h), w, h, x, y) == Some((w - 1 - x, y))
    ensures MirrorOf(NextSymmetry(DiagonalForward(0), w, h), w, h, x, y) == Some((x, h - 1 - y))
  {
  }

  // ---------------------------------------------------------------------------
  // The editor

  class App {
    // The display canvas (the composite of the layers) and its size.
    var canvas: Grid
    var width: nat
    var height: nat
    var layers: seq<Layer>
    var active: nat
    var onionSkinEnabled: bool
    var onionSkinOpacity: real
    var exportLayerMode: ExportLayerMode

    // Cursor, view and the screen areas remembered from the last frame.
    var cursor: (U16, U16)
    var zoom: U16
    var viewOffsetX: int
    var viewOffsetY: int
    var lastPixelArea: Option<Rect>
    var lastPaletteArea: Option<Rect>

    // Palettes and the current selection.
    var selection: PaletteEntry
    var colorPalette: seq<PaletteEntry>
    var paletteIndex: nat
    const toolPalette: seq<PaletteEntry> := DefaultToolPalette()
    var toolIndex: nat
    var paletteScroll: nat
    var loadedPalettes: map<string, seq<PaletteEntry>>

    // Mode and messages.
    var mode: AppMode
    var symmetry: Symmetry
    var shouldQuit: bool
    var status: Option<string>

    // Pen and drawing settings.
    var penSize: nat
    var opacity: real
    var penSizeSensitivity: U16
    var opacitySensitivity: real
    var penShape: PenShape
    var shadeFactor: real
    var highlighterEnabled: bool
    var highlighterValue: real
    var highlighterMode: HighlighterMode
    var protectStroke: bool
    var applyColorInterval: int  // milliseconds
    var minimapMode: MinimapMode
    var mouseEvents: bool
    var colorMode: ColorMode
    var defaultPaletteName: string
    var canvasScrollAction: CanvasScrollAction
    var spraySize: U16
    var spraySpeed: U16
    var sprayIntensity: real
    var snap: bool
    var snapMode: SnapMode
    var protectTransitions: bool
    var paletteMenuPosition: PaletteMenuPosition

    // The undo and redo stacks, oldest first, and the cells drawn in the current stroke.
    var undo: seq<Grid>
    var redo: seq<Grid>
    var drawn: set<(int, int)>

    // The file browser.
    var browserMode: Option<BrowserMode>
    var browserEntries: seq<Paths.Entry>
    var browserSelected: Option<nat>
    var browserCurrentDir: Paths.Path
    var browserBack: seq<Paths.Path>
    var browserForward: seq<Paths.Path>
    var browserError: Option<string>
    var browserInput: string
    var browserScale: string
    var browserFocus: BrowserFocus

    /** The colour distance and hue the palette searches use (floating-point code not modelled). */
    const metric: Metric

    /** The layer stack is well formed: a non-empty stack of canvas-sized grids and an active index inside it. */
    predicate Layered()
      reads this`width, this`height, this`layers, this`active
    {
      width >= 1 && height >= 1 && |layers| >= 1 && active < |layers| && LayersOk(layers, width, height)
    }

    /** The display canvas is the composite of the layer stack. */
    predicate Synced()
      reads this`width, this`height, this`layers, this`active, this`canvas
    {
      Layered() && canvas == Composite(layers, width, height)
    }

    /** The state every operation keeps: a synced canvas, a unit opacity, bounded history. */
    predicate Valid()
      reads this`width, this`height, this`layers, this`active, this`canvas, this`opacity, this`undo, this`redo
    {
      Synced() && Unit(opacity) && History.Bounded(Snapshots())
    }

    /** Every snapshot has the canvas size: true until a resize (which keeps the stacks). */
    predicate HistoryFits()
      reads this`width, this`height, this`undo, this`redo
    {
      History.Fits(Snapshots(), width, height)
    }

    function Snapshots(): History.Stacks
      reads this`undo, this`redo
    {
      History.Stacks(undo, redo)
    }

    /** The settings a per-pixel effect reads. */
    function Settings(): EffectSettings
      reads this`selection, this`opacity, this`shadeFactor, this`snap, this`snapMode, this`protectTransitions, this`colorPalette
    {
      EffectSettings(selection, opacity, shadeFactor, snap, snapMode, protectTransitions, colorPalette, metric)
    }

    /** The settings a brush or eraser stroke reads. */
    function Pen(): BrushSettings
      reads this`penSize, this`penShape, this`symmetry, this`protectStroke, this`width, this`height
    {
      BrushSettings(penSize, penShape, symmetry, protectStroke, width, height)
    }

    /** The active grid and the cells drawn so far in the stroke. */
    function ActiveStroke(): Stroke
      reads this`layers, this`active, this`drawn
      requires active < |layers|
    {
      Stroke(layers[active].canvas, drawn)
    }

    /** `App::new`: a 30×30 canvas with one empty layer and the default settings. */
    constructor (loaded: map<string, seq<PaletteEntry>>, metric: Metric)
      requires "default" in loaded
      ensures Valid() && HistoryFits()
      ensures width == 30 && height == 30 && |layers| == 1 && active == 0
      ensures layers[0] == Layer("Layer 1", BlankGrid(30, 30), true, 1.0)
      ensures colorPalette == loaded["default"] && toolPalette == DefaultToolPalette()
      ensures selection == ColorEntry(White) && penSize == 1 && opacity == 1.0
      ensures undo == [] && redo == [] && drawn == {}
      ensures symmetry == Symmetry.Off && mode == Drawing && zoom == PixelWidth && protectStroke
    {
      width, height := 30, 30;
      layers := [Layer("Layer 1", BlankGrid(30, 30), true, 1.0)];
      active := 0;
      canvas := BlankGrid(30, 30);
      onionSkinEnabled, onionSkinOpacity := false, 0.3;
      exportLayerMode := United;
      cursor := (0, 0);
      zoom := PixelWidth;
      viewOffsetX, viewOffsetY := 0, 0;
      lastPixelArea, lastPaletteArea := None, None;
      selection := ColorEntry(White);
      colorPalette := loaded["default"];
      paletteIndex := 0;
      toolIndex := 0;
      paletteScroll := 0;
      loadedPalettes := loaded;
      mode := Drawing;
      symmetry := Symmetry.Off;
      shouldQuit := false;
      status := None;
      penSize := 1;
      opacity := 1.0;
      penSizeSensitivity := 1;
      opacitySensitivity := 0.05;
      penShape := Circular;
      shadeFactor := DefaultShadeFactor;
      highlighterEnabled, highlighterValue, highlighterMode := true, 0.5, Blend;
      protectStroke := true;
      applyColorInterval := 200;
      minimapMode := Auto;
      mouseEvents := true;
      colorMode := TrueColor;
      defaultPaletteName := "default";
      canvasScrollAction := CanvasScrollAction.ChangePenSize;
      spraySize, spraySpeed, sprayIntensity := 5, 3, 0.1;
      snap, snapMode, protectTransitions := false, ClosestHue, false;
      paletteMenuPosition := Left;
      undo, redo := [], [];
      drawn := {};
      browserMode := None;
      browserEntries := [];
      browserSelected := None;
      browserCurrentDir := [];
      browserBack, browserForward := [], [];
      browserError := None;
      browserInput := "";
      browserScale := "1";
      browserFocus := List;
      this.metric := metric;
      new;
      EmptyStackIsBlank(layers, 30, 30);
    }

    // -------------------------------------------------------------------------
    // Compositing

    /**
     * One pass of the layer loop of `sync_canvas_from_layers`: layer `k` is
     * composited onto every cell of the display canvas. A hidden layer is
     * skipped outright.
     */
    method BlendLayer(k: nat)
      requires Layered() && k < |layers| && Shaped(canvas, width, height) && GridOk(canvas)
      modifies this`canvas
      ensures Shaped(canvas, width, height) && GridOk(canvas)
      ensures forall y, x :: 0 <= y < height && 0 <= x < width ==>
        canvas[y][x] == LayerOver(old(canvas)[y][x], layers[k], y, x)
    {
      var layer := layers[k];
      assert LayerOk(layer, width, height);
      if !layer.visible {
        return;
      }
      ghost var before := canvas;
      var y := 0;
      while y < height
        invariant 0 <= y <= height
        invariant Shaped(canvas, width, height) && GridOk(canvas)
        invariant forall yy, xx :: 0 <= yy < y && 0 <= xx < width ==> canvas[yy][xx] == LayerOver(before[yy][xx], layer, yy, xx)
        invariant forall yy :: y <= yy < height ==> canvas[yy] == before[yy]
      {
        BlendRow(layer, y);
        y := y + 1;
      }
    }

    /** The column loop of `sync_canvas_from_layers` for layer `layer` and row `y`. */
    method BlendRow(layer: Layer, y: nat)
      requires width >= 1 && height >= 1 && LayerOk(layer, width, height) && layer.visible && y < height
      requires Shaped(canvas, width, height) && GridOk(canvas)
      modifies this`canvas
      ensures Shaped(canvas, width, height) && GridOk(canvas)
      ensures forall xx :: 0 <= xx < width ==> canvas[y][xx] == LayerOver(old(canvas)[y][xx], layer, y, xx)
      ensures forall yy :: 0 <= yy < height && yy != y ==> canvas[yy] == old(canvas)[yy]
    {
      ghost var before := canvas;
      var x := 0;
      while x < width
        invariant 0 <= x <= width
        invariant Shaped(canvas, width, height) && GridOk(canvas)
        invariant forall xx :: 0 <= xx < x ==> canvas[y][xx] == LayerOver(before[y][xx], layer, y, xx)
        invariant forall xx :: x <= xx < width ==> canvas[y][xx] == before[y][xx]
        invariant forall yy :: 0 <= yy < height && yy != y ==> canvas[yy] == before[yy]
      {
        var layerPixel := layer.canvas[y][x];
        if layerPixel.alpha != 0.0 {
          var p := LayerOver(canvas[y][x], layer, y, x);
          SetPixelOk(canvas, width, height, x, y, p);
          canvas := canvas[y := canvas[y][x := p]];
        }
        x := x + 1;
      }
    }

    /**
     * `sync_canvas_from_layers`: the display canvas is rebuilt from default
     * pixels by compositing the layers from the last index to the first, so
     * that it becomes the composite of the stack.
     */
    method SyncCanvasFromLayers()
      requires Layered()
      modifies this`canvas
      ensures Synced()
    {
      canvas := BlankGrid(width, height);
      var k := |layers|;
      while k > 0
        invariant 0 <= k <= |layers|
        invariant Shaped(canvas, width, height) && GridOk(canvas)
        invariant forall y, x :: 0 <= y < height && 0 <= x < width ==> canvas[y][x] == StackFrom(layers, k, width, height, y, x)
      {
        k := k - 1;
        BlendLayer(k);
      }
      SameCells(canvas, Composite(layers, width, height), width, height);
    }

    // -------------------------------------------------------------------------
    // Undo and redo

    /** `save_state_for_undo`: the active grid is pushed on the undo stack, which keeps its last 100 entries, and redo is cleared. */
    method SaveStateForUndo()
      requires Valid()
      modifies this`undo, this`redo
      ensures Valid()
      ensures Snapshots() == History.Save(old(Snapshots()), layers[active].canvas)
      ensures HistoryFits() <== old(HistoryFits())
    {
      History.StepsBounded(Snapshots(), layers[active].canvas);
      if HistoryFits() {
        History.StepsFit(Snapshots(), layers[active].canvas, width, height);
      }
      undo := undo + [layers[active].canvas];
      if |undo| > History.MaxUndo {
        undo := undo[1..];
      }
      redo := [];
    }

    /**
     * `undo`: with a snapshot available, the active grid is pushed on redo and
     * the newest undo snapshot becomes the active grid; otherwise only the
     * status message changes.
     */
    method Undo()
      requires Valid() && HistoryFits()
      modifies this`layers, this`canvas, this`undo, this`redo, this`status
      ensures Valid() && HistoryFits()
      ensures old(undo) != [] ==>
        (Snapshots(), layers[active].canvas) == History.Undo(old(Snapshots()), old(layers[active].canvas)) &&
        layers == SetCanvas(old(layers), active, layers[active].canvas) &&
        status == Some("Undo")
      ensures old(undo) == [] ==>
        layers == old(layers) && undo == old(undo) && redo == old(redo) && status == Some("Nothing to undo")
    {
      if undo != [] {
        var current := layers[active].canvas;
        History.StepsBounded(Snapshots(), current);
        History.StepsFit(Snapshots(), current, width, height);
        redo := redo + [current];
        var g := undo[|undo| - 1];
        undo := undo[..|undo| - 1];
        ReplaceActive(g);
        status := Some("Undo");
      } else {
        status := Some("Nothing to undo");
      }
    }

    /** `redo`: the mirror image of `Undo`. */
    method Redo()
      requires Valid() && HistoryFits()
      modifies this`layers, this`canvas, this`undo, this`redo, this`status
      ensures Valid() && HistoryFits()
      ensures old(redo) != [] ==>
        (Snapshots(), layers[active].canvas) == History.Redo(old(Snapshots()), old(layers[active].canvas)) &&
        layers == SetCanvas(old(layers), active, layers[active].canvas) &&
        status == Some("Redo")
      ensures old(redo) == [] ==>
        layers == old(layers) && undo == old(undo) && redo == old(redo) && status == Some("Nothing to redo")
    {
      if redo != [] {
        var current := layers[active].canvas;
        History.StepsBounded(Snapshots(), current);
        History.StepsFit(Snapshots(), current, width, height);
        undo := undo + [current];
        var g := redo[|redo| - 1];
        redo := redo[..|redo| - 1];
        ReplaceActive(g);
        status := Some("Redo");
      } else {
        status := Some("Nothing to redo");
      }
    }

    // -------------------------------------------------------------------------
    // Drawing

    /**
     * `apply_effect_at_pixel`: an off-canvas cell is ignored; otherwise only
     * cell (x, y) of the active layer changes, to the effect of the current
     * selection, and the display is re-composited.
     */
    method ApplyEffectAtPixel(x: nat, y: nat)
      requires Valid()
      modifies this`layers, this`canvas
      ensures Valid()
      ensures x < width && y < height ==>
        layers == SetCanvas(old(layers), active, Apply(Settings(), width, height, old(layers[active].canvas), x, y))
      ensures !(x < width && y < height) ==> layers == old(layers) && canvas == old(canvas)
    {
      if x >= width || y >= height {
        return;
      }
      var g := layers[active].canvas;
      assert LayerOk(layers[active], width, height);
      var skip, p := EffectOf(Settings(), g, width, height, x, y);
      if skip {
        EffectPixelOk(Settings(), g, width, height, x, y);
        SameCells(Apply(Settings(), width, height, g, x, y), g, width, height);
        SetCanvasSame(layers, active);
        return;
      }
      SetCanvasOk(layers, width, height, active, Apply(Settings(), width, height, g, x, y));
      layers := SetCanvas(layers, active, SetPixel(g, x, y, p));
      SyncCanvasFromLayers();
    }

    /** The active grid becomes `g`, and the display is re-composited. */
    method ReplaceActive(g: Grid)
      requires Valid() && Shaped(g, width, height) && GridOk(g)
      modifies this`layers, this`canvas
      ensures Valid() && layers == SetCanvas(old(layers), active, g)
    {
      SetCanvasOk(layers, width, height, active, g);
      layers := SetCanvas(layers, active, g);
      SyncCanvasFromLayers();
    }

    /** The active grid and drawn set become those of stroke `r`, and the display is re-composited. */
    method Commit(r: Stroke)
      requires Valid() && StrokeOk(r, width, height)
      modifies this`layers, this`canvas, this`drawn
      ensures Valid()
      ensures layers == SetCanvas(old(layers), active, r.grid) && ActiveStroke() == r
    {
      ReplaceActive(r.grid);
      drawn := r.drawn;
    }

    /** Writes back a stroke and undo stacks computed on copies of the active grid and the history, with a status message. */
    method CommitWithHistory(r: Stroke, stacks: History.Stacks, message: string)
      requires Valid() && StrokeOk(r, width, height) && History.Bounded(stacks)
      modifies this`layers, this`canvas, this`drawn, this`undo, this`redo, this`status
      ensures Valid() && Snapshots() == stacks && status == Some(message)
      ensures layers == SetCanvas(old(layers), active, r.grid) && ActiveStroke() == r
    {
      undo, redo := stacks.undo, stacks.redo;
      status := Some(message);
      Commit(r);
    }

    /**
     * `apply_effect_with_stroke_tracking`: the active grid and the drawn set
     * become `Track` of the old ones; no other layer changes.
     */
    method ApplyEffectWithStrokeTracking(x: nat, y: nat)
      requires Valid()
      modifies this`layers, this`canvas, this`drawn
      ensures Valid() && layers == SetCanvas(old(layers), active, layers[active].canvas)
      ensures ActiveStroke() == Track(Settings(), Pen(), old(ActiveStroke()), x, y)
    {
      assert LayerOk(layers[active], width, height);
      var r := TrackStep(Settings(), Pen(), ActiveStroke(), x, y);
      Commit(r);
    }

    /**
     * `apply_brush` centred at (cx, cy): every drawn offset of the pen's box
     * that lands on the canvas is applied with stroke tracking, followed by
     * its on-canvas mirror, row by row; the result is `BrushStroke`.
     */
    method ApplyBrush(cx: U16, cy: U16)
      requires Valid()
      modifies this`layers, this`canvas, this`drawn
      ensures Valid() && layers == SetCanvas(old(layers), active, layers[active].canvas)
      ensures ActiveStroke() == BrushStroke(Settings(), Pen(), old(ActiveStroke()), cx, cy)
    {
      assert LayerOk(layers[active], width, height);
      var r := BrushLoop(Settings(), Pen(), ActiveStroke(), cx, cy);
      Commit(r);
    }

    /**
     * `erase_brush` centred at (cx, cy): every drawn offset of the pen's box
     * on the canvas whose key is not protected becomes transparent, with its
     * on-canvas mirror; the display is re-composited once at the end.
     */
    method EraseBrush(cx: U16, cy: U16)
      requires Valid()
      modifies this`layers, this`canvas, this`drawn
      ensures Valid() && layers == SetCanvas(old(layers), active, layers[active].canvas)
      ensures ActiveStroke() == EraseStroke(Pen(), old(ActiveStroke()), cx, cy)
    {
      assert LayerOk(layers[active], width, height);
      var r := EraseLoop(Pen(), ActiveStroke(), cx, cy);
      Commit(r);
    }

    // -------------------------------------------------------------------------
    // Strokes: where they begin and end

    /** A released mouse button or Draw key ends the stroke: with protection on, the drawn set is forgotten. */
    method EndStroke()
      modifies this`drawn
      ensures drawn == if protectStroke then {} else old(drawn)
    {
      if protectStroke {
        drawn := {};
      }
    }

    /**
     * A left or right mouse press at canvas cell (cx, cy): the cursor moves
     * there, a new stroke begins, the active grid is saved for undo, and the
     * brush (or, for the right button, the eraser) is applied.
     */
    method MouseDown(cx: U16, cy: U16, erase: bool)
      requires Valid()
      modifies this`cursor, this`drawn, this`undo, this`redo, this`layers, this`canvas
      ensures Valid() && (old(HistoryFits()) ==> HistoryFits())
      ensures cursor == (cx, cy)
      ensures Snapshots() == History.Save(old(Snapshots()), old(layers[active].canvas))
      ensures layers == SetCanvas(old(layers), active, layers[active].canvas)
      ensures var start := Stroke(old(layers[active].canvas), if protectStroke then {} else old(drawn));
        ActiveStroke() == if erase then EraseStroke(Pen(), start, cx, cy) else BrushStroke(Settings(), Pen(), start, cx, cy)
    {
      cursor := (cx, cy);
      EndStroke();
      SaveStateForUndo();
      if erase {
        EraseBrush(cx, cy);
      } else {
        ApplyBrush(cx, cy);
      }
    }

    /** `use_current_tool`: the active grid is saved for undo, then the brush is applied at the cursor. */
    method UseCurrentTool()
      requires Valid()
      modifies this`drawn, this`undo, this`redo, this`layers, this`canvas
      ensures Valid() && (old(HistoryFits()) ==> HistoryFits())
      ensures Snapshots() == History.Save(old(Snapshots()), old(layers[active].canvas))
      ensures layers == SetCanvas(old(layers), active, layers[active].canvas)
      ensures ActiveStroke() == BrushStroke(Settings(), Pen(), old(ActiveStroke()), cursor.0, cursor.1)
    {
      SaveStateForUndo();
      ApplyBrush(cursor.0, cursor.1);
    }

    /** `erase_at_cursor`: the active grid is saved for undo, then the eraser is applied at the cursor. */
    method EraseAtCursor()
      requires Valid()
      modifies this`drawn, this`undo, this`redo, this`layers, this`canvas
      ensures Valid() && (old(HistoryFits()) ==> HistoryFits())
      ensures Snapshots() == History.Save(old(Snapshots()), old(layers[active].canvas))
      ensures layers == SetCanvas(old(layers), active, layers[active].canvas)
      ensures ActiveStroke() == EraseStroke(Pen(), old(ActiveStroke()), cursor.0, cursor.1)
    {
      SaveStateForUndo();
      EraseBrush(cursor.0, cursor.1);
    }

    /** Pressing the Draw key: a new stroke begins and the current tool is used once. */
    method PressDraw()
      requires Valid()
      modifies this`drawn, this`undo, this`redo, this`layers, this`canvas
      ensures Valid() && (old(HistoryFits()) ==> HistoryFits())
      ensures Snapshots() == History.Save(old(Snapshots()), old(layers[active].canvas))
      ensures layers == SetCanvas(old(layers), active, layers[active].canvas)
      ensures ActiveStroke() == BrushStroke(Settings(), Pen(),
        Stroke(old(layers[active].canvas), if protectStroke then {} else old(drawn)), cursor.0, cursor.1)
    {
      EndStroke();
      UseCurrentTool();
    }

    /**
     * The repeat while the Draw key is held: the tool is used with stroke
     * protection switched off, which is then restored.
     */
    method HeldDrawRepeat()
      requires Valid()
      modifies this`protectStroke, this`drawn, this`undo, this`redo, this`layers, this`canvas
      ensures Valid() && (old(HistoryFits()) ==> HistoryFits())
      ensures protectStroke == old(protectStroke)
      ensures Snapshots() == History.Save(old(Snapshots()), old(layers[active].canvas))
      ensures layers == SetCanvas(old(layers), active, layers[active].canvas)
      ensures ActiveStroke() == BrushStroke(Settings(), Pen().(protect := false), old(ActiveStroke()), cursor.0, cursor.1)
    {
      var original := protectStroke;
      protectStroke := false;
      UseCurrentTool();
      protectStroke := original;
    }

    // -------------------------------------------------------------------------
    // Fill

    /**
     * `fill_from_point`: an off-canvas seed, or one that already holds the
     * fill pixel, changes nothing and saves nothing; otherwise the active grid
     * is saved for undo and the seed's 4-connected region is filled.
     */
    method FillFromPoint(sx: nat, sy: nat, color: Color, alpha: real)
      requires Valid() && Unit(alpha)
      modifies this`undo, this`redo, this`layers, this`canvas
      ensures Valid() && (old(HistoryFits()) ==> HistoryFits())
      ensures old(Shaped(layers[active].canvas, width, height))
      ensures var g, fill := old(layers[active].canvas), Pixel(ToRgb(color), alpha);
        FillStarts(g, width, height, sx, sy, fill) ==>
          layers == SetCanvas(old(layers), active, Fill.FilledGrid(g, width, height, (sx, sy), fill)) &&
          Snapshots() == History.Save(old(Snapshots()), g)
      ensures !FillStarts(old(layers[active].canvas), width, height, sx, sy, Pixel(ToRgb(color), alpha)) ==>
        layers == old(layers) && Snapshots() == old(Snapshots())
    {
      assert LayerOk(layers[active], width, height);
      var started, g := FillOn(layers[active].canvas, width, height, sx, sy, Pixel(ToRgb(color), alpha));
      if started {
        SaveAndReplace(g);
      }
    }

    /** The active grid is saved for undo, then replaced by `g`. */
    method SaveAndReplace(g: Grid)
      requires Valid() && Shaped(g, width, height) && GridOk(g)
      modifies this`undo, this`redo, this`layers, this`canvas
      ensures Valid() && (old(HistoryFits()) ==> HistoryFits())
      ensures layers == SetCanvas(old(layers), active, g)
      ensures Snapshots() == History.Save(old(Snapshots()), old(layers[active].canvas))
    {
      SaveStateForUndo();
      ReplaceActive(g);
    }

    /** `fill_area`: a fill at the cursor with the selected colour at the current opacity; a tool selection is refused. */
    method FillArea()
      requires Valid()
      modifies this`undo, this`redo, this`layers, this`canvas, this`status
      ensures Valid() && (old(HistoryFits()) ==> HistoryFits())
      ensures old(Shaped(layers[active].canvas, width, height))
      ensures selection.ToolEntry? ==>
        layers == old(layers) && Snapshots() == old(Snapshots()) && status == Some("Select a color to fill.")
      ensures selection.ColorEntry? ==>
        var g, fill := old(layers[active].canvas), Pixel(ToRgb(selection.color), opacity);
        status == old(status) &&
        (FillStarts(g, width, height, cursor.0, cursor.1, fill) ==>
          layers == SetCanvas(old(layers), active, Fill.FilledGrid(g, width, height, cursor, fill)) &&
          Snapshots() == History.Save(old(Snapshots()), g)) &&
        (!FillStarts(g, width, height, cursor.0, cursor.1, fill) ==>
          layers == old(layers) && Snapshots() == old(Snapshots()))
    {
      assert LayerOk(layers[active], width, height);
      if !selection.ColorEntry? {
        status := Some("Select a color to fill.");
        return;
      }
      FillFromPoint(cursor.0, cursor.1, selection.color, opacity);
    }

    // -------------------------------------------------------------------------
    // The layer stack

    /**
     * `add_new_layer`: a blank, visible, fully opaque layer named after the
     * new layer count is appended and made active. It lands at the bottom of
     * the composite, so the display does not change.
     */
    method AddNewLayer()
      requires Valid()
      modifies this`layers, this`active, this`canvas, this`status
      ensures Valid()
      ensures layers == old(layers) + [Layer("Layer " + NatToString(|old(layers)| + 1), BlankGrid(width, height), true, 1.0)]
      ensures active == |layers| - 1 && status == Some("Added " + layers[active].name)
      ensures canvas == old(canvas)
    {
      var layer := Layer("Layer " + NatToString(|layers| + 1), BlankGrid(width, height), true, 1.0);
      AppendBlank(layers, width, height, layer);
      layers := layers + [layer];
      active := |layers| - 1;
      SyncCanvasFromLayers();
      status := Some("Added " + layers[active].name);
    }

    /**
     * `delete_active_layer`: the only layer cannot be deleted; otherwise the
     * active layer is removed and the index stays put, or moves to the new
     * last layer when the deleted one was last.
     */
    method DeleteActiveLayer()
      requires Valid()
      modifies this`layers, this`active, this`canvas, this`status
      ensures Valid()
      ensures |old(layers)| <= 1 ==>
        layers == old(layers) && active == old(active) && canvas == old(canvas) && status == Some("Cannot delete the only layer.")
      ensures |old(layers)| > 1 ==>
        layers == Without(old(layers), old(active)) && active == Min(old(active), |layers| - 1) && status == Some("Layer deleted.")
    {
      if |layers| <= 1 {
        status := Some("Cannot delete the only layer.");
        return;
      }
      WithoutOk(layers, width, height, active);
      layers := Without(layers, active);
      if active >= |layers| {
        active := |layers| - 1;
      }
      SyncCanvasFromLayers();
      status := Some("Layer deleted.");
    }

    /** `toggle_layer_visibility`: only the active layer's visibility flips. */
    method ToggleLayerVisibility()
      requires Valid()
      modifies this`layers, this`canvas
      ensures Valid() && layers == Toggled(old(layers), active)
    {
      ToggledProps(layers, width, height, active);
      layers := Toggled(layers, active);
      SyncCanvasFromLayers();
    }

    /** `move_layer_up`: the active layer swaps with the one above it and stays active; at the top nothing changes. */
    method MoveLayerUp()
      requires Valid()
      modifies this`layers, this`active, this`canvas
      ensures Valid() && layers[active] == old(layers[active])
      ensures old(active) > 0 ==> layers == Swap(old(layers), old(active), old(active) - 1) && active == old(active) - 1
      ensures old(active) == 0 ==> layers == old(layers) && active == 0 && canvas == old(canvas)
    {
      if active > 0 {
        SwapOk(layers, width, height, active, active - 1);
        layers := Swap(layers, active, active - 1);
        active := active - 1;
        SyncCanvasFromLayers();
      }
    }

    /** `move_layer_down`: the active layer swaps with the one below it and stays active; at the bottom nothing changes. */
    method MoveLayerDown()
      requires Valid()
      modifies this`layers, this`active, this`canvas
      ensures Valid() && layers[active] == old(layers[active])
      ensures old(active) < |old(layers)| - 1 ==> layers == Swap(old(layers), old(active), old(active) + 1) && active == old(active) + 1
      ensures old(active) == |old(layers)| - 1 ==> layers == old(layers) && active == old(active) && canvas == old(canvas)
    {
      if active < |layers| - 1 {
        SwapOk(layers, width, height, active, active + 1);
        layers := Swap(layers, active, active + 1);
        active := active + 1;
        SyncCanvasFromLayers();
      }
    }

    /**
     * `change_layer_selection`: the active index becomes `LayerStep` of the old
     * one; on a stack of at most 32768 layers that is the index moved by
     * `delta` and clamped into the stack. When the step is negative the source
     * stores a wrapped `usize` index that the next layer access panics on;
     * the model keeps the old index. Nothing else changes.
     */
    method ChangeLayerSelection(delta: int)
      requires Valid() && -0x8000 <= delta < 0x8000
      modifies this`active, this`canvas
      ensures Valid() && canvas == old(canvas)
      ensures var r := LayerStep(old(active), delta, |layers|); active == if r >= 0 then r else old(active)
      ensures |layers| <= 0x8000 && -0x8000 <= old(active) + delta < 0x8000 ==> active == Clamp(old(active) + delta, 0, |layers| - 1)
    {
      var r := LayerStep(active, delta, |layers|);
      if r >= 0 {
        active := r;
      }
      SyncCanvasFromLayers();
    }

    /**
     * `resize_canvas`: the size becomes the requested one (at least 1), every
     * layer and the display become blank, the cursor is pulled inside, the
     * view fits the canvas to the last pixel area when there is one, and the
     * pan resets. The undo and redo stacks are kept as they are.
     */
    method ResizeCanvas(newWidth: nat, newHeight: nat)
      requires Valid()
      requires lastPixelArea.Some? ==> Max(newWidth, 1) % 0x1_0000 != 0 && Max(newHeight, 1) % 0x1_0000 != 0
      modifies this`width, this`height, this`layers, this`canvas, this`cursor, this`zoom, this`viewOffsetX, this`viewOffsetY
      ensures Valid()
      ensures width == Max(newWidth, 1) && height == Max(newHeight, 1)
      ensures layers == Blanked(old(layers), width, height) && canvas == BlankGrid(width, height)
      ensures cursor == (Min(old(cursor.0), (width - 1) % 0x1_0000), Min(old(cursor.1), (height - 1) % 0x1_0000))
      ensures zoom == if lastPixelArea.Some? then FitZoom(lastPixelArea.value, width, height) else old(zoom)
      ensures viewOffsetX == 0 && viewOffsetY == 0
    {
      ResizeLayers(Max(newWidth, 1), Max(newHeight, 1));
      cursor := (Min(cursor.0, (width - 1) % 0x1_0000), Min(cursor.1, (height - 1) % 0x1_0000));
      if lastPixelArea.Some? {
        zoom := FitZoom(lastPixelArea.value, width, height);
      }
      viewOffsetX, viewOffsetY := 0, 0;
    }

    /** The size becomes `w`×`h`, and every layer and the display become blank grids of that size. */
    method ResizeLayers(w: nat, h: nat)
      requires Valid() && w >= 1 && h >= 1
      modifies this`width, this`height, this`layers, this`canvas
      ensures Valid() && width == w && height == h
      ensures layers == Blanked(old(layers), w, h) && canvas == BlankGrid(w, h)
    {
      BlankedOk(layers, width, height, w, h);
      width, height := w, h;
      layers := BlankAll(layers, w, h);
      SyncCanvasFromLayers();
    }

    /** `clear_canvas`: the active grid is saved for undo and becomes blank. */
    method ClearCanvas()
      requires Valid()
      modifies this`undo, this`redo, this`layers, this`canvas, this`status
      ensures Valid() && (old(HistoryFits()) ==> HistoryFits())
      ensures Snapshots() == History.Save(old(Snapshots()), old(layers[active].canvas))
      ensures layers == SetCanvas(old(layers), active, BlankGrid(width, height))
      ensures status == Some("Active layer cleared.")
    {
      SaveStateForUndo();
      ReplaceActive(BlankGrid(width, height));
      status := Some("Active layer cleared.");
    }

    // -------------------------------------------------------------------------
    // Cursor, view, pen and symmetry

    /** `move_cursor`: in drawing mode each coordinate takes one `CursorStep` (`i16` arithmetic, clamped onto the canvas); in any other mode nothing happens. */
    method MoveCursor(dx: int, dy: int)
      requires -0x8000 <= dx < 0x8000 && -0x8000 <= dy < 0x8000
      modifies this`cursor
      ensures mode != Drawing ==> cursor == old(cursor)
      ensures mode == Drawing ==> cursor == (CursorStep(old(cursor.0), dx, width), CursorStep(old(cursor.1), dy, height))
      ensures mode == Drawing && 0 < width <= 0x8000 && 0 < height <= 0x8000 ==> cursor.0 < width && cursor.1 < height
      ensures mode == Drawing && 0 < width <= 0x8000 && 0 < height <= 0x8000 && old(cursor.0) < 0x8000 && old(cursor.1) < 0x8000 ==>
        (0 <= old(cursor.0) + dx < width ==> cursor.0 == old(cursor.0) + dx) &&
        (0 <= old(cursor.1) + dy < height ==> cursor.1 == old(cursor.1) + dy)
    {
      if mode == Drawing {
        cursor := (CursorStep(cursor.0, dx, width), CursorStep(cursor.1, dy, height));
      }
    }

    /** `cycle_symmetry_mode`: one step of the cycle Off → Vertical → DiagonalForward → Horizontal → DiagonalBackward → Off. */
    method CycleSymmetry()
      modifies this`symmetry
      ensures symmetry == NextSymmetry(old(symmetry), width, height)
    {
      symmetry := NextSymmetry(symmetry, width, height);
    }

    /** `change_pen_size`: the size moves by the sensitivity times `delta` in `i16`, never below 1, and the new size is reported. */
    method ChangePenSize(delta: int)
      requires -0x8000 <= delta < 0x8000
      modifies this`penSize, this`status
      ensures penSize == PenSizeStep(old(penSize), penSizeSensitivity, delta)
      ensures 1 <= penSize < 0x8000
      ensures status == Some("Pen size: " + NatToString(penSize))
    {
      penSize := PenSizeStep(penSize, penSizeSensitivity, delta);
      status := Some("Pen size: " + NatToString(penSize));
    }

    /** `change_opacity`: the opacity moves by the sensitivity times `direction`, clamped into [0, 1]. */
    method ChangeOpacity(direction: real)
      requires Valid()
      modifies this`opacity
      ensures Valid()
      ensures 0.0 <= old(opacity) + opacitySensitivity * direction <= 1.0 ==> opacity == old(opacity) + opacitySensitivity * direction
      ensures old(opacity) + opacitySensitivity * direction < 0.0 ==> opacity == 0.0
      ensures old(opacity) + opacitySensitivity * direction > 1.0 ==> opacity == 1.0
    {
      opacity := ClampReal(opacity + opacitySensitivity * direction, 0.0, 1.0);
    }

    /** `pan_view`: the view offsets move by (dx, dy); clamping happens when the view is next drawn. */
    method PanView(dx: int, dy: int)
      modifies this`viewOffsetX, this`viewOffsetY
      ensures viewOffsetX == old(viewOffsetX) + dx && viewOffsetY == old(viewOffsetY) + dy
    {
      viewOffsetX := viewOffsetX + dx;
      viewOffsetY := viewOffsetY + dy;
    }

    /**
     * `zoom`: the zoom level becomes `ZoomStep` of the old one; below 32768 that
     * is the level moved by `delta` and clamped into [2, 16].
     */
    method Zoom(delta: int)
      requires -0x8000 <= delta < 0x8000
      modifies this`zoom
      ensures zoom == ZoomStep(old(zoom), delta)
      ensures 2 <= zoom <= 16
      ensures old(zoom) < 0x8000 && -0x8000 <= old(zoom) + delta < 0x8000 ==>
        (2 <= old(zoom) + delta <= 16 ==> zoom == old(zoom) + delta) &&
        (old(zoom) + delta < 2 ==> zoom == 2) &&
        (old(zoom) + delta > 16 ==> zoom == 16)
    {
      zoom := ZoomStep(zoom, delta);
    }

    /**
     * `clamp_view_offsets` for a view of `visibleWidth`×`visibleHeight`
     * terminal cells: each offset is pulled into [0, canvas size − visible
     * pixels], so a scrolled view never shows past the canvas edge.
     */
    method ClampViewOffsets(visibleWidth: U16, visibleHeight: U16)
      requires zoom >= 2
      modifies this`viewOffsetX, this`viewOffsetY
      ensures var seen := VisibleCount(visibleWidth, zoom);
        viewOffsetX == Clamp(old(viewOffsetX), 0, Max(width - seen, 0)) &&
        0 <= viewOffsetX && (viewOffsetX > 0 ==> viewOffsetX + seen <= width)
      ensures var seen := VisibleCount(visibleHeight, Max(zoom / PixelWidth, 1));
        viewOffsetY == Clamp(old(viewOffsetY), 0, Max(height - seen, 0)) &&
        0 <= viewOffsetY && (viewOffsetY > 0 ==> viewOffsetY + seen <= height)
    {
      var cellHeight := Max(zoom / PixelWidth, 1);
      var seenX := VisibleCount(visibleWidth, zoom);
      viewOffsetX := Clamp(viewOffsetX, 0, Max(width - seenX, 0));
      var seenY := VisibleCount(visibleHeight, cellHeight);
      viewOffsetY := Clamp(viewOffsetY, 0, Max(height - seenY, 0));
    }

    // -------------------------------------------------------------------------
    // Palette selection

    /**
     * `change_palette_selection_2d` on the palette grid last drawn: the column
     * moves by `dx` within the row, the row by `dy`, the index is clamped into
     * the palette, and the scroll position changes only as much as needed to
     * keep the selected row visible.
     */
    method ChangePaletteSelection2d(dx: int, dy: int)
      requires lastPaletteArea.Some? ==> colorPalette != [] && lastPaletteArea.value.height >= 1
      modifies this`paletteIndex, this`paletteScroll
      ensures lastPaletteArea.None? ==> paletteIndex == old(paletteIndex) && paletteScroll == old(paletteScroll)
      ensures lastPaletteArea.Some? ==>
        var columns, rows := Max(lastPaletteArea.value.width / 3, 1), lastPaletteArea.value.height;
        paletteIndex == GridMove(old(paletteIndex), columns, dx, dy, |colorPalette|) &&
        Shown(paletteScroll, paletteIndex, columns, rows) &&
        (Shown(old(paletteScroll), paletteIndex, columns, rows) ==> paletteScroll == old(paletteScroll))
    {
      if lastPaletteArea.Some? {
        var area := lastPaletteArea.value;
        paletteIndex, paletteScroll := MoveInGrid(paletteIndex, paletteScroll, Max(area.width / 3, 1), area.height, dx, dy, |colorPalette|);
      }
    }

    /** `change_tool_selection`: the tool index moves by `delta`, clamped into the tool palette. */
    method ChangeToolSelection(delta: int)
      modifies this`toolIndex
      ensures toolIndex == Clamp(old(toolIndex) + delta, 0, |toolPalette| - 1) && toolIndex < |toolPalette|
    {
      toolIndex := Clamp(toolIndex + delta, 0, |toolPalette| - 1);
    }

    /** `select_color_entry`: the highlighted colour becomes the selection and drawing resumes. */
    method SelectColorEntry()
      requires paletteIndex < |colorPalette|
      modifies this`selection, this`mode, this`status
      ensures selection == colorPalette[paletteIndex] && mode == Drawing && status == None
    {
      selection := colorPalette[paletteIndex];
      mode := Drawing;
      status := None;
    }

    /** `select_tool_entry`: the highlighted tool becomes the selection and drawing resumes. */
    method SelectToolEntry()
      requires toolIndex < |toolPalette|
      modifies this`selection, this`mode, this`status
      ensures selection == toolPalette[toolIndex] && selection.ToolEntry? && mode == Drawing && status == None
    {
      selection := toolPalette[toolIndex];
      mode := Drawing;
      status := None;
    }

    /**
     * `pick_color_at_cursor`: the displayed colour under the cursor becomes
     * the selection, and the palette index points at its first occurrence,
     * the colour being appended when the palette lacks it. A transparent cell
     * is refused with a message; an off-canvas cursor does nothing.
     */
    method PickColorAtCursor()
      requires Valid()
      modifies this`colorPalette, this`paletteIndex, this`selection, this`status
      ensures !(cursor.0 < width && cursor.1 < height) ==>
        colorPalette == old(colorPalette) && paletteIndex == old(paletteIndex) && selection == old(selection) && status == old(status)
      ensures cursor.0 < width && cursor.1 < height && canvas[cursor.1][cursor.0].alpha == 0.0 ==>
        colorPalette == old(colorPalette) && paletteIndex == old(paletteIndex) && selection == old(selection) &&
        status == Some("Cannot pick color from a transparent pixel.")
      ensures cursor.0 < width && cursor.1 < height && canvas[cursor.1][cursor.0].alpha != 0.0 ==>
        var t := canvas[cursor.1][cursor.0].color;
        var e := ColorEntry(FromTriple(t));
        selection == e && paletteIndex < |colorPalette| && colorPalette[paletteIndex] == e && e !in colorPalette[..paletteIndex] &&
        colorPalette == (if e in old(colorPalette) then old(colorPalette) else old(colorPalette) + [e]) &&
        status == Some(PickedMessage(t))
    {
      var x, y := cursor.0, cursor.1;
      if x >= width || y >= height {
        return;
      }
      var pixel := canvas[y][x];
      if pixel.alpha == 0.0 {
        status := Some("Cannot pick color from a transparent pixel.");
        return;
      }
      var picked := ColorEntry(FromTriple(pixel.color));
      match Position(colorPalette, picked) {
        case Some(i) =>
          paletteIndex := i;
        case None =>
          colorPalette := colorPalette + [picked];
          paletteIndex := |colorPalette| - 1;
          assert colorPalette[..paletteIndex] == old(colorPalette);
      }
      selection := picked;
      ToRgbCases(pixel.color, 0);
      status := Some(PickedMessage(ToRgb(picked.color)));
    }

    /**
     * `add_palette_entries_uniquely`: each colour entry not yet in the palette
     * is appended, in order, and the number appended is reported.
     */
    method AddPaletteEntriesUniquely(entries: seq<PaletteEntry>)
      modifies this`colorPalette, this`status
      ensures colorPalette == AddUniquely(old(colorPalette), entries)
      ensures |colorPalette| >= |old(colorPalette)|
      ensures status == Some("Added " + NatToString(|colorPalette| - |old(colorPalette)|) + " new colors to the palette.")
    {
      var added := 0;
      var i := 0;
      while i < |entries|
        invariant 0 <= i <= |entries|
        invariant colorPalette == AddUniquely(old(colorPalette), entries[..i])
        invariant |colorPalette| == |old(colorPalette)| + added
      {
        assert entries[..i + 1][..i] == entries[..i];
        var e := entries[i];
        if e.ColorEntry? && e !in colorPalette {
          colorPalette := colorPalette + [e];
          added := added + 1;
        }
        i := i + 1;
      }
      assert entries[..|entries|] == entries;
      status := Some("Added " + NatToString(added) + " new colors to the palette.");
    }
  }

  /** A stack whose layers are all blank composites to a blank canvas. */
  lemma EmptyStackIsBlank(layers: seq<Layer>, w: nat, h: nat)
    requires LayersOk(layers, w, h)
    requires forall i :: 0 <= i < |layers| ==> layers[i].canvas == BlankGrid(w, h)
    ensures Composite(layers, w, h) == BlankGrid(w, h)
  {
    forall y, x | 0 <= y < h && 0 <= x < w ensures Stack(layers, w, h, y, x) == Transparent() {
      NothingVisibleIsTransparent(layers, w, h, 0, y, x);
    }
    SameCells(Composite(layers, w, h), BlankGrid(w, h), w, h);
  }
}

=== FILE: effects.dfy ===
// The per-pixel drawing effects: painting a colour with source-over, the
// Lighter and Darker shading tools, and the 3×3 box blur.

module Effects {
  import opened Colors
  import opened Palette
  import opened Pixels
  import opened Snap

  /** Which family of searches the snapping Lighter/Darker tools use. */
  datatype SnapMode = ClosestRgb | ClosestHue

  /** The editor settings an effect reads. */
  datatype EffectSettings = EffectSettings(
    selection: PaletteEntry,
    opacity: real,
    shadeFactor: real,
    snap: bool,
    snapMode: SnapMode,
    protectTransitions: bool,
    palette: seq<PaletteEntry>,
    metric: Metric)

  /** The grid with the pixel at (x, y) replaced. */
  function SetPixel(g: Grid, x: nat, y: nat, p: Pixel): (r: Grid)
    requires y < |g| && x < |g[y]|
    ensures |r| == |g| && forall yy :: 0 <= yy < |g| ==> |r[yy]| == |g[yy]|
    ensures r[y][x] == p
    ensures forall yy, xx :: 0 <= yy < |g| && 0 <= xx < |g[yy]| && (yy, xx) != (y, x) ==> r[yy][xx] == g[yy][xx]
  {
    g[y := g[y][x := p]]
  }

  /** Replacing one pixel keeps the shape of the grid, and keeps alphas valid when the new one is. */
  lemma SetPixelOk(g: Grid, w: nat, h: nat, x: nat, y: nat, p: Pixel)
    requires Shaped(g, w, h) && x < w && y < h
    ensures Shaped(SetPixel(g, x, y, p), w, h)
    ensures GridOk(g) && Unit(p.alpha) ==> GridOk(SetPixel(g, x, y, p))
  {
  }

  // ---------------------------------------------------------------------------
  // Blur

  /** The accumulators of `calculate_blur_at`. */
  datatype BlurSums = BlurSums(r: nat, g: nat, b: nat, alpha: real, count: nat, colored: bool)

  const NoSums := BlurSums(0, 0, 0, 0.0, 0, false)

  predicate InCanvas(w: nat, h: nat, x: int, y: int)
  {
    0 <= x < w && 0 <= y < h
  }

  /**
   * The sums after visiting one more neighbour (nx, ny): an off-canvas cell is
   * skipped; an in-bounds one always adds its alpha and one to the count, and
   * adds its colour only when its alpha is positive; `centre` tells whether
   * the cell is the blurred pixel itself, which never counts as a coloured
   * neighbour.
   */
  function BlurStep(g: Grid, w: nat, h: nat, s: BlurSums, nx: int, ny: int, centre: bool): BlurSums
    requires Shaped(g, w, h)
  {
    if !InCanvas(w, h, nx, ny) then s
    else
      var n := g[ny][nx];
      var t := n.color;  // `to_rgb(color.into())` of a stored triple is the triple itself
      var s1 :=
        if n.alpha > 0.0 then s.(r := s.r + t.r, g := s.g + t.g, b := s.b + t.b, colored := s.colored || !centre)
        else s;
      s1.(alpha := s1.alpha + n.alpha, count := s1.count + 1)
  }

  /** The sums after the first `n` columns (dx = −1, 0, 1) of row `dy`, starting from `s`. */
  function RowSums(g: Grid, w: nat, h: nat, x: nat, y: nat, s: BlurSums, dy: int, n: nat): BlurSums
    requires Shaped(g, w, h) && n <= 3
  {
    if n == 0 then s
    else BlurStep(g, w, h, RowSums(g, w, h, x, y, s, dy, n - 1), x + n - 2, y + dy, n == 2 && dy == 0)
  }

  /** The sums after the first `m` rows (dy = −1, 0, 1). */
  function GridSums(g: Grid, w: nat, h: nat, x: nat, y: nat, m: nat): BlurSums
    requires Shaped(g, w, h) && m <= 3
  {
    if m == 0 then NoSums
    else RowSums(g, w, h, x, y, GridSums(g, w, h, x, y, m - 1), m - 2, 3)
  }

  /** The neighbour at offset (dx, dy) is an in-bounds cell other than (x, y) with a positive alpha. */
  predicate ColoredNeighbour(g: Grid, w: nat, h: nat, x: nat, y: nat, dx: int, dy: int)
    requires Shaped(g, w, h)
  {
    -1 <= dx <= 1 && -1 <= dy <= 1 && (dx, dy) != (0, 0) &&
    InCanvas(w, h, x + dx, y + dy) && g[y + dy][x + dx].alpha > 0.0
  }

  /** `(sum / count) as u8`: integer division, then the truncating cast. */
  function Average(sum: nat, count: nat): Byte
    requires count > 0
  {
    (sum / count) % 256
  }

  /**
   * `calculate_blur_at`: averages the colours of the non-transparent in-bounds
   * neighbours over the count of ALL in-bounds neighbours, blends the result
   * into the original at `opacity`, optionally snaps it to the palette, and
   * mixes the alphas the same way. A transparent pixel with no coloured
   * neighbour (other than itself) is returned unchanged.
   */
  function BlurPixel(g: Grid, w: nat, h: nat, x: nat, y: nat, opacity: real, snap: bool,
                     palette: seq<PaletteEntry>, metric: Metric): Pixel
    requires Shaped(g, w, h) && x < w && y < h
  {
    var original := g[y][x];
    var s := GridSums(g, w, h, x, y, 3);
    if original.alpha == 0.0 && !s.colored then original
    else if s.count > 0 then
      var blurred := Rgb(Average(s.r, s.count), Average(s.g, s.count), Average(s.b, s.count));
      var intermediate := BlendColors(FromTriple(original.color), blurred, opacity);
      var final := if snap then Find(palette, Closest, metric, intermediate) else intermediate;
      Pixel(ToRgb(final), MixedAlpha(original.alpha, s.alpha, s.count, opacity))
    else original
  }

  /** `orig·(1−opacity) + mean·opacity`, the mean being the alpha sum over the count. */
  function MixedAlpha(o: real, sum: real, count: nat, opacity: real): real
    requires count > 0
  {
    o * (1.0 - opacity) + (sum / count as real) * opacity
  }

  /** The two nested neighbour loops of `calculate_blur_at`, proved to compute the nine-cell sums. */
  method SumNeighbours(g: Grid, w: nat, h: nat, x: nat, y: nat) returns (sums: BlurSums)
    requires Shaped(g, w, h)
    ensures sums == GridSums(g, w, h, x, y, 3)
  {
    var rSum: nat, gSum: nat, bSum: nat := 0, 0, 0;
    var aSum := 0.0;
    var count: nat := 0;
    var hasColoredNeighbor := false;
    var dy := -1;
    while dy <= 1
      invariant -1 <= dy <= 2
      invariant BlurSums(rSum, gSum, bSum, aSum, count, hasColoredNeighbor) == GridSums(g, w, h, x, y, dy + 1)
    {
      ghost var rowStart := BlurSums(rSum, gSum, bSum, aSum, count, hasColoredNeighbor);
      var dx := -1;
      while dx <= 1
        invariant -1 <= dx <= 2
        invariant BlurSums(rSum, gSum, bSum, aSum, count, hasColoredNeighbor) == RowSums(g, w, h, x, y, rowStart, dy, dx + 1)
      {
        ghost var before := BlurSums(rSum, gSum, bSum, aSum, count, hasColoredNeighbor);
        var nx, ny := x + dx, y + dy;
        if nx >= 0 && nx < w && ny >= 0 && ny < h {
          var neighbor := g[ny][nx];
          if neighbor.alpha > 0.0 {
            var t := neighbor.color;
            rSum := rSum + t.r;
            gSum := gSum + t.g;
            bSum := bSum + t.b;
            if dx != 0 || dy != 0 {
              hasColoredNeighbor := true;
            }
          }
          aSum := aSum + neighbor.alpha;
          count := count + 1;
        }
        assert BlurSums(rSum, gSum, bSum, aSum, count, hasColoredNeighbor) == BlurStep(g, w, h, before, nx, ny, dx == 0 && dy == 0);
        dx := dx + 1;
      }
      dy := dy + 1;
    }
    sums := BlurSums(rSum, gSum, bSum, aSum, count, hasColoredNeighbor);
  }

  /** `calculate_blur_at`, proved to compute `BlurPixel`. */
  method CalculateBlurAt(g: Grid, w: nat, h: nat, x: nat, y: nat, opacity: real, snap: bool,
                         palette: seq<PaletteEntry>, metric: Metric) returns (p: Pixel)
    requires Shaped(g, w, h) && x < w && y < h
    ensures p == BlurPixel(g, w, h, x, y, opacity, snap, palette, metric)
  {
    var original := g[y][x];
    var sums := SumNeighbours(g, w, h, x, y);
    if original.alpha == 0.0 && !sums.colored {
      return original;
    }
    if sums.count > 0 {
      var blurred := Rgb(Average(sums.r, sums.count), Average(sums.g, sums.count), Average(sums.b, sums.count));
      var finalAlpha := MixedAlpha(original.alpha, sums.alpha, sums.count, opacity);
      var intermediate := BlendColors(FromTriple(original.color), blurred, opacity);
      var final := intermediate;
      if snap {
        final := FindColor(palette, Closest, metric, intermediate);
      }
      p := Pixel(ToRgb(final), finalAlpha);
    } else {
      p := original;
    }
  }

  /** The accumulators stay in range: one step adds at most one cell, 255 per channel and an alpha in [0,1]. */
  predicate SumsInRange(s: BlurSums)
  {
    s.r <= 255 * s.count && s.g <= 255 * s.count && s.b <= 255 * s.count && 0.0 <= s.alpha <= s.count as real
  }

  lemma {:induction false} RowSumsBounds(g: Grid, w: nat, h: nat, x: nat, y: nat, s: BlurSums, dy: int, n: nat)
    requires Shaped(g, w, h) && GridOk(g) && n <= 3 && SumsInRange(s)
    ensures var t := RowSums(g, w, h, x, y, s, dy, n);
      SumsInRange(t) && s.count <= t.count <= s.count + n
  {
    if n > 0 {
      RowSumsBounds(g, w, h, x, y, s, dy, n - 1);
    }
  }

  /**
   * Over a grid of valid alphas the nine-cell scan counts at most 9 cells, sums
   * at most 255 per counted cell in each channel, and an alpha between 0 and
   * the count.
   */
  lemma {:induction false} GridSumsBounds(g: Grid, w: nat, h: nat, x: nat, y: nat, m: nat)
    requires Shaped(g, w, h) && GridOk(g) && m <= 3
    ensures var s := GridSums(g, w, h, x, y, m);
      SumsInRange(s) && s.count <= 3 * m
  {
    if m > 0 {
      GridSumsBounds(g, w, h, x, y, m - 1);
      RowSumsBounds(g, w, h, x, y, GridSums(g, w, h, x, y, m - 1), m - 2, 3);
    }
  }

  /** The pixel itself is one of the nine cells, so an on-canvas pixel counts at least one. */
  lemma BlurCountsCentre(g: Grid, w: nat, h: nat, x: nat, y: nat)
    requires Shaped(g, w, h) && x < w && y < h
    ensures GridSums(g, w, h, x, y, 3).count >= 1
  {
    var before := GridSums(g, w, h, x, y, 1);
    var centre := RowSums(g, w, h, x, y, before, 0, 2);
    RowCountGrows(g, w, h, x, y, before, 0, 1);
    assert centre.count >= 1;
    RowCountGrows(g, w, h, x, y, centre, 0, 0);
    RowCountGrows(g, w, h, x, y, GridSums(g, w, h, x, y, 2), 1, 3);
    assert GridSums(g, w, h, x, y, 2) == RowSums(g, w, h, x, y, before, 0, 3);
  }

  /** The count never decreases along a row. */
  lemma {:induction false} RowCountGrows(g: Grid, w: nat, h: nat, x: nat, y: nat, s: BlurSums, dy: int, n: nat)
    requires Shaped(g, w, h) && n <= 3
    ensures s.count <= RowSums(g, w, h, x, y, s, dy, n).count
  {
    if n > 0 {
      RowCountGrows(g, w, h, x, y, s, dy, n - 1);
    }
  }

  /**
   * Along a row the coloured flag becomes set exactly when it was set before
   * or one of the visited columns is a coloured neighbour.
   */
  lemma {:induction false} RowColoredExactly(g: Grid, w: nat, h: nat, x: nat, y: nat, s: BlurSums, dy: int, n: nat)
    requires Shaped(g, w, h) && n <= 3 && -1 <= dy <= 1
    ensures RowSums(g, w, h, x, y, s, dy, n).colored <==>
      s.colored || exists dx :: -1 <= dx < n - 1 && ColoredNeighbour(g, w, h, x, y, dx, dy)
  {
    if n > 0 {
      RowColoredExactly(g, w, h, x, y, s, dy, n - 1);
      if ColoredNeighbour(g, w, h, x, y, n - 2, dy) {
        assert RowSums(g, w, h, x, y, s, dy, n).colored;
      } else {
        assert RowSums(g, w, h, x, y, s, dy, n).colored == RowSums(g, w, h, x, y, s, dy, n - 1).colored;
      }
    }
  }

  /**
   * The "coloured neighbour" flag of the scan is set exactly when some
   * in-bounds cell among the eight around (x, y) has a positive alpha.
   */
  lemma {:induction false} BlurColoredExactly(g: Grid, w: nat, h: nat, x: nat, y: nat, m: nat)
    requires Shaped(g, w, h) && m <= 3
    ensures GridSums(g, w, h, x, y, m).colored <==>
      exists dx, dy :: -1 <= dy < m - 1 && ColoredNeighbour(g, w, h, x, y, dx, dy)
  {
    if m > 0 {
      BlurColoredExactly(g, w, h, x, y, m - 1);
      RowColoredExactly(g, w, h, x, y, GridSums(g, w, h, x, y, m - 1), m - 2, 3);
    }
  }

  /** No channel average ever exceeds 255, so the `as u8` cast never truncates. */
  lemma AverageFits(sum: nat, count: nat)
    requires count > 0 && sum <= 255 * count
    ensures Average(sum, count) == sum / count
  {
    QuotientFits(sum, count);
  }

  /** The quotient of at most 255 per counted cell by the count is below 256. */
  lemma QuotientFits(sum: nat, count: nat)
    requires count > 0 && sum <= 255 * count
    ensures sum / count < 256
  {
    var q := sum / count;
    assert q * count <= sum < 256 * count;
  }

  /**
   * On a grid of valid alphas the scan of an on-canvas pixel counts between
   * one and nine cells, and each channel average is the exact integer mean of
   * the counted colours: the `as u8` cast never truncates.
   */
  lemma BlurSumsOk(g: Grid, w: nat, h: nat, x: nat, y: nat)
    requires Shaped(g, w, h) && GridOk(g) && x < w && y < h
    ensures var s := GridSums(g, w, h, x, y, 3);
      1 <= s.count <= 9 && SumsInRange(s) &&
      Average(s.r, s.count) == s.r / s.count && Average(s.g, s.count) == s.g / s.count &&
      Average(s.b, s.count) == s.b / s.count
  {
    var s := GridSums(g, w, h, x, y, 3);
    GridSumsBounds(g, w, h, x, y, 3);
    BlurCountsCentre(g, w, h, x, y);
    AverageFits(s.r, s.count);
    AverageFits(s.g, s.count);
    AverageFits(s.b, s.count);
  }

  /** On a grid of valid alphas and at an opacity in [0,1] the blurred pixel's alpha stays in [0,1]. */
  lemma BlurPixelOk(g: Grid, w: nat, h: nat, x: nat, y: nat, opacity: real, snap: bool,
                    palette: seq<PaletteEntry>, metric: Metric)
    requires Shaped(g, w, h) && GridOk(g) && x < w && y < h && Unit(opacity)
    ensures Unit(BlurPixel(g, w, h, x, y, opacity, snap, palette, metric).alpha)
  {
    var s := GridSums(g, w, h, x, y, 3);
    var o := g[y][x].alpha;
    assert Unit(o);
    BlurPixelAlpha(g, w, h, x, y, opacity, snap, palette, metric);
    if s.count > 0 && !(o == 0.0 && !s.colored) {
      BlurSumsOk(g, w, h, x, y);
      MixedAlphaUnit(o, s.alpha, s.count, opacity);
    }
  }

  /** Mixing an alpha in [0,1] with a mean of alphas in [0,1] stays in [0,1]. */
  lemma MixedAlphaUnit(o: real, sum: real, count: nat, opacity: real)
    requires Unit(o) && Unit(opacity) && count > 0 && 0.0 <= sum <= count as real
    ensures Unit(MixedAlpha(o, sum, count, opacity))
  {
    MeanUnit(sum, count);
    MixUnit(o, sum / count as real, opacity);
  }

  /** The blurred pixel's alpha: the original one, or the mix of it with the neighbours' mean. */
  lemma BlurPixelAlpha(g: Grid, w: nat, h: nat, x: nat, y: nat, opacity: real, snap: bool,
                       palette: seq<PaletteEntry>, metric: Metric)
    requires Shaped(g, w, h) && x < w && y < h
    ensures var s, o := GridSums(g, w, h, x, y, 3), g[y][x].alpha;
      BlurPixel(g, w, h, x, y, opacity, snap, palette, metric).alpha ==
        if s.count > 0 && !(o == 0.0 && !s.colored) then MixedAlpha(o, s.alpha, s.count, opacity) else o
  {
  }

  /** A factor of a non-negative product with a positive other factor is non-negative. */
  lemma NonNegativeFactor(p: real, q: real)
    requires q > 0.0 && p * q >= 0.0
    ensures p >= 0.0
  {
  }

  /** The mean of `count` alphas in [0,1] lies in [0,1]. */
  lemma MeanUnit(sum: real, count: nat)
    requires count > 0 && 0.0 <= sum <= count as real
    ensures Unit(sum / count as real)
  {
    var c := count as real;
    var a := sum / c;
    assert a * c == sum;
    NonNegativeFactor(a, c);
    assert (1.0 - a) * c == c - sum;
    NonNegativeFactor(1.0 - a, c);
  }

  /** `o·(1−f) + a·f` lies in [0,1] when `o`, `a` and `f` do. */
  lemma MixUnit(o: real, a: real, f: real)
    requires Unit(o) && Unit(a) && Unit(f)
    ensures Unit(o * (1.0 - f) + a * f)
  {
    var g := 1.0 - f;
    UnitProduct(o, g);
    UnitProduct(a, f);
    var p, q := o * g, a * f;
    assert 0.0 <= p <= g && 0.0 <= q <= f;
  }

  /** A transparent pixel none of whose eight neighbours is a coloured in-bounds cell is left as it is. */
  lemma BlurKeepsIsolated(g: Grid, w: nat, h: nat, x: nat, y: nat, opacity: real, snap: bool,
                          palette: seq<PaletteEntry>, metric: Metric)
    requires Shaped(g, w, h) && x < w && y < h && g[y][x].alpha == 0.0
    requires forall dx, dy :: !ColoredNeighbour(g, w, h, x, y, dx, dy)
    ensures BlurPixel(g, w, h, x, y, opacity, snap, palette, metric) == g[y][x]
  {
    BlurColoredExactly(g, w, h, x, y, 3);
  }

  // ---------------------------------------------------------------------------
  // Shading and painting

  /** The new colour of a Lighter (`Up`) or Darker (`Down`) application to colour `c`. */
  function ShadeColor(e: EffectSettings, dir: Direction, c: Color): Color
  {
    if e.snap then
      match e.snapMode
      case ClosestRgb => Find(e.palette, Shade(dir, if e.protectTransitions then HueGuard else Ratio), e.metric, c)
      case ClosestHue => Find(e.palette, Shade(dir, MeanDiff), e.metric, c)
    else
      BlendColors(c, if dir == Up then White else Black, e.shadeFactor)
  }

  /**
   * `apply_effect_at_pixel` on the active grid: the new value of cell (x, y).
   * A tool leaves a transparent pixel alone unless it is Blur; Lighter and
   * Darker keep the alpha and change the colour; a colour selection is
   * composited with source-over at the current opacity.
   */
  function EffectPixel(e: EffectSettings, g: Grid, w: nat, h: nat, x: nat, y: nat): Pixel
    requires Shaped(g, w, h) && GridOk(g) && x < w && y < h && Unit(e.opacity)
  {
    var original := g[y][x];
    match e.selection
    case ToolEntry(tool) =>
      if original.alpha == 0.0 && tool != Blur then original
      else (match tool
        case Lighter => Pixel(ToRgb(ShadeColor(e, Up, FromTriple(original.color))), original.alpha)
        case Darker => Pixel(ToRgb(ShadeColor(e, Down, FromTriple(original.color))), original.alpha)
        case Blur => BlurPixel(g, w, h, x, y, e.opacity, e.snap, e.palette, e.metric))
    case ColorEntry(c) => SourceOver(original, ToRgb(c), e.opacity)
  }

  /** The Lighter (`Up`) or Darker (`Down`) colour for `c`: a palette search when snapping, a blend towards white or black otherwise. */
  method ShadeOf(e: EffectSettings, dir: Direction, c: Color) returns (r: Color)
    ensures r == ShadeColor(e, dir, c)
  {
    if e.snap {
      match e.snapMode
      case ClosestRgb =>
        r := FindColor(e.palette, Shade(dir, if e.protectTransitions then HueGuard else Ratio), e.metric, c);
      case ClosestHue =>
        r := FindColor(e.palette, Shade(dir, MeanDiff), e.metric, c);
    } else {
      r := BlendColors(c, if dir == Up then White else Black, e.shadeFactor);
    }
  }

  /**
   * The pixel `apply_effect_at_pixel` writes at (x, y) of grid `g`, and
   * whether it returns early instead: a tool other than Blur on a
   * transparent pixel.
   */
  method EffectOf(e: EffectSettings, g: Grid, w: nat, h: nat, x: nat, y: nat) returns (skip: bool, p: Pixel)
    requires Shaped(g, w, h) && GridOk(g) && x < w && y < h && Unit(e.opacity)
    ensures skip <==> e.selection.ToolEntry? && e.selection.tool != Blur && g[y][x].alpha == 0.0
    ensures p == EffectPixel(e, g, w, h, x, y)
  {
    var original: Pixel := g[y][x];
    skip := false;
    match e.selection {
      case ToolEntry(tool) =>
        if original.alpha == 0.0 && tool != Blur {
          return true, original;
        }
        match tool {
          case Lighter =>
            var c := ShadeOf(e, Up, FromTriple(original.color));
            p := Pixel(ToRgb(c), original.alpha);
          case Darker =>
            var c := ShadeOf(e, Down, FromTriple(original.color));
            p := Pixel(ToRgb(c), original.alpha);
          case Blur =>
            p := CalculateBlurAt(g, w, h, x, y, e.opacity, e.snap, e.palette, e.metric);
        }
      case ColorEntry(c) =>
        p := SourceOver(original, ToRgb(c), e.opacity);
    }
  }

  /**
   * An effect keeps the alpha in [0,1]; Lighter and Darker never touch a
   * transparent pixel and never change an alpha; painting never lowers one.
   */
  lemma EffectPixelOk(e: EffectSettings, g: Grid, w: nat, h: nat, x: nat, y: nat)
    requires Shaped(g, w, h) && GridOk(g) && x < w && y < h && Unit(e.opacity)
    ensures Unit(EffectPixel(e, g, w, h, x, y).alpha)
    ensures e.selection.ToolEntry? && e.selection.tool != Blur ==>
      EffectPixel(e, g, w, h, x, y).alpha == g[y][x].alpha
    ensures e.selection.ToolEntry? && e.selection.tool != Blur && g[y][x].alpha == 0.0 ==>
      EffectPixel(e, g, w, h, x, y) == g[y][x]
    ensures e.selection.ColorEntry? ==> g[y][x].alpha <= EffectPixel(e, g, w, h, x, y).alpha
  {
    if e.selection.ToolEntry? && e.selection.tool == Blur {
      BlurPixelOk(g, w, h, x, y, e.opacity, e.snap, e.palette, e.metric);
    }
  }

  /**
   * Without snapping, Lighter moves every channel towards 255 and Darker
   * towards 0 by at most the shade factor's share.
   */
  lemma ShadeWithoutSnap(e: EffectSettings, t: Triple)
    requires !e.snap && 0.0 <= e.shadeFactor <= 1.0
    ensures var u := ToRgb(ShadeColor(e, Up, FromTriple(t)));
      t.r <= u.r && t.g <= u.g && t.b <= u.b
    ensures var d := ToRgb(ShadeColor(e, Down, FromTriple(t)));
      d.r <= t.r && d.g <= t.g && d.b <= t.b
  {
    BlendBetween(FromTriple(t), White, e.shadeFactor);
    BlendBetween(FromTriple(t), Black, e.shadeFactor);
  }

  /**
   * With snapping, Lighter gives the original colour or a palette colour of
   * strictly larger r+g+b, and Darker one of strictly smaller r+g+b.
   */
  lemma ShadeWithSnap(e: EffectSettings, dir: Direction, c: Color)
    requires e.snap
    ensures var r := ShadeColor(e, dir, c);
      r == c ||
      ((dir == Up ==> Brightness(ToRgb(r)) > Brightness(ToRgb(c))) &&
       (dir == Down ==> Brightness(ToRgb(r)) < Brightness(ToRgb(c))))
  {
    var scoring := if e.snapMode == ClosestHue then MeanDiff else if e.protectTransitions then HueGuard else Ratio;
    assert ShadeColor(e, dir, c) == Find(e.palette, Shade(dir, scoring), e.metric, c);
    ShadeDirection(e.palette, dir, scoring, e.metric, c);
  }
}

=== FILE: filebrowser.dfy ===
// The file browser: listing a directory, moving through it with back and
// forward history, the list selection, focus cycling between the list and
// the input boxes, and the file names a save or export is given.

module Browser {
  import opened Colors
  import opened Text
  import opened Paths
  import opened Editor

  // ---------------------------------------------------------------------------
  // History

  /** Where the browser stands: the directory shown and the two history stacks, most recent last. */
  datatype Place = Place(dir: Path, back: seq<Path>, forward: seq<Path>)

  function PlaceOf(app: App): Place
    reads app`browserCurrentDir, app`browserBack, app`browserForward
  {
    Place(app.browserCurrentDir, app.browserBack, app.browserForward)
  }

  /** `go_back` on the history: the last directory left becomes current, the current one goes on the forward stack. */
  function Back(p: Place): Place
  {
    if p.back == [] then p
    else Place(p.back[|p.back| - 1], p.back[..|p.back| - 1], p.forward + [p.dir])
  }

  /** `go_forward` on the history, the mirror of `Back`. */
  function Forward(p: Place): Place
  {
    if p.forward == [] then p
    else Place(p.forward[|p.forward| - 1], p.back + [p.dir], p.forward[..|p.forward| - 1])
  }

  /** Entering a directory (a sub-directory or ".."): the current one goes on the back stack, forward is cleared. */
  function Enter(p: Place, d: Path): Place
  {
    Place(d, p.back + [p.dir], [])
  }

  function Reverse(s: seq<Path>): (r: seq<Path>)
    ensures |r| == |s|
  {
    if s == [] then [] else [s[|s| - 1]] + Reverse(s[..|s| - 1])
  }

  /** Every directory the history can reach, oldest first: the back stack, the current directory, then forward from nearest to farthest. */
  function Trail(p: Place): seq<Path>
  {
    p.back + [p.dir] + Reverse(p.forward)
  }

  /** Going back and then forward returns to the starting directory with both stacks as they were. */
  lemma BackThenForward(p: Place)
    requires p.back != []
    ensures Forward(Back(p)) == p
  {
    assert p.back[..|p.back| - 1] + [p.back[|p.back| - 1]] == p.back;
  }

  /** Going forward and then back returns to the starting directory with both stacks as they were. */
  lemma ForwardThenBack(p: Place)
    requires p.forward != []
    ensures Back(Forward(p)) == p
  {
    assert p.forward[..|p.forward| - 1] + [p.forward[|p.forward| - 1]] == p.forward;
  }

  /** Back and forward only move along the trail: the set and order of reachable directories never changes. */
  lemma MovesKeepTrail(p: Place)
    ensures Trail(Back(p)) == Trail(p) && Trail(Forward(p)) == Trail(p)
    ensures |Back(p).back| + |Back(p).forward| == |p.back| + |p.forward|
  {
    if p.back != [] {
      var q := Back(p);
      assert Reverse(q.forward) == [p.dir] + Reverse(p.forward);
      assert p.back[..|p.back| - 1] + [p.back[|p.back| - 1]] == p.back;
    }
    if p.forward != [] {
      var q := Forward(p);
      var f := p.forward;
      assert Reverse(f) == [f[|f| - 1]] + Reverse(f[..|f| - 1]);
    }
  }

  /**
   * Entering a directory ends the trail there, dropping everything ahead,
   * and going back from it returns to where the browser was, with the
   * entered directory as the only way forward.
   */
  lemma EnterThenBack(p: Place, d: Path)
    ensures Trail(Enter(p, d)) == p.back + [p.dir, d]
    ensures Back(Enter(p, d)) == Place(p.dir, p.back, [d])
  {
    assert (p.back + [p.dir])[..|p.back|] == p.back;
  }

  // ---------------------------------------------------------------------------
  // Listing a directory

  /** The text the system gives for a directory that cannot be read. */
  const ReadErrorText := "No such file or directory (os error 2)"

  /** The list a directory shows and the error left behind: its listing, or only ".." and an error when it cannot be read. */
  function View(fs: FileSystem, path: Path, error: Option<string>): (Option<string>, seq<Entry>)
  {
    if path in fs.listing then (error, Listing(fs, path))
    else (Some("Cannot read directory: " + ReadErrorText), if path != [] then [UpEntry] else [])
  }

  lemma {:induction false} SplitSnoc(fs: FileSystem, s: seq<Path>, p: Path, want: bool)
    ensures Split(fs, s + [p], want) == Split(fs, s, want) + if (p in fs.dirs) == want then [p] else []
  {
    if s != [] {
      assert (s + [p])[1..] == s[1..] + [p];
      SplitSnoc(fs, s[1..], p, want);
    } else {
      assert (s + [p])[1..] == [];
    }
  }

  /** The loop of `read_directory` that sorts the children into directories and files, each in system order. */
  method SplitChildren(fs: FileSystem, children: seq<Path>) returns (dirs: seq<Path>, files: seq<Path>)
    ensures dirs == Split(fs, children, true) && files == Split(fs, children, false)
  {
    dirs, files := [], [];
    var i := 0;
    while i < |children|
      invariant 0 <= i <= |children|
      invariant dirs == Split(fs, children[..i], true) && files == Split(fs, children[..i], false)
    {
      var p := children[i];
      assert children[..i + 1] == children[..i] + [p];
      SplitSnoc(fs, children[..i], p, true);
      SplitSnoc(fs, children[..i], p, false);
      if p in fs.dirs {
        dirs := dirs + [p];
      } else {
        files := files + [p];
      }
      i := i + 1;
    }
    assert children[..|children|] == children;
  }

  /** The list `read_directory` builds for `path`, and the error it leaves behind. */
  method ListDirectory(fs: FileSystem, path: Path, error: Option<string>) returns (newError: Option<string>, entries: seq<Entry>)
    ensures (newError, entries) == View(fs, path, error)
  {
    if path in fs.listing {
      newError := error;
      entries := ReadableListing(fs, path);
    } else {
      newError := Some("Cannot read directory: " + ReadErrorText);
      entries := if Parent(path).Some? then [UpEntry] else [];
    }
  }

  /** ".." below the root, then the sorted sub-directories, then the sorted files, of a readable directory. */
  method ReadableListing(fs: FileSystem, path: Path) returns (entries: seq<Entry>)
    requires path in fs.listing
    ensures entries == Listing(fs, path)
  {
    entries := if Parent(path).Some? then [UpEntry] else [];
    var dirs, files := SplitChildren(fs, Children(path, fs.listing[path]));
    entries := entries + AsEntries(Sort(dirs)) + AsEntries(Sort(files));
  }

  /**
   * `read_directory`: the directory becomes current with the first item
   * selected; the list is ".." (below the root), then the sorted
   * sub-directories, then the sorted files. An unreadable directory keeps
   * only ".." and sets the error.
   */
  method ReadDirectory(app: App, fs: FileSystem, path: Path)
    modifies app`browserCurrentDir, app`browserEntries, app`browserSelected, app`browserError
    ensures app.browserCurrentDir == path && app.browserSelected == Some(0)
    ensures (app.browserError, app.browserEntries) == View(fs, path, old(app.browserError))
  {
    app.browserCurrentDir := path;
    app.browserSelected := Some(0);
    app.browserError, app.browserEntries := ListDirectory(fs, path, app.browserError);
  }

  /**
   * `open_browser`: the browser opens in `start` (the working directory, or
   * the root when it cannot be found) with the list focused, no error and
   * no history; save and export propose a name from the timestamp `stamp`.
   */
  method OpenBrowser(app: App, fs: FileSystem, m: BrowserMode, start: Path, stamp: string)
    modifies app`browserMode, app`mode, app`browserError, app`browserFocus, app`browserInput
    modifies app`browserBack, app`browserForward, app`browserCurrentDir, app`browserEntries, app`browserSelected
    ensures app.browserMode == Some(m) && app.mode == AppMode.FileBrowser && app.browserFocus == List
    ensures app.browserInput == if m.Save? || m.Export? then "project_" + stamp else ""
    ensures PlaceOf(app) == Place(start, [], []) && app.browserSelected == Some(0)
    ensures (app.browserError, app.browserEntries) == View(fs, start, None)
  {
    app.browserMode := Some(m);
    app.mode := AppMode.FileBrowser;
    app.browserError := None;
    app.browserFocus := List;
    if m.Save? || m.Export? {
      app.browserInput := "project_" + stamp;
    } else {
      app.browserInput := "";
    }
    app.browserBack, app.browserForward := [], [];
    ReadDirectory(app, fs, start);
  }

  // ---------------------------------------------------------------------------
  // Moving through the history

  /** `go_back`: with history, the previous directory is read; without, nothing changes. */
  method GoBack(app: App, fs: FileSystem)
    modifies app`browserBack, app`browserForward, app`browserCurrentDir, app`browserEntries, app`browserSelected, app`browserError
    ensures PlaceOf(app) == Back(old(PlaceOf(app)))
    ensures old(app.browserBack) != [] ==>
      app.browserSelected == Some(0) && (app.browserError, app.browserEntries) == View(fs, app.browserCurrentDir, old(app.browserError))
    ensures old(app.browserBack) == [] ==>
      app.browserSelected == old(app.browserSelected) && app.browserError == old(app.browserError) && app.browserEntries == old(app.browserEntries)
  {
    if app.browserBack != [] {
      var path := app.browserBack[|app.browserBack| - 1];
      app.browserBack := app.browserBack[..|app.browserBack| - 1];
      app.browserForward := app.browserForward + [app.browserCurrentDir];
      ReadDirectory(app, fs, path);
    }
  }

  /** `go_forward`: with forward history, the next directory is read; without, nothing changes. */
  method GoForward(app: App, fs: FileSystem)
    modifies app`browserBack, app`browserForward, app`browserCurrentDir, app`browserEntries, app`browserSelected, app`browserError
    ensures PlaceOf(app) == Forward(old(PlaceOf(app)))
    ensures old(app.browserForward) != [] ==>
      app.browserSelected == Some(0) && (app.browserError, app.browserEntries) == View(fs, app.browserCurrentDir, old(app.browserError))
    ensures old(app.browserForward) == [] ==>
      app.browserSelected == old(app.browserSelected) && app.browserError == old(app.browserError) && app.browserEntries == old(app.browserEntries)
  {
    if app.browserForward != [] {
      var path := app.browserForward[|app.browserForward| - 1];
      app.browserForward := app.browserForward[..|app.browserForward| - 1];
      app.browserBack := app.browserBack + [app.browserCurrentDir];
      ReadDirectory(app, fs, path);
    }
  }

  // ---------------------------------------------------------------------------
  // Selecting an item

  /** What choosing a file asks the editor to do, by the reason the browser was opened. */
  datatype FileAction = OpenProject(path: Path) | AddPalette(path: Path) | PaletteFromImage(path: Path, add: bool)

  function FileActionFor(m: Option<BrowserMode>, p: Path): (a: Option<FileAction>)
    ensures a.None? <==> m.None? || m.value.Save? || m.value.Export?
    ensures a.Some? ==> a.value.path == p
  {
    match m
    case Some(Load) => Some(OpenProject(p))
    case Some(ImportPalette) => Some(AddPalette(p))
    case Some(GeneratePaletteFromImage(add)) => Some(PaletteFromImage(p, add))
    case _ => None
  }

  /** The item under the selection, if the selection is on the list. */
  function Chosen(selected: Option<nat>, entries: seq<Entry>): Option<Entry>
  {
    if selected.Some? && selected.value < |entries| then Some(entries[selected.value]) else None
  }

  /** The directory an item leads to: ".." to the parent, a directory to itself, a file nowhere. */
  function Destination(fs: FileSystem, dir: Path, e: Entry): (d: Option<Path>)
    ensures e.UpEntry? && dir != [] ==> d == Some(dir[..|dir| - 1])
    ensures e.PathEntry? ==> (d.Some? <==> e.path in fs.dirs)
  {
    match e
    case UpEntry => Parent(dir)
    case PathEntry(p) => if p in fs.dirs then Some(p) else None
  }

  /**
   * A sub-directory that cannot be read is still listed among the
   * directories and is entered on selection; entering it shows the error.
   */
  lemma UnreadableSubDirEntered()
    ensures var fs := FileSystem(map[[] := ["locked"]], {[], ["locked"]});
      View(fs, [], None) == (None, [PathEntry(["locked"])])
      && Destination(fs, [], PathEntry(["locked"])) == Some(["locked"])
      && View(fs, ["locked"], None) == (Some("Cannot read directory: " + ReadErrorText), [UpEntry])
  {
    var fs := FileSystem(map[[] := ["locked"]], {[], ["locked"]});
    var locked: Path := ["locked"];
    var kids := Children([], fs.listing[[]]);
    assert [] + ["locked"] == locked;
    assert kids == [locked];
    assert kids[1..] == [];
    assert Split(fs, kids, true) == [locked];
    assert Split(fs, kids, false) == [];
    assert [locked][..0] == [];
    assert Sort([locked]) == [locked];
    assert SubDirs(fs, []) == [locked];
    assert Files(fs, []) == [];
    assert AsEntries([locked]) == [PathEntry(locked)];
    var root: Path := [];
    assert root in fs.listing;
    var up: seq<Entry> := [];
    assert Listing(fs, root) == up + [PathEntry(locked)] + [];
    assert up + [PathEntry(locked)] + [] == [PathEntry(locked)];
    assert locked !in fs.listing;
  }

  /**
   * `on_select`: ".." and directories are entered (through the history);
   * a file is handed to the action the browser was opened for, which
   * closes the browser, except in save and export, where it does nothing.
   */
  method OnSelect(app: App, fs: FileSystem) returns (action: Option<FileAction>)
    modifies app`browserBack, app`browserForward, app`browserCurrentDir, app`browserEntries, app`browserSelected, app`browserError, app`mode
    ensures var c := Chosen(old(app.browserSelected), old(app.browserEntries));
      var d := if c.Some? then Destination(fs, old(app.browserCurrentDir), c.value) else None;
      (d.Some? ==>
        action.None? && app.mode == old(app.mode) && PlaceOf(app) == Enter(old(PlaceOf(app)), d.value) &&
        app.browserSelected == Some(0) && (app.browserError, app.browserEntries) == View(fs, d.value, old(app.browserError))) &&
      (d.None? ==>
        PlaceOf(app) == old(PlaceOf(app)) && app.browserSelected == old(app.browserSelected) &&
        app.browserEntries == old(app.browserEntries) && app.browserError == old(app.browserError) &&
        action == (if c.Some? && c.value.PathEntry? then FileActionFor(app.browserMode, c.value.path) else None) &&
        app.mode == if action.Some? then Drawing else old(app.mode))
  {
    action := None;
    if app.browserSelected.None? || app.browserSelected.value >= |app.browserEntries| {
      return;
    }
    var selected := app.browserEntries[app.browserSelected.value];
    match selected {
      case UpEntry =>
        match Parent(app.browserCurrentDir) {
          case Some(parent) =>
            app.browserBack := app.browserBack + [app.browserCurrentDir];
            app.browserForward := [];
            ReadDirectory(app, fs, parent);
          case None =>
        }
      case PathEntry(p) =>
        if p in fs.dirs {
          app.browserBack := app.browserBack + [app.browserCurrentDir];
          app.browserForward := [];
          ReadDirectory(app, fs, p);
        } else {
          action := FileActionFor(app.browserMode, p);
          if action.Some? {
            app.mode := Drawing;
          }
        }
    }
  }

  /** `navigate_list`: the selection (none counts as the first) moves by `delta`, floored at 0, only if that is an item. */
  function Navigate(selected: Option<nat>, count: nat, delta: int): Option<nat>
  {
    var current := if selected.Some? then selected.value else 0;
    var next := if current + delta < 0 then 0 else current + delta;
    if next < count then Some(next) else selected
  }

  method NavigateList(app: App, delta: int)
    modifies app`browserSelected
    ensures app.browserSelected == Navigate(old(app.browserSelected), |app.browserEntries|, delta)
  {
    var current := if app.browserSelected.Some? then app.browserSelected.value else 0;
    var next := current + delta;
    if next < 0 {
      next := 0;
    }
    if next < |app.browserEntries| {
      app.browserSelected := Some(next);
    }
  }

  /** Moving never takes a selection on the list off it, and never moves it by more than `delta`. */
  lemma NavigateStaysOnList(selected: Option<nat>, count: nat, delta: int)
    requires selected.Some? ==> selected.value < count
    ensures var r := Navigate(selected, count, delta); r.Some? ==> r.value < count
    ensures var r := Navigate(selected, count, delta);
      selected.Some? && r != selected ==> r.Some? && (r.value == 0 || r.value - selected.value == delta)
  {
  }

  /** Down then up returns to the same item, and up from the first item stays there. */
  lemma DownThenUp(i: nat, count: nat)
    requires i + 1 < count
    ensures Navigate(Navigate(Some(i), count, 1), count, -1) == Some(i)
    ensures Navigate(Some(0), count, -1) == Some(0)
  {
  }

  // ---------------------------------------------------------------------------
  // Focus

  /** Tab: List, Name, Scale in export; List and Name in save (Scale goes back to List); no change otherwise. */
  function NextFocus(m: Option<BrowserMode>, f: BrowserFocus): BrowserFocus
  {
    if m == Some(Export) then
      match f
      case List => NameInput
      case NameInput => ScaleInput
      case ScaleInput => List
    else if m == Some(Save) then
      match f
      case List => NameInput
      case NameInput => List
      case ScaleInput => List
    else f
  }

  method CycleFocus(app: App)
    modifies app`browserFocus
    ensures app.browserFocus == NextFocus(app.browserMode, old(app.browserFocus))
  {
    var isExport := app.browserMode == Some(Export);
    var isSaveOrExport := isExport || app.browserMode == Some(Save);
    if isExport {
      match app.browserFocus {
        case List => app.browserFocus := NameInput;
        case NameInput => app.browserFocus := ScaleInput;
        case ScaleInput => app.browserFocus := List;
      }
    } else if isSaveOrExport {
      match app.browserFocus {
        case List => app.browserFocus := NameInput;
        case NameInput => app.browserFocus := List;
        case ScaleInput => app.browserFocus := List;
      }
    }
  }

  /**
   * In export, Tab visits all three places and returns after three presses;
   * in save it alternates between the list and the name (and leaves the
   * scale box for the list); anywhere else the focus stays.
   */
  lemma FocusCycles(m: Option<BrowserMode>, f: BrowserFocus)
    ensures m == Some(Export) ==>
      (NextFocus(m, NextFocus(m, NextFocus(m, f))) == f &&
       {f, NextFocus(m, f), NextFocus(m, NextFocus(m, f))} == {List, NameInput, ScaleInput})
    ensures m == Some(Save) ==> NextFocus(m, f) != ScaleInput && (f != ScaleInput ==> NextFocus(m, NextFocus(m, f)) == f)
    ensures m != Some(Export) && m != Some(Save) ==> NextFocus(m, f) == f
  {
  }

  // ---------------------------------------------------------------------------
  // Saving and exporting here

  /** What confirming the directory asks the editor to write. */
  datatype Request = SaveProject(path: Path) | ExportPng(path: Path, scale: nat)

  /** The name with `suffix` appended unless it already ends with it. */
  function WithSuffix(name: string, suffix: string): string
  {
    if EndsWith(name, suffix) then name else name + suffix
  }

  /** Suffixing always ends the name with the suffix, never doubles it, and changes nothing else. */
  lemma SuffixOnce(name: string, suffix: string)
    ensures EndsWith(WithSuffix(name, suffix), suffix)
    ensures WithSuffix(WithSuffix(name, suffix), suffix) == WithSuffix(name, suffix)
    ensures WithSuffix(name, suffix) == name || WithSuffix(name, suffix) == name + suffix
  {
    var r := name + suffix;
    assert r[|r| - |suffix|..] == suffix;
  }

  /** The scale of an export: the box as a `u32`, or 1 when it does not read. */
  function ExportScale(box: string): (s: nat)
    ensures ParseU32(box).None? ==> s == 1
    ensures ParseU32(box).Some? ==> s == ParseU32(box).value
  {
    match ParseU32(box)
    case Some(v) => v
    case None => 1
  }

  /** `on_confirm_directory`: in save, a `.consolet` project; in export, a `.png` at the given scale; otherwise nothing. */
  function ConfirmRequest(m: Option<BrowserMode>, dir: Path, name: string, box: string): (r: Option<Request>)
    ensures r.Some? <==> m == Some(Save) || m == Some(Export)
    ensures r.Some? ==> |r.value.path| == |dir| + 1 && r.value.path[..|dir|] == dir
  {
    match m
    case Some(Save) => Some(SaveProject(dir + [WithSuffix(name, ".consolet")]))
    case Some(Export) => Some(ExportPng(dir + [WithSuffix(name, ".png")], ExportScale(box)))
    case _ => None
  }

  method OnConfirmDirectory(app: App) returns (request: Option<Request>)
    modifies app`mode
    ensures request == ConfirmRequest(app.browserMode, app.browserCurrentDir, app.browserInput, app.browserScale)
    ensures app.mode == if request.Some? then Drawing else old(app.mode)
  {
    request := None;
    if app.browserMode.None? {
      return;
    }
    var filename := app.browserInput;
    match app.browserMode.value {
      case Save =>
        if !EndsWith(filename, ".consolet") {
          filename := filename + ".consolet";
        }
        request := Some(SaveProject(app.browserCurrentDir + [filename]));
      case Export =>
        if !EndsWith(filename, ".png") {
          filename := filename + ".png";
        }
        var scale := ExportScale(app.browserScale);
        request := Some(ExportPng(app.browserCurrentDir + [filename], scale));
      case _ =>
        return;
    }
    app.mode := Drawing;
  }
}

=== FILE: fill.dfy ===
// `fill_from_point`: a breadth-first, 4-connected flood fill that rewrites
// every cell connected to the seed through cells equal to the seed's original
// pixel. The region is specified by paths; the queue loop is proved to write
// exactly that region.

module Fill {
  import opened Pixels
  import opened Effects

  /** A canvas coordinate (x, y). */
  type Cell = (int, int)

  /** `b` is one of the four orthogonal neighbours of `a`. */
  predicate Adjacent(a: Cell, b: Cell)
  {
    b == (a.0 - 1, a.1) || b == (a.0 + 1, a.1) || b == (a.0, a.1 - 1) || b == (a.0, a.1 + 1)
  }

  /** An on-canvas cell holding `target`. */
  predicate OnTarget(g: Grid, w: nat, h: nat, target: Pixel, c: Cell)
    requires Shaped(g, w, h)
  {
    InCanvas(w, h, c.0, c.1) && g[c.1][c.0] == target
  }

  /** A walk of orthogonal steps through cells holding `target`. */
  predicate IsPath(g: Grid, w: nat, h: nat, target: Pixel, p: seq<Cell>)
    requires Shaped(g, w, h)
  {
    |p| >= 1 &&
    (forall i :: 0 <= i < |p| ==> OnTarget(g, w, h, target, p[i])) &&
    (forall i :: 0 <= i < |p| - 1 ==> Adjacent(p[i], p[i + 1]))
  }

  /** `c` belongs to the 4-connected region of the seed's pixel. */
  ghost predicate Reach(g: Grid, w: nat, h: nat, seed: Cell, c: Cell)
    requires Shaped(g, w, h) && InCanvas(w, h, seed.0, seed.1)
  {
    exists p :: IsPath(g, w, h, g[seed.1][seed.0], p) && p[0] == seed && p[|p| - 1] == c
  }

  /** The region of the seed contains the seed. */
  lemma ReachSeed(g: Grid, w: nat, h: nat, seed: Cell)
    requires Shaped(g, w, h) && InCanvas(w, h, seed.0, seed.1)
    ensures Reach(g, w, h, seed, seed)
  {
    assert IsPath(g, w, h, g[seed.1][seed.0], [seed]);
  }

  /** The region is closed under steps onto neighbours holding the seed's pixel. */
  lemma ReachStep(g: Grid, w: nat, h: nat, seed: Cell, n: Cell, c: Cell)
    requires Shaped(g, w, h) && InCanvas(w, h, seed.0, seed.1)
    requires Reach(g, w, h, seed, n) && Adjacent(n, c) && OnTarget(g, w, h, g[seed.1][seed.0], c)
    ensures Reach(g, w, h, seed, c)
  {
    var p :| IsPath(g, w, h, g[seed.1][seed.0], p) && p[0] == seed && p[|p| - 1] == n;
    var q := p + [c];
    assert IsPath(g, w, h, g[seed.1][seed.0], q);
  }

  /** Every cell of the region holds the seed's original pixel. */
  lemma ReachOnTarget(g: Grid, w: nat, h: nat, seed: Cell, c: Cell)
    requires Shaped(g, w, h) && InCanvas(w, h, seed.0, seed.1)
    requires Reach(g, w, h, seed, c)
    ensures OnTarget(g, w, h, g[seed.1][seed.0], c)
  {
    var p :| IsPath(g, w, h, g[seed.1][seed.0], p) && p[0] == seed && p[|p| - 1] == c;
    assert OnTarget(g, w, h, g[seed.1][seed.0], p[|p| - 1]);
  }

  /** The cell no longer needs a visit: off the canvas, no longer the target, or still queued. */
  predicate Covered(r: Grid, w: nat, h: nat, target: Pixel, queue: seq<Cell>, c: Cell)
    requires Shaped(r, w, h)
  {
    !InCanvas(w, h, c.0, c.1) || r[c.1][c.0] != target || c in queue
  }

  /** Every neighbour of every rewritten cell is covered. */
  predicate Frontier(g: Grid, r: Grid, w: nat, h: nat, target: Pixel, queue: seq<Cell>)
    requires Shaped(g, w, h) && Shaped(r, w, h)
  {
    forall y, x :: 0 <= y < h && 0 <= x < w && r[y][x] != g[y][x] ==>
      Covered(r, w, h, target, queue, (x - 1, y)) && Covered(r, w, h, target, queue, (x + 1, y)) &&
      Covered(r, w, h, target, queue, (x, y - 1)) && Covered(r, w, h, target, queue, (x, y + 1))
  }

  /** The cells still holding the target: each rewrite removes one, which bounds the loop. */
  ghost function Targets(r: Grid, w: nat, h: nat, target: Pixel): set<Cell>
    requires Shaped(r, w, h)
  {
    set y: int, x: int | 0 <= y < h && 0 <= x < w && r[y][x] == target :: (x, y)
  }

  /**
   * Once the queue is empty, a path from a rewritten seed through target
   * cells is rewritten all along.
   */
  lemma {:induction false} PathRewritten(g: Grid, r: Grid, w: nat, h: nat, seed: Cell, p: seq<Cell>)
    requires Shaped(g, w, h) && Shaped(r, w, h) && InCanvas(w, h, seed.0, seed.1)
    requires IsPath(g, w, h, g[seed.1][seed.0], p) && p[0] == seed
    requires r[seed.1][seed.0] != g[seed.1][seed.0]
    requires Frontier(g, r, w, h, g[seed.1][seed.0], [])
    ensures r[p[|p| - 1].1][p[|p| - 1].0] != g[p[|p| - 1].1][p[|p| - 1].0]
    decreases |p|
  {
    if |p| > 1 {
      var q := p[..|p| - 1];
      assert IsPath(g, w, h, g[seed.1][seed.0], q);
      PathRewritten(g, r, w, h, seed, q);
      var a, c := p[|p| - 2], p[|p| - 1];
      assert Adjacent(a, c) && OnTarget(g, w, h, g[seed.1][seed.0], c);
      assert Covered(r, w, h, g[seed.1][seed.0], [], c);
    }
  }

  /** The in-canvas neighbours `fill_from_point` pushes after rewriting (x, y), in push order. */
  function Neighbours(w: nat, h: nat, x: nat, y: nat): (r: seq<Cell>)
    requires x < w && y < h
    ensures forall d :: d in r <==> InCanvas(w, h, d.0, d.1) && Adjacent((x, y), d)
  {
    var west := if x > 0 then [(x - 1, y)] else [];
    var east := if x + 1 < w then [(x + 1, y)] else [];
    var north := if y > 0 then [(x, y - 1)] else [];
    var south := if y + 1 < h then [(x, y + 1)] else [];
    assert forall d :: d in west + east + north + south <==> d in west || d in east || d in north || d in south;
    west + east + north + south
  }

  /** Every queued cell is the seed or next to a cell of the seed's region, recorded as its parent. */
  ghost predicate QueueSound(g: Grid, w: nat, h: nat, seed: Cell, queue: seq<Cell>, parents: seq<Cell>)
    requires Shaped(g, w, h) && InCanvas(w, h, seed.0, seed.1)
  {
    |parents| == |queue| &&
    forall i :: 0 <= i < |queue| ==>
      (queue[i] == seed ||
       (InCanvas(w, h, parents[i].0, parents[i].1) && Adjacent(parents[i], queue[i]) && Reach(g, w, h, seed, parents[i])))
  }

  lemma QueueSoundPop(g: Grid, w: nat, h: nat, seed: Cell, queue: seq<Cell>, parents: seq<Cell>)
    requires Shaped(g, w, h) && InCanvas(w, h, seed.0, seed.1)
    requires QueueSound(g, w, h, seed, queue, parents) && queue != []
    ensures QueueSound(g, w, h, seed, queue[1..], parents[1..])
  {
    assert forall i :: 0 <= i < |queue| - 1 ==> queue[1..][i] == queue[i + 1] && parents[1..][i] == parents[i + 1];
  }

  /** `n` copies of `c`: the parent recorded for each pushed neighbour. */
  function Repeat(c: Cell, n: nat): (r: seq<Cell>)
    ensures |r| == n && forall i :: 0 <= i < n ==> r[i] == c
  {
    if n == 0 then [] else Repeat(c, n - 1) + [c]
  }

  lemma QueueSoundPush(g: Grid, w: nat, h: nat, seed: Cell, queue: seq<Cell>, parents: seq<Cell>, x: nat, y: nat)
    requires Shaped(g, w, h) && InCanvas(w, h, seed.0, seed.1)
    requires QueueSound(g, w, h, seed, queue, parents)
    requires InCanvas(w, h, x, y) && Reach(g, w, h, seed, (x, y))
    ensures var next := Neighbours(w, h, x, y);
      QueueSound(g, w, h, seed, queue + next, parents + Repeat((x, y), |next|))
  {
    var next := Neighbours(w, h, x, y);
    var q, ps := queue + next, parents + Repeat((x, y), |next|);
    forall i | 0 <= i < |q|
      ensures q[i] == seed ||
        (InCanvas(w, h, ps[i].0, ps[i].1) && Adjacent(ps[i], q[i]) && Reach(g, w, h, seed, ps[i]))
    {
      if i >= |queue| {
        assert q[i] == next[i - |queue|] && q[i] in next;
        assert ps[i] == (x, y);
      } else {
        assert q[i] == queue[i] && ps[i] == parents[i];
      }
    }
  }

  /** Dropping a head that needs no visit keeps the frontier covered. */
  lemma FrontierSkip(g: Grid, r: Grid, w: nat, h: nat, target: Pixel, queue: seq<Cell>, c: Cell)
    requires Shaped(g, w, h) && Shaped(r, w, h) && queue != [] && c == queue[0]
    requires !InCanvas(w, h, c.0, c.1) || r[c.1][c.0] != target
    requires Frontier(g, r, w, h, target, queue)
    ensures Frontier(g, r, w, h, target, queue[1..])
    ensures forall d :: Covered(r, w, h, target, queue, d) ==> Covered(r, w, h, target, queue[1..], d)
  {
    assert forall d :: d in queue && d != c ==> d in queue[1..];
  }

  /** Rewriting (x, y) leaves every covered cell other than (x, y) covered once the neighbours are queued. */
  lemma CoveredAfterWrite(r: Grid, w: nat, h: nat, target: Pixel, fill: Pixel, queue: seq<Cell>, x: nat, y: nat, d: Cell)
    requires Shaped(r, w, h) && queue != [] && (x, y) == queue[0] && x < w && y < h && fill != target
    requires Covered(r, w, h, target, queue, d) || d == (x, y) || Adjacent((x, y), d)
    ensures Shaped(SetPixel(r, x, y, fill), w, h)
    ensures Covered(SetPixel(r, x, y, fill), w, h, target, queue[1..] + Neighbours(w, h, x, y), d)
  {
    SetPixelOk(r, w, h, x, y, fill);
    var r' := SetPixel(r, x, y, fill);
    var q := queue[1..] + Neighbours(w, h, x, y);
    if d != (x, y) && InCanvas(w, h, d.0, d.1) {
      assert r'[d.1][d.0] == r[d.1][d.0];
      if Adjacent((x, y), d) {
        assert d in Neighbours(w, h, x, y);
      } else if d in queue {
        assert d in queue[1..];
      }
    }
  }

  /** Rewriting the head and queueing its neighbours keeps the frontier covered. */
  lemma FrontierWrite(g: Grid, r: Grid, w: nat, h: nat, target: Pixel, fill: Pixel, queue: seq<Cell>, x: nat, y: nat)
    requires Shaped(g, w, h) && Shaped(r, w, h) && queue != [] && (x, y) == queue[0]
    requires x < w && y < h && r[y][x] == target && fill != target
    requires Frontier(g, r, w, h, target, queue)
    ensures Shaped(SetPixel(r, x, y, fill), w, h)
    ensures Frontier(g, SetPixel(r, x, y, fill), w, h, target, queue[1..] + Neighbours(w, h, x, y))
  {
    SetPixelOk(r, w, h, x, y, fill);
    var r' := SetPixel(r, x, y, fill);
    var q := queue[1..] + Neighbours(w, h, x, y);
    forall yy, xx | 0 <= yy < h && 0 <= xx < w && r'[yy][xx] != g[yy][xx]
      ensures Covered(r', w, h, target, q, (xx - 1, yy)) && Covered(r', w, h, target, q, (xx + 1, yy)) &&
              Covered(r', w, h, target, q, (xx, yy - 1)) && Covered(r', w, h, target, q, (xx, yy + 1))
    {
      FrontierWriteAt(g, r, w, h, target, fill, queue, x, y, xx, yy);
    }
  }

  /** The frontier condition for one rewritten cell (xx, yy) after rewriting the head (x, y). */
  lemma FrontierWriteAt(g: Grid, r: Grid, w: nat, h: nat, target: Pixel, fill: Pixel, queue: seq<Cell>, x: nat, y: nat, xx: int, yy: int)
    requires Shaped(g, w, h) && Shaped(r, w, h) && queue != [] && (x, y) == queue[0]
    requires x < w && y < h && r[y][x] == target && fill != target
    requires Frontier(g, r, w, h, target, queue)
    requires 0 <= yy < h && 0 <= xx < w
    requires (xx, yy) == (x, y) || r[yy][xx] != g[yy][xx]
    ensures Shaped(SetPixel(r, x, y, fill), w, h)
    ensures var r', q := SetPixel(r, x, y, fill), queue[1..] + Neighbours(w, h, x, y);
      Covered(r', w, h, target, q, (xx - 1, yy)) && Covered(r', w, h, target, q, (xx + 1, yy)) &&
      Covered(r', w, h, target, q, (xx, yy - 1)) && Covered(r', w, h, target, q, (xx, yy + 1))
  {
    CoveredAfterWrite(r, w, h, target, fill, queue, x, y, (xx - 1, yy));
    CoveredAfterWrite(r, w, h, target, fill, queue, x, y, (xx + 1, yy));
    CoveredAfterWrite(r, w, h, target, fill, queue, x, y, (xx, yy - 1));
    CoveredAfterWrite(r, w, h, target, fill, queue, x, y, (xx, yy + 1));
  }

  /** Every rewritten cell held the target, now holds the fill pixel, and lies in the seed's region. */
  ghost predicate Rewritten(g: Grid, r: Grid, w: nat, h: nat, fill: Pixel, seed: Cell)
    requires Shaped(g, w, h) && Shaped(r, w, h) && InCanvas(w, h, seed.0, seed.1)
  {
    forall y, x :: 0 <= y < h && 0 <= x < w && r[y][x] != g[y][x] ==>
      r[y][x] == fill && g[y][x] == g[seed.1][seed.0] && Reach(g, w, h, seed, (x, y))
  }

  /** Rewriting a target cell next to the region (or the seed itself) keeps every rewrite inside the region. */
  lemma RewrittenWrite(g: Grid, r: Grid, w: nat, h: nat, fill: Pixel, seed: Cell, parent: Cell, x: nat, y: nat)
    requires Shaped(g, w, h) && Shaped(r, w, h) && InCanvas(w, h, seed.0, seed.1)
    requires Rewritten(g, r, w, h, fill, seed) && fill != g[seed.1][seed.0]
    requires x < w && y < h && r[y][x] == g[seed.1][seed.0]
    requires (x, y) == seed || (InCanvas(w, h, parent.0, parent.1) && Adjacent(parent, (x, y)) && Reach(g, w, h, seed, parent))
    ensures Shaped(SetPixel(r, x, y, fill), w, h)
    ensures Rewritten(g, SetPixel(r, x, y, fill), w, h, fill, seed)
    ensures Targets(SetPixel(r, x, y, fill), w, h, g[seed.1][seed.0]) < Targets(r, w, h, g[seed.1][seed.0])
  {
    SetPixelOk(r, w, h, x, y, fill);
    var r' := SetPixel(r, x, y, fill);
    assert g[y][x] == g[seed.1][seed.0];
    if (x, y) == seed {
      ReachSeed(g, w, h, seed);
    } else {
      ReachStep(g, w, h, seed, parent, (x, y));
    }
    var target := g[seed.1][seed.0];
    assert (x, y) in Targets(r, w, h, target) && (x, y) !in Targets(r', w, h, target);
    assert Targets(r', w, h, target) <= Targets(r, w, h, target);
  }

  /** The grid after the fill: the seed's region holds `fill`, every other cell keeps its pixel. */
  ghost function FilledGrid(g: Grid, w: nat, h: nat, seed: Cell, fill: Pixel): (r: Grid)
    requires Shaped(g, w, h) && InCanvas(w, h, seed.0, seed.1)
    ensures Shaped(r, w, h)
    ensures forall y, x :: 0 <= y < h && 0 <= x < w ==>
      r[y][x] == if Reach(g, w, h, seed, (x, y)) then fill else g[y][x]
  {
    seq(h, y requires 0 <= y < h => seq(w, x requires 0 <= x < w => if Reach(g, w, h, seed, (x, y)) then fill else g[y][x]))
  }

  /**
   * The queue loop of `fill_from_point` on the active grid, after the early
   * return has excluded a seed already equal to the fill pixel: every cell of
   * the seed's region becomes `fill`, and every other cell keeps its pixel.
   */
  method FloodFill(g: Grid, w: nat, h: nat, sx: nat, sy: nat, fill: Pixel) returns (r: Grid)
    requires Shaped(g, w, h) && sx < w && sy < h && g[sy][sx] != fill
    ensures Shaped(r, w, h)
    ensures forall y, x :: 0 <= y < h && 0 <= x < w ==>
      r[y][x] == if Reach(g, w, h, (sx, sy), (x, y)) then fill else g[y][x]
    ensures r == FilledGrid(g, w, h, (sx, sy), fill)
    ensures GridOk(g) && Unit(fill.alpha) ==> GridOk(r)
  {
    var target := g[sy][sx];
    r := DrainQueue(g, w, h, sx, sy, fill);
    forall y, x | 0 <= y < h && 0 <= x < w && Reach(g, w, h, (sx, sy), (x, y))
      ensures r[y][x] == fill
    {
      var p :| IsPath(g, w, h, target, p) && p[0] == (sx, sy) && p[|p| - 1] == (x, y);
      PathRewritten(g, r, w, h, (sx, sy), p);
    }
    SameCells(r, FilledGrid(g, w, h, (sx, sy), fill), w, h);
  }

  /**
   * The queue loop itself: when the queue runs dry, every rewritten cell lies
   * in the seed's region and holds `fill`, the seed is rewritten, and no
   * neighbour of a rewritten cell still holds the target pixel.
   */
  method DrainQueue(g: Grid, w: nat, h: nat, sx: nat, sy: nat, fill: Pixel) returns (r: Grid)
    requires Shaped(g, w, h) && sx < w && sy < h && g[sy][sx] != fill
    ensures Shaped(r, w, h)
    ensures GridOk(g) && Unit(fill.alpha) ==> GridOk(r)
    ensures Rewritten(g, r, w, h, fill, (sx, sy))
    ensures Covered(r, w, h, g[sy][sx], [], (sx, sy))
    ensures Frontier(g, r, w, h, g[sy][sx], [])
  {
    var target := g[sy][sx];
    r := g;
    var queue: seq<Cell> := [(sx, sy)];
    ghost var parents: seq<Cell> := [(sx, sy)];
    while queue != []
      invariant Shaped(r, w, h)
      invariant GridOk(g) && Unit(fill.alpha) ==> GridOk(r)
      invariant Rewritten(g, r, w, h, fill, (sx, sy))
      invariant QueueSound(g, w, h, (sx, sy), queue, parents)
      invariant Covered(r, w, h, target, queue, (sx, sy))
      invariant Frontier(g, r, w, h, target, queue)
      decreases Targets(r, w, h, target), |queue|
    {
      var c := queue[0];
      ghost var parent := parents[0];
      QueueSoundPop(g, w, h, (sx, sy), queue, parents);
      var x, y := c.0, c.1;
      if 0 <= x < w && 0 <= y < h && r[y][x] == target {
        RewrittenWrite(g, r, w, h, fill, (sx, sy), parent, x, y);
        FrontierWrite(g, r, w, h, target, fill, queue, x, y);
        CoveredAfterWrite(r, w, h, target, fill, queue, x, y, (sx, sy));
        QueueSoundPush(g, w, h, (sx, sy), queue[1..], parents[1..], x, y);
        SetPixelOk(r, w, h, x, y, fill);
        r := SetPixel(r, x, y, fill);
        var next := Neighbours(w, h, x, y);
        queue := queue[1..] + next;
        parents := parents[1..] + Repeat(c, |next|);
      } else {
        FrontierSkip(g, r, w, h, target, queue, c);
        queue := queue[1..];
        parents := parents[1..];
      }
    }
  }

}

=== FILE: history.dfy ===
// The undo and redo stacks: whole-grid snapshots of the active layer, at most
// 100 undo entries, with the newest snapshot at the end of each sequence.

module History {
  import opened Pixels

  /** The undo stack never grows past this many snapshots. */
  const MaxUndo: nat := 100

  /** The two stacks, oldest snapshot first. */
  datatype Stacks = Stacks(undo: seq<Grid>, redo: seq<Grid>)

  /** `save_state_for_undo`: push the active grid, drop the oldest past the limit, clear redo. */
  function Save(s: Stacks, current: Grid): (r: Stacks)
    ensures r.redo == []
    ensures |r.undo| == if |s.undo| < MaxUndo then |s.undo| + 1 else |s.undo|
    ensures r.undo != [] && r.undo[|r.undo| - 1] == current
    ensures |s.undo| < MaxUndo ==> r.undo == s.undo + [current]
    ensures |s.undo| >= MaxUndo ==> r.undo == s.undo[1..] + [current]
  {
    var pushed := s.undo + [current];
    if |pushed| > MaxUndo then Stacks(pushed[1..], []) else Stacks(pushed, [])
  }

  /** `undo` on a non-empty undo stack: the active grid goes onto redo and the newest undo snapshot comes back. */
  function Undo(s: Stacks, current: Grid): (r: (Stacks, Grid))
    requires s.undo != []
    ensures r.0.undo == s.undo[..|s.undo| - 1] && r.0.redo == s.redo + [current]
    ensures r.1 == s.undo[|s.undo| - 1]
  {
    (Stacks(s.undo[..|s.undo| - 1], s.redo + [current]), s.undo[|s.undo| - 1])
  }

  /** `redo` on a non-empty redo stack: the mirror image of `Undo`. */
  function Redo(s: Stacks, current: Grid): (r: (Stacks, Grid))
    requires s.redo != []
    ensures r.0.redo == s.redo[..|s.redo| - 1] && r.0.undo == s.undo + [current]
    ensures r.1 == s.redo[|s.redo| - 1]
  {
    (Stacks(s.undo + [current], s.redo[..|s.redo| - 1]), s.redo[|s.redo| - 1])
  }

  /** Both stacks together hold at most `MaxUndo` snapshots. */
  predicate Bounded(s: Stacks)
  {
    |s.undo| + |s.redo| <= MaxUndo
  }

  /** Saving, undoing and redoing all keep the stacks bounded. */
  lemma StepsBounded(s: Stacks, current: Grid)
    requires Bounded(s)
    ensures Bounded(Save(s, current))
    ensures s.undo != [] ==> Bounded(Undo(s, current).0)
    ensures s.redo != [] ==> Bounded(Redo(s, current).0)
  {
  }

  /** A redo right after an undo restores the active grid and both stacks exactly. */
  lemma RedoAfterUndo(s: Stacks, current: Grid)
    requires s.undo != []
    ensures var u := Undo(s, current);
      u.0.redo != [] && Redo(u.0, u.1) == (s, current)
  {
    var u := Undo(s, current);
    assert u.0.undo + [u.1] == s.undo;
  }

  /** An undo right after a redo restores the active grid and both stacks exactly. */
  lemma UndoAfterRedo(s: Stacks, current: Grid)
    requires s.redo != []
    ensures var r := Redo(s, current);
      r.0.undo != [] && Undo(r.0, r.1) == (s, current)
  {
    var r := Redo(s, current);
    assert r.0.redo + [r.1] == s.redo;
  }

  /** After a save, an undo brings back the grid that was saved and empties redo of everything but it. */
  lemma UndoAfterSave(s: Stacks, saved: Grid, edited: Grid)
    ensures var u := Undo(Save(s, saved), edited);
      u.1 == saved && u.0.redo == [edited]
  {
  }

  /** Every snapshot in `gs` has the canvas dimensions and valid alphas. */
  predicate AllFit(gs: seq<Grid>, w: nat, h: nat)
  {
    forall i :: 0 <= i < |gs| ==> Shaped(gs[i], w, h) && GridOk(gs[i])
  }

  /** Every snapshot on either stack has the canvas dimensions and valid alphas. */
  predicate Fits(s: Stacks, w: nat, h: nat)
  {
    AllFit(s.undo, w, h) && AllFit(s.redo, w, h)
  }

  lemma AllFitPush(gs: seq<Grid>, current: Grid, w: nat, h: nat)
    requires AllFit(gs, w, h) && Shaped(current, w, h) && GridOk(current)
    ensures AllFit(gs + [current], w, h)
  {
    assert forall i :: 0 <= i < |gs| ==> (gs + [current])[i] == gs[i];
  }

  lemma AllFitSlice(gs: seq<Grid>, lo: nat, hi: nat, w: nat, h: nat)
    requires AllFit(gs, w, h) && lo <= hi <= |gs|
    ensures AllFit(gs[lo..hi], w, h)
  {
    assert forall i :: 0 <= i < hi - lo ==> gs[lo..hi][i] == gs[lo + i];
  }

  /** The stack operations move only grids of the canvas size when they start from such grids. */
  lemma StepsFit(s: Stacks, current: Grid, w: nat, h: nat)
    requires Fits(s, w, h) && Shaped(current, w, h) && GridOk(current)
    ensures Fits(Save(s, current), w, h)
    ensures s.undo != [] ==> Fits(Undo(s, current).0, w, h) && Shaped(Undo(s, current).1, w, h) && GridOk(Undo(s, current).1)
    ensures s.redo != [] ==> Fits(Redo(s, current).0, w, h) && Shaped(Redo(s, current).1, w, h) && GridOk(Redo(s, current).1)
  {
    var pushed := s.undo + [current];
    AllFitPush(s.undo, current, w, h);
    AllFitSlice(pushed, 1, |pushed|, w, h);
    assert pushed[1..] == pushed[1..|pushed|];
    if s.undo != [] {
      AllFitSlice(s.undo, 0, |s.undo| - 1, w, h);
      AllFitPush(s.redo, current, w, h);
    }
    if s.redo != [] {
      AllFitSlice(s.redo, 0, |s.redo| - 1, w, h);
      AllFitPush(s.undo, current, w, h);
    }
  }
}

=== FILE: keybindings.dfy ===
// Keyboard bindings: the default table, built by successive inserts into a
// map, and the loader that lays a saved file's bindings over the defaults.

module Keybindings {
  import opened Colors

  /** Every action a key can be bound to. */
  datatype Action =
    | Quit | MoveCursorUp | MoveCursorDown | MoveCursorLeft | MoveCursorRight
    | OpenCommandPrompt | OpenColorPicker | OpenToolPicker
    | PanViewUp | PanViewDown | PanViewLeft | PanViewRight | ZoomIn | ZoomOut
    | Undo | Redo | IncreasePenSize | DecreasePenSize | IncreaseOpacity | DecreaseOpacity
    | CycleSymmetry | PickColor | Fill | Draw | Erase
    | QuickSelectColorUp | QuickSelectColorDown | QuickSelectColorLeft | QuickSelectColorRight
    | QuickSelectToolLeft | QuickSelectToolRight
    | AdjustSymmetryNegative | AdjustSymmetryPositive | Spray
    | SelectLayerUp | SelectLayerDown | AddLayer | DeleteLayer | ToggleLayerVisibility
    | MoveLayerUp | MoveLayerDown | ToggleOnionSkin | IncreaseOnionOpacity | DecreaseOnionOpacity

  /** A key code: the ones the defaults use, and any other key a saved file may name. */
  datatype KeyCode = Up | Down | Left | Right | Esc | Char(c: char) | OtherKey(name: string)

  /** A set of modifier flags, as the terminal library's bit set. */
  type Modifiers = bits: int | 0 <= bits < 0x100

  const NONE: Modifiers := 0
  const SHIFT: Modifiers := 1
  const CONTROL: Modifiers := 2
  const ALT: Modifiers := 4

  datatype Keybinding = Keybinding(code: KeyCode, modifiers: Modifiers)

  /** The default binding of each action; `Quit` and `Spray` have none. */
  function DefaultBinding(a: Action): Option<Keybinding>
  {
    match a
    case Quit => None
    case Spray => None
    case MoveCursorUp => Some(Keybinding(Up, NONE))
    case MoveCursorDown => Some(Keybinding(Down, NONE))
    case MoveCursorLeft => Some(Keybinding(Left, NONE))
    case MoveCursorRight => Some(Keybinding(Right, NONE))
    case PanViewUp => Some(Keybinding(Char('k'), NONE))
    case PanViewDown => Some(Keybinding(Char('j'), NONE))
    case PanViewLeft => Some(Keybinding(Char('h'), NONE))
    case PanViewRight => Some(Keybinding(Char('l'), NONE))
    case ZoomIn => Some(Keybinding(Char('='), NONE))
    case ZoomOut => Some(Keybinding(Char('-'), NONE))
    case OpenCommandPrompt => Some(Keybinding(Esc, NONE))
    case OpenColorPicker => Some(Keybinding(Char('c'), NONE))
    case OpenToolPicker => Some(Keybinding(Char('t'), NONE))
    case IncreasePenSize => Some(Keybinding(Char(']'), NONE))
    case DecreasePenSize => Some(Keybinding(Char('['), NONE))
    case IncreaseOpacity => Some(Keybinding(Char('p'), NONE))
    case DecreaseOpacity => Some(Keybinding(Char('o'), NONE))
    case Undo => Some(Keybinding(Char('z'), CONTROL))
    case Redo => Some(Keybinding(Char('y'), CONTROL))
    case CycleSymmetry => Some(Keybinding(Char('s'), NONE))
    case PickColor => Some(Keybinding(Char('r'), NONE))
    case Fill => Some(Keybinding(Char('f'), NONE))
    case Draw => Some(Keybinding(Char(' '), NONE))
    case Erase => Some(Keybinding(Char('e'), NONE))
    case QuickSelectColorUp => Some(Keybinding(Up, CONTROL))
    case QuickSelectColorDown => Some(Keybinding(Down, CONTROL))
    case QuickSelectColorLeft => Some(Keybinding(Left, CONTROL))
    case QuickSelectColorRight => Some(Keybinding(Right, CONTROL))
    case QuickSelectToolLeft => Some(Keybinding(Left, SHIFT))
    case QuickSelectToolRight => Some(Keybinding(Right, SHIFT))
    case AdjustSymmetryNegative => Some(Keybinding(Char('m'), NONE))
    case AdjustSymmetryPositive => Some(Keybinding(Char('n'), NONE))
    case SelectLayerUp => Some(Keybinding(Up, ALT))
    case SelectLayerDown => Some(Keybinding(Down, ALT))
    case AddLayer => Some(Keybinding(Char('a'), ALT))
    case DeleteLayer => Some(Keybinding(Char('d'), ALT))
    case ToggleLayerVisibility => Some(Keybinding(Char('v'), ALT))
    case MoveLayerUp => Some(Keybinding(Char('k'), ALT))
    case MoveLayerDown => Some(Keybinding(Char('j'), ALT))
    case ToggleOnionSkin => Some(Keybinding(Char('i'), NONE))
    case IncreaseOnionOpacity => Some(Keybinding(Char('u'), NONE))
    case DecreaseOnionOpacity => Some(Keybinding(Char('y'), NONE))
  }

  /** The action a key press triggers under the defaults, if any: the reverse of `DefaultBinding`. */
  function DefaultActionFor(k: Keybinding): Option<Action>
  {
    match k.code
    case Up => if k.modifiers == NONE then Some(MoveCursorUp) else if k.modifiers == CONTROL then Some(QuickSelectColorUp) else if k.modifiers == ALT then Some(SelectLayerUp) else None
    case Down => if k.modifiers == NONE then Some(MoveCursorDown) else if k.modifiers == CONTROL then Some(QuickSelectColorDown) else if k.modifiers == ALT then Some(SelectLayerDown) else None
    case Left => if k.modifiers == NONE then Some(MoveCursorLeft) else if k.modifiers == CONTROL then Some(QuickSelectColorLeft) else if k.modifiers == SHIFT then Some(QuickSelectToolLeft) else None
    case Right => if k.modifiers == NONE then Some(MoveCursorRight) else if k.modifiers == CONTROL then Some(QuickSelectColorRight) else if k.modifiers == SHIFT then Some(QuickSelectToolRight) else None
    case Esc => if k.modifiers == NONE then Some(OpenCommandPrompt) else None
    case OtherKey(_) => None
    case Char(c) =>
      if k.modifiers == NONE then PlainCharAction(c)
      else if k.modifiers == CONTROL then (if c == 'z' then Some(Undo) else if c == 'y' then Some(Redo) else None)
      else if k.modifiers == ALT then AltCharAction(c)
      else None
  }

  function PlainCharAction(c: char): Option<Action>
  {
    match c
    case 'k' => Some(PanViewUp)
    case 'j' => Some(PanViewDown)
    case 'h' => Some(PanViewLeft)
    case 'l' => Some(PanViewRight)
    case '=' => Some(ZoomIn)
    case '-' => Some(ZoomOut)
    case 'c' => Some(OpenColorPicker)
    case 't' => Some(OpenToolPicker)
    case ']' => Some(IncreasePenSize)
    case '[' => Some(DecreasePenSize)
    case 'p' => Some(IncreaseOpacity)
    case 'o' => Some(DecreaseOpacity)
    case 's' => Some(CycleSymmetry)
    case 'r' => Some(PickColor)
    case 'f' => Some(Fill)
    case ' ' => Some(Draw)
    case 'e' => Some(Erase)
    case 'm' => Some(AdjustSymmetryNegative)
    case 'n' => Some(AdjustSymmetryPositive)
    case 'i' => Some(ToggleOnionSkin)
    case 'u' => Some(IncreaseOnionOpacity)
    case 'y' => Some(DecreaseOnionOpacity)
    case _ => None
  }

  function AltCharAction(c: char): Option<Action>
  {
    match c
    case 'a' => Some(AddLayer)
    case 'd' => Some(DeleteLayer)
    case 'v' => Some(ToggleLayerVisibility)
    case 'k' => Some(MoveLayerUp)
    case 'j' => Some(MoveLayerDown)
    case _ => None
  }

  /** Exactly `Quit` and `Spray` are left unbound by the defaults. */
  lemma UnboundByDefault(a: Action)
    ensures DefaultBinding(a).None? <==> a == Quit || a == Spray
  {
  }

  /** Every default binding leads back to its action. */
  lemma DefaultLeadsBack(a: Action)
    requires DefaultBinding(a).Some?
    ensures DefaultActionFor(DefaultBinding(a).value) == Some(a)
  {
    if Position(a) < 22 {
      LeadsBackBelow(a);
    } else {
      LeadsBackAbove(a);
    }
  }

  /** `DefaultLeadsBack` for the first 22 positions. */
  lemma LeadsBackBelow(a: Action)
    requires DefaultBinding(a).Some? && Position(a) < 22
    ensures DefaultActionFor(DefaultBinding(a).value) == Some(a)
  {
  }

  /** `DefaultLeadsBack` for the remaining positions. */
  lemma LeadsBackAbove(a: Action)
    requires DefaultBinding(a).Some? && Position(a) >= 22
    ensures DefaultActionFor(DefaultBinding(a).value) == Some(a)
  {
  }

  /** A key that triggers an action under the defaults is that action's default binding. */
  lemma DefaultActionBound(a: Action, k: Keybinding)
    requires DefaultActionFor(k) == Some(a)
    ensures DefaultBinding(a) == Some(k)
  {
    if k.code.Char? && k.modifiers == NONE {
      PlainCharBound(a, k);
    } else if k.code.Char? && k.modifiers == ALT {
      AltCharBound(a, k);
    }
  }

  /** `DefaultActionBound` for unmodified character keys. */
  lemma PlainCharBound(a: Action, k: Keybinding)
    requires DefaultActionFor(k) == Some(a) && k.code.Char? && k.modifiers == NONE
    ensures DefaultBinding(a) == Some(k)
  {
  }

  /** `DefaultActionBound` for character keys held with Alt. */
  lemma AltCharBound(a: Action, k: Keybinding)
    requires DefaultActionFor(k) == Some(a) && k.code.Char? && k.modifiers == ALT
    ensures DefaultBinding(a) == Some(k)
  {
  }

  /** A key is bound to `a` by default exactly when `a`'s default binding is that key. */
  lemma DefaultRoundTrip(a: Action, k: Keybinding)
    ensures DefaultActionFor(k) == Some(a) <==> DefaultBinding(a) == Some(k)
  {
    if DefaultBinding(a) == Some(k) {
      DefaultLeadsBack(a);
    }
    if DefaultActionFor(k) == Some(a) {
      DefaultActionBound(a, k);
    }
  }

  /** No two actions share a default key and modifier pair. */
  lemma DefaultsDistinct(a: Action, b: Action)
    requires a != b && DefaultBinding(a).Some?
    ensures DefaultBinding(a) != DefaultBinding(b)
  {
    DefaultLeadsBack(a);
    if DefaultBinding(b).Some? {
      DefaultLeadsBack(b);
    }
  }

  /** `Position` inverts `AtPosition`. */
  lemma AtPositionInverse(n: nat)
    requires n < 44
    ensures Position(AtPosition(n)) == n
  {
  }

  /** The position of each action in the default table's insertion order; the two unbound actions come last. */
  function Position(a: Action): (n: nat)
    ensures n < 44
  {
    match a
    case MoveCursorUp => 0
    case MoveCursorDown => 1
    case MoveCursorLeft => 2
    case MoveCursorRight => 3
    case PanViewUp => 4
    case PanViewDown => 5
    case PanViewLeft => 6
    case PanViewRight => 7
    case ZoomIn => 8
    case ZoomOut => 9
    case OpenCommandPrompt => 10
    case OpenColorPicker => 11
    case OpenToolPicker => 12
    case IncreasePenSize => 13
    case DecreasePenSize => 14
    case IncreaseOpacity => 15
    case DecreaseOpacity => 16
    case Undo => 17
    case Redo => 18
    case CycleSymmetry => 19
    case PickColor => 20
    case Fill => 21
    case Draw => 22
    case Erase => 23
    case QuickSelectColorUp => 24
    case QuickSelectColorDown => 25
    case QuickSelectColorLeft => 26
    case QuickSelectColorRight => 27
    case QuickSelectToolLeft => 28
    case QuickSelectToolRight => 29
    case AdjustSymmetryNegative => 30
    case AdjustSymmetryPositive => 31
    case SelectLayerUp => 32
    case SelectLayerDown => 33
    case AddLayer => 34
    case DeleteLayer => 35
    case ToggleLayerVisibility => 36
    case MoveLayerUp => 37
    case MoveLayerDown => 38
    case ToggleOnionSkin => 39
    case IncreaseOnionOpacity => 40
    case DecreaseOnionOpacity => 41
    case Quit => 42
    case Spray => 43
  }

  /** The action at position `n` of the insertion order. */
  function AtPosition(n: nat): Action
    requires n < 44
  {
    if n == 0 then MoveCursorUp
    else if n == 1 then MoveCursorDown
    else if n == 2 then MoveCursorLeft
    else if n == 3 then MoveCursorRight
    else if n == 4 then PanViewUp
    else if n == 5 then PanViewDown
    else if n == 6 then PanViewLeft
    else if n == 7 then PanViewRight
    else if n == 8 then ZoomIn
    else if n == 9 then ZoomOut
    else if n == 10 then OpenCommandPrompt
    else if n == 11 then OpenColorPicker
    else if n == 12 then OpenToolPicker
    else if n == 13 then IncreasePenSize
    else if n == 14 then DecreasePenSize
    else if n == 15 then IncreaseOpacity
    else if n == 16 then DecreaseOpacity
    else if n == 17 then Undo
    else if n == 18 then Redo
    else if n == 19 then CycleSymmetry
    else if n == 20 then PickColor
    else if n == 21 then Fill
    else if n == 22 then Draw
    else if n == 23 then Erase
    else if n == 24 then QuickSelectColorUp
    else if n == 25 then QuickSelectColorDown
    else if n == 26 then QuickSelectColorLeft
    else if n == 27 then QuickSelectColorRight
    else if n == 28 then QuickSelectToolLeft
    else if n == 29 then QuickSelectToolRight
    else if n == 30 then AdjustSymmetryNegative
    else if n == 31 then AdjustSymmetryPositive
    else if n == 32 then SelectLayerUp
    else if n == 33 then SelectLayerDown
    else if n == 34 then AddLayer
    else if n == 35 then DeleteLayer
    else if n == 36 then ToggleLayerVisibility
    else if n == 37 then MoveLayerUp
    else if n == 38 then MoveLayerDown
    else if n == 39 then ToggleOnionSkin
    else if n == 40 then IncreaseOnionOpacity
    else if n == 41 then DecreaseOnionOpacity
    else if n == 42 then Quit
    else Spray
  }

  /** `AtPosition` inverts `Position`. */
  lemma PositionInverse(x: Action)
    ensures AtPosition(Position(x)) == x
  {
    if Position(x) < 22 {
      PositionInverseBelow(x);
    } else {
      PositionInverseAbove(x);
    }
  }

  /** `PositionInverse` for the first 22 positions. */
  lemma PositionInverseBelow(x: Action)
    requires Position(x) < 22
    ensures AtPosition(Position(x)) == x
  {
  }

  /** `PositionInverse` for the last 22 positions. */
  lemma PositionInverseAbove(x: Action)
    requires Position(x) >= 22
    ensures AtPosition(Position(x)) == x
  {
  }

  /** Exactly the actions before position 42 of the insertion order have a default binding. */
  lemma BoundIffEarly(a: Action)
    ensures DefaultBinding(a).Some? <==> Position(a) < 42
  {
  }

  /** The table after the first `i` inserts of `Keybindings::default`. */
  function DefaultsBelow(i: nat): map<Action, Keybinding>
    requires i <= 42
  {
    map a | Position(a) < i :: BoundIffEarly(a); DefaultBinding(a).value
  }

  /** One insert of `Keybindings::default` adds a new key and extends the table by the next action in order. */
  lemma Inserted(i: nat, a: Action)
    requires Position(a) == i && i < 42
    ensures DefaultBinding(a).Some? && a !in DefaultsBelow(i)
    ensures DefaultsBelow(i)[a := DefaultBinding(a).value] == DefaultsBelow(i + 1)
  {
    BoundIffEarly(a);
    var m, m' := DefaultsBelow(i)[a := DefaultBinding(a).value], DefaultsBelow(i + 1);
    forall x
      ensures x in m <==> x in m'
    {
      InsertedKey(i, a, x);
    }
    assert m.Keys == m'.Keys;
  }

  /** Action `x` is in the table after insert `i` exactly when it was before or is the inserted action. */
  lemma InsertedKey(i: nat, a: Action, x: Action)
    requires Position(a) == i && i < 42
    ensures x in DefaultsBelow(i + 1) <==> x in DefaultsBelow(i) || x == a
  {
    BelowMember(i + 1, x);
    BelowMember(i, x);
    if Position(x) == i {
      PositionInjective(x, a);
    }
  }

  /** An action is in the table after `i` inserts exactly when its position is below `i`. */
  lemma BelowMember(i: nat, x: Action)
    requires i <= 42
    ensures x in DefaultsBelow(i) <==> Position(x) < i
  {
  }

  /** No two actions share a position in the insertion order. */
  lemma PositionInjective(x: Action, y: Action)
    requires Position(x) == Position(y)
    ensures x == y
  {
    PositionInverse(x);
    PositionInverse(y);
  }


  /** The table after `i` inserts holds `i` bindings. */
  lemma {:induction false} DefaultsBelowSize(i: nat)
    requires i <= 42
    ensures |DefaultsBelow(i)| == i
  {
    if i == 0 {
      assert DefaultsBelow(0) == map[];
    } else {
      DefaultsBelowSize(i - 1);
      AtPositionInverse(i - 1);
      Inserted(i - 1, AtPosition(i - 1));
    }
  }

  /** The table starts empty and, after all 42 inserts, is exactly the default one. */
  lemma AllInserted()
    ensures DefaultsBelow(0) == map[]
    ensures IsDefault(DefaultsBelow(42)) && |DefaultsBelow(42)| == 42
  {
    DefaultsBelowSize(42);
    forall a ensures a in DefaultsBelow(42) <==> DefaultBinding(a).Some? {
      BoundIffEarly(a);
    }
  }

  /** The bindings `m` holds exactly the default table. */
  predicate IsDefault(m: map<Action, Keybinding>)
  {
    forall a :: (a in m <==> DefaultBinding(a).Some?) && (a in m ==> m[a] == DefaultBinding(a).value)
  }

  /** One `insert` of `Keybindings::default`: the next action in order, bound to its default key. */
  method Insert(m: map<Action, Keybinding>, i: nat, a: Action, k: Keybinding) returns (r: map<Action, Keybinding>)
    requires i < 42 && m == DefaultsBelow(i) && Position(a) == i && DefaultBinding(a) == Some(k)
    ensures r == DefaultsBelow(i + 1)
  {
    Inserted(i, a);
    r := m[a := k];
  }

  /** Inserts 0 to 9 of `Keybindings::default`: the cursor-movement, panning and zoom keys. */
  method InsertCursorAndView(m0: map<Action, Keybinding>) returns (m: map<Action, Keybinding>)
    requires m0 == DefaultsBelow(0)
    ensures m == DefaultsBelow(10)
  {
    m := m0;
    m := Insert(m, 0, MoveCursorUp, Keybinding(Up, NONE));
    m := Insert(m, 1, MoveCursorDown, Keybinding(Down, NONE));
    m := Insert(m, 2, MoveCursorLeft, Keybinding(Left, NONE));
    m := Insert(m, 3, MoveCursorRight, Keybinding(Right, NONE));
    m := Insert(m, 4, PanViewUp, Keybinding(Char('k'), NONE));
    m := Insert(m, 5, PanViewDown, Keybinding(Char('j'), NONE));
    m := Insert(m, 6, PanViewLeft, Keybinding(Char('h'), NONE));
    m := Insert(m, 7, PanViewRight, Keybinding(Char('l'), NONE));
    m := Insert(m, 8, ZoomIn, Keybinding(Char('='), NONE));
    m := Insert(m, 9, ZoomOut, Keybinding(Char('-'), NONE));
  }

  /** Inserts 10 to 16 of `Keybindings::default`: the prompt, picker, pen-size and opacity keys. */
  method InsertPromptsAndPens(m0: map<Action, Keybinding>) returns (m: map<Action, Keybinding>)
    requires m0 == DefaultsBelow(10)
    ensures m == DefaultsBelow(17)
  {
    m := m0;
    m := Insert(m, 10, OpenCommandPrompt, Keybinding(Esc, NONE));
    m := Insert(m, 11, OpenColorPicker, Keybinding(Char('c'), NONE));
    m := Insert(m, 12, OpenToolPicker, Keybinding(Char('t'), NONE));
    m := Insert(m, 13, IncreasePenSize, Keybinding(Char(']'), NONE));
    m := Insert(m, 14, DecreasePenSize, Keybinding(Char('['), NONE));
    m := Insert(m, 15, IncreaseOpacity, Keybinding(Char('p'), NONE));
    m := Insert(m, 16, DecreaseOpacity, Keybinding(Char('o'), NONE));
  }

  /** Inserts 17 to 23 of `Keybindings::default`: the history, symmetry, color-picking and drawing-tool keys. */
  method InsertToolKeys(m0: map<Action, Keybinding>) returns (m: map<Action, Keybinding>)
    requires m0 == DefaultsBelow(17)
    ensures m == DefaultsBelow(24)
  {
    m := m0;
    m := Insert(m, 17, Undo, Keybinding(Char('z'), CONTROL));
    m := Insert(m, 18, Redo, Keybinding(Char('y'), CONTROL));
    m := Insert(m, 19, CycleSymmetry, Keybinding(Char('s'), NONE));
    m := Insert(m, 20, PickColor, Keybinding(Char('r'), NONE));
    m := Insert(m, 21, Fill, Keybinding(Char('f'), NONE));
    m := Insert(m, 22, Draw, Keybinding(Char(' '), NONE));
    m := Insert(m, 23, Erase, Keybinding(Char('e'), NONE));
  }

  /** Inserts 24 to 31 of `Keybindings::default`: the quick-select keys for colors and tools, and the symmetry adjusters. */
  method InsertQuickSelect(m0: map<Action, Keybinding>) returns (m: map<Action, Keybinding>)
    requires m0 == DefaultsBelow(24)
    ensures m == DefaultsBelow(32)
  {
    m := m0;
    m := Insert(m, 24, QuickSelectColorUp, Keybinding(Up, CONTROL));
    m := Insert(m, 25, QuickSelectColorDown, Keybinding(Down, CONTROL));
    m := Insert(m, 26, QuickSelectColorLeft, Keybinding(Left, CONTROL));
    m := Insert(m, 27, QuickSelectColorRight, Keybinding(Right, CONTROL));
    m := Insert(m, 28, QuickSelectToolLeft, Keybinding(Left, SHIFT));
    m := Insert(m, 29, QuickSelectToolRight, Keybinding(Right, SHIFT));
    m := Insert(m, 30, AdjustSymmetryNegative, Keybinding(Char('m'), NONE));
    m := Insert(m, 31, AdjustSymmetryPositive, Keybinding(Char('n'), NONE));
  }

  /** Inserts 32 to 38 of `Keybindings::default`: the layer keys. */
  method InsertLayerKeys(m0: map<Action, Keybinding>) returns (m: map<Action, Keybinding>)
    requires m0 == DefaultsBelow(32)
    ensures m == DefaultsBelow(39)
  {
    m := m0;
    m := Insert(m, 32, SelectLayerUp, Keybinding(Up, ALT));
    m := Insert(m, 33, SelectLayerDown, Keybinding(Down, ALT));
    m := Insert(m, 34, AddLayer, Keybinding(Char('a'), ALT));
    m := Insert(m, 35, DeleteLayer, Keybinding(Char('d'), ALT));
    m := Insert(m, 36, ToggleLayerVisibility, Keybinding(Char('v'), ALT));
    m := Insert(m, 37, MoveLayerUp, Keybinding(Char('k'), ALT));
    m := Insert(m, 38, MoveLayerDown, Keybinding(Char('j'), ALT));
  }

  /** Inserts 39 to 41 of `Keybindings::default`: the onion-skin keys. */
  method InsertOnionKeys(m0: map<Action, Keybinding>) returns (m: map<Action, Keybinding>)
    requires m0 == DefaultsBelow(39)
    ensures m == DefaultsBelow(42)
  {
    m := m0;
    m := Insert(m, 39, ToggleOnionSkin, Keybinding(Char('i'), NONE));
    m := Insert(m, 40, IncreaseOnionOpacity, Keybinding(Char('u'), NONE));
    m := Insert(m, 41, DecreaseOnionOpacity, Keybinding(Char('y'), NONE));
  }

  /** `Keybindings::default`: 42 successive inserts into an empty map, in six runs. */
  method Default() returns (m: map<Action, Keybinding>)
    ensures IsDefault(m)
    ensures |m| == 42
  {
    AllInserted();
    m := map[];
    m := InsertCursorAndView(m);
    m := InsertPromptsAndPens(m);
    m := InsertToolKeys(m);
    m := InsertQuickSelect(m);
    m := InsertLayerKeys(m);
    m := InsertOnionKeys(m);
  }

  /**
   * `Keybindings::load`, given the parsed file (`None` when the file is
   * missing or does not parse): the defaults, with every action the file
   * names rebound as the file says, one insert per saved entry.
   */
  method Load(saved: Option<map<Action, Keybinding>>) returns (m: map<Action, Keybinding>)
    ensures saved.None? ==> IsDefault(m)
    ensures forall a :: a in m <==> DefaultBinding(a).Some? || (saved.Some? && a in saved.value)
    ensures forall a :: saved.Some? && a in saved.value ==> a in m && m[a] == saved.value[a]
    ensures forall a :: DefaultBinding(a).Some? && !(saved.Some? && a in saved.value) ==> m[a] == DefaultBinding(a).value
  {
    m := Default();
    if saved.Some? {
      var s := saved.value;
      var left := s.Keys;
      while left != {}
        invariant left <= s.Keys
        invariant forall a :: a in m <==> DefaultBinding(a).Some? || (a in s && a !in left)
        invariant forall a :: a in s && a !in left ==> m[a] == s[a]
        invariant forall a :: DefaultBinding(a).Some? && (a !in s || a in left) ==> m[a] == DefaultBinding(a).value
        decreases left
      {
        var a :| a in left;
        m := m[a := s[a]];
        left := left - {a};
      }
    }
  }
}

=== FILE: palette.dfy ===
// The built-in palettes: a fixed tool palette, literal colour lists, and
// generators that build a list with nested loops over channel levels or over
// hue/saturation/value steps.

module Palette {
  import opened Colors

  datatype Tool = Lighter | Darker | Blur

  /** An entry of a palette: a colour to paint with, or a shading tool. */
  datatype PaletteEntry = ColorEntry(color: Color) | ToolEntry(tool: Tool)

  /** The palette built from a list of colours. */
  function Entries(cs: seq<Color>): (r: seq<PaletteEntry>)
    ensures |r| == |cs| && forall i :: 0 <= i < |cs| ==> r[i] == ColorEntry(cs[i])
  {
    seq(|cs|, i requires 0 <= i < |cs| => ColorEntry(cs[i]))
  }

  /** The opaque grey entry with all three channels equal to `l`. */
  function Grey(l: Byte): PaletteEntry
  {
    ColorEntry(Rgb(l, l, l))
  }

  /** `get_default_tool_palette`: Lighter, Darker, Blur, in that order. */
  function DefaultToolPalette(): (r: seq<PaletteEntry>)
    ensures |r| == 3 && forall i :: 0 <= i < 3 ==> r[i].ToolEntry?
    ensures r[0].tool == Lighter && r[1].tool == Darker && r[2].tool == Blur
  {
    [ToolEntry(Lighter), ToolEntry(Darker), ToolEntry(Blur)]
  }

  /** `get_default_color_palette`: the literal starting palette. */
  function DefaultColorPalette(): (r: seq<PaletteEntry>)
    ensures |r| == 107
  {
    DefaultColorPalettePart0() + DefaultColorPalettePart1() + DefaultColorPalettePart2() + DefaultColorPalettePart3()
  }

  /** Entries 0–31 of `DefaultColorPalette`. */
  function DefaultColorPalettePart0(): (r: seq<PaletteEntry>)
    ensures |r| == 32
  {
    Entries([
      White, Rgb(245, 245, 245), Rgb(220, 220, 220), Rgb(192, 192, 192), Rgb(169, 169, 169), Gray,
      DarkGray, Rgb(64, 64, 64), Rgb(40, 40, 40), Rgb(20, 20, 20), Black, Rgb(255, 240, 245),
      Rgb(255, 192, 203), Rgb(255, 182, 193), Rgb(255, 105, 180), Rgb(255, 20, 147),
      Rgb(219, 112, 147), Rgb(199, 21, 133), Rgb(255, 228, 225), Rgb(255, 218, 185),
      Rgb(255, 160, 122), LightRed, Rgb(255, 99, 71), Red, Rgb(220, 20, 60), Rgb(178, 34, 34),
      Rgb(139, 0, 0), Rgb(128, 0, 0), Rgb(255, 250, 205), Rgb(255, 239, 213), Rgb(255, 228, 181),
      Rgb(255, 218, 185)
    ])
  }

  /** Entries 32–63 of `DefaultColorPalette`. */
  function DefaultColorPalettePart1(): (r: seq<PaletteEntry>)
    ensures |r| == 32
  {
    Entries([
      Rgb(255, 165, 0), Rgb(255, 140, 0), Rgb(255, 127, 80), Rgb(210, 105, 30), Rgb(184, 134, 11),
      Rgb(160, 82, 45), Rgb(139, 69, 19), Rgb(255, 255, 224), LightYellow, Rgb(255, 250, 205),
      Yellow, Rgb(255, 215, 0), Rgb(218, 165, 32), Rgb(189, 183, 107), Rgb(154, 205, 50),
      Rgb(128, 128, 0), Rgb(245, 255, 250), Rgb(240, 255, 240), Rgb(144, 238, 144),
      Rgb(152, 251, 152), LightGreen, Rgb(124, 252, 0), Rgb(0, 255, 127), Rgb(0, 250, 154),
      Rgb(50, 205, 50), Rgb(34, 139, 34), Green, Rgb(0, 128, 0), Rgb(0, 100, 0), Rgb(85, 107, 47),
      Rgb(107, 142, 35), Rgb(240, 255, 255)
    ])
  }

  /** Entries 64–95 of `DefaultColorPalette`. */
  function DefaultColorPalettePart2(): (r: seq<PaletteEntry>)
    ensures |r| == 32
  {
    Entries([
      Rgb(224, 255, 255), Rgb(175, 238, 238), Rgb(127, 255, 212), Rgb(64, 224, 208), LightCyan,
      Rgb(72, 209, 204), Cyan, Rgb(0, 206, 209), Rgb(0, 139, 139), Rgb(0, 128, 128),
      Rgb(240, 248, 255), Rgb(230, 230, 250), Rgb(176, 224, 230), LightBlue, Rgb(135, 206, 250),
      Rgb(135, 206, 235), Rgb(0, 191, 255), Rgb(30, 144, 255), Blue, Rgb(0, 0, 205),
      Rgb(0, 0, 139), Rgb(25, 25, 112), Rgb(0, 0, 128), Rgb(230, 230, 250), Rgb(221, 160, 221),
      Rgb(238, 130, 238), LightMagenta, Rgb(218, 112, 214), Rgb(186, 85, 211), Magenta,
      Rgb(147, 112, 219), Rgb(138, 43, 226)
    ])
  }

  /** Entries 96–106 of `DefaultColorPalette`. */
  function DefaultColorPalettePart3(): (r: seq<PaletteEntry>)
    ensures |r| == 11
  {
    Entries([
      Rgb(148, 0, 211), Rgb(128, 0, 128), Rgb(75, 0, 130), Rgb(106, 90, 205), Rgb(72, 61, 139),
      Rgb(245, 222, 179), Rgb(222, 184, 135), Rgb(210, 180, 140), Rgb(188, 143, 143),
      Rgb(244, 164, 96), Rgb(205, 133, 63)
    ])
  }

  /** `get_ansi_color_palette`: the sixteen named terminal colours. */
  function AnsiPalette(): (r: seq<PaletteEntry>)
    ensures |r| == 16
    ensures forall i :: 0 <= i < |r| ==> r[i].ColorEntry? && !r[i].color.Rgb? && !r[i].color.Indexed?
  {
    Entries([Black, DarkGray, Red, LightRed, Green, LightGreen, Yellow, LightYellow,
             Blue, LightBlue, Magenta, LightMagenta, Cyan, LightCyan, Gray, White])
  }

  /** `get_atari_color_palette`: the literal Atari-style list. */
  function AtariPalette(): (r: seq<PaletteEntry>)
    ensures |r| == 120
  {
    AtariPalettePart0() + AtariPalettePart1() + AtariPalettePart2() + AtariPalettePart3()
  }

  /** Entries 0–31 of `AtariPalette`. */
  function AtariPalettePart0(): (r: seq<PaletteEntry>)
    ensures |r| == 32
  {
    Entries([
      Rgb(0, 0, 0), Rgb(64, 64, 64), Rgb(112, 112, 112), Rgb(152, 152, 152), Rgb(184, 184, 184),
      Rgb(208, 208, 208), Rgb(228, 228, 228), Rgb(252, 252, 252), Rgb(68, 40, 0), Rgb(120, 74, 0),
      Rgb(164, 104, 0), Rgb(204, 132, 0), Rgb(232, 154, 0), Rgb(252, 174, 36), Rgb(252, 194, 88),
      Rgb(252, 218, 140), Rgb(112, 20, 0), Rgb(168, 52, 0), Rgb(208, 78, 0), Rgb(244, 106, 0),
      Rgb(252, 128, 0), Rgb(252, 150, 48), Rgb(252, 172, 92), Rgb(252, 196, 140), Rgb(132, 0, 0),
      Rgb(192, 30, 0), Rgb(232, 64, 0), Rgb(252, 92, 20), Rgb(252, 114, 68), Rgb(252, 138, 108),
      Rgb(252, 162, 148), Rgb(252, 188, 188)
    ])
  }

  /** Entries 32–63 of `AtariPalette`. */
  function AtariPalettePart1(): (r: seq<PaletteEntry>)
    ensures |r| == 32
  {
    Entries([
      Rgb(140, 0, 0), Rgb(204, 26, 26), Rgb(232, 66, 66), Rgb(252, 94, 94), Rgb(252, 120, 120),
      Rgb(252, 144, 144), Rgb(252, 170, 170), Rgb(252, 196, 196), Rgb(124, 0, 64),
      Rgb(184, 18, 108), Rgb(216, 54, 144), Rgb(244, 84, 172), Rgb(252, 110, 196),
      Rgb(252, 134, 212), Rgb(252, 160, 228), Rgb(252, 188, 244), Rgb(84, 0, 116),
      Rgb(136, 20, 168), Rgb(172, 58, 208), Rgb(204, 88, 236), Rgb(224, 114, 252),
      Rgb(236, 138, 252), Rgb(248, 164, 252), Rgb(252, 192, 252), Rgb(36, 0, 140),
      Rgb(80, 28, 192), Rgb(116, 66, 224), Rgb(148, 96, 248), Rgb(172, 120, 252),
      Rgb(192, 142, 252), Rgb(212, 166, 252), Rgb(232, 192, 252)
    ])
  }

  /** Entries 64–95 of `AtariPalette`. */
  function AtariPalettePart2(): (r: seq<PaletteEntry>)
    ensures |r| == 32
  {
    Entries([
      Rgb(0, 0, 148), Rgb(26, 42, 200), Rgb(62, 78, 228), Rgb(92, 110, 252), Rgb(118, 134, 252),
      Rgb(140, 158, 252), Rgb(166, 182, 252), Rgb(192, 206, 252), Rgb(0, 48, 132),
      Rgb(16, 84, 184), Rgb(50, 118, 216), Rgb(80, 146, 244), Rgb(106, 168, 252),
      Rgb(130, 188, 252), Rgb(156, 208, 252), Rgb(184, 228, 252), Rgb(0, 88, 88), Rgb(0, 132, 132),
      Rgb(38, 164, 164), Rgb(68, 192, 192), Rgb(94, 212, 212), Rgb(118, 228, 228),
      Rgb(146, 242, 242), Rgb(176, 252, 252), Rgb(0, 104, 52), Rgb(0, 152, 84), Rgb(22, 184, 116),
      Rgb(56, 208, 144), Rgb(84, 228, 164), Rgb(110, 244, 184), Rgb(138, 252, 204),
      Rgb(170, 252, 224)
    ])
  }

  /** Entries 96–119 of `AtariPalette`. */
  function AtariPalettePart3(): (r: seq<PaletteEntry>)
    ensures |r| == 24
  {
    Entries([
      Rgb(0, 116, 0), Rgb(20, 164, 20), Rgb(58, 198, 58), Rgb(88, 224, 88), Rgb(114, 240, 114),
      Rgb(138, 252, 138), Rgb(164, 252, 164), Rgb(192, 252, 192), Rgb(52, 108, 0), Rgb(92, 152, 0),
      Rgb(128, 184, 16), Rgb(160, 212, 48), Rgb(184, 232, 74), Rgb(204, 244, 102),
      Rgb(224, 252, 132), Rgb(240, 252, 164), Rgb(96, 88, 0), Rgb(148, 126, 0), Rgb(188, 160, 0),
      Rgb(224, 188, 20), Rgb(244, 208, 60), Rgb(252, 224, 94), Rgb(252, 238, 134),
      Rgb(252, 252, 172)
    ])
  }

  // ---------------------------------------------------------------------------
  // Colour cubes (xterm256, websafe, extended websafe), in red-major order

  function XtermLevels(): seq<Byte> { [0, 95, 135, 175, 215, 255] }
  function WebsafeLevels(): seq<Byte> { [0, 51, 102, 153, 204, 255] }
  function ExtendedLevels(): seq<Byte> { [0, 25, 51, 76, 102, 127, 153, 178, 204, 229, 255] }

  /** The blue run for red level `r` and green level `g`. */
  function Row(levels: seq<Byte>, r: nat, g: nat): (row: seq<PaletteEntry>)
    requires r < |levels| && g < |levels|
    ensures |row| == |levels|
  {
    seq(|levels|, b requires 0 <= b < |levels| => ColorEntry(Rgb(levels[r], levels[g], levels[b])))
  }

  /** The first `g` green rows for red level `r`. */
  function Rows(levels: seq<Byte>, r: nat, g: nat): (rows: seq<PaletteEntry>)
    requires r < |levels| && g <= |levels|
    ensures |rows| == g * |levels|
  {
    if g == 0 then [] else Rows(levels, r, g - 1) + Row(levels, r, g - 1)
  }

  /** The first `r` red planes of the cube. */
  function Planes(levels: seq<Byte>, r: nat): (planes: seq<PaletteEntry>)
    requires r <= |levels|
    ensures |planes| == r * (|levels| * |levels|)
  {
    if r == 0 then [] else Planes(levels, r - 1) + Rows(levels, r - 1, |levels|)
  }

  /** The whole cube over `levels`. */
  function Cube(levels: seq<Byte>): (cube: seq<PaletteEntry>)
    ensures |cube| == |levels| * (|levels| * |levels|)
  {
    Planes(levels, |levels|)
  }

  /** Appends the cube over `levels` to `entries0`, one `push` per (r, g, b): the red loop. */
  method PushCube(entries0: seq<PaletteEntry>, levels: seq<Byte>) returns (entries: seq<PaletteEntry>)
    ensures entries == entries0 + Cube(levels)
  {
    entries := entries0;
    var r := 0;
    while r < |levels|
      invariant 0 <= r <= |levels|
      invariant entries == entries0 + Planes(levels, r)
    {
      entries := PushPlane(entries, levels, r);
      r := r + 1;
    }
  }

  /** The green loop of `PushCube` for red level `r`. */
  method PushPlane(entries0: seq<PaletteEntry>, levels: seq<Byte>, r: nat) returns (entries: seq<PaletteEntry>)
    requires r < |levels|
    ensures entries == entries0 + Rows(levels, r, |levels|)
  {
    entries := entries0;
    var g := 0;
    while g < |levels|
      invariant 0 <= g <= |levels|
      invariant entries == entries0 + Rows(levels, r, g)
    {
      entries := PushRow(entries, levels, r, g);
      g := g + 1;
    }
  }

  /** The blue loop of `PushCube` for red level `r` and green level `g`. */
  method PushRow(entries0: seq<PaletteEntry>, levels: seq<Byte>, r: nat, g: nat) returns (entries: seq<PaletteEntry>)
    requires r < |levels| && g < |levels|
    ensures entries == entries0 + Row(levels, r, g)
  {
    entries := entries0;
    var b := 0;
    while b < |levels|
      invariant 0 <= b <= |levels|
      invariant entries == entries0 + Row(levels, r, g)[..b]
    {
      assert Row(levels, r, g)[..b + 1] == Row(levels, r, g)[..b] + [ColorEntry(Rgb(levels[r], levels[g], levels[b]))];
      entries := entries + [ColorEntry(Rgb(levels[r], levels[g], levels[b]))];
      b := b + 1;
    }
    assert Row(levels, r, g)[..|levels|] == Row(levels, r, g);
  }

  /** A positive multiple of `n` is at least `n`. */
  lemma {:induction false} MultipleAtLeast(k: nat, n: nat)
    requires k >= 1
    ensures k * n >= n
  {
    if k > 1 {
      MultipleAtLeast(k - 1, n);
      assert k * n == (k - 1) * n + n;
    }
  }

  lemma {:induction false} RowsAt(levels: seq<Byte>, r: nat, g: nat, gi: nat, b: nat)
    requires r < |levels| && gi < g <= |levels| && b < |levels|
    ensures 0 <= gi * |levels| + b < |Rows(levels, r, g)| &&
      Rows(levels, r, g)[gi * |levels| + b] == ColorEntry(Rgb(levels[r], levels[gi], levels[b]))
  {
    var n := |levels|;
    BlockBound(g, gi, b, n);
    var prefix := Rows(levels, r, g - 1);
    assert Rows(levels, r, g) == prefix + Row(levels, r, g - 1);
    if gi == g - 1 {
      assert gi * n + b == |prefix| + b;
    } else {
      MultipleAtLeast(g - 1 - gi, n);
      assert (g - 1 - gi) * n == (g - 1) * n - gi * n;
      assert gi * n + b < |prefix|;
      RowsAt(levels, r, g - 1, gi, b);
    }
  }

  /** Block `i` of `q` blocks of width `m` ends before the `q` blocks do. */
  lemma BlockBound(q: nat, i: nat, j: nat, m: nat)
    requires i < q && j < m
    ensures i * m + j < q * m
  {
    MultipleAtLeast(q - i, m);
    assert (q - i) * m == q * m - i * m;
  }

  lemma {:induction false} PlanesAt(levels: seq<Byte>, r: nat, ri: nat, k: nat)
    requires ri < r <= |levels| && k < |levels| * |levels|
    ensures 0 <= ri * (|levels| * |levels|) + k < |Planes(levels, r)| &&
      Planes(levels, r)[ri * (|levels| * |levels|) + k] == Rows(levels, ri, |levels|)[k]
  {
    var nn := |levels| * |levels|;
    BlockBound(r, ri, k, nn);
    var prefix := Planes(levels, r - 1);
    assert |prefix| == (r - 1) * nn;
    if ri < r - 1 {
      BlockBound(r - 1, ri, k, nn);
      PlanesAt(levels, r - 1, ri, k);
    }
  }

  /** The cube has n³ entries, and entry r·n² + g·n + b is (levels[r], levels[g], levels[b]). */
  lemma CubeAt(levels: seq<Byte>, r: nat, g: nat, b: nat)
    requires r < |levels| && g < |levels| && b < |levels|
    ensures var n := |levels|;
      0 <= r * (n * n) + (g * n + b) < |Cube(levels)| &&
      Cube(levels)[r * (n * n) + (g * n + b)] == ColorEntry(Rgb(levels[r], levels[g], levels[b]))
  {
    var n := |levels|;
    BlockBound(n, g, b, n);
    RowsAt(levels, r, n, g, b);
    PlaneEntry(levels, r, g * n + b);
  }

  /** Entry `k` of plane `r` sits at r·n² + k in the cube. */
  lemma PlaneEntry(levels: seq<Byte>, r: nat, k: nat)
    requires r < |levels| && k < |levels| * |levels|
    ensures var nn := |levels| * |levels|;
      0 <= r * nn + k < |Cube(levels)| && Cube(levels)[r * nn + k] == Rows(levels, r, |levels|)[k]
  {
    var nn := |levels| * |levels|;
    BlockBound(|levels|, r, k, nn);
    PlanesAt(levels, |levels|, r, k);
  }

  /** Every entry of the cube is an `Rgb` colour whose channels are all levels. */
  lemma {:induction false} PlanesChannels(levels: seq<Byte>, r: nat, e: PaletteEntry)
    requires r <= |levels| && e in Planes(levels, r)
    ensures e.ColorEntry? && e.color.Rgb?
    ensures e.color.r in levels && e.color.g in levels && e.color.b in levels
  {
    if e !in Planes(levels, r - 1) {
      assert e in Rows(levels, r - 1, |levels|);
      RowsChannels(levels, r - 1, |levels|, e);
    } else {
      PlanesChannels(levels, r - 1, e);
    }
  }

  lemma {:induction false} RowsChannels(levels: seq<Byte>, r: nat, g: nat, e: PaletteEntry)
    requires r < |levels| && g <= |levels| && e in Rows(levels, r, g)
    ensures e.ColorEntry? && e.color.Rgb?
    ensures e.color.r in levels && e.color.g in levels && e.color.b in levels
  {
    if e !in Rows(levels, r, g - 1) {
      var b :| 0 <= b < |levels| && Row(levels, r, g - 1)[b] == e;
    } else {
      RowsChannels(levels, r, g - 1, e);
    }
  }

  /** The 24-step grey ramp 8, 18, …, 238 of the xterm palette. */
  function GreyRamp(): (r: seq<PaletteEntry>)
    ensures |r| == 24
  {
    seq(24, i requires 0 <= i < 24 => Grey(8 + i * 10))
  }

  /** xterm256 as a value: the 16 ANSI colours, the 6×6×6 cube, the grey ramp. */
  function Xterm256Spec(): seq<PaletteEntry>
  {
    AnsiPalette() + Cube(XtermLevels()) + GreyRamp()
  }

  /** `get_xterm256_color_palette`. */
  method Xterm256Palette() returns (entries: seq<PaletteEntry>)
    ensures entries == Xterm256Spec()
  {
    entries := AnsiPalette();
    entries := PushCube(entries, XtermLevels());
    ghost var prefix := entries;
    var i := 0;
    while i < 24
      invariant 0 <= i <= 24
      invariant |entries| == |prefix| + i && entries[..|prefix|] == prefix
      invariant forall j :: 0 <= j < i ==> entries[|prefix| + j] == Grey(8 + j * 10)
    {
      entries := entries + [Grey(8 + i * 10)];
      i := i + 1;
    }
    assert entries == prefix + GreyRamp();
  }

  /** The xterm palette has 256 entries: the ANSI colours, then the r-major cube. */
  lemma Xterm256Layout(r: nat, g: nat, b: nat)
    requires r < 6 && g < 6 && b < 6
    ensures |Xterm256Spec()| == 256
    ensures Xterm256Spec()[..16] == AnsiPalette()
    ensures Xterm256Spec()[16 + 36 * r + 6 * g + b] ==
      ColorEntry(Rgb(XtermLevels()[r], XtermLevels()[g], XtermLevels()[b]))
  {
    assert |AnsiPalette()| == 16;
    CubeBetween(AnsiPalette(), XtermLevels(), GreyRamp(), r, g, b, 0);
  }

  /** The last 24 entries of the xterm palette are the greys 8 + i·10. */
  lemma Xterm256Greys(i: nat)
    requires i < 24
    ensures Xterm256Spec()[232 + i] == Grey(8 + i * 10)
  {
    var greys := GreyRamp();
    assert greys[i] == Grey(8 + i * 10);
    assert |AnsiPalette()| == 16;
    CubeBetween(AnsiPalette(), XtermLevels(), greys, 0, 0, 0, i);
  }

  /** Indexing a palette laid out as a prefix, a cube over six levels and a suffix. */
  lemma CubeBetween(prefix: seq<PaletteEntry>, levels: seq<Byte>, suffix: seq<PaletteEntry>, r: nat, g: nat, b: nat, i: nat)
    requires |levels| == 6 && r < 6 && g < 6 && b < 6 && i < |suffix|
    ensures |prefix + Cube(levels) + suffix| == |prefix| + 216 + |suffix|
    ensures (prefix + Cube(levels) + suffix)[..|prefix|] == prefix
    ensures (prefix + Cube(levels) + suffix)[|prefix| + 36 * r + 6 * g + b] ==
      ColorEntry(Rgb(levels[r], levels[g], levels[b]))
    ensures (prefix + Cube(levels) + suffix)[|prefix| + 216 + i] == suffix[i]
  {
    CubeAt(levels, r, g, b);
    assert r * (6 * 6) + (g * 6 + b) == 36 * r + 6 * g + b;
  }

  /** Every entry of a cube is an `Rgb` colour with each channel one of the levels. */
  lemma CubeChannels(levels: seq<Byte>, e: PaletteEntry)
    requires e in Cube(levels)
    ensures e.ColorEntry? && e.color.Rgb?
    ensures e.color.r in levels && e.color.g in levels && e.color.b in levels
  {
    PlanesChannels(levels, |levels|, e);
  }

  /** `get_websafe_color_palette`: the 6×6×6 cube over multiples of 51. */
  method WebsafePalette() returns (entries: seq<PaletteEntry>)
    ensures entries == Cube(WebsafeLevels())
    ensures |entries| == 216
  {
    entries := PushCube([], WebsafeLevels());
  }

  /** `get_websafe_extended_color_palette`: the 11×11×11 cube. */
  method WebsafeExtendedPalette() returns (entries: seq<PaletteEntry>)
    ensures entries == Cube(ExtendedLevels())
    ensures |entries| == 1331
  {
    entries := PushCube([], ExtendedLevels());
  }

  // ---------------------------------------------------------------------------
  // HSV-based palettes

  function AbsReal(x: real): real { if x < 0.0 then -x else x }

  /** The `%` of floating point: the remainder takes the sign of the dividend. */
  function TruncRem(x: real, m: real): real
    requires m > 0.0
  {
    var q := x / m;
    var t := if q >= 0.0 then q.Floor else -((-q).Floor);
    x - m * t as real
  }

  /** The `as u8` cast of a float: truncation toward zero, saturating at 0 and 255. */
  function FloatToU8(x: real): Byte
  {
    if x <= 0.0 then 0 else if x >= 255.0 then 255 else x.Floor
  }

  /**
   * The red, green and blue intensities of `hsv_to_rgb` before the `as u8`
   * cast: the sector's (r', g', b') shifted up by `m = v − v·s`.
   */
  function HsvShares(h: real, s: real, v: real): (p: (real, real, real))
    ensures (0.0 <= h < 60.0 ==> p.0 == v && p.2 == v - v * s) &&
      (60.0 <= h < 120.0 ==> p.1 == v && p.2 == v - v * s) &&
      (120.0 <= h < 180.0 ==> p.1 == v && p.0 == v - v * s) &&
      (180.0 <= h < 240.0 ==> p.2 == v && p.0 == v - v * s) &&
      (240.0 <= h < 300.0 ==> p.2 == v && p.1 == v - v * s) &&
      (h < 0.0 || 300.0 <= h ==> p.0 == v && p.1 == v - v * s)
    ensures s == 0.0 ==> p.0 == v && p.1 == v && p.2 == v
  {
    var c := v * s;
    var x := c * HueFold(h);
    var m := v - c;
    var rgb := Sector(h, c, x);
    (rgb.0 + m, rgb.1 + m, rgb.2 + m)
  }

  /**
   * The (r', g', b') of `hsv_to_rgb`'s 60° sector for hue `h`, chroma `c`
   * and middle share `x`.
   */
  function Sector(h: real, c: real, x: real): (real, real, real)
  {
    if 0.0 <= h < 60.0 then (c, x, 0.0)
    else if 60.0 <= h < 120.0 then (x, c, 0.0)
    else if 120.0 <= h < 180.0 then (0.0, c, x)
    else if 180.0 <= h < 240.0 then (0.0, x, c)
    else if 240.0 <= h < 300.0 then (x, 0.0, c)
    else (c, 0.0, x)
  }
  /** Every sector component is the chroma, the middle share or 0, so lies in [0, c] when `x` does. */
  lemma SectorBetween(h: real, c: real, x: real)
    requires 0.0 <= x <= c
    ensures var rgb := Sector(h, c, x);
      0.0 <= rgb.0 <= c && 0.0 <= rgb.1 <= c && 0.0 <= rgb.2 <= c
  {
  }


  /**
   * `hsv_to_rgb` over exact reals (hue in degrees, saturation and value in
   * [0,1]). In each 60° sector one channel carries the value `v` and one the
   * floor `v·(1−s)`; the sectors below 0° and from 300° fall to red and green.
   * With no saturation every channel is the same grey.
   */
  function HsvToRgb(h: real, s: real, v: real): (r: Triple)
    ensures var top, bottom := FloatToU8(v * 255.0), FloatToU8((v - v * s) * 255.0);
      (0.0 <= h < 60.0 ==> r.r == top && r.b == bottom) &&
      (60.0 <= h < 120.0 ==> r.g == top && r.b == bottom) &&
      (120.0 <= h < 180.0 ==> r.g == top && r.r == bottom) &&
      (180.0 <= h < 240.0 ==> r.b == top && r.r == bottom) &&
      (240.0 <= h < 300.0 ==> r.b == top && r.g == bottom) &&
      (h < 0.0 || 300.0 <= h ==> r.r == top && r.g == bottom)
    ensures s == 0.0 ==> r == Triple(FloatToU8(v * 255.0), FloatToU8(v * 255.0), FloatToU8(v * 255.0))
  {
    var p := HsvShares(h, s, v);
    Triple(FloatToU8(p.0 * 255.0), FloatToU8(p.1 * 255.0), FloatToU8(p.2 * 255.0))
  }

  /** For a non-negative dividend the float remainder by `m` lies in [0, m). */
  lemma TruncRemRange(x: real, m: real)
    requires x >= 0.0 && m > 0.0
    ensures 0.0 <= TruncRem(x, m) < m
  {
    var q := x / m;
    assert q >= 0.0 by {
      assert q * m == x;
    }
    var t := q.Floor as real;
    var d := q - t;
    assert 0.0 <= d < 1.0;
    assert TruncRem(x, m) == m * d;
    assert 0.0 <= m * d;
    assert m * d < m by {
      assert m * (1.0 - d) > 0.0;
    }
  }

  /** The `as u8` cast of three ordered intensities keeps their order. */
  lemma ScaledBetween(lo: real, mid: real, hi: real)
    requires lo <= mid <= hi
    ensures FloatToU8(lo * 255.0) <= FloatToU8(mid * 255.0) <= FloatToU8(hi * 255.0)
  {
  }

  /**
   * The middle channel's fraction of the chroma, `1 − |(h/60) % 2 − 1|`:
   * rising from 0 to 1 and back over each 120° of hue.
   */
  function HueFold(h: real): real
  {
    1.0 - AbsReal(TruncRem(h / 60.0, 2.0) - 1.0)
  }

  /** From 0° on the middle channel's fraction lies in [0, 1]. */
  lemma HueFoldUnit(h: real)
    requires h >= 0.0
    ensures 0.0 <= HueFold(h) <= 1.0
  {
    TruncRemRange(h / 60.0, 2.0);
  }

  /**
   * For a hue from 0° on and a saturation in [0,1], every intensity lies
   * between the sector's floor `v·(1−s)` and the value `v`.
   */
  lemma SharesBetween(h: real, s: real, v: real)
    requires h >= 0.0 && 0.0 <= s <= 1.0 && v >= 0.0
    ensures var p := HsvShares(h, s, v);
      v - v * s <= p.0 <= v && v - v * s <= p.1 <= v && v - v * s <= p.2 <= v
  {
    var c, f := v * s, HueFold(h);
    ScaledDown(v, s);
    HueFoldUnit(h);
    ScaledDown(c, f);
    SectorBetween(h, c, c * f);
    SharesShifted(h, s, v);
    ShiftedBetween(HsvShares(h, s, v), Sector(h, c, c * f), c, v);
  }

  /** Components in [0, c] shifted up by `v − c` land in [v − c, v]. */
  lemma ShiftedBetween(p: (real, real, real), rgb: (real, real, real), c: real, v: real)
    requires 0.0 <= rgb.0 <= c && 0.0 <= rgb.1 <= c && 0.0 <= rgb.2 <= c
    requires p.0 == rgb.0 + (v - c) && p.1 == rgb.1 + (v - c) && p.2 == rgb.2 + (v - c)
    ensures v - c <= p.0 <= v && v - c <= p.1 <= v && v - c <= p.2 <= v
  {
  }


  /** A non-negative quantity scaled by a fraction in [0, 1] stays in [0, itself]. */
  lemma ScaledDown(c: real, f: real)
    requires c >= 0.0 && 0.0 <= f <= 1.0
    ensures 0.0 <= c * f <= c
  {
    assert c * f <= c * 1.0;
  }

  /** The intensities are the sector's components shifted up by `v − v·s`. */
  lemma SharesShifted(h: real, s: real, v: real)
    ensures var p, rgb := HsvShares(h, s, v), Sector(h, v * s, v * s * HueFold(h));
      p.0 == rgb.0 + (v - v * s) && p.1 == rgb.1 + (v - v * s) && p.2 == rgb.2 + (v - v * s)
  {
  }


  /**
   * For a hue from 0° on and a saturation in [0,1], every channel of
   * `hsv_to_rgb` lies between the sector's floor and its value, the middle
   * channel included.
   */
  lemma HsvChannelsBetween(h: real, s: real, v: real)
    requires h >= 0.0 && 0.0 <= s <= 1.0 && v >= 0.0
    ensures var r, top, bottom := HsvToRgb(h, s, v), FloatToU8(v * 255.0), FloatToU8((v - v * s) * 255.0);
      bottom <= r.r <= top && bottom <= r.g <= top && bottom <= r.b <= top
  {
    var p := HsvShares(h, s, v);
    SharesBetween(h, s, v);
    ScaledBetween(v - v * s, p.0, v);
    ScaledBetween(v - v * s, p.1, v);
    ScaledBetween(v - v * s, p.2, v);
  }


  function HsvEntry(h: real, s: real, v: real): PaletteEntry
  {
    FromTripleEntry(HsvToRgb(h, s, v))
  }

  function FromTripleEntry(t: Triple): PaletteEntry
  {
    ColorEntry(FromTriple(t))
  }

  /** The hue, in degrees, of hue step `h` of the spectrum. */
  function SpectrumHue(h: int): real
  {
    h as real / 32.0 * 360.0
  }

  /** The four value steps 1/4 … 1 for hue step `h` and saturation step `s`. */
  function ValueRun(h: int, s: int): (run: seq<PaletteEntry>)
    ensures |run| == 4
  {
    seq(4, i requires 0 <= i < 4 => SpectrumEntry(h, s, i + 1))
  }

  /** The colour at hue step `h`, saturation step `s` and value step `v` (steps of 1/4). */
  function SpectrumEntry(h: int, s: int, v: int): PaletteEntry
  {
    HsvEntry(SpectrumHue(h), s as real / 4.0, v as real / 4.0)
  }

  /** Saturation steps 1..`s` for hue step `h`. */
  function SatRuns(h: int, s: nat): (runs: seq<PaletteEntry>)
    ensures |runs| == 4 * s
  {
    if s == 0 then [] else SatRuns(h, s - 1) + ValueRun(h, s)
  }

  /** Hue steps 0..`h`−1, each with its four saturations. */
  function HueBlocks(h: nat): (blocks: seq<PaletteEntry>)
    ensures |blocks| == 16 * h
  {
    if h == 0 then [] else HueBlocks(h - 1) + SatRuns(h - 1, 4)
  }

  /** The 32 greys i·8 that open the spectrum. */
  function SpectrumGreys(): (r: seq<PaletteEntry>)
    ensures |r| == 32
  {
    seq(32, i requires 0 <= i < 32 => Grey(i * 8))
  }

  /** The spectrum as a value: 32 greys, then 32 hues × 4 saturations × 4 values. */
  function SpectrumSpec(): seq<PaletteEntry>
  {
    SpectrumGreys() + HueBlocks(32)
  }

  /** `get_spectrum_color_palette`: the grey loop, then the hue loop. */
  method SpectrumPalette() returns (entries: seq<PaletteEntry>)
    ensures entries == SpectrumSpec()
  {
    entries := SpectrumGreyLoop();
    entries := SpectrumHueLoop(entries);
  }

  /** The hue loop of `SpectrumPalette`: 32 hue steps. */
  method SpectrumHueLoop(entries0: seq<PaletteEntry>) returns (entries: seq<PaletteEntry>)
    ensures entries == entries0 + HueBlocks(32)
  {
    entries := entries0;
    var h := 0;
    while h < 32
      invariant 0 <= h <= 32
      invariant entries == entries0 + HueBlocks(h)
    {
      entries := PushHueBlock(entries, h);
      h := h + 1;
    }
  }

  /** The grey loop that opens `SpectrumPalette`. */
  method SpectrumGreyLoop() returns (entries: seq<PaletteEntry>)
    ensures entries == SpectrumGreys()
  {
    entries := [];
    var i := 0;
    while i < 32
      invariant 0 <= i <= 32
      invariant entries == SpectrumGreys()[..i]
    {
      assert SpectrumGreys()[..i + 1] == SpectrumGreys()[..i] + [Grey(i * 8)];
      entries := entries + [Grey(i * 8)];
      i := i + 1;
    }
    assert SpectrumGreys()[..32] == SpectrumGreys();
  }

  /** The saturation loop of `SpectrumPalette` for hue step `h`. */
  method PushHueBlock(entries0: seq<PaletteEntry>, h: nat) returns (entries: seq<PaletteEntry>)
    ensures entries == entries0 + SatRuns(h, 4)
  {
    entries := entries0;
    var s := 1;
    while s <= 4
      invariant 1 <= s <= 5
      invariant entries == entries0 + SatRuns(h, s - 1)
    {
      entries := PushValueRun(entries, h, s);
      s := s + 1;
    }
  }

  /** The value loop of `SpectrumPalette` for hue step `h` and saturation step `s`. */
  method PushValueRun(entries0: seq<PaletteEntry>, h: nat, s: nat) returns (entries: seq<PaletteEntry>)
    ensures entries == entries0 + ValueRun(h, s)
  {
    entries := entries0;
    var v := 1;
    while v <= 4
      invariant 1 <= v <= 5
      invariant entries == entries0 + ValueRun(h, s)[..v - 1]
    {
      assert ValueRun(h, s)[..v] == ValueRun(h, s)[..v - 1] + [SpectrumEntry(h, s, v)];
      entries := entries + [SpectrumEntry(h, s, v)];
      v := v + 1;
    }
    assert ValueRun(h, s)[..4] == ValueRun(h, s);
  }

  /** The spectrum has 544 entries and starts with the 32 greys i·8. */
  lemma SpectrumLayout(i: int)
    requires 0 <= i < 32
    ensures |SpectrumSpec()| == 544
    ensures SpectrumSpec()[i] == Grey(i * 8)
  {
  }

  /** The hue/saturation pairs of the toned palette, greyscale first and a desaturated orange last. */
  function TonedBases(): seq<(real, real)>
  {
    [(0.0, 0.0), (0.0, 1.0), (30.0, 1.0), (60.0, 1.0), (90.0, 1.0), (120.0, 1.0), (150.0, 1.0),
     (180.0, 1.0), (210.0, 1.0), (240.0, 1.0), (270.0, 1.0), (300.0, 1.0), (330.0, 1.0), (30.0, 0.8)]
  }

  /** The eight value steps of one base pair, from 0.15 up to 1.0 in seven equal steps. */
  function ValueRamp(base: (real, real)): (ramp: seq<PaletteEntry>)
    ensures |ramp| == 8
  {
    seq(8, j requires 0 <= j < 8 => HsvEntry(base.0, base.1, 0.15 + 0.85 * (j as real / 7.0)))
  }

  /** The ramps of the first `p` base pairs. */
  function TonedRamps(p: nat): (r: seq<PaletteEntry>)
    requires p <= |TonedBases()|
    ensures |r| == 8 * p
  {
    if p == 0 then [] else TonedRamps(p - 1) + ValueRamp(TonedBases()[p - 1])
  }

  /** The toned palette as a value: 8 values for each of the 14 base pairs. */
  function TonedSpec(): seq<PaletteEntry>
  {
    TonedRamps(14)
  }

  /** `get_toned_color_palette`. */
  method TonedPalette() returns (entries: seq<PaletteEntry>)
    ensures entries == TonedSpec()
    ensures |entries| == 112
  {
    var bases := TonedBases();
    entries := [];
    var p := 0;
    while p < |bases|
      invariant 0 <= p <= |bases|
      invariant entries == TonedRamps(p)
    {
      entries := PushValueRamp(entries, bases[p]);
      p := p + 1;
    }
  }

  /** The inner loop of `get_toned_color_palette`: the eight values of one base pair. */
  method PushValueRamp(entries0: seq<PaletteEntry>, base: (real, real)) returns (entries: seq<PaletteEntry>)
    ensures entries == entries0 + ValueRamp(base)
  {
    entries := entries0;
    var j := 0;
    while j < 8
      invariant 0 <= j <= 8
      invariant entries == entries0 + ValueRamp(base)[..j]
    {
      var value := 0.15 + 0.85 * (j as real / 7.0);
      assert ValueRamp(base)[..j + 1] == ValueRamp(base)[..j] + [HsvEntry(base.0, base.1, value)];
      entries := entries + [HsvEntry(base.0, base.1, value)];
      j := j + 1;
    }
    assert ValueRamp(base)[..8] == ValueRamp(base);
  }

  /** Entry `i` of a 50-step tone ramp of one hue. */
  function ToneEntry(hue: real, satTop: real, valueSpan: real, i: int): PaletteEntry
  {
    ToneAt(hue, satTop, valueSpan, i as real / 49.0)
  }

  /** The tone at a brightness in [0,1]: saturation falls by 0.3 while value rises from 0.2. */
  function ToneAt(hue: real, satTop: real, valueSpan: real, brightness: real): PaletteEntry
  {
    HsvEntry(hue, satTop - brightness * 0.3, 0.2 + brightness * valueSpan)
  }

  /** A tone ramp as a value. */
  function TonesSpec(hue: real, satTop: real, valueSpan: real): (r: seq<PaletteEntry>)
    ensures |r| == 50
  {
    seq(50, i requires 0 <= i < 50 => ToneEntry(hue, satTop, valueSpan, i))
  }

  /** The loop shared by the six `get_*_tones_palette` functions. */
  method TonesPalette(hue: real, satTop: real, valueSpan: real) returns (entries: seq<PaletteEntry>)
    ensures entries == TonesSpec(hue, satTop, valueSpan)
  {
    entries := [];
    var i := 0;
    while i < 50
      invariant 0 <= i <= 50
      invariant |entries| == i
      invariant forall j :: 0 <= j < i ==> entries[j] == ToneEntry(hue, satTop, valueSpan, j)
    {
      var brightness := i as real / 49.0;
      entries := entries + [ToneAt(hue, satTop, valueSpan, brightness)];
      i := i + 1;
    }
  }

  // ---------------------------------------------------------------------------
  // The table of built-in palettes

  /** The generator functions the table points at. */
  datatype Generator =
    | DefaultGen | AnsiGen | Xterm256Gen | SpectrumGen | AtariGen | WebsafeGen | WebsafeExtendedGen
    | TonedGen | RedTonesGen | BlueTonesGen | GreenTonesGen | PinkTonesGen | BrownTonesGen | CyanTonesGen

  /** The palette each generator produces. */
  function Generate(g: Generator): seq<PaletteEntry>
  {
    match g
    case DefaultGen => DefaultColorPalette()
    case AnsiGen => AnsiPalette()
    case Xterm256Gen => Xterm256Spec()
    case SpectrumGen => SpectrumSpec()
    case AtariGen => AtariPalette()
    case WebsafeGen => Cube(WebsafeLevels())
    case WebsafeExtendedGen => Cube(ExtendedLevels())
    case TonedGen => TonedSpec()
    case RedTonesGen => TonesSpec(0.0, 1.0, 0.8)
    case BlueTonesGen => TonesSpec(240.0, 1.0, 0.8)
    case GreenTonesGen => TonesSpec(120.0, 1.0, 0.8)
    case PinkTonesGen => TonesSpec(330.0, 1.0, 0.8)
    case BrownTonesGen => TonesSpec(30.0, 0.8, 0.6)
    case CyanTonesGen => TonesSpec(180.0, 1.0, 0.8)
  }

  /** `get_built_in_palettes`: fourteen names, each bound to its generator. */
  function BuiltInPalettes(): (m: map<string, Generator>)
    ensures "default" in m && m["default"] == DefaultGen
  {
    map[
      "default" := DefaultGen, "ansi" := AnsiGen, "xterm256" := Xterm256Gen, "spectrum" := SpectrumGen,
      "atari" := AtariGen, "websafe" := WebsafeGen, "websafe_2" := WebsafeExtendedGen, "toned" := TonedGen,
      "red_tones" := RedTonesGen, "blue_tones" := BlueTonesGen, "green_tones" := GreenTonesGen,
      "pink_tones" := PinkTonesGen, "brown_tones" := BrownTonesGen, "cyan_tones" := CyanTonesGen]
  }

  /** The table holds fourteen distinct names: no entry overwrites another. */
  lemma BuiltInPalettesCount()
    ensures |BuiltInPalettes()| == 14
  {
    var m := map["default" := DefaultGen];
    assert "ansi" !in m; m := m["ansi" := AnsiGen];
    assert "xterm256" !in m; m := m["xterm256" := Xterm256Gen];
    assert "spectrum" !in m; m := m["spectrum" := SpectrumGen];
    assert "atari" !in m; m := m["atari" := AtariGen];
    assert "websafe" !in m; m := m["websafe" := WebsafeGen];
    assert "websafe_2" !in m; m := m["websafe_2" := WebsafeExtendedGen];
    assert "toned" !in m; m := m["toned" := TonedGen];
    assert "red_tones" !in m; m := m["red_tones" := RedTonesGen];
    assert "blue_tones" !in m; m := m["blue_tones" := BlueTonesGen];
    assert "green_tones" !in m; m := m["green_tones" := GreenTonesGen];
    assert "pink_tones" !in m; m := m["pink_tones" := PinkTonesGen];
    assert "brown_tones" !in m; m := m["brown_tones" := BrownTonesGen];
    assert "cyan_tones" !in m; m := m["cyan_tones" := CyanTonesGen];
    assert m == BuiltInPalettes();
  }
}

=== FILE: paths.dfy ===
// Directory paths as the file browser sees them, the in-memory directory tree
// that stands in for the file system, and the ordering `Vec<PathBuf>::sort`
// puts entries in.

module Paths {
  import opened Colors

  /** A canonical absolute path: its components from the root. */
  type Path = seq<string>

  /** `Path::parent`: every path but the root has one, and it differs from the path. */
  function Parent(p: Path): (r: Option<Path>)
    ensures r.Some? <==> p != []
    ensures r.Some? ==> r.value != p && r.value + [p[|p| - 1]] == p
  {
    if p == [] then None else Some(p[..|p| - 1])
  }

  /** An item of the browser list: the ".." item or a full path. */
  datatype Entry = UpEntry | PathEntry(path: Path)

  /**
   * A directory tree. `dirs` holds every path `is_dir()` is true for;
   * `listing` maps each directory `read_dir` can open to the names of its
   * entries in the order the system lists them. A directory in `dirs` but
   * not in `listing` exists but cannot be read.
   */
  datatype FileSystem = FileSystem(listing: map<Path, seq<string>>, dirs: set<Path>)

  // ---------------------------------------------------------------------------
  // Ordering

  /** Byte-wise (equivalently, code-point-wise) order of two names. */
  predicate NameLe(a: string, b: string)
  {
    if a == [] then true
    else if b == [] then false
    else if a[0] != b[0] then a[0] < b[0]
    else NameLe(a[1..], b[1..])
  }

  /** The order of `PathBuf`: component by component, a proper prefix first. */
  predicate PathLe(a: Path, b: Path)
  {
    if a == [] then true
    else if b == [] then false
    else if a[0] != b[0] then NameLe(a[0], b[0])
    else PathLe(a[1..], b[1..])
  }

  lemma {:induction false} NameTotal(a: string, b: string)
    ensures NameLe(a, b) || NameLe(b, a)
  {
    if a != [] && b != [] && a[0] == b[0] {
      NameTotal(a[1..], b[1..]);
    }
  }

  lemma {:induction false} NameAntisymmetric(a: string, b: string)
    requires NameLe(a, b) && NameLe(b, a)
    ensures a == b
  {
    if a != [] && b != [] {
      NameAntisymmetric(a[1..], b[1..]);
    }
  }

  /** Any two paths are ordered one way or the other. */
  lemma {:induction false} PathTotal(a: Path, b: Path)
    ensures PathLe(a, b) || PathLe(b, a)
  {
    if a != [] && b != [] {
      if a[0] != b[0] {
        NameTotal(a[0], b[0]);
      } else {
        PathTotal(a[1..], b[1..]);
      }
    }
  }

  /** Only equal paths are ordered both ways, so a sorted list is unique. */
  lemma {:induction false} PathAntisymmetric(a: Path, b: Path)
    requires PathLe(a, b) && PathLe(b, a)
    ensures a == b
  {
    if a != [] && b != [] {
      if a[0] != b[0] {
        NameAntisymmetric(a[0], b[0]);
      } else {
        PathAntisymmetric(a[1..], b[1..]);
        assert a == [a[0]] + a[1..];
        assert b == [b[0]] + b[1..];
      }
    }
  }

  /** Each path is no greater than its successor. */
  predicate Sorted(s: seq<Path>)
  {
    forall i :: 0 < i < |s| ==> PathLe(s[i - 1], s[i])
  }

  /** `p` placed into the sorted list `s` before the first path not below it. */
  function Insert(p: Path, s: seq<Path>): (r: seq<Path>)
    requires Sorted(s)
    ensures Sorted(r) && multiset(r) == multiset(s) + multiset{p}
    ensures |r| == |s| + 1 && (r[0] == p || (s != [] && r[0] == s[0]))
  {
    if s == [] || PathLe(p, s[0]) then
      [p] + s
    else
      PathTotal(p, s[0]);
      var t := Insert(p, s[1..]);
      assert s == [s[0]] + s[1..];
      [s[0]] + t
  }

  /** `sort`: the paths in ascending order, each kept as often as it occurs. */
  function Sort(s: seq<Path>): (r: seq<Path>)
    ensures Sorted(r) && multiset(r) == multiset(s) && |r| == |s|
  {
    if s == [] then []
    else
      assert s == s[..|s| - 1] + [s[|s| - 1]];
      Insert(s[|s| - 1], Sort(s[..|s| - 1]))
  }

  // ---------------------------------------------------------------------------
  // Listing a directory

  /** The full paths of the children of `dir`, in system order. */
  function Children(dir: Path, names: seq<string>): (r: seq<Path>)
    ensures |r| == |names| && forall i :: 0 <= i < |r| ==> r[i] == dir + [names[i]]
  {
    seq(|names|, i requires 0 <= i < |names| => dir + [names[i]])
  }

  /** The paths of `s` that are directories (`want`) or files (`!want`), in order. */
  function Split(fs: FileSystem, s: seq<Path>, want: bool): (r: seq<Path>)
    ensures forall p :: p in r <==> p in s && ((p in fs.dirs) == want)
  {
    if s == [] then []
    else
      var rest := Split(fs, s[1..], want);
      if (s[0] in fs.dirs) == want then [s[0]] + rest else rest
  }

  function AsEntries(s: seq<Path>): (r: seq<Entry>)
    ensures |r| == |s| && forall i :: 0 <= i < |s| ==> r[i] == PathEntry(s[i])
  {
    seq(|s|, i requires 0 <= i < |s| => PathEntry(s[i]))
  }

  /** The sub-directories of `dir`, ascending: exactly its children that are directories. */
  function SubDirs(fs: FileSystem, dir: Path): (r: seq<Path>)
    requires dir in fs.listing
    ensures Sorted(r)
    ensures forall p :: p in r <==> p in Children(dir, fs.listing[dir]) && p in fs.dirs
  {
    var r := Sort(Split(fs, Children(dir, fs.listing[dir]), true));
    SameMembers(r, Split(fs, Children(dir, fs.listing[dir]), true));
    r
  }

  /** The files of `dir`, ascending: exactly its children that are not directories. */
  function Files(fs: FileSystem, dir: Path): (r: seq<Path>)
    requires dir in fs.listing
    ensures Sorted(r)
    ensures forall p :: p in r <==> p in Children(dir, fs.listing[dir]) && p !in fs.dirs
  {
    var r := Sort(Split(fs, Children(dir, fs.listing[dir]), false));
    SameMembers(r, Split(fs, Children(dir, fs.listing[dir]), false));
    r
  }

  lemma SameMembers(a: seq<Path>, b: seq<Path>)
    requires multiset(a) == multiset(b)
    ensures forall p :: p in a <==> p in b
  {
    forall p ensures p in a <==> p in b {
      assert p in a <==> p in multiset(a);
      assert p in b <==> p in multiset(b);
    }
  }

  /**
   * `read_directory`'s list for a readable `dir`: "..", when there is a
   * parent, then the sorted sub-directories, then the sorted files.
   */
  function Listing(fs: FileSystem, dir: Path): (r: seq<Entry>)
    requires dir in fs.listing
    ensures (|r| > 0 && r[0] == UpEntry) <==> dir != []
    ensures |r| == (if dir != [] then 1 else 0) + |SubDirs(fs, dir)| + |Files(fs, dir)|
  {
    (if Parent(dir).Some? then [UpEntry] else []) + AsEntries(SubDirs(fs, dir)) + AsEntries(Files(fs, dir))
  }

  /** After the ".." item, every item of the listing is a child of the directory. */
  lemma ListingChildren(fs: FileSystem, dir: Path)
    requires dir in fs.listing
    ensures var r := Listing(fs, dir); var up := if dir != [] then 1 else 0;
      forall i :: up <= i < |r| ==> r[i].PathEntry? && r[i].path in Children(dir, fs.listing[dir])
  {
    var dirs, files := SubDirs(fs, dir), Files(fs, dir);
    var pre := if Parent(dir).Some? then [UpEntry] else [];
    var r := Listing(fs, dir);
    var up := |pre|;
    GroupsAt(pre, dirs, files);
    forall i | up <= i < |r| ensures r[i].PathEntry? && r[i].path in Children(dir, fs.listing[dir]) {
      if i < up + |dirs| { assert dirs[i - up] in dirs; } else { assert files[i - up - |dirs|] in files; }
    }
  }

  /** A listing item that names a sub-directory. */
  predicate IsDirItem(fs: FileSystem, e: Entry)
  {
    e.PathEntry? && e.path in fs.dirs
  }

  /** A listing item that names a file. */
  predicate IsFileItem(fs: FileSystem, e: Entry)
  {
    e.PathEntry? && e.path !in fs.dirs
  }

  /** Two path items in ascending order. */
  predicate ItemLe(a: Entry, b: Entry)
  {
    a.PathEntry? && b.PathEntry? && PathLe(a.path, b.path)
  }

  /** In the listing, every directory comes before every file. */
  lemma ListingDirsFirst(fs: FileSystem, dir: Path)
    requires dir in fs.listing
    ensures var r := Listing(fs, dir); var up := if dir != [] then 1 else 0;
      forall i, j :: up <= i < j < |r| && IsDirItem(fs, r[j]) ==> IsDirItem(fs, r[i])
  {
    var pre := if Parent(dir).Some? then [UpEntry] else [];
    DirsFirst(fs, pre, SubDirs(fs, dir), Files(fs, dir));
  }

  lemma DirsFirst(fs: FileSystem, pre: seq<Entry>, dirs: seq<Path>, files: seq<Path>)
    requires forall p :: p in dirs ==> p in fs.dirs
    requires forall p :: p in files ==> p !in fs.dirs
    ensures var r := pre + AsEntries(dirs) + AsEntries(files); var up := |pre|;
      forall i, j :: up <= i < j < |r| && IsDirItem(fs, r[j]) ==> IsDirItem(fs, r[i])
  {
    var r := pre + AsEntries(dirs) + AsEntries(files);
    var up := |pre|;
    GroupsAt(pre, dirs, files);
    forall i, j | up <= i < j < |r| && IsDirItem(fs, r[j]) ensures IsDirItem(fs, r[i]) {
      if i < up + |dirs| {
        assert r[i].path == dirs[i - up];
      }
    }
  }

  /** Among the directories, and among the files, the listing is in ascending order. */
  lemma ListingGroupsSorted(fs: FileSystem, dir: Path)
    requires dir in fs.listing
    ensures var r := Listing(fs, dir); var up := if dir != [] then 1 else 0;
      forall i, j :: up <= i < j < |r| && (IsDirItem(fs, r[i]) == IsDirItem(fs, r[j])) ==> ItemLe(r[i], r[j])
  {
    var pre := if Parent(dir).Some? then [UpEntry] else [];
    GroupsSorted(fs, pre, SubDirs(fs, dir), Files(fs, dir));
  }

  lemma GroupsSorted(fs: FileSystem, pre: seq<Entry>, dirs: seq<Path>, files: seq<Path>)
    requires Sorted(dirs) && Sorted(files)
    requires forall p :: p in dirs ==> p in fs.dirs
    requires forall p :: p in files ==> p !in fs.dirs
    ensures var r := pre + AsEntries(dirs) + AsEntries(files); var up := |pre|;
      forall i, j :: up <= i < j < |r| && (IsDirItem(fs, r[i]) == IsDirItem(fs, r[j])) ==> ItemLe(r[i], r[j])
  {
    var r := pre + AsEntries(dirs) + AsEntries(files);
    var up := |pre|;
    GroupsAt(pre, dirs, files);
    SortedPairs(dirs);
    SortedPairs(files);
    forall i, j | up <= i < j < |r| && (IsDirItem(fs, r[i]) == IsDirItem(fs, r[j])) ensures ItemLe(r[i], r[j]) {
      if j < up + |dirs| {
        assert r[i].path == dirs[i - up] && r[j].path == dirs[j - up];
      } else if i >= up + |dirs| {
        assert r[i].path == files[i - up - |dirs|] && r[j].path == files[j - up - |dirs|];
      }
    }
  }

  /** Where each group's items sit in the concatenated list. */
  lemma GroupsAt(pre: seq<Entry>, a: seq<Path>, b: seq<Path>)
    ensures var r := pre + AsEntries(a) + AsEntries(b);
      |r| == |pre| + |a| + |b| &&
      (forall i :: |pre| <= i < |pre| + |a| ==> r[i] == PathEntry(a[i - |pre|])) &&
      (forall i :: |pre| + |a| <= i < |r| ==> r[i] == PathEntry(b[i - |pre| - |a|]))
  {
  }

  /** In a sorted list every earlier path is no greater than every later one. */
  lemma SortedPairs(s: seq<Path>)
    requires Sorted(s)
    ensures forall i, j :: 0 <= i < j < |s| ==> PathLe(s[i], s[j])
  {
    forall i, j | 0 <= i < j < |s| ensures PathLe(s[i], s[j]) {
      SortedFrom(s, i, j);
    }
  }

  lemma {:induction false} SortedFrom(s: seq<Path>, i: nat, j: nat)
    requires Sorted(s) && i < j < |s|
    ensures PathLe(s[i], s[j])
    decreases j - i
  {
    if i + 1 < j {
      SortedFrom(s, i, j - 1);
      PathTransitive(s[i], s[j - 1], s[j]);
    }
  }

  lemma {:induction false} NameTransitive(a: string, b: string, c: string)
    requires NameLe(a, b) && NameLe(b, c)
    ensures NameLe(a, c)
  {
    if a != [] && b != [] && c != [] && a[0] == b[0] && b[0] == c[0] {
      NameTransitive(a[1..], b[1..], c[1..]);
    }
  }

  lemma {:induction false} PathTransitive(a: Path, b: Path, c: Path)
    requires PathLe(a, b) && PathLe(b, c)
    ensures PathLe(a, c)
  {
    if a != [] && b != [] && c != [] {
      if a[0] == b[0] && b[0] == c[0] {
        PathTransitive(a[1..], b[1..], c[1..]);
      } else if a[0] != b[0] && b[0] != c[0] {
        NameTransitive(a[0], b[0], c[0]);
        if a[0] == c[0] {
          NameAntisymmetric(a[0], b[0]);
        }
      }
    }
  }
}

=== FILE: pixels.dfy ===
// Pixels, grids and layers, and the "source-over" rule that composites the
// layer stack into the display canvas.

module Pixels {
  import opened Colors

  /** Alpha, opacity and blend factors live in the unit interval. */
  predicate Unit(a: real)
  {
    0.0 <= a <= 1.0
  }

  /** A stored pixel: an RGB triple and an alpha. */
  datatype Pixel = Pixel(color: Triple, alpha: real)

  /** `Pixel::default()`: the triple of `Color::Reset`, i.e. black, fully transparent. */
  function Transparent(): (p: Pixel)
    ensures p.color == ToRgb(Reset) && p.alpha == 0.0
  {
    Pixel(Triple(0, 0, 0), 0.0)
  }

  /** A grid of pixels, indexed `[y][x]`. */
  type Grid = seq<seq<Pixel>>

  /** The grid has `h` rows of `w` pixels each. */
  predicate Shaped(g: Grid, w: nat, h: nat)
  {
    |g| == h && forall y :: 0 <= y < h ==> |g[y]| == w
  }

  /** Every alpha in the grid lies in [0,1]. */
  predicate GridOk(g: Grid)
  {
    forall y, x :: 0 <= y < |g| && 0 <= x < |g[y]| ==> Unit(g[y][x].alpha)
  }

  /** `vec![vec![Pixel::default(); w]; h]`. */
  function BlankGrid(w: nat, h: nat): (g: Grid)
    ensures Shaped(g, w, h) && GridOk(g)
    ensures forall y, x :: 0 <= y < h && 0 <= x < w ==> g[y][x] == Transparent()
  {
    seq(h, y => seq(w, x => Transparent()))
  }

  /** Two canvas-sized grids with the same cells are equal. */
  lemma SameCells(a: Grid, b: Grid, w: nat, h: nat)
    requires Shaped(a, w, h) && Shaped(b, w, h)
    requires forall y, x :: 0 <= y < h && 0 <= x < w ==> a[y][x] == b[y][x]
    ensures a == b
  {
    forall y | 0 <= y < h ensures a[y] == b[y] {
      assert forall x :: 0 <= x < w ==> a[y][x] == b[y][x];
    }
  }

  /** A drawing layer. */
  datatype Layer = Layer(name: string, canvas: Grid, visible: bool, opacity: real)

  /** The layer has a `w`×`h` grid of valid alphas and an opacity in [0,1]. */
  predicate LayerOk(layer: Layer, w: nat, h: nat)
  {
    Shaped(layer.canvas, w, h) && GridOk(layer.canvas) && Unit(layer.opacity)
  }

  /** Every layer of the stack is well formed. */
  predicate LayersOk(layers: seq<Layer>, w: nat, h: nat)
  {
    forall i :: 0 <= i < |layers| ==> LayerOk(layers[i], w, h)
  }

  /** The product of two unit values is a unit value. */
  lemma UnitProduct(a: real, b: real)
    requires Unit(a) && Unit(b)
    ensures Unit(a * b) && a * b <= a && a * b <= b
  {
    assert a - a * b == a * (1.0 - b);
    assert b - a * b == b * (1.0 - a);
  }

  /** `s + d·(1−s)` stays in [0,1] and is at least each of `s` and `d`. */
  lemma OverAlpha(d: real, s: real)
    requires Unit(d) && Unit(s)
    ensures Unit(s + d * (1.0 - s))
    ensures d <= s + d * (1.0 - s) && s <= s + d * (1.0 - s)
  {
    var f := s + d * (1.0 - s);
    UnitProduct(d, 1.0 - s);
    UnitProduct(s, 1.0 - d);
    UnitProduct(1.0 - s, 1.0 - d);
    assert f - d == s * (1.0 - d);
    assert f - s == d * (1.0 - s);
    assert 1.0 - f == (1.0 - s) * (1.0 - d);
  }

  /** The composited alpha `s + d·(1−s)` of a source alpha `s` over a destination alpha `d`. */
  function OverAlphaOf(d: real, s: real): (f: real)
    requires Unit(d) && Unit(s)
    ensures f == s + d * (1.0 - s)
    ensures Unit(f) && d <= f && s <= f
  {
    OverAlpha(d, s);
    s + d * (1.0 - s)
  }

  /** The triple of `blend_colors(d, s, f)`, converted back into a stored colour. */
  function Mix(d: Triple, s: Triple, factor: real): Triple
  {
    ToRgb(BlendColors(FromTriple(d), FromTriple(s), factor))
  }

  /**
   * Source-over of colour `color` at alpha `s` onto `dest`: a transparent
   * destination is replaced outright; otherwise the alpha becomes
   * `s + d·(1−s)` and the colour is blended with factor `s / final`.
   */
  function SourceOver(dest: Pixel, color: Triple, s: real): (p: Pixel)
    requires Unit(dest.alpha) && Unit(s)
    ensures Unit(p.alpha)
  {
    var final := OverAlphaOf(dest.alpha, s);
    if dest.alpha == 0.0 then
      Pixel(color, s)
    else
      Pixel(Mix(dest.color, color, s / final), final)
  }

  /** Source-over never lowers alpha: the result is at least the destination's and the source's, and a transparent destination is replaced outright. */
  lemma SourceOverAlpha(dest: Pixel, color: Triple, s: real)
    requires Unit(dest.alpha) && Unit(s)
    ensures SourceOver(dest, color, s).alpha == OverAlphaOf(dest.alpha, s)
    ensures dest.alpha <= SourceOver(dest, color, s).alpha && s <= SourceOver(dest, color, s).alpha
    ensures dest.alpha == 0.0 ==> SourceOver(dest, color, s) == Pixel(color, s)
  {
  }

  /** One layer's contribution at cell (x, y): hidden layers and alpha-0 pixels are skipped. */
  function LayerOver(dest: Pixel, layer: Layer, y: nat, x: nat): (p: Pixel)
    requires Unit(dest.alpha) && Unit(layer.opacity)
    requires y < |layer.canvas| && x < |layer.canvas[y]| && Unit(layer.canvas[y][x].alpha)
    ensures Unit(p.alpha) && dest.alpha <= p.alpha
    ensures !layer.visible || layer.canvas[y][x].alpha == 0.0 ==> p == dest
  {
    var lp := layer.canvas[y][x];
    if !layer.visible || lp.alpha == 0.0 then dest
    else
      ScaledUnit(lp.alpha, layer.opacity);
      SourceOverAlpha(dest, lp.color, lp.alpha * layer.opacity);
      SourceOver(dest, lp.color, lp.alpha * layer.opacity)
  }

  /** An alpha scaled by an opacity stays in [0,1]. */
  lemma ScaledUnit(a: real, o: real)
    requires Unit(a) && Unit(o)
    ensures Unit(a * o)
  {
    UnitProduct(a, o);
  }

  /**
   * The composite of `layers[k..]` at (x, y). The source walks the layers from
   * the last index to the first, so the lowest index is applied last and lands
   * on top.
   */
  function StackFrom(layers: seq<Layer>, k: nat, w: nat, h: nat, y: nat, x: nat): (p: Pixel)
    requires LayersOk(layers, w, h) && k <= |layers| && y < h && x < w
    ensures Unit(p.alpha)
    decreases |layers| - k
  {
    if k == |layers| then Transparent()
    else LayerOver(StackFrom(layers, k + 1, w, h, y, x), layers[k], y, x)
  }

  /** Compositing one more layer on top never lowers the alpha of a cell. */
  lemma StackAlphaGrows(layers: seq<Layer>, k: nat, w: nat, h: nat, y: nat, x: nat)
    requires LayersOk(layers, w, h) && k < |layers| && y < h && x < w
    ensures StackFrom(layers, k + 1, w, h, y, x).alpha <= StackFrom(layers, k, w, h, y, x).alpha
  {
  }

  /** The composited pixel at (x, y) of the whole stack. */
  function Stack(layers: seq<Layer>, w: nat, h: nat, y: nat, x: nat): Pixel
    requires LayersOk(layers, w, h) && y < h && x < w
  {
    StackFrom(layers, 0, w, h, y, x)
  }

  /** The display canvas: the composite of the whole stack at every cell. */
  function Composite(layers: seq<Layer>, w: nat, h: nat): (g: Grid)
    requires LayersOk(layers, w, h)
    ensures Shaped(g, w, h) && GridOk(g)
    ensures forall y, x :: 0 <= y < h && 0 <= x < w ==> g[y][x] == Stack(layers, w, h, y, x)
  {
    seq(h, y requires 0 <= y < h => seq(w, x requires 0 <= x < w => Stack(layers, w, h, y, x)))
  }

  /** The stack with layer `i` taken out. */
  function Without(layers: seq<Layer>, i: nat): (r: seq<Layer>)
    requires i < |layers|
    ensures |r| == |layers| - 1
    ensures forall j :: 0 <= j < i ==> r[j] == layers[j]
    ensures forall j :: i <= j < |r| ==> r[j] == layers[j + 1]
  {
    layers[..i] + layers[i + 1..]
  }

  lemma WithoutOk(layers: seq<Layer>, w: nat, h: nat, i: nat)
    requires LayersOk(layers, w, h) && i < |layers|
    ensures LayersOk(Without(layers, i), w, h)
  {
    var r := Without(layers, i);
    forall j | 0 <= j < |r| ensures LayerOk(r[j], w, h) {
      if j < i { assert r[j] == layers[j]; } else { assert r[j] == layers[j + 1]; }
    }
  }

  /** Above the removed layer, the two stacks agree once they agree just past it. */
  lemma {:induction false} WithoutAbove(layers: seq<Layer>, w: nat, h: nat, i: nat, k: nat, y: nat, x: nat)
    requires LayersOk(layers, w, h) && i < |layers| && k <= i && y < h && x < w
    requires LayersOk(Without(layers, i), w, h)
    requires StackFrom(layers, i, w, h, y, x) == StackFrom(Without(layers, i), i, w, h, y, x)
    ensures StackFrom(layers, k, w, h, y, x) == StackFrom(Without(layers, i), k, w, h, y, x)
    decreases i - k
  {
    if k < i {
      WithoutAbove(layers, w, h, i, k + 1, y, x);
    }
  }

  /** Below the removed layer, the shortened stack is the original one shifted by one. */
  lemma {:induction false} WithoutBelow(layers: seq<Layer>, w: nat, h: nat, i: nat, k: nat, y: nat, x: nat)
    requires LayersOk(layers, w, h) && i < |layers| && i <= k < |layers| && y < h && x < w
    requires LayersOk(Without(layers, i), w, h)
    ensures StackFrom(layers, k + 1, w, h, y, x) == StackFrom(Without(layers, i), k, w, h, y, x)
    decreases |layers| - k
  {
    if k + 1 < |layers| {
      WithoutBelow(layers, w, h, i, k + 1, y, x);
    }
  }

  /**
   * A layer that contributes nothing at a cell (hidden, or alpha 0 there) can
   * be removed without changing that cell of the composite.
   */
  lemma SilentLayerIgnored(layers: seq<Layer>, w: nat, h: nat, i: nat, y: nat, x: nat)
    requires LayersOk(layers, w, h) && i < |layers| && y < h && x < w
    requires !layers[i].visible || layers[i].canvas[y][x].alpha == 0.0
    ensures LayersOk(Without(layers, i), w, h)
    ensures Stack(layers, w, h, y, x) == Stack(Without(layers, i), w, h, y, x)
  {
    WithoutOk(layers, w, h, i);
    WithoutBelow(layers, w, h, i, i, y, x);
    WithoutAbove(layers, w, h, i, 0, y, x);
  }

  /** With every layer hidden or transparent at a cell, the composite there is the default pixel. */
  lemma {:induction false} NothingVisibleIsTransparent(layers: seq<Layer>, w: nat, h: nat, k: nat, y: nat, x: nat)
    requires LayersOk(layers, w, h) && k <= |layers| && y < h && x < w
    requires forall i :: k <= i < |layers| ==> !layers[i].visible || layers[i].canvas[y][x].alpha == 0.0
    ensures StackFrom(layers, k, w, h, y, x) == Transparent()
    decreases |layers| - k
  {
    if k < |layers| {
      NothingVisibleIsTransparent(layers, w, h, k + 1, y, x);
    }
  }

  /** A visible, fully opaque pixel of the top layer (index 0) at opacity 1 is what the canvas shows. */
  lemma TopOpaqueWins(layers: seq<Layer>, w: nat, h: nat, y: nat, x: nat)
    requires LayersOk(layers, w, h) && y < h && x < w && |layers| > 0
    requires layers[0].visible && layers[0].opacity == 1.0 && layers[0].canvas[y][x].alpha == 1.0
    ensures Stack(layers, w, h, y, x) == layers[0].canvas[y][x]
  {
    var below := StackFrom(layers, 1, w, h, y, x);
    var top := layers[0].canvas[y][x];
    OpaqueSourceReplaces(below, top.color);
  }

  /** Compositing a fully opaque source replaces the destination, whatever it was. */
  lemma OpaqueSourceReplaces(dest: Pixel, color: Triple)
    requires Unit(dest.alpha)
    ensures SourceOver(dest, color, 1.0) == Pixel(color, 1.0)
  {
    if dest.alpha != 0.0 {
      BlendEndpoints(FromTriple(dest.color), FromTriple(color));
      ToRgbCases(color, 0);
    }
  }

  /** A zero source alpha over a non-transparent destination leaves it as it was. */
  lemma ZeroSourceKeeps(dest: Pixel, color: Triple)
    requires Unit(dest.alpha) && dest.alpha > 0.0
    ensures SourceOver(dest, color, 0.0) == dest
  {
    BlendEndpoints(FromTriple(dest.color), FromTriple(color));
    ToRgbCases(dest.color, 0);
  }
}

=== FILE: script.dfy ===
// The drawing-script interpreter: coordinate and range tokens, the rectangle
// a range covers, one script line at a time, and the symmetry each line of
// the script runs under.

module Script {
  import opened Colors
  import opened Palette
  import opened Pixels
  import opened Effects
  import opened Brush
  import opened Text
  import opened ColorFormats
  import History
  import Fill
  import opened Editor

  /** A Rust `i32`. */
  type I32 = x: int | -0x8000_0000 <= x < 0x8000_0000

  /** One entry of the script file: a line on its own, or lines run under a symmetry. */
  datatype ScriptCommand =
    | Simple(line: string)
    | SymmetryBlock(mode: string, coordinate: I32, lines: seq<string>)

  /** What reading and decoding `command_draw.json` gave. */
  datatype ScriptFile =
    | PathUnavailable
    | NotFound
    | InvalidJson(error: string)
    | Parsed(commands: seq<ScriptCommand>)

  // ---------------------------------------------------------------------------
  // Text helpers

  /** `split_once` cuts at the first separator, so text without one before the separator comes back whole. */
  lemma {:induction false} SplitOnceAt(a: string, b: string, sep: char)
    requires sep !in a
    ensures SplitOnce(a + [sep] + b, sep) == Some((a, b))
  {
    var s := a + [sep] + b;
    if a == [] {
      assert s[1..] == b;
    } else {
      assert s[1..] == a[1..] + [sep] + b;
      SplitOnceAt(a[1..], b, sep);
      assert [a[0]] + a[1..] == a;
    }
  }

  /** A word followed by a space and more text: its first run of non-space characters is the word. */
  lemma {:induction false} WordBeforeSpace(a: string, b: string)
    requires forall i :: 0 <= i < |a| ==> !IsSpace(a[i])
    ensures Word(a + " " + b) == a
  {
    if a != [] {
      assert (a + " " + b)[1..] == a[1..] + " " + b;
      WordBeforeSpace(a[1..], b);
    }
  }

  /** Two words separated by one space split into exactly those two words. */
  lemma TwoWords(a: string, b: string)
    requires a != [] && forall i :: 0 <= i < |a| ==> !IsSpace(a[i])
    requires b != [] && forall i :: 0 <= i < |b| ==> !IsSpace(b[i])
    ensures SplitWhitespace(a + " " + b) == [a, b]
  {
    var s := a + " " + b;
    WordBeforeSpace(a, b);
    assert s[|a|..] == " " + b;
    assert (" " + b)[1..] == b;
    SingleWord(b);
  }

  /** A decimal number has no separator characters in it. */
  lemma DigitsOnly(n: nat, c: char)
    requires !IsDigit(c)
    ensures c !in NatToString(n)
  {
  }

  /** A number that does not fit in 16 bits, written in decimal, does not parse as a `u16`. */
  lemma ParseU16TooWide(n: nat)
    requires n >= 0x1_0000
    ensures ParseU16(NatToString(n)) == None
  {
    NatToStringRoundTrip(n);
  }

  // ---------------------------------------------------------------------------
  // Coordinates

  /** The `parse_coord` closure: "X,Y" where both halves parse as `u16`. */
  function ParseCoord(s: string): (r: Option<(U16, U16)>)
    ensures r.Some? ==> ',' in s
  {
    match SplitOnce(s, ',')
    case None => None
    case Some(halves) =>
      match (ParseU16(halves.0), ParseU16(halves.1))
      case (Some(x), Some(y)) => Some((x, y))
      case _ => None
  }

  /** The decimal form "X,Y" of a cell parses back to the cell. */
  lemma CoordRoundTrip(x: U16, y: U16)
    ensures ParseCoord(NatToString(x) + "," + NatToString(y)) == Some((x, y))
  {
    DigitsOnly(x, ',');
    SplitOnceAt(NatToString(x), NatToString(y), ',');
    ParseU16Format(x);
    ParseU16Format(y);
  }

  /** A coordinate with a half past 65535 is rejected, as is a token without a comma. */
  lemma CoordRejects(x: nat, y: nat, s: string)
    requires x >= 0x1_0000 || y >= 0x1_0000
    ensures ParseCoord(NatToString(x) + "," + NatToString(y)) == None
    ensures ',' !in s ==> ParseCoord(s) == None
  {
    DigitsOnly(x, ',');
    SplitOnceAt(NatToString(x), NatToString(y), ',');
    if x >= 0x1_0000 {
      ParseU16TooWide(x);
    } else {
      ParseU16TooWide(y);
    }
  }

  /** What one coordinate token names: a cell, an inclusive rectangle given by two corners, or nothing readable. */
  datatype Target = Point(x: U16, y: U16) | Area(x1: U16, y1: U16, x2: U16, y2: U16) | Unreadable

  /** A token with a `-` is a range whose two ends must both be coordinates; any other token is one coordinate. */
  function ParseTarget(token: string): (t: Target)
    ensures t.Area? ==> '-' in token
    ensures t.Point? ==> '-' !in token
  {
    match SplitOnce(token, '-')
    case Some(ends) =>
      (match (ParseCoord(ends.0), ParseCoord(ends.1))
       case (Some(p), Some(q)) => Area(p.0, p.1, q.0, q.1)
       case _ => Unreadable)
    case None =>
      match ParseCoord(token)
      case Some(p) => Point(p.0, p.1)
      case None => Unreadable
  }

  /** The decimal form of a cell, "X,Y". */
  function CoordText(x: U16, y: U16): string
  {
    NatToString(x) + "," + NatToString(y)
  }

  /** Written-out cells and ranges read back as the cells and ranges they came from. */
  lemma TargetRoundTrip(x1: U16, y1: U16, x2: U16, y2: U16)
    ensures ParseTarget(CoordText(x1, y1)) == Point(x1, y1)
    ensures ParseTarget(CoordText(x1, y1) + "-" + CoordText(x2, y2)) == Area(x1, y1, x2, y2)
  {
    var a, b := CoordText(x1, y1), CoordText(x2, y2);
    DigitsOnly(x1, '-');
    DigitsOnly(y1, '-');
    assert '-' !in a;
    assert SplitOnce(a, '-').None?;
    CoordRoundTrip(x1, y1);
    SplitOnceAt(a, b, '-');
    CoordRoundTrip(x2, y2);
  }

  // ---------------------------------------------------------------------------
  // Rectangles

  /** Row `y` from column `lo` to column `hi`, left to right. */
  function RowCells(y: U16, lo: U16, hi: U16): (r: seq<(U16, U16)>)
    requires lo <= hi
    ensures |r| == hi - lo + 1
    ensures forall k :: 0 <= k < |r| ==> r[k] == (lo + k, y)
  {
    seq(hi - lo + 1, k requires 0 <= k < hi - lo + 1 => (lo + k, y))
  }

  /** The first `n` rows from row `top`, each from column `lo` to column `hi`. */
  function RowsFrom(top: U16, n: nat, lo: U16, hi: U16): seq<(U16, U16)>
    requires lo <= hi && top + n <= 0x1_0000
  {
    if n == 0 then [] else RowsFrom(top, n - 1, lo, hi) + RowCells(top + n - 1, lo, hi)
  }

  /** One more row of a band appends that row's cells. */
  lemma RowsFromStep(top: U16, k: nat, lo: U16, hi: U16)
    requires lo <= hi && top + k < 0x1_0000
    ensures RowsFrom(top, k + 1, lo, hi) == RowsFrom(top, k, lo, hi) + RowCells(top + k, lo, hi)
  {
  }

  /** The cells of the inclusive rectangle with corners (x1, y1) and (x2, y2), row by row from the top. */
  function RectCells(x1: U16, y1: U16, x2: U16, y2: U16): seq<(U16, U16)>
  {
    RowsFrom(Min(y1, y2), Max(y1, y2) - Min(y1, y2) + 1, Min(x1, x2), Max(x1, x2))
  }

  /** `n` rows of `hi - lo + 1` cells hold exactly the cells of that band. */
  lemma {:induction false} RowsFromCells(top: U16, n: nat, lo: U16, hi: U16)
    requires lo <= hi && top + n <= 0x1_0000
    ensures |RowsFrom(top, n, lo, hi)| == n * (hi - lo + 1)
    ensures forall p :: p in RowsFrom(top, n, lo, hi) <==> top <= p.1 < top + n && lo <= p.0 <= hi
  {
    if n > 0 {
      RowsFromCells(top, n - 1, lo, hi);
      var row := RowCells(top + n - 1, lo, hi);
      forall p: (U16, U16) | p.1 == top + n - 1 && lo <= p.0 <= hi
        ensures p in row
      {
        assert row[p.0 - lo] == p;
      }
    }
  }

  /**
   * A range visits every cell of its inclusive rectangle and nothing else,
   * whichever corners it is given in, and it visits
   * (|x2 - x1| + 1) * (|y2 - y1| + 1) cells.
   */
  lemma RectCellsCover(x1: U16, y1: U16, x2: U16, y2: U16)
    ensures |RectCells(x1, y1, x2, y2)| == (Max(x1, x2) - Min(x1, x2) + 1) * (Max(y1, y2) - Min(y1, y2) + 1)
    ensures forall p :: p in RectCells(x1, y1, x2, y2) <==>
      Min(x1, x2) <= p.0 <= Max(x1, x2) && Min(y1, y2) <= p.1 <= Max(y1, y2)
  {
    RowsFromCells(Min(y1, y2), Max(y1, y2) - Min(y1, y2) + 1, Min(x1, x2), Max(x1, x2));
  }

  /** The cells one token names, in the order they are drawn. */
  function TargetCells(t: Target): seq<(U16, U16)>
  {
    match t
    case Point(x, y) => [(x, y)]
    case Area(x1, y1, x2, y2) => RectCells(x1, y1, x2, y2)
    case Unreadable => []
  }

  /** The cells a list of coordinate tokens names, token by token. */
  function TokenCells(tokens: seq<string>): seq<(U16, U16)>
  {
    if tokens == [] then []
    else TokenCells(tokens[..|tokens| - 1]) + TargetCells(ParseTarget(tokens[|tokens| - 1]))
  }

  // ---------------------------------------------------------------------------
  // Drawing over a list of cells

  /** What the coordinates of a line are handed to: the brush with some settings, or the eraser. */
  datatype Tool = Painter(e: EffectSettings) | Eraser

  predicate ToolOk(t: Tool)
  {
    t.Painter? ==> Unit(t.e.opacity)
  }

  /** `apply_brush` or `erase_brush` at one cell. */
  function Touch(t: Tool, b: BrushSettings, s: Stroke, x: U16, y: U16): (r: Stroke)
    requires StrokeOk(s, b.width, b.height) && ToolOk(t)
    ensures StrokeOk(r, b.width, b.height)
  {
    match t
    case Painter(e) => BrushStroke(e, b, s, x, y)
    case Eraser => EraseStroke(b, s, x, y)
  }

  /** The tool applied at every cell of `cells`, in order. */
  function TouchAll(t: Tool, b: BrushSettings, s: Stroke, cells: seq<(U16, U16)>): (r: Stroke)
    requires StrokeOk(s, b.width, b.height) && ToolOk(t)
    ensures StrokeOk(r, b.width, b.height)
  {
    if cells == [] then s
    else
      var last := cells[|cells| - 1];
      Touch(t, b, TouchAll(t, b, s, cells[..|cells| - 1]), last.0, last.1)
  }

  /** Drawing two lists of cells one after the other is drawing their concatenation. */
  lemma {:induction false} TouchAllAppend(t: Tool, b: BrushSettings, s: Stroke, a: seq<(U16, U16)>, c: seq<(U16, U16)>)
    requires StrokeOk(s, b.width, b.height) && ToolOk(t)
    ensures TouchAll(t, b, s, a + c) == TouchAll(t, b, TouchAll(t, b, s, a), c)
  {
    if c == [] {
      assert a + c == a;
    } else {
      assert (a + c)[..|a + c| - 1] == a + c[..|c| - 1];
      assert (a + c)[|a + c| - 1] == c[|c| - 1];
      TouchAllAppend(t, b, s, a, c[..|c| - 1]);
    }
  }

  /** `apply_brush` or `erase_brush` at one cell, by their loops. */
  method TouchAt(t: Tool, b: BrushSettings, s: Stroke, x: U16, y: U16) returns (r: Stroke)
    requires StrokeOk(s, b.width, b.height) && ToolOk(t)
    ensures r == Touch(t, b, s, x, y)
  {
    match t {
      case Painter(e) =>
        r := BrushLoop(e, b, s, x, y);
      case Eraser =>
        r := EraseLoop(b, s, x, y);
    }
  }

  /** The inner loop of a range: `x` runs over one row, inclusive, one operation per cell. */
  method TouchRow(t: Tool, b: BrushSettings, s: Stroke, y: U16, lo: U16, hi: U16) returns (r: Stroke, n: nat)
    requires StrokeOk(s, b.width, b.height) && ToolOk(t) && lo <= hi
    ensures r == TouchAll(t, b, s, RowCells(y, lo, hi)) && n == |RowCells(y, lo, hi)|
  {
    r, n := s, 0;
    var x: int := lo;
    while x <= hi
      invariant lo <= x <= hi + 1 && n == x - lo
      invariant r == TouchAll(t, b, s, RowCells(y, lo, hi)[..x - lo])
    {
      assert RowCells(y, lo, hi)[..x + 1 - lo] == RowCells(y, lo, hi)[..x - lo] + [(x, y)];
      r := TouchAt(t, b, r, x, y);
      n := n + 1;
      x := x + 1;
    }
    assert RowCells(y, lo, hi)[..hi + 1 - lo] == RowCells(y, lo, hi);
  }

  /** A range token: `y` runs over the rows of the rectangle and `x` over its columns, both inclusive. */
  method TouchRect(t: Tool, b: BrushSettings, s: Stroke, x1: U16, y1: U16, x2: U16, y2: U16) returns (r: Stroke, n: nat)
    requires StrokeOk(s, b.width, b.height) && ToolOk(t)
    ensures r == TouchAll(t, b, s, RectCells(x1, y1, x2, y2)) && n == |RectCells(x1, y1, x2, y2)|
  {
    r, n := TouchBand(t, b, s, Min(y1, y2), Max(y1, y2), Min(x1, x2), Max(x1, x2));
  }

  /** The row loop of a range: rows `top` to `bottom`, each from column `lo` to column `hi`. */
  method TouchBand(t: Tool, b: BrushSettings, s: Stroke, top: U16, bottom: U16, lo: U16, hi: U16) returns (r: Stroke, n: nat)
    requires StrokeOk(s, b.width, b.height) && ToolOk(t) && top <= bottom && lo <= hi
    ensures r == TouchAll(t, b, s, RowsFrom(top, bottom - top + 1, lo, hi)) && n == |RowsFrom(top, bottom - top + 1, lo, hi)|
  {
    r, n := s, 0;
    var y: int := top;
    ghost var done: seq<(U16, U16)> := [];
    while y <= bottom
      invariant top <= y <= bottom + 1
      invariant done == RowsFrom(top, y - top, lo, hi)
      invariant r == TouchAll(t, b, s, done) && n == |done|
    {
      RowsFromStep(top, y - top, lo, hi);
      TouchAllAppend(t, b, s, done, RowCells(y, lo, hi));
      var k;
      r, k := TouchRow(t, b, r, y, lo, hi);
      n := n + k;
      done := done + RowCells(y, lo, hi);
      y := y + 1;
    }
  }


  lemma TokenCellsStep(tokens: seq<string>, i: nat)
    requires i < |tokens|
    ensures TokenCells(tokens[..i + 1]) == TokenCells(tokens[..i]) + TargetCells(ParseTarget(tokens[i]))
  {
    assert tokens[..i + 1][..i] == tokens[..i];
  }

  /** One coordinate token: a range, a single cell, or nothing when it does not read. */
  method TouchToken(t: Tool, b: BrushSettings, s: Stroke, token: string) returns (r: Stroke, n: nat)
    requires StrokeOk(s, b.width, b.height) && ToolOk(t)
    ensures r == TouchAll(t, b, s, TargetCells(ParseTarget(token))) && n == |TargetCells(ParseTarget(token))|
  {
    match SplitOnce(token, '-') {
      case Some(ends) =>
        match (ParseCoord(ends.0), ParseCoord(ends.1)) {
          case (Some(p), Some(q)) =>
            r, n := TouchRect(t, b, s, p.0, p.1, q.0, q.1);
          case _ =>
            r, n := s, 0;
        }
      case None =>
        match ParseCoord(token) {
          case Some(p) =>
            r := TouchAt(t, b, s, p.0, p.1);
            n := 1;
          case None =>
            r, n := s, 0;
        }
    }
  }

  /** The coordinate loop of a line, token by token. */
  method TouchTokens(t: Tool, b: BrushSettings, s: Stroke, tokens: seq<string>) returns (r: Stroke, n: nat)
    requires StrokeOk(s, b.width, b.height) && ToolOk(t)
    ensures r == TouchAll(t, b, s, TokenCells(tokens)) && n == |TokenCells(tokens)|
  {
    r, n := s, 0;
    var i := 0;
    while i < |tokens|
      invariant 0 <= i <= |tokens|
      invariant r == TouchAll(t, b, s, TokenCells(tokens[..i])) && n == |TokenCells(tokens[..i])|
    {
      TokenCellsStep(tokens, i);
      TouchAllAppend(t, b, s, TokenCells(tokens[..i]), TargetCells(ParseTarget(tokens[i])));
      var k;
      r, k := TouchToken(t, b, r, tokens[i]);
      n := n + k;
      i := i + 1;
    }
    assert tokens[..|tokens|] == tokens;
  }

  // ---------------------------------------------------------------------------
  // Script lines

  /** `parse_hex_color` on a script value; a value that is not plain ASCII is treated as invalid. */
  function HexColor(v: string): (r: Option<Color>)
    ensures r.Some? ==> r.value.Rgb?
  {
    if IsAscii(v) then ParseHexColor(v) else None
  }

  /** What one line of a script asks for. */
  datatype Command =
    | Paint(color: Color, cells: seq<(U16, U16)>)
    | FillAt(color: Color, x: U16, y: U16)
    | Erase(cells: seq<(U16, U16)>)
    | Nothing

  /**
   * The reading of a line by `execute_single_command_string`: at least two
   * whitespace-separated parts; `apply_color:HEX` with the cells of every
   * coordinate token, `fill:HEX` at its first coordinate, or `erase` with the
   * cells of every token.
   */
  function ParseCommand(line: string): Command
  {
    var parts := SplitWhitespace(line);
    if |parts| < 2 then Nothing
    else
      match SplitOnce(parts[0], ':')
      case Some(kv) =>
        if kv.0 == "apply_color" then
          (match HexColor(kv.1)
           case Some(c) => Paint(c, TokenCells(parts[1..]))
           case None => Nothing)
        else if kv.0 == "fill" then
          (match (ParseCoord(parts[1]), HexColor(kv.1))
           case (Some(p), Some(c)) => FillAt(c, p.0, p.1)
           case _ => Nothing)
        else Nothing
      case None =>
        if parts[0] == "erase" then Erase(TokenCells(parts[1..])) else Nothing
  }

  /** The state a script changes: the active grid and drawn set, the undo stacks, the symmetry in force, and the operation count. */
  datatype Run = Run(stroke: Stroke, stacks: History.Stacks, symmetry: Symmetry, ops: nat)

  predicate RunOk(r: Run, w: nat, h: nat)
  {
    StrokeOk(r.stroke, w, h) && History.Bounded(r.stacks)
  }

  /** A fill at full or partial alpha leaves every alpha of the grid in [0, 1]. */
  lemma FilledOk(g: Grid, w: nat, h: nat, x: nat, y: nat, fill: Pixel)
    requires Shaped(g, w, h) && GridOk(g) && x < w && y < h && Unit(fill.alpha)
    ensures GridOk(Fill.FilledGrid(g, w, h, (x, y), fill))
  {
  }

  /**
   * One command, under the editor's effect settings `e` and pen `b` with the
   * run's symmetry: `apply_color` paints its cells at full opacity with the
   * given colour as the selection, `erase` erases its cells, `fill` floods
   * from its cell at alpha 1.0 (saving the grid for undo when anything
   * changes); each drawn cell and each fill counts one operation.
   */
  ghost function Apply(e: EffectSettings, b: BrushSettings, r: Run, c: Command): (r': Run)
    requires RunOk(r, b.width, b.height)
    ensures RunOk(r', b.width, b.height) && r'.symmetry == r.symmetry && r'.ops >= r.ops
  {
    var pen := b.(symmetry := r.symmetry);
    match c
    case Paint(color, cells) =>
      r.(stroke := TouchAll(Painter(PaintSettings(e, color)), pen, r.stroke, cells), ops := r.ops + |cells|)
    case Erase(cells) =>
      r.(stroke := TouchAll(Eraser, pen, r.stroke, cells), ops := r.ops + |cells|)
    case FillAt(color, x, y) =>
      var fill := Pixel(ToRgb(color), 1.0);
      if FillStarts(r.stroke.grid, b.width, b.height, x, y, fill) then
        FilledOk(r.stroke.grid, b.width, b.height, x, y, fill);
        History.StepsBounded(r.stacks, r.stroke.grid);
        var g := Fill.FilledGrid(r.stroke.grid, b.width, b.height, (x, y), fill);
        Run(r.stroke.(grid := g), History.Save(r.stacks, r.stroke.grid), r.symmetry, r.ops + 1)
      else r.(ops := r.ops + 1)
    case Nothing => r
  }

  /** `apply_color` draws with the chosen colour as the selection, at opacity 1.0. */
  function PaintSettings(e: EffectSettings, color: Color): (p: EffectSettings)
    ensures p.opacity == 1.0 && p.selection == ColorEntry(color)
  {
    e.(selection := ColorEntry(color), opacity := 1.0)
  }

  /** The `apply_color` and `erase` arms: the coordinate loop with the painter or the eraser. */
  method DrawTokens(e: EffectSettings, b: BrushSettings, r: Run, c: Command, tokens: seq<string>) returns (r': Run)
    requires RunOk(r, b.width, b.height)
    requires c == Erase(TokenCells(tokens)) || (c.Paint? && c.cells == TokenCells(tokens))
    ensures r' == Apply(e, b, r, c)
  {
    var tool := if c.Paint? then Painter(PaintSettings(e, c.color)) else Eraser;
    var s, n := TouchTokens(tool, b.(symmetry := r.symmetry), r.stroke, tokens);
    r' := r.(stroke := s, ops := r.ops + n);
  }

  /** The `fill` arm: one flood fill from the given cell, one operation. */
  method FillCommand(b: BrushSettings, r: Run, color: Color, x: U16, y: U16) returns (r': Run)
    requires RunOk(r, b.width, b.height)
    ensures forall e :: r' == Apply(e, b, r, FillAt(color, x, y))
  {
    var fill := Pixel(ToRgb(color), 1.0);
    var started, g := FillOn(r.stroke.grid, b.width, b.height, x, y, fill);
    if started {
      r' := Run(r.stroke.(grid := g), History.Save(r.stacks, r.stroke.grid), r.symmetry, r.ops + 1);
    } else {
      r' := r.(ops := r.ops + 1);
    }
  }

  /** One line of a script: what it asks for, applied to the run. */
  ghost function ExecLine(e: EffectSettings, b: BrushSettings, r: Run, line: string): (r': Run)
    requires RunOk(r, b.width, b.height)
    ensures RunOk(r', b.width, b.height) && r'.symmetry == r.symmetry && r'.ops >= r.ops
  {
    Apply(e, b, r, ParseCommand(line))
  }

  /** `execute_single_command_string`, on the state of a run. */
  method ExecuteLine(e: EffectSettings, b: BrushSettings, r: Run, line: string) returns (r': Run)
    requires RunOk(r, b.width, b.height)
    ensures r' == ExecLine(e, b, r, line)
  {
    var parts := SplitWhitespace(line);
    if |parts| < 2 {
      return r;
    }
    var commandPart, coordinateParts := parts[0], parts[1..];
    r' := r;
    match SplitOnce(commandPart, ':') {
      case Some(kv) =>
        if kv.0 == "apply_color" {
          match HexColor(kv.1) {
            case Some(c) =>
              r' := DrawTokens(e, b, r, Paint(c, TokenCells(coordinateParts)), coordinateParts);
            case None =>
          }
        } else if kv.0 == "fill" && |coordinateParts| > 0 {
          match (ParseCoord(coordinateParts[0]), HexColor(kv.1)) {
            case (Some(p), Some(c)) =>
              r' := FillCommand(b, r, c, p.0, p.1);
            case _ =>
          }
        }
      case None =>
        if commandPart == "erase" {
          r' := DrawTokens(e, b, r, Erase(TokenCells(coordinateParts)), coordinateParts);
        }
    }
  }

  // ---------------------------------------------------------------------------
  // Symmetry blocks and whole scripts

  /**
   * The symmetry a block's mode names: the vertical and horizontal axes take
   * the coordinate as a `u16` (a negative one wraps), the diagonals keep it,
   * and any other mode turns symmetry off.
   */
  function BlockSymmetry(mode: string, c: I32): (m: Symmetry)
    ensures mode == "vertical" ==> m == Vertical(c % 0x1_0000)
    ensures mode == "horizontal" ==> m == Horizontal(c % 0x1_0000)
    ensures mode == "diagonal_forward" ==> m == DiagonalForward(c)
    ensures mode == "diagonal_backward" ==> m == DiagonalBackward(c)
    ensures mode !in {"vertical", "horizontal", "diagonal_forward", "diagonal_backward"} ==> m == Symmetry.Off
  {
    if mode == "vertical" then Vertical(c % 0x1_0000)
    else if mode == "horizontal" then Horizontal(c % 0x1_0000)
    else if mode == "diagonal_forward" then DiagonalForward(c)
    else if mode == "diagonal_backward" then DiagonalBackward(c)
    else Symmetry.Off
  }

  /** A script flattened to what happens in order: symmetry switches and lines. */
  datatype Step = SetSymmetry(symmetry: Symmetry) | Line(text: string)

  /** A plain line runs with symmetry off; a block sets its symmetry, then runs its lines. */
  function CommandSteps(c: ScriptCommand): (steps: seq<Step>)
    ensures |steps| >= 1 && steps[0].SetSymmetry?
  {
    match c
    case Simple(line) => [SetSymmetry(Symmetry.Off), Line(line)]
    case SymmetryBlock(mode, coordinate, lines) =>
      [SetSymmetry(BlockSymmetry(mode, coordinate))] + LineSteps(lines)
  }

  function LineSteps(lines: seq<string>): (steps: seq<Step>)
    ensures |steps| == |lines| && forall i :: 0 <= i < |lines| ==> steps[i] == Line(lines[i])
  {
    seq(|lines|, i requires 0 <= i < |lines| => Line(lines[i]))
  }

  function ScriptSteps(commands: seq<ScriptCommand>): seq<Step>
  {
    if commands == [] then []
    else ScriptSteps(commands[..|commands| - 1]) + CommandSteps(commands[|commands| - 1])
  }

  ghost function RunStep(e: EffectSettings, b: BrushSettings, r: Run, step: Step): (r': Run)
    requires RunOk(r, b.width, b.height)
    ensures RunOk(r', b.width, b.height) && r'.ops >= r.ops
  {
    match step
    case SetSymmetry(m) => r.(symmetry := m)
    case Line(text) => ExecLine(e, b, r, text)
  }

  ghost function RunSteps(e: EffectSettings, b: BrushSettings, r: Run, steps: seq<Step>): (r': Run)
    requires RunOk(r, b.width, b.height)
    ensures RunOk(r', b.width, b.height) && r'.ops >= r.ops
  {
    if steps == [] then r
    else RunStep(e, b, RunSteps(e, b, r, steps[..|steps| - 1]), steps[|steps| - 1])
  }

  /** Running two pieces one after the other is running them joined. */
  lemma {:induction false} RunStepsAppend(e: EffectSettings, b: BrushSettings, r: Run, a: seq<Step>, c: seq<Step>)
    requires RunOk(r, b.width, b.height)
    ensures RunSteps(e, b, r, a + c) == RunSteps(e, b, RunSteps(e, b, r, a), c)
    decreases |c|
  {
    if c == [] {
      assert a + c == a;
    } else {
      var c' := c[..|c| - 1];
      assert (a + c)[..|a + c| - 1] == a + c';
      RunStepsAppend(e, b, r, a, c');
    }
  }

  /** `parse_and_execute_script` on a run: every command in order, then the user's symmetry back. */
  ghost function RunScript(e: EffectSettings, b: BrushSettings, r: Run, commands: seq<ScriptCommand>): (r': Run)
    requires RunOk(r, b.width, b.height)
    ensures RunOk(r', b.width, b.height) && r'.symmetry == r.symmetry && r'.ops >= r.ops
  {
    RunSteps(e, b, r, ScriptSteps(commands)).(symmetry := r.symmetry)
  }

  /** The lines of a block, in order, under the symmetry already set. */
  method RunBlock(e: EffectSettings, b: BrushSettings, r: Run, lines: seq<string>) returns (r': Run)
    requires RunOk(r, b.width, b.height)
    ensures r' == RunSteps(e, b, r, LineSteps(lines))
  {
    r' := r;
    var i := 0;
    while i < |lines|
      invariant 0 <= i <= |lines|
      invariant r' == RunSteps(e, b, r, LineSteps(lines[..i]))
    {
      assert LineSteps(lines[..i + 1])[..i] == LineSteps(lines[..i]);
      r' := ExecuteLine(e, b, r', lines[i]);
      i := i + 1;
    }
    assert lines[..|lines|] == lines;
  }

  lemma RunSetSymmetry(e: EffectSettings, b: BrushSettings, r: Run, m: Symmetry, rest: seq<Step>)
    requires RunOk(r, b.width, b.height)
    ensures RunSteps(e, b, r, [SetSymmetry(m)] + rest) == RunSteps(e, b, r.(symmetry := m), rest)
  {
    RunStepsAppend(e, b, r, [SetSymmetry(m)], rest);
    assert [SetSymmetry(m)][..0] == [];
    RunStepsAppend(e, b, r.(symmetry := m), [], rest);
    assert [] + rest == rest;
  }

  lemma RunOneLine(e: EffectSettings, b: BrushSettings, r: Run, line: string)
    requires RunOk(r, b.width, b.height)
    ensures RunSteps(e, b, r, [Line(line)]) == ExecLine(e, b, r, line)
  {
    assert [Line(line)][..0] == [];
  }

  /** One command of a script: set its symmetry, then run its lines. */
  method RunCommand(e: EffectSettings, b: BrushSettings, r: Run, c: ScriptCommand) returns (r': Run)
    requires RunOk(r, b.width, b.height)
    ensures r' == RunSteps(e, b, r, CommandSteps(c))
  {
    match c {
      case Simple(line) =>
        RunSetSymmetry(e, b, r, Symmetry.Off, [Line(line)]);
        RunOneLine(e, b, r.(symmetry := Symmetry.Off), line);
        r' := ExecuteLine(e, b, r.(symmetry := Symmetry.Off), line);
      case SymmetryBlock(mode, coordinate, lines) =>
        RunSetSymmetry(e, b, r, BlockSymmetry(mode, coordinate), LineSteps(lines));
        r' := RunBlock(e, b, r.(symmetry := BlockSymmetry(mode, coordinate)), lines);
    }
  }

  /** The loop over the commands of a script, on a run; the user's symmetry is put back at the end. */
  method RunCommands(e: EffectSettings, b: BrushSettings, start: Run, commands: seq<ScriptCommand>) returns (r: Run)
    requires RunOk(start, b.width, b.height)
    ensures r == RunScript(e, b, start, commands)
  {
    r := start;
    var i := 0;
    while i < |commands|
      invariant 0 <= i <= |commands|
      invariant r == RunSteps(e, b, start, ScriptSteps(commands[..i]))
    {
      assert commands[..i + 1][..i] == commands[..i];
      RunStepsAppend(e, b, start, ScriptSteps(commands[..i]), CommandSteps(commands[i]));
      r := RunCommand(e, b, r, commands[i]);
      i := i + 1;
    }
    assert commands[..|commands|] == commands;
    r := r.(symmetry := start.symmetry);
  }

  // ---------------------------------------------------------------------------
  // The editor entry point

  /** The status left when `command_draw.json` cannot be read or decoded. */
  function ReadFailure(file: ScriptFile): (m: string)
    requires !file.Parsed?
    ensures file.InvalidJson? ==> m == "Invalid JSON in script: " + file.error
  {
    match file
    case PathUnavailable => "Could not access script path."
    case NotFound => "command_draw.json not found."
    case InvalidJson(error) => "Invalid JSON in script: " + error
  }

  /** The status after a script ran. */
  function Executed(ops: nat): string
  {
    "Script executed. " + NatToString(ops) + " operations performed."
  }

  /**
   * A parsed script on an editor state: the grid is saved for undo first,
   * the operation count starts at zero, and the run starts under the
   * user's symmetry.
   */
  ghost function ScriptResult(e: EffectSettings, b: BrushSettings, s: Stroke, stacks: History.Stacks, commands: seq<ScriptCommand>): (r: Run)
    requires StrokeOk(s, b.width, b.height) && History.Bounded(stacks)
    ensures RunOk(r, b.width, b.height) && r.symmetry == b.symmetry
  {
    History.StepsBounded(stacks, s.grid);
    RunScript(e, b, Run(s, History.Save(stacks, s.grid), b.symmetry, 0), commands)
  }

  /**
   * `parse_and_execute_script`: a file that cannot be read or decoded only
   * sets the status; a decoded one runs as `ExecuteScript`.
   */
  method ParseAndExecuteScript(app: App, file: ScriptFile)
    requires app.Valid()
    modifies app`layers, app`canvas, app`drawn, app`undo, app`redo, app`status
    ensures app.Valid() && app.symmetry == old(app.symmetry)
    ensures !file.Parsed? ==>
      app.layers == old(app.layers) && app.drawn == old(app.drawn) && app.Snapshots() == old(app.Snapshots()) &&
      app.status == Some(ReadFailure(file))
    ensures file.Parsed? ==>
      var r := ScriptResult(old(app.Settings()), old(app.Pen()), old(app.ActiveStroke()), old(app.Snapshots()), file.commands);
      app.layers == SetCanvas(old(app.layers), app.active, r.stroke.grid) && app.ActiveStroke() == r.stroke &&
      app.Snapshots() == r.stacks && app.status == Some(Executed(r.ops))
  {
    if file.Parsed? {
      ExecuteScript(app, file.commands);
    } else {
      app.status := Some(ReadFailure(file));
    }
  }

  /**
   * The decoded script: the grid is saved for undo, every command runs in
   * order on the active layer, the user's symmetry is put back, and the
   * status reports the operation count.
   */
  method ExecuteScript(app: App, commands: seq<ScriptCommand>)
    requires app.Valid()
    modifies app`layers, app`canvas, app`drawn, app`undo, app`redo, app`status
    ensures app.Valid() && app.symmetry == old(app.symmetry)
    ensures var r := ScriptResult(old(app.Settings()), old(app.Pen()), old(app.ActiveStroke()), old(app.Snapshots()), commands);
      app.layers == SetCanvas(old(app.layers), app.active, r.stroke.grid) && app.ActiveStroke() == r.stroke &&
      app.Snapshots() == r.stacks && app.status == Some(Executed(r.ops))
  {
    assert LayerOk(app.layers[app.active], app.width, app.height);
    var s, stacks := app.ActiveStroke(), app.Snapshots();
    // save_state_for_undo, on the copy of the history
    History.StepsBounded(stacks, s.grid);
    var start := Run(s, History.Save(stacks, s.grid), app.symmetry, 0);
    var r := RunCommands(app.Settings(), app.Pen(), start, commands);
    app.CommitWithHistory(r.stroke, r.stacks, Executed(r.ops));
  }

  // ---------------------------------------------------------------------------
  // Properties of script lines

  /** Text with no whitespace in it. */
  predicate NoSpace(w: string)
  {
    forall i :: 0 <= i < |w| ==> !IsSpace(w[i])
  }

  lemma NoSpaceJoin(a: string, b: string)
    requires NoSpace(a) && NoSpace(b)
    ensures NoSpace(a + b)
  {
    forall i | 0 <= i < |a + b|
      ensures !IsSpace((a + b)[i])
    {
      if i >= |a| {
        assert (a + b)[i] == b[i - |a|];
      }
    }
  }

  /** A line made of a keyword, a `:`, a value and one token splits at the space and then at the `:`. */
  lemma KeyedLine(key: string, v: string, token: string)
    requires key != [] && NoSpace(key) && ':' !in key && NoSpace(v)
    requires token != [] && NoSpace(token)
    ensures var parts := SplitWhitespace(key + ":" + v + " " + token);
      parts == [key + ":" + v, token] && SplitOnce(parts[0], ':') == Some((key, v)) &&
      TokenCells(parts[1..]) == TargetCells(ParseTarget(token))
  {
    NoSpaceJoin(key, ":");
    NoSpaceJoin(key + ":", v);
    TwoWords(key + ":" + v, token);
    SplitOnceAt(key, v, ':');
    assert key + [':'] + v == key + ":" + v;
    assert [token][..0] == [];
  }

  /** `apply_color:HEX X,Y` paints the cell (or the range) in that colour, and nothing when HEX is not a colour. */
  lemma ApplyColorLine(v: string, token: string)
    requires NoSpace(v) && token != [] && NoSpace(token)
    ensures ParseCommand("apply_color" + ":" + v + " " + token) ==
      if HexColor(v).Some? then Paint(HexColor(v).value, TargetCells(ParseTarget(token))) else Nothing
  {
    var key, line := "apply_color", "apply_color" + ":" + v + " " + token;
    KeyedLine(key, v, token);
    var parts := SplitWhitespace(line);
    assert parts == [key + ":" + v, token];
    assert SplitOnce(parts[0], ':') == Some((key, v));
    assert TokenCells(parts[1..]) == TargetCells(ParseTarget(token));
  }

  /** `fill:HEX X,Y` fills from that cell when both the colour and the cell read, and does nothing otherwise. */
  lemma FillLine(v: string, token: string)
    requires NoSpace(v) && token != [] && NoSpace(token)
    ensures ParseCommand("fill" + ":" + v + " " + token) ==
      if HexColor(v).Some? && ParseCoord(token).Some? then FillAt(HexColor(v).value, ParseCoord(token).value.0, ParseCoord(token).value.1)
      else Nothing
  {
    var key, line := "fill", "fill" + ":" + v + " " + token;
    KeyedLine(key, v, token);
    var parts := SplitWhitespace(line);
    assert parts == [key + ":" + v, token];
    assert SplitOnce(parts[0], ':') == Some((key, v));
    assert key != "apply_color";
    assert ParseCommand(line) ==
      match (ParseCoord(token), HexColor(v))
      case (Some(p), Some(c)) => FillAt(c, p.0, p.1)
      case _ => Nothing;
  }

  /** `erase X,Y` erases the cell (or the range). */
  lemma EraseLine(token: string)
    requires token != [] && NoSpace(token)
    ensures ParseCommand("erase" + " " + token) == Erase(TargetCells(ParseTarget(token)))
  {
    var line := "erase" + " " + token;
    TwoWords("erase", token);
    var parts := SplitWhitespace(line);
    assert parts == ["erase", token];
    assert SplitOnce(parts[0], ':') == None;
    assert [token][..0] == [];
    assert TokenCells(parts[1..]) == TargetCells(ParseTarget(token));
  }

  /** A `key:value` word whose key is neither `apply_color` nor `fill` does nothing. */
  lemma UnknownKeyIgnored(key: string, v: string, token: string)
    requires key != [] && NoSpace(key) && ':' !in key && NoSpace(v) && key != "apply_color" && key != "fill"
    requires token != [] && NoSpace(token)
    ensures ParseCommand(key + ":" + v + " " + token) == Nothing
  {
    KeyedLine(key, v, token);
  }

  /** A line with a single word and no coordinates is skipped: nothing is drawn and nothing is counted. */
  lemma BareWordIgnored(e: EffectSettings, b: BrushSettings, r: Run, w: string)
    requires RunOk(r, b.width, b.height) && w != [] && NoSpace(w)
    ensures ExecLine(e, b, r, w) == r
  {
    SingleWord(w);
  }

  /** The axis of a vertical or horizontal block is the coordinate as Rust's `as u16` truncates it: a negative one wraps. */
  lemma BlockAxisWraps(c: I32)
    ensures 0 <= c < 0x1_0000 ==> BlockSymmetry("vertical", c).lineX == c && BlockSymmetry("horizontal", c).lineY == c
    ensures -0x1_0000 <= c < 0 ==> BlockSymmetry("vertical", c).lineX == c as int + 0x1_0000
    ensures -0x1_0000 <= c < 0 ==> BlockSymmetry("horizontal", c).lineY == c as int + 0x1_0000
  {
  }

  // ---------------------------------------------------------------------------
  // Properties of whole scripts

  /** Every command begins by setting the symmetry, so every non-empty script does too. */
  lemma {:induction false} ScriptStepsStart(commands: seq<ScriptCommand>)
    requires commands != []
    ensures ScriptSteps(commands) != [] && ScriptSteps(commands)[0].SetSymmetry?
  {
    var init := commands[..|commands| - 1];
    if init != [] {
      ScriptStepsStart(init);
    }
  }

  /** Steps that begin by setting the symmetry do not depend on the symmetry in force before them. */
  lemma {:induction false} StepsForgetSymmetry(e: EffectSettings, b: BrushSettings, r: Run, m: Symmetry, steps: seq<Step>)
    requires RunOk(r, b.width, b.height) && steps != [] && steps[0].SetSymmetry?
    ensures RunSteps(e, b, r.(symmetry := m), steps) == RunSteps(e, b, r, steps)
  {
    if |steps| > 1 {
      var init := steps[..|steps| - 1];
      assert init[0] == steps[0];
      StepsForgetSymmetry(e, b, r, m, init);
    } else {
      assert steps[..0] == [];
    }
  }

  /**
   * The user's symmetry has no effect on what a script draws or counts:
   * plain lines run with symmetry off and blocks set their own; it only
   * comes back at the end.
   */
  lemma ScriptIgnoresUserSymmetry(e: EffectSettings, b: BrushSettings, r: Run, m: Symmetry, commands: seq<ScriptCommand>)
    requires RunOk(r, b.width, b.height)
    ensures RunScript(e, b, r.(symmetry := m), commands) == RunScript(e, b, r, commands).(symmetry := m)
  {
    if commands != [] {
      ScriptStepsStart(commands);
      StepsForgetSymmetry(e, b, r, m, ScriptSteps(commands));
    }
  }

  /** The operations one line counts, read from its text alone. */
  function CommandOps(c: Command): nat
  {
    match c
    case Paint(_, cells) => |cells|
    case Erase(cells) => |cells|
    case FillAt(_, _, _) => 1
    case Nothing => 0
  }

  function StepsOps(steps: seq<Step>): nat
  {
    if steps == [] then 0
    else
      var last := steps[|steps| - 1];
      StepsOps(steps[..|steps| - 1]) + if last.Line? then CommandOps(ParseCommand(last.text)) else 0
  }

  /** The operation count grows by exactly what the lines name, whatever the grid holds. */
  lemma {:induction false} OpsCounted(e: EffectSettings, b: BrushSettings, r: Run, steps: seq<Step>)
    requires RunOk(r, b.width, b.height)
    ensures RunSteps(e, b, r, steps).ops == r.ops + StepsOps(steps)
  {
    if steps != [] {
      OpsCounted(e, b, r, steps[..|steps| - 1]);
    }
  }

  /** The status after a script reports the cells its lines name plus one per readable fill. */
  lemma ScriptReportsOps(e: EffectSettings, b: BrushSettings, s: Stroke, stacks: History.Stacks, commands: seq<ScriptCommand>)
    requires StrokeOk(s, b.width, b.height) && History.Bounded(stacks)
    ensures ScriptResult(e, b, s, stacks, commands).ops == StepsOps(ScriptSteps(commands))
  {
    History.StepsBounded(stacks, s.grid);
    OpsCounted(e, b, Run(s, History.Save(stacks, s.grid), b.symmetry, 0), ScriptSteps(commands));
  }

  /** No line of the steps is a readable `fill`. */
  predicate NoFills(steps: seq<Step>)
  {
    forall i :: 0 <= i < |steps| && steps[i].Line? ==> !ParseCommand(steps[i].text).FillAt?
  }

  /** Only fills save the grid for undo: steps without one leave the undo stacks alone. */
  lemma {:induction false} StepsKeepHistory(e: EffectSettings, b: BrushSettings, r: Run, steps: seq<Step>)
    requires RunOk(r, b.width, b.height) && NoFills(steps)
    ensures RunSteps(e, b, r, steps).stacks == r.stacks
  {
    if steps != [] {
      var init := steps[..|steps| - 1];
      assert forall i :: 0 <= i < |init| ==> init[i] == steps[i];
      StepsKeepHistory(e, b, r, init);
    }
  }

  /** A script without fills is undone in one step: it adds exactly the one snapshot taken before it runs. */
  lemma OneSnapshotWithoutFills(e: EffectSettings, b: BrushSettings, s: Stroke, stacks: History.Stacks, commands: seq<ScriptCommand>)
    requires StrokeOk(s, b.width, b.height) && History.Bounded(stacks) && NoFills(ScriptSteps(commands))
    ensures ScriptResult(e, b, s, stacks, commands).stacks == History.Save(stacks, s.grid)
  {
    History.StepsBounded(stacks, s.grid);
    StepsKeepHistory(e, b, Run(s, History.Save(stacks, s.grid), b.symmetry, 0), ScriptSteps(commands));
  }
}

=== FILE: snap.dfy ===
// Palette snapping: the searches that pick the palette colour closest to a
// target (`find_closest_palette_color`) or the closest strictly lighter or
// darker one (`find_lighter_rgb`, `find_darker_rgb`,
// `find_lighter_palette_color`, `find_darker_palette_color`). All of them scan
// the palette in order, keep a running minimum that starts at `f32::MAX` and
// replace it only on a strictly smaller score.

module Snap {
  import opened Colors
  import opened Palette
  import ColorFormats

  /** `f32::MAX`, the starting value of every running minimum. */
  const F32Max: real := 340282346638528859811704183484516925440.0

  /**
   * The square-root distance and `rgb_to_hue` are floating-point code outside
   * this model: a search receives them as functions of the two triples.
   */
  datatype Metric = Metric(distance: (Triple, Triple) -> real, hue: Triple -> real)

  datatype Direction = Up | Down

  /** How a candidate is scored against the current colour. */
  datatype Scoring =
    | Ratio     // distance + 500 × difference of the g/r and b/r ratios (`find_*_rgb`, unprotected)
    | HueGuard  // distance + 10 × hue distance, beyond 45° refused (`find_*_rgb`, protected)
    | MeanDiff  // distance + 2 × mean absolute channel difference (`find_*_palette_color`)

  /** Which search runs. */
  datatype Query = Closest | Shade(direction: Direction, scoring: Scoring)

  /** `(x.max(1)) as f32`: the divisor of the channel ratios. */
  function RatioBase(t: Triple): real
  {
    if t.r < 1 then 1.0 else t.r as real
  }

  /** `|g/r − g'/r'| + |b/r − b'/r'|` with each red channel floored at 1. */
  function RatioDiff(cur: Triple, cand: Triple): real
  {
    AbsReal(cur.g as real / RatioBase(cur) - cand.g as real / RatioBase(cand)) +
    AbsReal(cur.b as real / RatioBase(cur) - cand.b as real / RatioBase(cand))
  }

  /** The mean absolute channel difference, `(|dr| + |dg| + |db|) / 3`. */
  function MeanDiff3(cur: Triple, cand: Triple): real
  {
    (AbsReal((cur.r - cand.r) as real) + AbsReal((cur.g - cand.g) as real) + AbsReal((cur.b - cand.b) as real)) / 3.0
  }

  /** The hue distance between the current colour and a candidate. */
  function HueGap(m: Metric, cur: Triple, cand: Triple): real
  {
    ColorFormats.HueDistance(m.hue(cur), m.hue(cand))
  }

  /** Whether a candidate triple takes part in the search at all. */
  function Admits(q: Query, m: Metric, cur: Triple, cand: Triple): bool
  {
    match q
    case Closest => true
    case Shade(dir, scoring) =>
      (if dir == Up then Brightness(cand) > Brightness(cur) else Brightness(cand) < Brightness(cur)) &&
      (scoring == HueGuard ==> HueGap(m, cur, cand) <= 45.0)
  }

  /** The score an admitted candidate is ranked by; lower is better. */
  function Score(q: Query, m: Metric, cur: Triple, cand: Triple): real
  {
    match q
    case Closest => m.distance(cur, cand)
    case Shade(_, Ratio) => m.distance(cur, cand) + RatioDiff(cur, cand) * 500.0
    case Shade(_, HueGuard) => m.distance(cur, cand) + HueGap(m, cur, cand) * 10.0
    case Shade(_, MeanDiff) => m.distance(cur, cand) + MeanDiff3(cur, cand) * 2.0
  }

  /** The running best of a scan: the colour kept and its score. */
  datatype Choice = Choice(color: Color, score: real)

  /** A palette entry that is a colour admitted by the query. */
  predicate Candidate(q: Query, m: Metric, cur: Triple, e: PaletteEntry)
  {
    e.ColorEntry? && Admits(q, m, cur, ToRgb(e.color))
  }

  /** The scan over `entries` from the running best `best`, in palette order. */
  function Scan(entries: seq<PaletteEntry>, q: Query, m: Metric, cur: Triple, best: Choice): Choice
    decreases |entries|
  {
    if entries == [] then best
    else
      var e := entries[0];
      var next :=
        if Candidate(q, m, cur, e) && Score(q, m, cur, ToRgb(e.color)) < best.score
        then Choice(e.color, Score(q, m, cur, ToRgb(e.color)))
        else best;
      Scan(entries[1..], q, m, cur, next)
  }

  /** The colour a search returns for `current`. */
  function Find(palette: seq<PaletteEntry>, q: Query, m: Metric, current: Color): Color
  {
    Scan(palette, q, m, ToRgb(current), Choice(current, F32Max)).color
  }

  /** The search loop shared by the five `find_*` functions. */
  method FindColor(palette: seq<PaletteEntry>, q: Query, m: Metric, current: Color) returns (closest: Color)
    ensures closest == Find(palette, q, m, current)
  {
    var cur := ToRgb(current);
    closest := current;
    var minScore := F32Max;
    var i := 0;
    while i < |palette|
      invariant 0 <= i <= |palette|
      invariant Scan(palette[i..], q, m, cur, Choice(closest, minScore)) == Scan(palette, q, m, cur, Choice(current, F32Max))
    {
      assert palette[i..][0] == palette[i] && palette[i..][1..] == palette[i + 1..];
      var entry := palette[i];
      if entry.ColorEntry? {
        var t := ToRgb(entry.color);
        if Admits(q, m, cur, t) {
          var score := Score(q, m, cur, t);
          if score < minScore {
            minScore := score;
            closest := entry.color;
          }
        }
      }
      i := i + 1;
    }
    assert palette[|palette|..] == [];
  }

  /**
   * The scan ends either on its starting choice, or on an admitted palette
   * colour, carrying that colour's own score, below the starting score.
   */
  lemma {:induction false} ScanOutcome(entries: seq<PaletteEntry>, q: Query, m: Metric, cur: Triple, best: Choice)
    ensures var r := Scan(entries, q, m, cur, best);
      r == best ||
      (r.score < best.score &&
       (exists i :: 0 <= i < |entries| && entries[i] == ColorEntry(r.color) &&
          Candidate(q, m, cur, entries[i]) && r.score == Score(q, m, cur, ToRgb(r.color))))
    decreases |entries|
  {
    if entries != [] {
      var e := entries[0];
      var next :=
        if Candidate(q, m, cur, e) && Score(q, m, cur, ToRgb(e.color)) < best.score
        then Choice(e.color, Score(q, m, cur, ToRgb(e.color)))
        else best;
      ScanOutcome(entries[1..], q, m, cur, next);
      var r := Scan(entries, q, m, cur, best);
      assert r == Scan(entries[1..], q, m, cur, next);
      if r != next {
        var i :| 0 <= i < |entries[1..]| && entries[1..][i] == ColorEntry(r.color) &&
          Candidate(q, m, cur, entries[1..][i]) && r.score == Score(q, m, cur, ToRgb(r.color));
        assert entries[i + 1] == entries[1..][i];
      } else if next != best {
        assert entries[0] == ColorEntry(r.color);
      }
    }
  }

  /** The final score is no larger than the start or than the score of any admitted entry. */
  lemma {:induction false} ScanMinimal(entries: seq<PaletteEntry>, q: Query, m: Metric, cur: Triple, best: Choice)
    ensures Scan(entries, q, m, cur, best).score <= best.score
    ensures forall i :: 0 <= i < |entries| && Candidate(q, m, cur, entries[i]) ==>
      Scan(entries, q, m, cur, best).score <= Score(q, m, cur, ToRgb(entries[i].color))
    decreases |entries|
  {
    if entries != [] {
      var e := entries[0];
      var next :=
        if Candidate(q, m, cur, e) && Score(q, m, cur, ToRgb(e.color)) < best.score
        then Choice(e.color, Score(q, m, cur, ToRgb(e.color)))
        else best;
      ScanMinimal(entries[1..], q, m, cur, next);
      forall i | 0 <= i < |entries| && Candidate(q, m, cur, entries[i])
        ensures Scan(entries, q, m, cur, best).score <= Score(q, m, cur, ToRgb(entries[i].color))
      {
        if i > 0 {
          assert entries[i] == entries[1..][i - 1];
        }
      }
    }
  }

  /** Whether the scan's result `r` is the candidate at `i` with every earlier candidate scoring strictly worse. */
  predicate FirstBest(entries: seq<PaletteEntry>, q: Query, m: Metric, cur: Triple, r: Choice, i: int)
  {
    0 <= i < |entries| && entries[i] == ColorEntry(r.color) && Candidate(q, m, cur, entries[i]) &&
    r.score == Score(q, m, cur, ToRgb(r.color)) &&
    forall j :: 0 <= j < i && Candidate(q, m, cur, entries[j]) ==> r.score < Score(q, m, cur, ToRgb(entries[j].color))
  }

  /**
   * A scan that moves off its starting choice ends on the first admitted
   * entry with the lowest score: the strict `<` keeps the earliest of equal
   * scores.
   */
  lemma {:induction false} ScanFirst(entries: seq<PaletteEntry>, q: Query, m: Metric, cur: Triple, best: Choice)
    ensures var r := Scan(entries, q, m, cur, best);
      r != best ==> exists i :: FirstBest(entries, q, m, cur, r, i)
    decreases |entries|
  {
    if entries != [] {
      var e := entries[0];
      var next :=
        if Candidate(q, m, cur, e) && Score(q, m, cur, ToRgb(e.color)) < best.score
        then Choice(e.color, Score(q, m, cur, ToRgb(e.color)))
        else best;
      var r := Scan(entries, q, m, cur, best);
      assert r == Scan(entries[1..], q, m, cur, next);
      if r != next {
        ScanFirst(entries[1..], q, m, cur, next);
        ScanOutcome(entries[1..], q, m, cur, next);
        var k :| FirstBest(entries[1..], q, m, cur, r, k);
        FirstBestShift(entries, q, m, cur, r, k);
      } else if next != best {
        assert FirstBest(entries, q, m, cur, r, 0);
      }
    }
  }

  /** A first best entry of the tail is a first best entry of the whole when the head scores worse. */
  lemma FirstBestShift(entries: seq<PaletteEntry>, q: Query, m: Metric, cur: Triple, r: Choice, k: int)
    requires entries != [] && FirstBest(entries[1..], q, m, cur, r, k)
    requires Candidate(q, m, cur, entries[0]) ==> r.score < Score(q, m, cur, ToRgb(entries[0].color))
    ensures FirstBest(entries, q, m, cur, r, k + 1)
  {
    forall j | 0 <= j < k + 1 && Candidate(q, m, cur, entries[j])
      ensures r.score < Score(q, m, cur, ToRgb(entries[j].color))
    {
      if j > 0 {
        assert entries[j] == entries[1..][j - 1];
      }
    }
  }

  /**
   * A search returns either the input colour itself or an admitted palette
   * colour; the colour it returns scores no worse than any admitted palette
   * colour.
   */
  lemma FindSound(palette: seq<PaletteEntry>, q: Query, m: Metric, current: Color)
    ensures var r := Find(palette, q, m, current);
      r == current || exists i :: 0 <= i < |palette| && palette[i] == ColorEntry(r) && Admits(q, m, ToRgb(current), ToRgb(r))
    ensures var r := Scan(palette, q, m, ToRgb(current), Choice(current, F32Max));
      r.score <= F32Max &&
      forall i :: 0 <= i < |palette| && Candidate(q, m, ToRgb(current), palette[i]) ==>
        r.score <= Score(q, m, ToRgb(current), ToRgb(palette[i].color))
    ensures var r := Scan(palette, q, m, ToRgb(current), Choice(current, F32Max));
      r != Choice(current, F32Max) ==> exists i :: FirstBest(palette, q, m, ToRgb(current), r, i)
  {
    ScanOutcome(palette, q, m, ToRgb(current), Choice(current, F32Max));
    ScanMinimal(palette, q, m, ToRgb(current), Choice(current, F32Max));
    ScanFirst(palette, q, m, ToRgb(current), Choice(current, F32Max));
  }

  /** When no palette colour is admitted with a score below `f32::MAX`, the input colour comes back unchanged. */
  lemma FindFallsBack(palette: seq<PaletteEntry>, q: Query, m: Metric, current: Color)
    requires forall i :: 0 <= i < |palette| && Candidate(q, m, ToRgb(current), palette[i]) ==>
      Score(q, m, ToRgb(current), ToRgb(palette[i].color)) >= F32Max
    ensures Find(palette, q, m, current) == current
  {
    ScanOutcome(palette, q, m, ToRgb(current), Choice(current, F32Max));
  }

  /**
   * The Lighter searches return the input or a colour with a strictly larger
   * r+g+b; the Darker searches the input or a strictly smaller one; the
   * protected searches also keep within 45° of hue.
   */
  lemma ShadeDirection(palette: seq<PaletteEntry>, dir: Direction, scoring: Scoring, m: Metric, current: Color)
    ensures var r := Find(palette, Shade(dir, scoring), m, current);
      r == current ||
      ((dir == Up ==> Brightness(ToRgb(r)) > Brightness(ToRgb(current))) &&
       (dir == Down ==> Brightness(ToRgb(r)) < Brightness(ToRgb(current))) &&
       (scoring == HueGuard ==> HueGap(m, ToRgb(current), ToRgb(r)) <= 45.0))
  {
    var q := Shade(dir, scoring);
    FindSound(palette, q, m, current);
    var r := Find(palette, q, m, current);
    if r != current {
      var i :| 0 <= i < |palette| && palette[i] == ColorEntry(r) && Admits(q, m, ToRgb(current), ToRgb(r));
      ShadeAdmits(dir, scoring, m, ToRgb(current), ToRgb(r));
    }
  }

  lemma ShadeAdmits(dir: Direction, scoring: Scoring, m: Metric, cur: Triple, cand: Triple)
    requires Admits(Shade(dir, scoring), m, cur, cand)
    ensures dir == Up ==> Brightness(cand) > Brightness(cur)
    ensures dir == Down ==> Brightness(cand) < Brightness(cur)
    ensures scoring == HueGuard ==> HueGap(m, cur, cand) <= 45.0
  {
  }

  /** A search over a palette with no colour entries returns its input. */
  lemma FindWithoutColors(palette: seq<PaletteEntry>, q: Query, m: Metric, current: Color)
    requires forall i :: 0 <= i < |palette| ==> palette[i].ToolEntry?
    ensures Find(palette, q, m, current) == current
  {
    FindFallsBack(palette, q, m, current);
  }
}

=== FILE: text.dfy ===
// The string helpers the editor relies on: decimal formatting of counters in
// status messages, `u16` parsing, whitespace splitting and `split_once`.

module Text {
  import opened Colors

  predicate IsDigit(c: char)
  {
    '0' <= c <= '9'
  }

  predicate AllDigits(s: string)
  {
    forall i :: 0 <= i < |s| ==> IsDigit(s[i])
  }

  function DigitChar(d: nat): (c: char)
    requires d < 10
    ensures IsDigit(c) && c as int - '0' as int == d
  {
    ('0' as int + d) as char
  }

  /** `format!("{}", n)` for a non-negative integer. */
  function NatToString(n: nat): (s: string)
    ensures 1 <= |s| && AllDigits(s)
  {
    if n < 10 then [DigitChar(n)] else NatToString(n / 10) + [DigitChar(n % 10)]
  }

  /** The value of a string of decimal digits (the empty string reads as 0). */
  function DigitsValue(s: string): nat
    requires AllDigits(s)
  {
    if s == [] then 0 else DigitsValue(s[..|s| - 1]) * 10 + (s[|s| - 1] as int - '0' as int)
  }

  /** Reading back a formatted number gives the number. */
  lemma {:induction false} NatToStringRoundTrip(n: nat)
    ensures DigitsValue(NatToString(n)) == n
  {
    if n >= 10 {
      NatToStringRoundTrip(n / 10);
      var s := NatToString(n);
      assert s[..|s| - 1] == NatToString(n / 10);
    }
  }

  /** Formatting is injective: different counters give different messages. */
  lemma NatToStringInjective(m: nat, n: nat)
    requires NatToString(m) == NatToString(n)
    ensures m == n
  {
    NatToStringRoundTrip(m);
    NatToStringRoundTrip(n);
  }

  /**
   * `str::parse` for an unsigned type whose values are below `limit`: an
   * optional leading `+`, then at least one decimal digit, and a value below
   * the limit; anything else is an error.
   */
  function ParseBelow(s: string, limit: nat): (r: Option<nat>)
    ensures var d := if |s| > 0 && s[0] == '+' then s[1..] else s;
      r.Some? <==> |d| > 0 && AllDigits(d) && DigitsValue(d) < limit
    ensures var d := if |s| > 0 && s[0] == '+' then s[1..] else s;
      r.Some? ==> r.value == DigitsValue(d) && r.value < limit
  {
    var digits := if |s| > 0 && s[0] == '+' then s[1..] else s;
    if |digits| == 0 || !AllDigits(digits) then None
    else if DigitsValue(digits) < limit then Some(DigitsValue(digits))
    else None
  }

  /** `str::parse::<u16>`. */
  function ParseU16(s: string): (r: Option<nat>)
    ensures r.Some? ==> r.value < 0x1_0000
  {
    ParseBelow(s, 0x1_0000)
  }

  /** `str::parse::<u32>`. */
  function ParseU32(s: string): (r: Option<nat>)
    ensures r.Some? ==> r.value < 0x1_0000_0000
  {
    ParseBelow(s, 0x1_0000_0000)
  }

  /** Every number that fits in 16 bits parses back from its decimal form. */
  lemma ParseU16Format(n: nat)
    requires n < 0x1_0000
    ensures ParseU16(NatToString(n)) == Some(n)
  {
    NatToStringRoundTrip(n);
  }

  /**
   * `char::is_whitespace`, the characters `split_whitespace` separates on: the
   * Unicode White_Space property (tab to carriage return, space, next line,
   * no-break space, ogham space mark, the en quad to hair space block, the line
   * and paragraph separators, narrow no-break space, medium mathematical space
   * and ideographic space).
   */
  predicate IsSpace(c: char)
  {
    ('\t' <= c <= '\r') || c == ' ' || c == '\U{0085}' || c == '\U{00A0}' || c == '\U{1680}'
    || ('\U{2000}' <= c <= '\U{200A}') || c == '\U{2028}' || c == '\U{2029}' || c == '\U{202F}'
    || c == '\U{205F}' || c == '\U{3000}'
  }

  /** The longest prefix of `s` with no whitespace. */
  function Word(s: string): (w: string)
    ensures |w| <= |s| && w == s[..|w|]
    ensures forall i :: 0 <= i < |w| ==> !IsSpace(w[i])
    ensures |w| < |s| ==> IsSpace(s[|w|])
  {
    if s == [] || IsSpace(s[0]) then [] else [s[0]] + Word(s[1..])
  }

  /** `split_whitespace`: the maximal runs of non-whitespace characters, in order. */
  function SplitWhitespace(s: string): (parts: seq<string>)
    ensures forall i :: 0 <= i < |parts| ==> parts[i] != [] && forall k :: 0 <= k < |parts[i]| ==> !IsSpace(parts[i][k])
    decreases |s|
  {
    if s == [] then []
    else if IsSpace(s[0]) then SplitWhitespace(s[1..])
    else
      var w := Word(s);
      [w] + SplitWhitespace(s[|w|..])
  }

  /** A string of whitespace only has no parts. */
  lemma {:induction false} BlankHasNoParts(s: string)
    requires forall i :: 0 <= i < |s| ==> IsSpace(s[i])
    ensures SplitWhitespace(s) == []
  {
    if s != [] {
      BlankHasNoParts(s[1..]);
    }
  }

  /** A word with no whitespace around it is split into exactly itself. */
  lemma SingleWord(w: string)
    requires w != [] && forall i :: 0 <= i < |w| ==> !IsSpace(w[i])
    ensures SplitWhitespace(w) == [w]
  {
    WordOfWord(w);
  }

  lemma {:induction false} WordOfWord(w: string)
    requires forall i :: 0 <= i < |w| ==> !IsSpace(w[i])
    ensures Word(w) == w
  {
    if w != [] {
      WordOfWord(w[1..]);
    }
  }

  /** `split_once(sep)`: the text before and after the first `sep`, if any. */
  function SplitOnce(s: string, sep: char): (r: Option<(string, string)>)
    ensures r.None? <==> sep !in s
    ensures r.Some? ==> s == r.value.0 + [sep] + r.value.1 && sep !in r.value.0
  {
    if s == [] then None
    else if s[0] == sep then Some(([], s[1..]))
    else match SplitOnce(s[1..], sep)
      case None => None
      case Some(p) => Some(([s[0]] + p.0, p.1))
  }

  /** `ends_with`. */
  predicate EndsWith(s: string, suffix: string)
  {
    |suffix| <= |s| && s[|s| - |suffix|..] == suffix
  }

  /** `strip_prefix`. */
  function StripPrefix(s: string, prefix: string): (r: Option<string>)
    ensures r.Some? <==> |prefix| <= |s| && s[..|prefix|] == prefix
    ensures r.Some? ==> s == prefix + r.value
  {
    if |prefix| <= |s| && s[..|prefix|] == prefix then Some(s[|prefix|..]) else None
  }
}
